=== FILE: README.md ===
# dsdobjects object layer in Dafny

dsdobjects is the object layer of a family of DNA strand-displacement tools.
It defines:

- domains;
- multi-stranded complexes, each given as a sequence of domain names plus a
  dot-bracket structure in which `+` separates the strands;
- resting states, which are sets of complexes;
- reactions between named species.

Every entity kind keeps a class-level registry. Making the same object twice
gives back the registered object, or else reports a conflict.

This project models the part of that layer that gives complexes an identity:

- **Rotation.** `rotate_once` moves the first strand to the end and flips the
  brackets whose partner changed side (module `Rotation`). `canonical_form` is
  the least of the `'_'`-joined (sequence, structure) strings over all
  rotations (module `Canonical`). The newer `ComplexA.identifiers` picks a
  canonical key and a number of turns (module `AutoComplex`).
- **Structure algebra** over the dot-bracket string:
  - bracket matching (`Brackets`);
  - the strand layout (`Layout`);
  - the pair table and its inverse (`PairTables`);
  - the loop index, the exterior loops, the connectivity test and the
    exterior domains (`Loops`);
  - the split into connected components (`Split`), and why each part is a
    connected complex of its own (`PartShape`);
  - strand views, `rotate_pairtable_loc`, `kernel_string` and the domain-level
    complement check, on the prototype's LogicDomains, whose `~` registers a
    missing complement (`ComplexViews`).
- **Registries**, threaded through the constructors as explicit maps. A
  constructor returns the new registry together with `Created`, `Existing` (a
  duplication, carrying the registered object) or `Failed`.
  - domains (`Domains`, `AutoDomain`);
  - complexes (`Complexes`, plus the prototype `Complex` in `ProtoComplexes`,
    `ProtoSplits` and `PartComplexes`);
  - resting states (`RestingStates`);
  - reactions (`Reactions`);
  - `clear_memory` (`Registry`).
- **The kernel-notation decoder**, in module `Kernel`:
  - `resolve_kernel_loops`, which turns a nested token tree into a flat
    sequence and structure;
  - the field logic of `read_reaction`;
  - the length fields of `dl-domain` and `sl-domain` lines.

dsdobjects' `base_classes.py` and `prototypes.py` are Python 2 code (`except X, e`
at `base_classes.py:895`). `objectio.py` and `auto_classes.py` are Python 3 code. The model follows each file's own
semantics:

- `!=` without `__ne__` compares identity.
- Truth-testing an object calls its `__len__`.
- A length of `0` counts as "not given".

Where the code and the tests disagree with the written description of the
library, the model follows the code and the tests:

- **Disconnection.** A repeated loop id at two strand starts means the
  structure is disconnected. This holds for any repeated id, not only the
  exterior id 0 (`tests/test_utils.py:109-112`).
- **Canonical form.** The canonical form of the base class is a pair of joined
  strings (`base_classes.py:677-688`). It is not a pair of tuples as in the
  newer API. The newer API is modelled separately, with tuple keys.

## Model

| member | source | states |
|---|---|---|
| Names.AutoName | dsdobjects/base_classes.py:594 | an automatic name is the prefix followed by a non-empty run of decimal digits |
| Names.NatStringValue | dsdobjects/base_classes.py:594 | reading the digits of `str(ID)` back gives `ID`, so automatic names are decimal numerals of the counter |
| Names.AutoNameInjective | dsdobjects/base_classes.py:594-595 | different counter values give different automatic names under one prefix |
| Brackets.Partners | tests/test_utils.py:44-48 | the bracket scan succeeds exactly on balanced structures, and then pairs every bracket with a partner of the opposite kind and no two pairs cross |
| Brackets.PartnersUnique | tests/test_utils.py:19-42 | a balanced structure has exactly one non-crossing matching, and it is the one the scan returns |
| Brackets.ScanAgrees | dsdobjects/base_classes.py:719-730 | the forward stack scan of `rotate_once` holds, after any prefix, exactly the openers whose partner lies beyond that prefix |
| Brackets.RevScanAgrees | dsdobjects/base_classes.py:732-743 | the backward stack scan of `rotate_once` holds exactly the closers whose partner lies before the cut |
| Layout.JoinedPieces | tests/test_utils.py:117-118 | splitting at the strand break and joining again gives back the sequence |
| Layout.PiecesJoined | tests/test_utils.py:117-118 | joining strands that contain no break and splitting again gives back the strands |
| Rotation.RotateOnce | dsdobjects/base_classes.py:713-749 | rotation keeps the lengths of sequence and structure, and a single strand is left unchanged |
| Rotation.RotateOnceTokens | dsdobjects/base_classes.py:713-749 | rotation keeps the multiset of sequence tokens and the number of strands |
| Rotation.TurnFlips | dsdobjects/base_classes.py:719-744 | on a balanced structure the bracket turn never fails, and it flips exactly the brackets whose partner is on the other side of the cut |
| Rotation.RotateOnceWellFormed | dsdobjects/base_classes.py:713-749 | rotation maps a balanced structure with aligned breaks to another one with the same strand count |
| Rotation.RotateStrandCountTimes | dsdobjects/base_classes.py:682-691 | rotating a well-formed complex once per strand gives back the original sequence and structure |
| Rotation.RotateSingleStrand | dsdobjects/base_classes.py:715 | any number of rotations of a single-stranded complex leave it as it is |
| Rotation.RotateTimesAdd | dsdobjects/base_classes.py:708-711 | rotating a+b times is rotating a times and then b times |
| Canonical.KeyLessOrder | dsdobjects/base_classes.py:683-685 | Python's order on pairs of strings is a strict total order |
| Canonical.CanonicalForm | dsdobjects/base_classes.py:668-691 | a well-formed complex always has a canonical form, and the recorded number of rotations is less than the strand count |
| Canonical.CanonicalIsLeastRotation | dsdobjects/base_classes.py:668-691 | the canonical key is the key of one rotation, no rotation has a smaller key, and the recorded number of rotations points at the first rotation with that key |
| Canonical.CanonicalRotatesBack | dsdobjects/base_classes.py:682-691 | turning the canonical rotation forward by the recorded number of rotations gives back the complex as given |
| Canonical.CanonicalKeyIsLeast | dsdobjects/base_classes.py:683-688 | the canonical key is the least element of the list of rotation keys |
| Canonical.CanonicalRotationInvariant | dsdobjects/base_classes.py:668-691 | every rotation of a complex has the same canonical key |
| Canonical.EqualToRotation | dsdobjects/base_classes.py:899-909 | a complex is `__eq__` to each of its rotations |
| PairTables.MakePairTable | tests/test_utils.py:18-48 | a pair table exists exactly when the structure is balanced and made of dots, brackets and breaks, with one row per strand of the strand's length |
| PairTables.EntryAt | tests/test_utils.py:26-35 | a locus's entry is the locus of its flat partner, so one stack spans strand breaks |
| PairTables.PairTableMutual | tests/test_utils.py:26-35 | pair tables are mutual: if (s,i) points at (t,j) then (t,j) points back at (s,i), and never at itself |
| PairTables.DotBracketInverse | tests/test_utils.py:19-42 | `pair_table_to_dot_bracket` inverts `make_pair_table` for any break character |
| PairTableExamples.TwoStrandTable | tests/test_utils.py:26-31 | the pair table of `(((+...)))` is the one the test expects |
| PairTableExamples.AmpersandTable | tests/test_utils.py:37-42 | with `&` as the break, the pair table of `((((&))).)` is the one the test expects |
| PairTableExamples.ForeignBreakRejected | tests/test_utils.py:47-48 | a break character other than the one declared is rejected |
| PairTableExamples.UnbalancedRejected | tests/test_utils.py:44-45 | an unbalanced structure is rejected |
| Loops.LoopIndexSpec | tests/test_utils.py:50-112 | the loop index exists exactly when no loop id repeats across strand starts, and the exterior set is then the set of strand-start ids |
| Loops.MakeLoopIndex | tests/test_utils.py:50-57 | a successful loop index counts the first strand's loop 0 as exterior |
| Loops.LoopIndexEntries | tests/test_utils.py:50-97 | an opener gets its rank among the openers, and any other locus the id of the innermost pair around it (0 outside all pairs), with one row per strand |
| Loops.CloseSharesOpenId | tests/test_utils.py:51-57 | a closing bracket gets the same loop id as its opener |
| Loops.OpenIdsFresh | tests/test_utils.py:51-73 | every opener takes a fresh id, larger than the ids of all earlier openers |
| Loops.PairedLociShareLoop | dsdobjects/base_classes.py:834-849 | the two loci of a pair lie in the same loop |
| Loops.IsConnectedSpec | dsdobjects/base_classes.py:888-897 | a complex is connected exactly when no loop id repeats across strand starts; an unreadable structure is an error, not a verdict |
| Loops.IsConnected | dsdobjects/base_classes.py:888-897 | an unreadable structure raises, and every readable one gets a verdict |
| Loops.ExteriorDomainsSpec | dsdobjects/base_classes.py:852-865 | the exterior domains are exactly the unpaired loci whose loop is a strand-start loop, in locus order |
| Loops.ExteriorDomains | dsdobjects/base_classes.py:852-865 | the exterior domains are found exactly when the structure is readable and the loop index exists, so a disconnected complex raises |
| Loops.StartLoopsAt | tests/test_utils.py:50-112 | the loop recorded for each strand start is the loop at position 0 or just after a break, one per strand |
| Loops.SameLoopClosed | tests/test_utils.py:99-112 | two positions in the same loop bound a stretch of the structure that no pair leaves |
| LoopExamples.HairpinLoops | tests/test_utils.py:51-57 | `(((...)))` has loop index `[1,2,3,3,3,3,3,2,1]` and exterior set `{0}` |
| LoopExamples.TwoStrandLoops | tests/test_utils.py:75-81 | the two-strand structure of the test has the expected index and exterior set `{0,2}` |
| LoopExamples.UnpairedStrandsDisconnected | tests/test_utils.py:99-102 | `..+..` is disconnected |
| LoopExamples.SeparateHairpinsDisconnected | tests/test_utils.py:104-107 | `(.)+.(..)` is disconnected |
| LoopExamples.RepeatedInnerStartDisconnected | tests/test_utils.py:109-112 | a repeated non-zero strand-start id also means disconnected |
| Split.ComponentsPartition | tests/test_utils.py:114-160 | the components partition the strands; each component is closed under pairing and is the closure of its first strand; components come in order of first strand |
| Split.SplitComplex | tests/test_utils.py:114-160 | a split succeeds only on a readable structure and then gives one part per component |
| Split.SplitConnected | tests/test_utils.py:114-127 | a connected complex splits into itself, unchanged |
| Split.SplitParts | tests/test_utils.py:129-160 | each part consists of the strands of one component, in their original relative order, with their structure carried along |
| Split.SplitKeepsStrands | tests/test_utils.py:129-160 | the strands of all parts together are a permutation of the strands of the complex |
| PartShape.SubBalanced | tests/test_utils.py:145-160 | characters read off a balanced structure at increasing positions closed under pairing are balanced themselves, each pair the image of a pair |
| PartShape.PartTable | tests/test_utils.py:145-160 | the structure of strands closed under pairing is readable, each position holds what its image holds, and its pair table is the complex's restricted to those strands and renumbered |
| PartShape.StartsApart | tests/test_utils.py:99-112 | no two strands of one component start in the same loop, since the stretch between them would be a set of strands no pair leaves |
| PartShape.PartConnected | dsdobjects/base_classes.py:888-897 | the strands of one component, taken alone, are connected |
| PartShape.PartsAreComplexes | tests/test_utils.py:114-160 | every part of a split has a readable, connected structure whose pair table is the complex's restricted to the part's component |
| ComplexViews.SizeIsStrandCount | dsdobjects/base_classes.py:694-699 | `size` is the number of strands |
| ComplexViews.RotateOnceSequencePieces | dsdobjects/base_classes.py:713-749 | rotation moves the first strand to the end and keeps the others in order |
| ComplexViews.RotateTimesStrands | dsdobjects/base_classes.py:708-711 | k rotations turn the list of strands left by k |
| ComplexViews.RotateLocTracksRotation | dsdobjects/base_classes.py:751-769 | `rotate_pairtable_loc` maps a locus of the k-times rotated complex to the locus of the same domain in the original |
| ComplexViews.RotateLocInverse | dsdobjects/base_classes.py:751-769 | rotating a locus by n and then by -n gives it back, and rotating without n leaves it unchanged |
| ComplexViews.RotateLoc | dsdobjects/base_classes.py:751-769 | a rotated locus names a strand of the complex and keeps its domain index |
| ComplexViews.KernelRoundTrip | dsdobjects/base_classes.py:771-786 | reading a kernel string back gives every position's structure character and the domain named there |
| ComplexViews.KernelString | dsdobjects/base_classes.py:771-786 | kernel notation ends every position's word with a space, so a non-empty complex gives a space-terminated string |
| ComplexViews.DomainLevelComplementFlat | dsdobjects/base_classes.py:869-885 | the domain-level complement check passes exactly when the structure is readable and every pair joins complementary domains |
| ComplexViews.FlatPairChecked | dsdobjects/base_classes.py:869-885 | after the check has passed, every paired position holds the complement of its partner's domain |
| ComplexViews.DomainLevelComplement | dsdobjects/base_classes.py:869-885 | the check never answers False: it passes or raises |
| ComplexViews.CheckedDomainsSpec | dsdobjects/prototypes/prototypes.py:53-62 | the check called on LogicDomains leaves the domain registry as it was when it passes. When it fails, the registry has gained at most the complement of one registered partner, made by `~` with the partner's class and length. A coherent registry stays coherent |
| Domains.NewDomain | dsdobjects/base_classes.py:383-412 | a taken name is a duplication carrying the registered domain; every configuration error leaves the registry unchanged; a new domain is registered under its name |
| Domains.NewDomainCoherent | dsdobjects/base_classes.py:383-412 | every registered domain sits under its own name with a class that agrees with its length |
| Domains.ResolvedIsValid | dsdobjects/base_classes.py:398-408 | the resolved class and length make a valid domain: the class agrees with the length on the cutoff 8 and the length is not 0 |
| Domains.ResolveShapeFixed | dsdobjects/base_classes.py:398-408 | resolving again from a resolved class and length, or from the length alone, gives the same class and length |
| Domains.ToggleInvolution | dsdobjects/base_classes.py:430 | toggling a name twice gives it back, unless the name ends in two stars |
| Domains.ComplementInvolution | dsdobjects/base_classes.py:427-435 | on a coherent registry the complement is registered under the toggled name, and the complement of the complement is the domain, unless its name is `*` or ends in two stars |
| Domains.NewLogicDomain | dsdobjects/prototypes/prototypes.py:24-39 | a re-declaration is a lookup unless the given class or length conflicts with the registered one; a new name behaves as the base constructor |
| Domains.RedeclareIsLookup | dsdobjects/prototypes/prototypes.py:24-39 | declaring a domain again with the same arguments gives back the registered domain |
| Domains.ComplementOfComplement | dsdobjects/prototypes/prototypes.py:53-62 | the complement of the complement is the original domain |
| Domains.ToggleKeepsIdentity | dsdobjects/prototypes/prototypes.py:70-84 | a domain and its complement have the same identity and opposite complement flags |
| Domains.CanPairByName | dsdobjects/prototypes/prototypes.py:64-68 | two domains can pair exactly when one's name is the toggled name of the other |
| Domains.CanPairSymmetric | dsdobjects/prototypes/prototypes.py:64-68 | `can_pair` is symmetric on registered domains |
| AutoDomain.Identifiers | dsdobjects/auto_classes.py:19-34 | the key lookup fails on a class that contradicts the length, and, with neither given, on an empty name or the bare name `*`; the name is the given one or prefix+ID |
| AutoDomain.IdentifiersLength | dsdobjects/auto_classes.py:25-34 | the key's length is the given one, else the class default, else the length of the registered base domain of a starred name; otherwise there is no key |
| AutoDomain.InitMatchesIdentifiers | dsdobjects/auto_classes.py:36-43 | the constructor names the object as `identifiers` does, and an automatic name moves the counter so the next automatic name differs |
| AutoDomain.AutoDTypeAgrees | dsdobjects/auto_classes.py:45-47 | the automatic class of a length is the class the base domain derives from it, so a class's default length gets that class back |
| AutoDomain.AutoComplementInvolution | dsdobjects/auto_classes.py:49-52 | the complement keeps the length and class, and complementing twice gives back the domain unless the name ends in two stars |
| AutoComplex.TupleLessOrder | dsdobjects/auto_classes.py:80 | the order of `sorted` on pairs of tuples is a strict total order |
| AutoComplex.RotationKeys | dsdobjects/auto_classes.py:72-78 | the enumeration lists the keys of rotations 0 to n-1 |
| AutoComplex.IdentifyOutcome | dsdobjects/auto_classes.py:58-69 | a missing sequence or structure needs a name; different lengths are an error; otherwise the result is a form key named as given or prefix+ID |
| AutoComplex.Identify | dsdobjects/auto_classes.py:58-69 | without sequence or structure the name is the only key; with both, a result is a form key whose name is the given one or the next automatic one |
| AutoComplex.IdentifyCanonical | dsdobjects/auto_classes.py:72-84 | the key is a registered rotation when one exists, else the least rotation, and `turns` is in [0, n) and leads back to the key |
| AutoComplex.IdentifyTurnsBack | dsdobjects/auto_classes.py:83-84 | turning the canonical rotation `turns` more times gives back the complex as given |
| AutoComplex.IdentifyRotationInvariant | dsdobjects/auto_classes.py:72-87 | two rotations of one complex get the same canonical key when at most one rotation is registered |
| Complexes.NewComplex | dsdobjects/base_classes.py:585-627 | a taken name or a registered rotation is a duplication carrying a registered complex; a failure leaves the maps unchanged; a new complex is registered under its canonical key and name |
| Complexes.ComplexNamesFresh | dsdobjects/base_classes.py:586-595 | a given name is kept whatever the prefix, and automatic names under one prefix never repeat across counter values |
| Complexes.FirstKnownSpec | dsdobjects/base_classes.py:629-639 | the memory check stops at the first rotation whose key is registered |
| Complexes.NewComplexCoherent | dsdobjects/base_classes.py:585-627 | every registered name leads to a registered complex |
| Complexes.NewComplexWellFormed | dsdobjects/base_classes.py:682-691 | a created complex keeps its representation, and with the memory check none of its rotations was registered |
| Complexes.RotationFindsOriginal | dsdobjects/base_classes.py:629-639 | once a complex is registered, any rotation of it under a fresh name gives back the registered complex |
| Complexes.NewComplexExisting | dsdobjects/base_classes.py:597-600 | a duplication is either the complex registered under the taken name or the one registered under a rotation's key |
| ProtoComplexes.ProtoComplex | dsdobjects/prototypes/prototypes.py:129-140 | a created complex passes the domain-level complement check, and anything but a failure leaves the domain registry as it was |
| ProtoComplexes.ProtoComplexAtomic | dsdobjects/prototypes/prototypes.py:129-140 | corrected constructor: a rejected complex leaves the maps unchanged; a created one is checked, canonical and registered under a fresh name |
| ProtoComplexes.ProtoExistingIsRotation | dsdobjects/prototypes/prototypes.py:129-136 | corrected constructor: a duplication returned for an automatic name is a registered rotation of the complex asked for |
| ProtoComplexes.DigitPrefixFallsBack | dsdobjects/prototypes/prototypes.py:129-137 | as written, a prefix ending in a digit retries with `enum`; a duplication found there comes back, but a complex created there stays registered and the call ends in a `NameError` |
| ProtoComplexes.AsWrittenRetryCrashes | dsdobjects/prototypes/prototypes.py:129-137 | as written, the prefix `x1` with the single unpaired domain `a` on an empty registry leaves `enum0` registered and reports an error |
| ProtoComplexes.ProtoDigitPrefixFallsBack | dsdobjects/prototypes/prototypes.py:129-137 | corrected constructor: a prefix ending in a digit creates the complex under `enum` and the next number, and returns it once it passes the check |
| ProtoComplexes.AsWrittenKeepsRejected | dsdobjects/prototypes/prototypes.py:133-140 | as written, a complex that fails the complement check stays registered under its name |
| ProtoComplexes.AsWrittenRejectedHairpin | dsdobjects/prototypes/prototypes.py:133-140 | as written, with `a` and `b` registered, the hairpin `a b` with `()` fails and leaves the name `e0` taken |
| ProtoComplexes.RejectedHairpinRegistersComplement | dsdobjects/prototypes/prototypes.py:53-62 | on the same input, `~b` registers `b*` (short, length 5) before the comparison fails; the written and the corrected constructor both return that domain registry |
| ProtoComplexes.AsWrittenNameClash | dsdobjects/prototypes/prototypes.py:129-136 | as written, when the next automatic name is taken, the constructor returns the complex holding that name, whatever it is |
| ProtoComplexes.ProtoComplexAsWritten | dsdobjects/prototypes/prototypes.py:129-140 | as written, a complex comes back created only from the first attempt, and only after passing the complement check; anything but a failure leaves the domain registry as it was |
| ProtoSplits.CanonLessOrder | dsdobjects/prototypes/prototypes.py:204-208 | `__cmp__` on canonical forms is a strict order |
| ProtoSplits.MakeParts | dsdobjects/prototypes/prototypes.py:195-201 | a successful loop returns one complex per part |
| ProtoSplits.ProtoSplit | dsdobjects/prototypes/prototypes.py:186-202 | an unreadable structure is an error that leaves the registry alone; a connected complex comes back alone with the registry unchanged; a successful split of a disconnected one gives one complex per component |
| ProtoSplits.ProtoSplitSpec | dsdobjects/prototypes/prototypes.py:186-202 | corrected split: a connected complex comes back alone; otherwise the result is sorted and is, up to order, one rotation of each component per component |
| ProtoSplits.AsWrittenSplitTakesNamed | dsdobjects/prototypes/prototypes.py:197-202 | as written, when the next automatic name is taken, the complex holding it is in the split's result |
| PartComplexes.PartWellFormed | dsdobjects/prototypes/prototypes.py:193-196 | each part of a well-formed complex is well-formed: sequence and structure of equal length, with breaks at the same places and a balanced structure |
| PartComplexes.PartComplementary | dsdobjects/prototypes/prototypes.py:139-140 | a part of a complex that passes the complement check passes it too |
| PartComplexes.MakePartSucceeds | dsdobjects/prototypes/prototypes.py:197-201 | while the counter's automatic names are free, the corrected constructor creates a well-formed part that passes the complement check, or finds it registered, and leaves the names still to come free |
| PartComplexes.MakePartsSucceed | dsdobjects/prototypes/prototypes.py:197-201 | under the same conditions, the loop over the parts gets through |
| PartComplexes.ProtoSplitSucceeds | dsdobjects/prototypes/prototypes.py:186-202 | the corrected split of a well-formed complex that passes the complement check does not fail while the counter's automatic names are free |
| RestingStates.NameLessOrder | dsdobjects/base_classes.py:945 | sorting by name uses a strict order |
| RestingStates.NewRestingState | dsdobjects/base_classes.py:941-980 | anything but a creation with the memory check leaves the registry unchanged; such a creation registers the state under every member's key and its name |
| RestingStates.RestingStateShape | dsdobjects/base_classes.py:941-966 | a created state has distinct members sorted by name and a permutation of those given; its representative is a member (the given one, else the least by name); its name is given or prefix+representative name and was free |
| RestingStates.RestingStateNameTaken | dsdobjects/base_classes.py:962-965 | a taken name is a duplication carrying the state registered under it |
| RestingStates.RestingStateCoherent | dsdobjects/base_classes.py:967-980 | every registered name leads to a registered state, every registered key is the key of one of its state's members, and each state's representative is a member; a taken name always finds its state |
| RestingStates.RestingStateAgain | dsdobjects/base_classes.py:967-976 | corrected comparison: the same members under a fresh name give back the registered state |
| RestingStates.RestingStateConflict | dsdobjects/base_classes.py:969-972 | with the memory check, the corrected constructor reports a conflict exactly when the state it builds from distinct complexes, under a free name, has a representative whose canonical form is registered to a state with other complexes. The registry is then unchanged |
| RestingStates.AsWrittenRepresentativeFails | dsdobjects/base_classes.py:947 | as written, any given representative fails, because its truth test calls `__len__`, which is not implemented |
| RestingStates.AsWrittenAgainConflicts | dsdobjects/base_classes.py:969-972 | as written, the same members under a fresh name are a conflict, because `!=` compares identity |
| Reactions.NewReaction | dsdobjects/base_classes.py:1052-1071 | with the memory check, a registered canonical form is a duplication carrying the registered reaction, and a new one is registered; no entry is ever replaced |
| Reactions.FormIgnoresOrder | dsdobjects/base_classes.py:1127-1153 | reactions whose reactant and product lists agree as multisets, with the same type, have the same canonical form, whatever the rate |
| Reactions.RateUnitsSpec | dsdobjects/base_classes.py:1087-1091 | the rate units are `/M` once per reactant beyond the first, then `/s` |
| Reactions.RateUnitsInjective | dsdobjects/base_classes.py:1087-1091 | the rate units determine the number of reactants |
| Reactions.NewReactionCoherent | dsdobjects/base_classes.py:1163-1168 | the registry keeps each reaction under its own canonical form, and what comes back is `__eq__` to what was asked for |
| Reactions.ReactionAgain | dsdobjects/base_classes.py:1064-1069 | the same species in another order, with any rate, give back the registered reaction |
| Reactions.ProtoReactionAtomic | dsdobjects/prototypes/prototypes.py:223-235 | corrected prototype: a supported type behaves as the base constructor; an unsupported one fails and leaves the registry unchanged |
| Reactions.ProtoReactionCoherent | dsdobjects/prototypes/prototypes.py:223-235 | the prototype keeps every reaction under its own canonical form |
| Reactions.NewProtoReaction | dsdobjects/prototypes/prototypes.py:223-235 | a supported type behaves as the base constructor; an unsupported one never creates, and a failure leaves nothing under its canonical form except in the corrected version without the memory check |
| Reactions.AsWrittenDeletesOther | dsdobjects/prototypes/prototypes.py:229-235 | as written, an unsupported reaction made without the memory check deletes the other reaction registered under its canonical form |
| Reactions.AsWrittenDeletesOtherExample | dsdobjects/prototypes/prototypes.py:229-235 | a concrete registry in which that deletion empties the registry |
| Kernel.Resolve | dsdobjects/objectio.py:61-81 | the decoded sequence and structure have equal length |
| Kernel.ResolveSpec | dsdobjects/objectio.py:61-81 | a parsed tree decodes to a balanced structure of the same length; every pair closes with the complement name of its opener; `+` is in the same places in both outputs |
| Kernel.ToggleKeepsFirst | dsdobjects/objectio.py:79 | the closing name keeps the opener's first letter, so it is again a domain name |
| Kernel.ReadReactionSpec | dsdobjects/objectio.py:42-59 | a reaction line is kept exactly when it has a rate and a supported type; the kept reaction carries its fields and the prototype constructor accepts it |
| Kernel.ReadReaction | dsdobjects/objectio.py:42-59 | a kept reaction has a rate and a supported type, and the line's reactants and products |
| Kernel.DlLengthSpec | dsdobjects/objectio.py:121-126 | `short` gives 5, `long` gives 15, and a numeral gives its value |
| Kernel.DlLength | dsdobjects/objectio.py:121-126 | the class words give the base domain's default lengths of their classes |
| Kernel.SlLengthSpec | dsdobjects/objectio.py:128-134 | an explicit length must equal the length of the literal sequence, and the accepted length is always that length |
| Kernel.SlLength | dsdobjects/objectio.py:128-134 | an accepted length is always the length of the literal sequence |
| Registry.ClearMemoryForgets | dsdobjects/base_classes.py:271-282 | after clearing, the registries are coherent, no constructor reports a duplication, and the first automatic complex name ends in 0 |
| Registry.ClearMemory | dsdobjects/base_classes.py:271-282 | after a reset every registry is coherent and the complex counter is 0 |
| Registry.NextNameAgrees | dsdobjects/base_classes.py:586-595 | with a numeric counter, the prototype's naming agrees with the base constructor's |
| Registry.NextName | dsdobjects/base_classes.py:586-595 | a given name is kept with the counter untouched; an automatic name needs a numeric counter and advances it by one |
| Registry.ProtoClearSpec | dsdobjects/prototypes/prototypes.py:121-127 | corrected prototype reset: clears exactly the maps asked for and restarts the counter, so the next automatic name ends in 0 |
| Registry.ProtoClear | dsdobjects/prototypes/prototypes.py:121-127 | a flag that is not set leaves its part as it was; resetting the ids leaves a number only in the corrected version |
| Registry.AsWrittenClearBreaksNaming | dsdobjects/prototypes/prototypes.py:126-127 | as written, resetting the counter to a dictionary makes the next automatic name a type error |

## Left out

- The code of `utils.py` is not among the sources, and `make_lol_sequence` is left out. `PairTables`, `Loops` and `Split` rebuild `make_pair_table`, `pair_table_to_dot_bracket`, `make_loop_index` and `split_complex` from the vectors in `tests/test_utils.py`.
- `split_complex` lists components in order of their first strand. The tests compare sorted lists only, so the order is not pinned down by them.
- The newer `DomainS`/`ComplexS` classes and the `objectio` `Domain` class are not part of this model. The decoder yields the lengths and the flat (sequence, structure) only.
- `SL_Domain` and the prototype `Domain` are left out. They are sequence-level and broken as written.
- `SequenceConstraint` and the IUPAC helpers are left out. The identity and structure code never uses them.
- Complexes.NewComplex, RestingStates.NewRestingState, Registry.NextName: the prefix test `isdigit` is modelled on the ASCII digits `0` to `9`. The module runs under `unicode_literals` (`base_classes.py:19`), so Python's `unicode.isdigit` also holds for other digit characters such as `²` or `٣`. A prefix that starts or ends with such a character (`base_classes.py:592`, `958`) is refused by the source and accepted here: the prefix `a²` names a complex `a²0`. Unicode's digit classes are not modelled.
- Python's `int()` is modelled on digit strings only, which is the grammar's number token. Signs and whitespace are left out.
- Reaction rates are exact reals. Float parsing and the `error`/`units` fields are not modelled.
- `full_string` and its unit conversions, `normalized` and `kernel_string` of reactions are left out. They are floating point or not implemented.
- `Reaction.ptreact` and `StrandOrder` are left out. They are exploratory, and `StrandOrder`'s base class is not part of this model.
- `read_pil`, `read_pil_line` dispatch, the parsers and file I/O are left out. The parse tree is an input.
- Logging output and the error messages are left out; only the `NameError` of the unimported `logging` in the prototype complex constructor is modelled. Errors are kinds (`Configuration`, `Structure`, `Format`, …), not strings.
- Complexes in resting states are told apart by value. The source uses object identity, and within one registry the two coincide.
- Python 2's `sorted` with `cmp` is modelled as a stable insertion sort under a strict order.
- Reaction species are their names, as `str(r)` gives them.
- Reactions.FormIgnoresOrder: proves one direction only. Different name lists can join to the same `" + "` string, so equal forms do not imply equal multisets.
- `Complex.__cmp__` is the canonical-form order; its other uses (Python 2 `cmp` on mixed types) are left out.
- `LogicDomain.nucleotides`, `__init__` (which does nothing) and class-level `__new__` machinery are left out; the registry map stands for them.
- `DSD_Complex` properties that only cache or reshape (`domains`, `strands`, `lol_sequence`, `get_strand`, `triple`, `available_domains`, `pk_domains`) are left out beyond the strand view and `get_domain`.
- `RestingSet.__len__` and the prototype `__str__` methods are left out. They only format.
- Kernel.ResolveSpec: requires a tree the grammar can produce: names start with a letter, and every nested list follows a domain name.
- ProtoSplits.ProtoSplitSpec: states the result up to rotation of each component, since the constructor may return a registered rotation.
- PartComplexes.ProtoSplitSucceeds: requires that no name `e<n>` with `n` at or past the counter is taken. With such a name taken the corrected constructor retries under `enum`, and the split fails when that name is taken too or when a name leads to a complex that is gone.
- Complexes.NewComplex: a duplication found through a rotation does not carry `error.rotations` (`base_classes.py:638`), the distance from the registered complex's rotation to the one asked for that `rotate_pairtable_loc` callers read (`base_classes.py:752-758`). Relating it to `RotateLoc` would need the `'_'`-joined key to be injective, and it is not when domain names contain `_`.
- `DSD_Complex.__init__` keeps the caller's structure list (`base_classes.py:609`), and `rotate_once` flips its brackets in place (`base_classes.py:730`, `743`) before it rebinds the list (`base_classes.py:744`). After `DSD_Complex(se, list('(+)'))` the caller's list reads `)+)`. The model's values are immutable, so this aliasing is left out.
- AutoDomain.Identifiers: the nested lookup `len(cls(name[:-1]))` goes through the singleton metaclass of `DomainS`, which is not part of this model. The model finds a length only for a domain already made under the stripped name, and it fails on the bare name `*`.
- AutoDomain.IdentifiersLength: for a name with two trailing stars, say `a**`, with `a` known but `a*` not yet made, the nested lookup would construct `a*` and take its length; the model gives no key. That construction is a side effect of the singleton machinery, which is not part of this model.
- ComplexViews.CheckedDomainsSpec: a partner domain whose name is not in the registry (possible only after `clear_memory`) gets no complement in the model. The object still knows its class and length, but the model's complexes hold names only. The complement that `LogicDomain.complement` caches on the domain object is not modelled either; the registry stands for it.
- AutoComplex.RotationKeys: `rotate_complex_db` and `wrap` of `complex_utils.py` are not part of this model. The enumeration is assumed to yield rotations 0 to n-1 in that order, and `wrap` to be the mathematical modulo, as in `base_classes.py:761-765`.

## Findings

| source | as written | input that shows it | evidently intended | confidence | as-written member | corrected member |
|---|---|---|---|---|---|---|
| dsdobjects/prototypes/prototypes.py:133-140 | the base constructor registers the complex before the complement assertion runs | the hairpin `a b` with `()`: the assertion fails, but `e0` stays registered | a complex that fails the check is not registered | not executed | ProtoComplexes.AsWrittenKeepsRejected | ProtoComplexes.ProtoComplexAtomic |
| dsdobjects/prototypes/prototypes.py:129-136, 197-201 | a taken automatic name raises a duplication carrying the complex that holds the name, and `split` returns it | a user complex named `e0`, then a split whose first part is any other complex | a name clash picks another name; only a rotation of the part counts as a duplicate | not executed | ProtoComplexes.AsWrittenNameClash | ProtoComplexes.ProtoExistingIsRotation |
| dsdobjects/prototypes/prototypes.py:197-202 | the split result contains the complex that holds the next automatic name | the same registry as above, with a disconnected complex | each returned complex is a rotation of one component | not executed | ProtoSplits.AsWrittenSplitTakesNamed | ProtoSplits.ProtoSplitSpec |
| dsdobjects/base_classes.py:947 | `if representative:` calls `DSD_Complex.__len__`, which raises `NotImplementedError` | any resting state made with an explicit representative | the representative is compared with `None` | not executed | RestingStates.AsWrittenRepresentativeFails | RestingStates.RestingStateShape |
| dsdobjects/base_classes.py:969-976 | `other != self` compares identity, because `DSD_RestingState` has no `__ne__`, so it always holds | the same complexes given twice, under two names | the same members give back the registered state | not executed | RestingStates.AsWrittenAgainConflicts | RestingStates.RestingStateAgain |
| dsdobjects/prototypes/prototypes.py:229-235 | an unsupported type deletes whatever reaction sits under its canonical form, even without the memory check | a base reaction `A -> B` with no type, then a prototype `A -> B` with no type and `memorycheck=False` | only the reaction's own registration is taken back | not executed | Reactions.AsWrittenDeletesOtherExample | Reactions.ProtoReactionAtomic |
| dsdobjects/prototypes/prototypes.py:121-127 | `clear_memory` sets the name counter to `dict()` | `Complex.clear_memory()`, then any complex without a name: `prefix + str(ID)` works, but `ID += 1` is a type error | the counter restarts at 0 | not executed | Registry.AsWrittenClearBreaksNaming | Registry.ProtoClearSpec |
| dsdobjects/prototypes/prototypes.py:133-137 | a retry that succeeds calls `logging.warning`, but the module never imports `logging` (its imports are `prototypes.py:11-14`), so the call ends in a `NameError` after the complex is registered | the prefix `x1` and the single unpaired domain `a` on an empty registry: `enum0` is registered, then the `NameError` | the warning is logged and the complex made under `enum` is returned | not executed | ProtoComplexes.AsWrittenRetryCrashes | ProtoComplexes.ProtoDigitPrefixFallsBack |

=== FILE: autocomplex.dfy ===
/** The identity of a complex in the newer object layer
    (`ComplexA.identifiers`): the key of each representation is the pair of
    tuples (domain names, structure characters); the canonical key is the
    first representation already registered or, when none is, the least one;
    `turns` counts the rotations from the canonical representation back to the
    given one. */
module AutoComplex {
  import opened Results
  import opened Order
  import opened Names
  import opened Rotation
  import Canonical

  /** `(tuple(map(str, sequence)), tuple(structure))`. */
  type TupleKey = (seq<string>, seq<string>)

  function TupleKeyOf(c: Strands): TupleKey {
    (c.sequence, Canonical.CharStrings(c.structure))
  }

  /** Python's order on pairs of string tuples. */
  predicate TupleLess(a: TupleKey, b: TupleKey) {
    NamesLess(a.0, b.0) || (a.0 == b.0 && NamesLess(a.1, b.1))
  }

  lemma TupleLessOrder()
    ensures StrictTotal(TupleLess)
  {
    NamesLessOrder();
  }

  /** What the rotation generator yields: the given representation first,
      then its successive rotations, `k` representations in all. */
  function Representations(c: Strands, k: nat): (r: Result<seq<Strands>>)
    requires |c.sequence| == |c.structure|
    ensures r.Ok? ==> |r.value| == k && (k > 0 ==> r.value[0] == c)
    decreases k
  {
    if k == 0 then Ok([])
    else if k == 1 then Ok([c])
    else
      match RotateOnce(c)
      case Err(f) => Err(f)
      case Ok(d) =>
        match Representations(d, k - 1)
        case Err(f) => Err(f)
        case Ok(rs) => Ok([c] + rs)
  }

  function KeysOf(reps: seq<Strands>): (keys: seq<TupleKey>)
    ensures |keys| == |reps| && forall e :: 0 <= e < |reps| ==> keys[e] == TupleKeyOf(reps[e])
  {
    seq(|reps|, e requires 0 <= e < |reps| => TupleKeyOf(reps[e]))
  }

  /** Position of the first key that is already registered, if any. */
  function FirstRegistered(keys: seq<TupleKey>, registered: set<TupleKey>): (r: Option<nat>)
    ensures r.Some? ==>
      && r.value < |keys| && keys[r.value] in registered
      && forall e :: 0 <= e < r.value ==> keys[e] !in registered
    ensures r.None? ==> forall e :: 0 <= e < |keys| ==> keys[e] !in registered
  {
    if |keys| == 0 then None
    else if keys[0] in registered then Some(0)
    else
      match FirstRegistered(keys[1..], registered)
      case None => None
      case Some(e) => Some(e + 1)
  }

  /** Position of the last occurrence: the dictionary keeps the position it
      was last assigned. */
  function LastIndex<T(==)>(s: seq<T>, x: T): (p: nat)
    requires x in s
    ensures p < |s| && s[p] == x && forall k :: p < k < |s| ==> s[k] != x
  {
    if s[|s| - 1] == x then |s| - 1 else LastIndex(s[..|s| - 1], x)
  }

  /** The loop over the representations: stop at the first registered key,
      otherwise take the least key with the last position it was seen at. */
  function Choose(keys: seq<TupleKey>, registered: set<TupleKey>): (r: (TupleKey, nat))
    requires |keys| > 0
    ensures r.1 < |keys| && keys[r.1] == r.0
  {
    match FirstRegistered(keys, registered)
    case Some(e) => (keys[e], e)
    case None =>
      var key := Least(keys, TupleLess);
      (key, LastIndex(keys, key))
  }

  /** The two outcomes of `identifiers`: a lookup by name alone, or a
      canonical key with the name to give and the turns. */
  datatype Identifiers =
    | ByName(name: string)
    | ByForm(canon: TupleKey, name: string, turns: nat)

  /** `ComplexA.identifiers(sequence, structure, name, prefix)` with the
      class counter `id` and the set of registered canonical keys. */
  function Identify(sequence: Option<seq<string>>, structure: Option<seq<char>>,
                    name: Option<string>, prefix: string, id: nat,
                    registered: set<TupleKey>): (r: Result<Identifiers>)
    ensures sequence.None? || structure.None? ==> (r.Ok? <==> name.Some?) && (r.Ok? ==> r.value == ByName(name.value))
    ensures r.Ok? && sequence.Some? && structure.Some? ==>
      r.value.ByForm? && r.value.name == (if name.Some? then name.value else AutoName(prefix, id))
  {
    if sequence.None? || structure.None? then
      if name.None? then Err(Configuration) else Ok(ByName(name.value))
    else
      var nm := if name.None? then AutoName(prefix, id) else name.value;
      if |sequence.value| != |structure.value| then Err(Configuration)
      else
        var c := Strands(sequence.value, structure.value);
        var n := StrandCount(c);
        match Representations(c, n)
        case Err(f) => Err(f)
        case Ok(reps) =>
          var (canon, e) := Choose(KeysOf(reps), registered);
          Ok(ByForm(canon, nm, Wrap(-(e as int), n)))
  }

  // ---------------------------------------------------------------------
  // Properties

  /** The keys of rotations 0 .. k-1 of a well-formed complex. */
  lemma {:induction false} RepresentationsAt(c: Strands, k: nat)
    requires WellFormed(c)
    ensures Representations(c, k).Ok?
    ensures forall e :: 0 <= e < k ==>
      RotateTimes(c, e).Ok? && Representations(c, k).value[e] == RotateTimes(c, e).value
    decreases k
  {
    hide RotateOnce;
    if k > 1 {
      RotateOnceWellFormed(c);
      var d := RotateOnce(c).value;
      RepresentationsAt(d, k - 1);
      var rs := Representations(d, k - 1).value;
      assert Representations(c, k) == Ok([c] + rs);
      forall e | 0 <= e < k
        ensures RotateTimes(c, e).Ok? && Representations(c, k).value[e] == RotateTimes(c, e).value
      {
        if e > 0 {
          assert RotateTimes(c, e) == RotateTimes(d, e - 1);
        }
      }
    }
  }

  /** The keys `identifiers` compares for a well-formed complex. */
  function RotationKeys(c: Strands): (keys: seq<TupleKey>)
    requires WellFormed(c)
    ensures |keys| == StrandCount(c)
    ensures forall e :: 0 <= e < |keys| ==>
      RotateTimes(c, e).Ok? && keys[e] == TupleKeyOf(RotateTimes(c, e).value)
  {
    RepresentationsAt(c, StrandCount(c));
    KeysOf(Representations(c, StrandCount(c)).value)
  }

  /** Inputs are rejected exactly when the source raises: neither sequence
      nor structure nor name to go by, or sequence and structure of
      different lengths; a well-formed complex is always identified by its
      form, and the name is the given one or the next automatic one. */
  lemma IdentifyOutcome(sequence: Option<seq<string>>, structure: Option<seq<char>>,
                        name: Option<string>, prefix: string, id: nat, registered: set<TupleKey>)
    requires sequence.Some? && structure.Some? && |sequence.value| == |structure.value| ==>
      WellFormed(Strands(sequence.value, structure.value))
    ensures var r := Identify(sequence, structure, name, prefix, id, registered);
      && (r.Err? <==> ((sequence.None? || structure.None?) && name.None?)
                      || (sequence.Some? && structure.Some? && |sequence.value| != |structure.value|))
      && (r.Ok? && (sequence.None? || structure.None?) ==> r.value == ByName(name.value))
      && (r.Ok? && sequence.Some? && structure.Some? ==>
            r.value.ByForm? && r.value.name == (if name.None? then AutoName(prefix, id) else name.value))
  {
    if sequence.Some? && structure.Some? && |sequence.value| == |structure.value| {
      var c := Strands(sequence.value, structure.value);
      RepresentationsAt(c, StrandCount(c));
    }
  }

  /** What `identifiers` returns for a well-formed complex, in terms of
      the keys of its rotations. */
  lemma IdentifyChooses(c: Strands, name: Option<string>, prefix: string, id: nat, registered: set<TupleKey>)
    requires WellFormed(c)
    ensures var ch := Choose(RotationKeys(c), registered);
      Identify(Some(c.sequence), Some(c.structure), name, prefix, id, registered)
        == Ok(ByForm(ch.0, if name.None? then AutoName(prefix, id) else name.value, Wrap(-(ch.1 as int), StrandCount(c))))
  {
    hide RotateOnce, RotateTimes, TupleKeyOf, TupleLess, Least, Choose;
    RepresentationsAt(c, StrandCount(c));
  }

  /** When some key is registered, the choice is the first registered one. */
  lemma ChooseRegistered(keys: seq<TupleKey>, registered: set<TupleKey>)
    requires |keys| > 0 && exists k :: 0 <= k < |keys| && keys[k] in registered
    ensures Choose(keys, registered).0 in registered
    ensures forall k :: 0 <= k < Choose(keys, registered).1 ==> keys[k] !in registered
  {
  }

  /** When no key is registered, the choice is the least key, at the last
      position it occurs. */
  lemma ChooseLeast(keys: seq<TupleKey>, registered: set<TupleKey>)
    requires |keys| > 0 && forall k :: 0 <= k < |keys| ==> keys[k] !in registered
    ensures forall k :: 0 <= k < |keys| ==> !TupleLess(keys[k], Choose(keys, registered).0)
    ensures forall k :: Choose(keys, registered).1 < k < |keys| ==> keys[k] != Choose(keys, registered).0
  {
    TupleLessOrder();
    LeastIsLeast(keys, TupleLess);
  }

  /** For a well-formed complex, with `keys[k]` the key of its `k`-th
      rotation: the canonical key is the key of the rotation `turns` steps
      before the given one; it is a registered key when any rotation's key is
      registered and otherwise no rotation has a smaller key; `turns` lies in
      `[0, strand count)`. */
  lemma IdentifyCanonical(c: Strands, name: Option<string>, prefix: string, id: nat, registered: set<TupleKey>)
    requires WellFormed(c)
    ensures var r := Identify(Some(c.sequence), Some(c.structure), name, prefix, id, registered);
      var keys := RotationKeys(c);
      && r.Ok? && r.value.ByForm? && r.value.turns < |keys|
      && keys[Wrap(-(r.value.turns as int), |keys|)] == r.value.canon
      && ((exists k :: 0 <= k < |keys| && keys[k] in registered) ==> r.value.canon in registered)
      && ((forall k :: 0 <= k < |keys| ==> keys[k] !in registered) ==>
            forall k :: 0 <= k < |keys| ==> !TupleLess(keys[k], r.value.canon))
  {
    hide RotateOnce, RotateTimes, TupleKeyOf, TupleLess, StrandCount, Least, Wrap, Choose, Identify, RotationKeys;
    var keys := RotationKeys(c);
    var n := |keys|;
    IdentifyChooses(c, name, prefix, id, registered);
    var ch := Choose(keys, registered);
    WrapNegative(ch.1, n);
    WrapNegative(if ch.1 == 0 then 0 else n - ch.1, n);
    if exists k :: 0 <= k < n && keys[k] in registered {
      ChooseRegistered(keys, registered);
    } else {
      ChooseLeast(keys, registered);
    }
  }

  /** Minus a position in range, wrapped: zero stays zero, anything else
      counts back from the strand count. */
  lemma WrapNegative(t: int, n: int)
    requires 0 <= t < n
    ensures Wrap(-t, n) == if t == 0 then 0 else n - t
  {
    if t > 0 {
      assert -t == -1 * n + (n - t);
    }
  }

  /** `turns` further rotations of the canonical representation give the
      complex back. */
  lemma IdentifyTurnsBack(c: Strands, name: Option<string>, prefix: string, id: nat, registered: set<TupleKey>)
    requires WellFormed(c)
    ensures var r := Identify(Some(c.sequence), Some(c.structure), name, prefix, id, registered);
      var n := StrandCount(c);
      && r.Ok? && r.value.ByForm? && r.value.turns < n
      && ReturnsAfter(c, Wrap(-(r.value.turns as int), n), r.value.turns)
  {
    hide RotateOnce, StrandCount, Identify, Wrap, RotationKeys;
    IdentifyCanonical(c, name, prefix, id, registered);
    var n := StrandCount(c);
    var t := Identify(Some(c.sequence), Some(c.structure), name, prefix, id, registered).value.turns;
    WrapNegative(t, n);
    var e := Wrap(-(t as int), n);
    RotateStrandCountTimes(c);
    RotateTimesAdd(c, e, t);
  }

  /** A complex and its rotation have the same rotation keys. */
  lemma SameRotationKeys(c: Strands)
    requires WellFormed(c)
    ensures RotateOnce(c).Ok? && WellFormed(RotateOnce(c).value)
    ensures forall x :: x in RotationKeys(c) <==> x in RotationKeys(RotateOnce(c).value)
  {
    hide RotateOnce, TupleKeyOf, StrandCount, RotationKeys;
    RotateOnceWellFormed(c);
    var d := RotateOnce(c).value;
    var kc, kd := RotationKeys(c), RotationKeys(d);
    var n := |kc|;
    assert |kd| == n;
    RotateStrandCountTimes(c);
    RotateStrandCountTimes(d);
    forall i | 0 <= i < n
      ensures kd[i] in kc
    {
      assert RotateTimes(c, i + 1) == RotateTimes(d, i);
      if i + 1 < n {
        assert kc[i + 1] == kd[i];
      } else {
        assert kc[0] == kd[i];
      }
    }
    forall i | 0 <= i < n
      ensures kc[i] in kd
    {
      if i == 0 {
        assert RotateTimes(c, n) == RotateTimes(d, n - 1);
        assert kd[n - 1] == kc[0];
      } else {
        assert RotateTimes(c, i) == RotateTimes(d, i - 1);
        assert kd[i - 1] == kc[i];
      }
    }
  }

  /** The registry holds at most one of the keys of a complex's rotations,
      as it does when it only ever receives canonical keys. */
  ghost predicate AtMostOneRegistered(c: Strands, registered: set<TupleKey>)
    requires WellFormed(c)
  {
    forall i, j :: 0 <= i < j < |RotationKeys(c)| && RotationKeys(c)[i] in registered && RotationKeys(c)[j] in registered
      ==> RotationKeys(c)[i] == RotationKeys(c)[j]
  }

  /** Two lists with the same elements and at most one registered element
      lead to the same choice. */
  lemma ChooseSameElements(k1: seq<TupleKey>, k2: seq<TupleKey>, registered: set<TupleKey>)
    requires |k1| > 0 && forall x :: x in k1 <==> x in k2
    requires forall i, j :: 0 <= i < j < |k1| && k1[i] in registered && k1[j] in registered ==> k1[i] == k1[j]
    ensures |k2| > 0 && Choose(k1, registered).0 == Choose(k2, registered).0
  {
    assert k1[0] in k2;
    if exists k :: 0 <= k < |k1| && k1[k] in registered {
      var k :| 0 <= k < |k1| && k1[k] in registered;
      assert k1[k] in k2;
      var k' :| 0 <= k' < |k2| && k2[k'] == k1[k];
      ChooseRegistered(k1, registered);
      ChooseRegistered(k2, registered);
      var a, b := Choose(k1, registered).0, Choose(k2, registered).0;
      assert b in k1;
      var i :| 0 <= i < |k1| && k1[i] == a;
      var j :| 0 <= j < |k1| && k1[j] == b;
      assert i < j || j < i || i == j;
    } else {
      forall k | 0 <= k < |k2|
        ensures k2[k] !in registered
      {
        assert k2[k] in k1;
      }
      TupleLessOrder();
      LeastOfSameElements(k1, k2, TupleLess);
    }
  }

  /** Rotating a complex does not change the canonical key it is given, as
      long as the registry holds at most one key of its rotations: all
      rotations of one complex resolve to the same registered object. */
  lemma {:induction false} IdentifyRotationInvariant(c: Strands, k: nat, name: Option<string>, prefix: string,
                                                      id: nat, registered: set<TupleKey>)
    requires WellFormed(c) && AtMostOneRegistered(c, registered)
    ensures RotateTimes(c, k).Ok?
    ensures var d := RotateTimes(c, k).value;
      var rc := Identify(Some(c.sequence), Some(c.structure), name, prefix, id, registered);
      var rd := Identify(Some(d.sequence), Some(d.structure), name, prefix, id, registered);
      rc.Ok? && rc.value.ByForm? && rd.Ok? && rd.value.ByForm? && rd.value.canon == rc.value.canon
    decreases k
  {
    hide RotateOnce, TupleKeyOf, StrandCount, RotationKeys, Identify, Choose;
    IdentifyChooses(c, name, prefix, id, registered);
    if k > 0 {
      SameRotationKeys(c);
      var d := RotateOnce(c).value;
      ChooseSameElements(RotationKeys(c), RotationKeys(d), registered);
      IdentifyChooses(d, name, prefix, id, registered);
      assert AtMostOneRegistered(d, registered) by {
        forall i, j | 0 <= i < j < |RotationKeys(d)| && RotationKeys(d)[i] in registered && RotationKeys(d)[j] in registered
          ensures RotationKeys(d)[i] == RotationKeys(d)[j]
        {
          var x, y := RotationKeys(d)[i], RotationKeys(d)[j];
          assert x in RotationKeys(c) && y in RotationKeys(c);
          var i' :| 0 <= i' < |RotationKeys(c)| && RotationKeys(c)[i'] == x;
          var j' :| 0 <= j' < |RotationKeys(c)| && RotationKeys(c)[j'] == y;
          assert i' < j' || j' < i' || i' == j';
        }
      }
      IdentifyRotationInvariant(d, k - 1, name, prefix, id, registered);
    }
  }
}

=== FILE: autodomain.dfy ===
/** Domains of the newer object layer with automatic names (`DomainA`): the
    key a domain is looked up by (`identifiers`), the counter behind the
    automatic names, the class derived from the length, and the complement. */
module AutoDomain {
  import opened Results
  import opened Names
  import opened Domains

  /** The key `(name, length)` and the name. No key means the length is
      unknown, so the object can only be found, not made. */
  datatype Ids = Ids(key: Option<(string, int)>, name: string)

  /** The length a class gives when no length is passed. */
  function LengthFromClass(dtype: Option<DType>): (r: Option<int>)
    ensures r.None? <==> dtype.None?
    ensures r.Some? ==> r.value == DefaultLength(dtype.value)
  {
    match dtype
    case None => None
    case Some(t) => Some(DefaultLength(t))
  }

  /** `DomainA.identifiers(name, length, prefix, dtype)` with the class
      counter `id` and the lengths of the domains already made, by name (the
      lookup `len(cls(name[:-1]))` finds only those). The bare name `*`
      fails: the nested lookup reads the last character of the empty name. */
  function Identifiers(name: Option<string>, length: Option<int>, prefix: string, dtype: Option<DType>,
                       id: nat, known: map<string, int>): (r: Result<Ids>)
    ensures r.Err? <==>
      || (length.Some? && dtype.Some? && dtype.value != DTypeOf(length.value))
      || (length.None? && dtype.None? && name.Some? && (|name.value| == 0 || name.value == "*"))
    ensures r.Ok? ==> r.value.name == (if name.None? then AutoName(prefix, id) else name.value)
    ensures r.Ok? && r.value.key.Some? ==> r.value.key.value.0 == r.value.name
  {
    var nm := if name.None? then AutoName(prefix, id) else name.value;
    var len: Result<Option<int>> :=
      if length.None? then Ok(LengthFromClass(dtype))
      else if dtype.Some? && dtype.value != DTypeOf(length.value) then Err(Configuration)
      else Ok(length);
    match len
    case Err(f) => Err(f)
    case Ok(None) =>
      if |nm| == 0 || nm == "*" then Err(Configuration)
      else if nm[|nm| - 1] == '*' && nm[..|nm| - 1] in known then
        Ok(Ids(Some((nm, known[nm[..|nm| - 1]])), nm))
      else Ok(Ids(None, nm))
    case Ok(Some(n)) => Ok(Ids(Some((nm, n)), nm))
  }

  /** How the length in the key is found: a given length as it is, else the
      class default, else (for a complement name) the length of the domain
      it complements, else none at all, as for a fresh plain name. */
  lemma IdentifiersLength(name: Option<string>, length: Option<int>, prefix: string, dtype: Option<DType>,
                          id: nat, known: map<string, int>)
    requires Identifiers(name, length, prefix, dtype, id, known).Ok?
    ensures var r := Identifiers(name, length, prefix, dtype, id, known).value;
      && (length.Some? ==> r.key == Some((r.name, length.value)))
      && (length.None? && dtype.Some? ==> r.key == Some((r.name, DefaultLength(dtype.value))))
      && (length.None? && dtype.None? ==>
            (r.key.Some? <==> IsComplement(r.name) && Toggle(r.name) in known)
            && (r.key.Some? ==> r.key.value.1 == known[Toggle(r.name)]))
  {
  }

  /** `DomainA.__init__`: the name and length it passes on, and the counter
      after it. Only a missing name uses the counter, and then advances it. */
  function InitArgs(name: Option<string>, length: Option<int>, prefix: string, dtype: Option<DType>, id: nat)
    : (out: (string, Option<int>, nat))
    ensures out.2 == if name.None? then id + 1 else id
  {
    var nm := if name.None? then AutoName(prefix, id) else name.value;
    var len := if length.None? then LengthFromClass(dtype) else length;
    (nm, len, if name.None? then id + 1 else id)
  }

  /** `identifiers` and `__init__` agree on the name for the same counter;
      `identifiers` reads the counter but never advances it, so two objects
      made without names get distinct names. */
  lemma InitMatchesIdentifiers(name: Option<string>, length: Option<int>, prefix: string, dtype: Option<DType>,
                               id: nat, known: map<string, int>)
    requires Identifiers(name, length, prefix, dtype, id, known).Ok?
    ensures InitArgs(name, length, prefix, dtype, id).0 == Identifiers(name, length, prefix, dtype, id, known).value.name
    ensures name.None? ==>
      var (n1, _, id1) := InitArgs(name, length, prefix, dtype, id);
      InitArgs(name, length, prefix, dtype, id1).0 != n1
  {
    if name.None? {
      var id1 := id + 1;
      if AutoName(prefix, id1) == AutoName(prefix, id) {
        AutoNameInjective(prefix, id1, id);
      }
    }
  }

  /** `DomainA.dtype`: short exactly up to the cutoff. */
  function AutoDType(length: int): (t: DType)
    ensures t == Short <==> length <= DtypeCutoff
  {
    if length <= DtypeCutoff then Short else Long
  }

  /** The automatic domain classifies a length as the base domain does, so
      a class's default length gets that class back. */
  lemma AutoDTypeAgrees(length: int, t: DType)
    ensures AutoDType(length) == DTypeOf(length)
    ensures AutoDType(DefaultLength(t)) == t
  {
  }

  /** `DomainA.complement`: the complement name with the same length. */
  function AutoComplement(d: (string, int)): (c: (string, int))
    ensures c.1 == d.1 && c.0 == Toggle(d.0)
  {
    (Toggle(d.0), d.1)
  }

  /** The complement keeps the class, and the complement of the complement
      is the domain itself unless its name ends in two stars. */
  lemma AutoComplementInvolution(d: (string, int))
    ensures AutoDType(AutoComplement(d).1) == AutoDType(d.1)
    ensures AutoComplement(AutoComplement(d)) == d <==> !DoubleStarred(d.0)
  {
    ToggleInvolution(d.0);
  }
}

=== FILE: brackets.dfy ===
/** Bracket matching over a flat structure string: the single shared stack that
    the pair table, the loop index and the strand rotation all rely on.

    A structure is a sequence of characters where `(` opens a pair, `)` closes
    one and every other character (the unpaired dot and the strand break) is
    neutral. Positions are flat indices into the whole multi-strand string, so a
    pair may cross strand breaks. */
module Brackets {
  import opened Results

  predicate IsBracket(c: char) { c == '(' || c == ')' }

  /** Contribution of one character to the nesting depth. */
  function Delta(c: char): int {
    if c == '(' then 1 else if c == ')' then -1 else 0
  }

  /** Opens minus closes. */
  function Depth(t: seq<char>): int {
    if |t| == 0 then 0 else Depth(t[..|t| - 1]) + Delta(t[|t| - 1])
  }

  /** Balanced: no prefix closes more than it opened, and the whole string
      closes everything it opened. */
  ghost predicate Balanced(t: seq<char>) {
    (forall k :: 0 <= k <= |t| ==> Depth(t[..k]) >= 0) && Depth(t) == 0
  }

  predicate Between(z: int, a: int, b: int) {
    (a < z < b) || (b < z < a)
  }

  /** `M` is a partner table for `t`: exactly the brackets are paired, pairing
      is mutual and irreflexive, and the earlier end of every pair is `(`. */
  ghost predicate Matching(t: seq<char>, M: seq<Option<nat>>) {
    && |M| == |t|
    && (forall k :: 0 <= k < |t| ==> (M[k].Some? <==> IsBracket(t[k])))
    && (forall k :: 0 <= k < |t| && M[k].Some? ==>
          M[k].value < |t| && M[k].value != k && M[M[k].value] == Some(k))
    && (forall k :: 0 <= k < |t| && M[k].Some? ==> (t[k] == '(' <==> k < M[k].value))
  }

  lemma MatchingLength(t: seq<char>, M: seq<Option<nat>>)
    requires Matching(t, M)
    ensures |M| == |t|
  {
  }

  /** What a partner table says about one position. */
  lemma MatchingAt(t: seq<char>, M: seq<Option<nat>>, k: nat)
    requires Matching(t, M) && k < |t|
    ensures |M| == |t| && (M[k].Some? <==> IsBracket(t[k]))
    ensures M[k].Some? ==> M[k].value < |t| && M[k].value != k && M[M[k].value] == Some(k)
    ensures M[k].Some? ==> (t[k] == '(' <==> k < M[k].value)
  {
  }

  /** No two pairs cross: a position strictly inside a pair has its partner
      strictly inside the same pair. */
  ghost predicate NonCrossing(M: seq<Option<nat>>) {
    forall i, k {:trigger Between(k, i, M[i].value)} ::
      (0 <= i < |M| && 0 <= k < |M| && M[i].Some? && M[k].Some? && Between(k, i, M[i].value))
      ==> Between(M[k].value, i, M[i].value)
  }

  /** State of the left-to-right scan: the stack of open positions still
      waiting for a partner, and the partners recorded so far. */
  datatype Scan = Scan(stack: seq<nat>, partner: seq<Option<nat>>)

  function Unpaired(n: nat): (r: seq<Option<nat>>)
    ensures |r| == n && forall k :: 0 <= k < n ==> r[k] == None
  {
    seq(n, _ => None)
  }

  /** One step of the left-to-right scan at position `i`: `(` pushes its
      position, `)` pops the most recent open and links the two, a `)` with an
      empty stack is an error, anything else is skipped. */
  function Step(t: seq<char>, i: nat, st: Scan): (r: Result<Scan>)
    requires i < |t| && |st.partner| == |t|
    requires forall a :: 0 <= a < |st.stack| ==> st.stack[a] < i
    ensures r.Ok? ==> |r.value.partner| == |t| && forall a :: 0 <= a < |r.value.stack| ==> r.value.stack[a] <= i
    ensures r.Err? <==> t[i] == ')' && |st.stack| == 0
  {
    if t[i] == '(' then Ok(Scan(st.stack + [i], st.partner))
    else if t[i] == ')' then
      if |st.stack| == 0 then Err(Structure)
      else
        var j := st.stack[|st.stack| - 1];
        Ok(Scan(st.stack[..|st.stack| - 1], st.partner[j := Some(i)][i := Some(j)]))
    else Ok(st)
  }

  /** Scans positions `i .. hi-1`, stopping at the first error. */
  function ScanFrom(t: seq<char>, i: nat, hi: nat, st: Scan): Result<Scan>
    requires i <= hi <= |t| && |st.partner| == |t|
    requires forall a :: 0 <= a < |st.stack| ==> st.stack[a] < i
    decreases hi - i
  {
    if i == hi then Ok(st)
    else
      match Step(t, i, st)
      case Err(f) => Err(f)
      case Ok(st') => ScanFrom(t, i + 1, hi, st')
  }

  /** The scan of the first `hi` positions from an empty stack. */
  function ScanPrefix(t: seq<char>, hi: nat): Result<Scan>
    requires hi <= |t|
  {
    ScanFrom(t, 0, hi, Scan([], Unpaired(|t|)))
  }

  /** One step of the right-to-left scan at position `i - 1`: `)` pushes, `(`
      pops, a `(` with an empty stack is an error. */
  function RevStep(t: seq<char>, i: nat, stack: seq<nat>): (r: Result<seq<nat>>)
    requires 0 < i <= |t|
    ensures r.Err? <==> t[i - 1] == '(' && |stack| == 0
  {
    if t[i - 1] == ')' then Ok(stack + [i - 1])
    else if t[i - 1] == '(' then
      if |stack| == 0 then Err(Structure) else Ok(stack[..|stack| - 1])
    else Ok(stack)
  }

  /** Right-to-left scan of positions `lo .. i-1`; returns the closes left
      unmatched. */
  function RevScanFrom(t: seq<char>, lo: nat, i: nat, stack: seq<nat>): Result<seq<nat>>
    requires lo <= i <= |t|
    decreases i - lo
  {
    if i == lo then Ok(stack)
    else
      match RevStep(t, i, stack)
      case Err(f) => Err(f)
      case Ok(s') => RevScanFrom(t, lo, i - 1, s')
  }

  /** The partner table of a flat structure, or a structure error when the
      brackets do not balance. */
  function Partners(t: seq<char>): (r: Result<seq<Option<nat>>>)
    ensures r.Ok? <==> Balanced(t)
    ensures r.Ok? ==> Matching(t, r.value) && NonCrossing(r.value)
  {
    InitialScanInv(t);
    ScanSound(t, 0, |t|, Scan([], Unpaired(|t|)));
    assert t[..|t|] == t;
    match ScanPrefix(t, |t|)
    case Err(f) => Err(f)
    case Ok(st) => if st.stack == [] then Ok(st.partner) else Err(Structure)
  }

  // ---------------------------------------------------------------------
  // Soundness of the scan

  lemma DepthStep(t: seq<char>, i: nat)
    requires i < |t|
    ensures Depth(t[..i + 1]) == Depth(t[..i]) + Delta(t[i])
  {
    assert t[..i + 1][..i] == t[..i];
  }

  ghost predicate StackShape(t: seq<char>, i: nat, st: Scan) {
    && i <= |t| && |st.partner| == |t|
    && (forall a, b :: 0 <= a < b < |st.stack| ==> st.stack[a] < st.stack[b])
    && (forall a :: 0 <= a < |st.stack| ==>
          st.stack[a] < i && t[st.stack[a]] == '(' && st.partner[st.stack[a]] == None)
  }

  ghost predicate PartnerShape(t: seq<char>, i: nat, st: Scan)
    requires i <= |t| && |st.partner| == |t|
  {
    && (forall k :: i <= k < |t| ==> st.partner[k] == None)
    && (forall k :: 0 <= k < i && IsBracket(t[k]) && st.partner[k] == None ==> k in st.stack)
    && (forall k :: 0 <= k < i && !IsBracket(t[k]) ==> st.partner[k] == None)
    && (forall k :: 0 <= k < |t| && st.partner[k].Some? ==>
          st.partner[k].value < i && st.partner[k].value != k &&
          st.partner[st.partner[k].value] == Some(k) && (t[k] == '(' <==> k < st.partner[k].value))
  }

  /** No open position still on the stack lies strictly inside a completed pair. */
  ghost predicate StackOutside(st: Scan) {
    forall k, a :: 0 <= k < |st.partner| && 0 <= a < |st.stack| && st.partner[k].Some? ==>
      !Between(st.stack[a], k, st.partner[k].value)
  }

  ghost predicate ScanInv(t: seq<char>, i: nat, st: Scan) {
    && StackShape(t, i, st)
    && PartnerShape(t, i, st)
    && NonCrossing(st.partner)
    && StackOutside(st)
    && |st.stack| == Depth(t[..i])
  }

  lemma ScanInvOpen(t: seq<char>, i: nat, st: Scan)
    requires ScanInv(t, i, st) && i < |t| && t[i] == '('
    ensures ScanInv(t, i + 1, Scan(st.stack + [i], st.partner))
  {
    DepthStep(t, i);
    var st' := Scan(st.stack + [i], st.partner);
    forall k | 0 <= k < i + 1 && IsBracket(t[k]) && st'.partner[k] == None
      ensures k in st'.stack
    {
      if k < i {
        assert k in st.stack;
      } else {
        assert st'.stack[|st'.stack| - 1] == k;
      }
    }
    assert StackOutside(st') by {
      forall k, a | 0 <= k < |st'.partner| && 0 <= a < |st'.stack| && st'.partner[k].Some?
        ensures !Between(st'.stack[a], k, st'.partner[k].value)
      {
        if a < |st.stack| {
          assert st'.stack[a] == st.stack[a];
        }
      }
    }
  }

  lemma CloseStack(t: seq<char>, i: nat, st: Scan)
    requires ScanInv(t, i, st) && i < |t| && t[i] == ')' && |st.stack| > 0
    ensures var j := st.stack[|st.stack| - 1];
      StackShape(t, i + 1, Scan(st.stack[..|st.stack| - 1], st.partner[j := Some(i)][i := Some(j)]))
  {
  }

  lemma ClosePartners(t: seq<char>, i: nat, st: Scan)
    requires ScanInv(t, i, st) && i < |t| && t[i] == ')' && |st.stack| > 0
    ensures var j := st.stack[|st.stack| - 1];
      var st' := Scan(st.stack[..|st.stack| - 1], st.partner[j := Some(i)][i := Some(j)]);
      |st'.partner| == |t| && PartnerShape(t, i + 1, st')
  {
    CloseUnpaired(t, i, st);
    ClosePairs(t, i, st);
  }

  /** After a close, the unpaired brackets up to it are those left on the stack. */
  lemma CloseUnpaired(t: seq<char>, i: nat, st: Scan)
    requires ScanInv(t, i, st) && i < |t| && t[i] == ')' && |st.stack| > 0
    ensures var j := st.stack[|st.stack| - 1];
      var s' := st.stack[..|st.stack| - 1];
      var p' := st.partner[j := Some(i)][i := Some(j)];
      forall k :: 0 <= k < i + 1 && IsBracket(t[k]) && p'[k] == None ==> k in s'
  {
    var j := st.stack[|st.stack| - 1];
    var s' := st.stack[..|st.stack| - 1];
    var p' := st.partner[j := Some(i)][i := Some(j)];
    forall k | 0 <= k < i + 1 && IsBracket(t[k]) && p'[k] == None
      ensures k in s'
    {
      assert k != i && k != j;
      assert k in st.stack;
      var a :| 0 <= a < |st.stack| && st.stack[a] == k;
      assert a != |st.stack| - 1;
      assert s'[a] == k;
    }
  }

  /** After a close, every recorded pair is mutual and oriented. */
  lemma ClosePairs(t: seq<char>, i: nat, st: Scan)
    requires ScanInv(t, i, st) && i < |t| && t[i] == ')' && |st.stack| > 0
    ensures var j := st.stack[|st.stack| - 1];
      var p' := st.partner[j := Some(i)][i := Some(j)];
      forall k :: 0 <= k < |t| && p'[k].Some? ==>
        p'[k].value < i + 1 && p'[k].value != k &&
        p'[p'[k].value] == Some(k) && (t[k] == '(' <==> k < p'[k].value)
  {
    var j := st.stack[|st.stack| - 1];
    var p := st.partner;
    var p': seq<Option<nat>> := p[j := Some(i)][i := Some(j)];
    assert j < i && p[j] == None;
    forall k | 0 <= k < |t| && p'[k].Some?
      ensures p'[k].value < i + 1 && p'[k].value != k &&
        p'[p'[k].value] == Some(k) && (t[k] == '(' <==> k < p'[k].value)
    {
      if k != i && k != j {
        assert p'[k] == p[k];
        assert p[k].value != i;
        assert p[k].value != j;
      }
    }
  }

  lemma CloseNonCrossing(t: seq<char>, i: nat, st: Scan)
    requires ScanInv(t, i, st) && i < |t| && t[i] == ')' && |st.stack| > 0
    ensures var j := st.stack[|st.stack| - 1];
      NonCrossing(st.partner[j := Some(i)][i := Some(j)])
  {
    var j := st.stack[|st.stack| - 1];
    var p := st.partner;
    var p': seq<Option<nat>> := p[j := Some(i)][i := Some(j)];
    assert j < i && p[j] == None && p[i] == None;
    forall x: int, y: int | 0 <= x < |p'| && 0 <= y < |p'| && p'[x].Some? && p'[y].Some? &&
      Between(y, x, p'[x].value)
      ensures Between(p'[y].value, x, p'[x].value)
    {
      if x == i || x == j {
        // y lies strictly between j and i, so it is a completed pair
        assert y != i && y != j;
        assert p'[y] == p[y];
        var m := p[y].value;
        assert m < i && m != j;
        assert !Between(j, y, m);
      } else {
        assert p'[x] == p[x];
        var b := p[x].value;
        assert b != i && b != j;
        assert !Between(j, x, b);
        assert x < i && b < i;
        assert y != j && y != i;
        assert p'[y] == p[y];
      }
    }
  }

  lemma CloseOutside(t: seq<char>, i: nat, st: Scan)
    requires ScanInv(t, i, st) && i < |t| && t[i] == ')' && |st.stack| > 0
    ensures var j := st.stack[|st.stack| - 1];
      StackOutside(Scan(st.stack[..|st.stack| - 1], st.partner[j := Some(i)][i := Some(j)]))
  {
    var j := st.stack[|st.stack| - 1];
    var s' := st.stack[..|st.stack| - 1];
    var p := st.partner;
    var p': seq<Option<nat>> := p[j := Some(i)][i := Some(j)];
    forall k, a | 0 <= k < |p'| && 0 <= a < |s'| && p'[k].Some?
      ensures !Between(s'[a], k, p'[k].value)
    {
      assert s'[a] == st.stack[a];
      assert st.stack[a] < j;
      if k != i && k != j {
        assert p'[k] == p[k];
      }
    }
  }

  lemma ScanInvClose(t: seq<char>, i: nat, st: Scan)
    requires ScanInv(t, i, st) && i < |t| && t[i] == ')' && |st.stack| > 0
    ensures var j := st.stack[|st.stack| - 1];
      ScanInv(t, i + 1, Scan(st.stack[..|st.stack| - 1], st.partner[j := Some(i)][i := Some(j)]))
  {
    DepthStep(t, i);
    CloseStack(t, i, st);
    ClosePartners(t, i, st);
    CloseNonCrossing(t, i, st);
    CloseOutside(t, i, st);
  }

  lemma StepSound(t: seq<char>, i: nat, st: Scan)
    requires ScanInv(t, i, st) && i < |t|
    ensures Step(t, i, st).Ok? <==> Depth(t[..i + 1]) >= 0
    ensures Step(t, i, st).Ok? ==> ScanInv(t, i + 1, Step(t, i, st).value)
  {
    DepthStep(t, i);
    if t[i] == '(' {
      ScanInvOpen(t, i, st);
    } else if t[i] == ')' {
      if |st.stack| > 0 {
        ScanInvClose(t, i, st);
      }
    } else {
      assert PartnerShape(t, i + 1, st);
    }
  }

  ghost predicate NonNegative(t: seq<char>, i: nat, hi: nat)
    requires hi <= |t|
  {
    forall k :: i <= k <= hi ==> Depth(t[..k]) >= 0
  }

  /** The scan fails exactly when some prefix of the scanned range closes more
      than it opened, and otherwise keeps the invariant. */
  lemma {:induction false} ScanSound(t: seq<char>, i: nat, hi: nat, st: Scan)
    requires i <= hi <= |t| && ScanInv(t, i, st)
    ensures ScanFrom(t, i, hi, st).Ok? <==> NonNegative(t, i, hi)
    ensures ScanFrom(t, i, hi, st).Ok? ==> ScanInv(t, hi, ScanFrom(t, i, hi, st).value)
    decreases hi - i
  {
    if i < hi {
      StepSound(t, i, st);
      var n := Step(t, i, st);
      if n.Ok? {
        ScanSound(t, i + 1, hi, n.value);
      }
    }
  }

  lemma InitialScanInv(t: seq<char>)
    ensures ScanInv(t, 0, Scan([], Unpaired(|t|)))
  {
    assert t[..0] == [];
  }

  // ---------------------------------------------------------------------
  // Agreement: the scan reproduces any non-crossing partner table

  ghost predicate AgreeInv(t: seq<char>, M: seq<Option<nat>>, i: nat, st: Scan)
    requires Matching(t, M)
  {
    && i <= |t| && |st.partner| == |t|
    && (forall a, b :: 0 <= a < b < |st.stack| ==> st.stack[a] < st.stack[b])
    && (forall a :: 0 <= a < |st.stack| ==> st.stack[a] < i)
    && (forall k :: k in st.stack <==> 0 <= k < i && t[k] == '(' && M[k].value >= i)
    && (forall k :: 0 <= k < |t| ==>
          st.partner[k] == (if k < i && M[k].Some? && M[k].value < i then M[k] else None))
  }

  /** In an increasing stack, the top is the largest element. */
  lemma TopIsMax(stack: seq<nat>, j: nat)
    requires forall a, b :: 0 <= a < b < |stack| ==> stack[a] < stack[b]
    requires j in stack
    ensures |stack| > 0 && j <= stack[|stack| - 1]
    ensures j != stack[|stack| - 1] ==> j in stack[..|stack| - 1]
  {
    var a :| 0 <= a < |stack| && stack[a] == j;
    if a < |stack| - 1 {
      assert stack[..|stack| - 1][a] == j;
    }
  }

  lemma NoMemberMeansEmpty(s: seq<nat>)
    ensures (forall k :: k !in s) ==> s == []
  {
    if s != [] {
      assert s[0] in s;
    }
  }

  lemma AgreeOpen(t: seq<char>, M: seq<Option<nat>>, i: nat, st: Scan)
    requires Matching(t, M) && NonCrossing(M) && i < |t| && AgreeInv(t, M, i, st) && t[i] == '('
    ensures AgreeInv(t, M, i + 1, Scan(st.stack + [i], st.partner))
  {
    var st' := Scan(st.stack + [i], st.partner);
    forall k ensures k in st'.stack <==> 0 <= k < i + 1 && t[k] == '(' && M[k].value >= i + 1 {
      if k in st.stack {
        assert M[k].value != i;
      }
      if 0 <= k < i && t[k] == '(' && M[k].value >= i + 1 {
        assert k in st.stack;
      }
    }
  }

  /** When a close at `i` is reached, its partner is the top of the stack. */
  lemma AgreeTop(t: seq<char>, M: seq<Option<nat>>, i: nat, st: Scan)
    requires Matching(t, M) && NonCrossing(M) && i < |t| && AgreeInv(t, M, i, st) && t[i] == ')'
    ensures |st.stack| > 0 && st.stack[|st.stack| - 1] == M[i].value
  {
    var j := M[i].value;
    assert j < i && t[j] == '(' && M[j] == Some(i);
    assert j in st.stack;
    TopIsMax(st.stack, j);
    // every other open on the stack lies before j: one between j and i would
    // have its partner beyond i, crossing the pair (j, i)
    forall s | s in st.stack && s != j
      ensures s < j
    {
      assert M[s].value >= i && M[s].value != i;
      assert Between(s, j, M[j].value) ==> Between(M[s].value, j, M[j].value);
    }
    var top := st.stack[|st.stack| - 1];
    assert top in st.stack;
  }

  lemma AgreeClose(t: seq<char>, M: seq<Option<nat>>, i: nat, st: Scan)
    requires Matching(t, M) && NonCrossing(M) && i < |t| && AgreeInv(t, M, i, st) && t[i] == ')'
    requires |st.stack| > 0 && st.stack[|st.stack| - 1] == M[i].value
    ensures var j := M[i].value;
      AgreeInv(t, M, i + 1, Scan(st.stack[..|st.stack| - 1], st.partner[j := Some(i)][i := Some(j)]))
  {
    var j := M[i].value;
    assert j < i && M[j] == Some(i);
    var s' := st.stack[..|st.stack| - 1];
    forall k ensures k in s' <==> 0 <= k < i + 1 && t[k] == '(' && M[k].value >= i + 1 {
      if k in s' {
        var b :| 0 <= b < |s'| && s'[b] == k;
        assert st.stack[b] == k;
        assert k in st.stack;
        assert k < j;
        assert M[k].value != i;
      }
      if 0 <= k < i + 1 && t[k] == '(' && M[k].value >= i + 1 {
        assert k in st.stack;
        assert k != j;
        TopIsMax(st.stack, k);
      }
    }
  }

  lemma AgreeStep(t: seq<char>, M: seq<Option<nat>>, i: nat, st: Scan)
    requires Matching(t, M) && NonCrossing(M) && i < |t| && AgreeInv(t, M, i, st)
    ensures Step(t, i, st).Ok?
    ensures AgreeInv(t, M, i + 1, Step(t, i, st).value)
  {
    if t[i] == '(' {
      AgreeOpen(t, M, i, st);
    } else if t[i] == ')' {
      AgreeTop(t, M, i, st);
      AgreeClose(t, M, i, st);
    } else {
      forall k ensures k in st.stack <==> 0 <= k < i + 1 && t[k] == '(' && M[k].value >= i + 1 {
        if k in st.stack {
          assert M[k].value != i;
        }
      }
    }
  }

  lemma {:induction false} AgreeFrom(t: seq<char>, M: seq<Option<nat>>, i: nat, hi: nat, st: Scan)
    requires Matching(t, M) && NonCrossing(M) && i <= hi <= |t| && AgreeInv(t, M, i, st)
    ensures ScanFrom(t, i, hi, st).Ok? && AgreeInv(t, M, hi, ScanFrom(t, i, hi, st).value)
    decreases hi - i
  {
    if i < hi {
      AgreeStep(t, M, i, st);
      AgreeFrom(t, M, i + 1, hi, Step(t, i, st).value);
    }
  }

  /** Scanning a prefix of a string that has a non-crossing partner table never
      fails, and leaves on the stack exactly the opens whose partner lies
      beyond the prefix; over the whole string it reproduces the table. */
  lemma ScanAgrees(t: seq<char>, M: seq<Option<nat>>, hi: nat)
    requires Matching(t, M) && NonCrossing(M) && hi <= |t|
    ensures ScanPrefix(t, hi).Ok?
    ensures forall a, b :: 0 <= a < b < |ScanPrefix(t, hi).value.stack| ==>
      ScanPrefix(t, hi).value.stack[a] < ScanPrefix(t, hi).value.stack[b]
    ensures forall k :: k in ScanPrefix(t, hi).value.stack <==> 0 <= k < hi && t[k] == '(' && M[k].value >= hi
    ensures hi == |t| ==> ScanPrefix(t, hi).value == Scan([], M)
  {
    AgreeFrom(t, M, 0, hi, Scan([], Unpaired(|t|)));
    var st := ScanPrefix(t, hi).value;
    if hi == |t| {
      NoMemberMeansEmpty(st.stack);
      assert st.stack == [];
      assert st.partner == M;
    }
  }

  /** A string with a non-crossing partner table is balanced, and that table is
      the one `Partners` computes. */
  lemma PartnersUnique(t: seq<char>, M: seq<Option<nat>>)
    requires Matching(t, M) && NonCrossing(M)
    ensures Partners(t) == Ok(M)
  {
    ScanAgrees(t, M, |t|);
  }

  ghost predicate RevInv(t: seq<char>, M: seq<Option<nat>>, i: nat, stack: seq<nat>)
    requires Matching(t, M)
  {
    && i <= |t|
    && (forall a, b :: 0 <= a < b < |stack| ==> stack[a] > stack[b])
    && (forall a :: 0 <= a < |stack| ==> i <= stack[a])
    && (forall k :: k in stack <==> i <= k < |t| && t[k] == ')' && M[k].value < i)
  }

  /** In a decreasing stack, the top is the smallest element. */
  lemma TopIsMin(stack: seq<nat>, j: nat)
    requires forall a, b :: 0 <= a < b < |stack| ==> stack[a] > stack[b]
    requires j in stack
    ensures |stack| > 0 && j >= stack[|stack| - 1]
    ensures j != stack[|stack| - 1] ==> j in stack[..|stack| - 1]
  {
    var a :| 0 <= a < |stack| && stack[a] == j;
    if a < |stack| - 1 {
      assert stack[..|stack| - 1][a] == j;
    }
  }

  lemma RevAgreeStep(t: seq<char>, M: seq<Option<nat>>, i: nat, stack: seq<nat>)
    requires Matching(t, M) && NonCrossing(M) && 0 < i <= |t| && RevInv(t, M, i, stack)
    ensures RevStep(t, i, stack).Ok?
    ensures RevInv(t, M, i - 1, RevStep(t, i, stack).value)
  {
    if t[i - 1] == ')' {
      RevAgreeClose(t, M, i, stack);
    } else if t[i - 1] == '(' {
      RevAgreeOpen(t, M, i, stack);
    } else {
      RevAgreeNeutral(t, M, i, stack);
    }
  }

  /** Reading a close right to left pushes it: its partner lies before it. */
  lemma RevAgreeClose(t: seq<char>, M: seq<Option<nat>>, i: nat, stack: seq<nat>)
    requires Matching(t, M) && 0 < i <= |t| && RevInv(t, M, i, stack) && t[i - 1] == ')'
    ensures RevStep(t, i, stack) == Ok(stack + [i - 1])
    ensures RevInv(t, M, i - 1, stack + [i - 1])
  {
    var c := i - 1;
    var s' := stack + [c];
    forall k ensures k in s' <==> c <= k < |t| && t[k] == ')' && M[k].value < c {
      if k in stack {
        assert M[k].value != c;
      }
      if c < k < |t| && t[k] == ')' && M[k].value < c {
        assert k in stack;
      }
    }
  }

  /** Reading an open right to left pops its partner, which is on top. */
  lemma RevAgreeOpen(t: seq<char>, M: seq<Option<nat>>, i: nat, stack: seq<nat>)
    requires Matching(t, M) && NonCrossing(M) && 0 < i <= |t| && RevInv(t, M, i, stack) && t[i - 1] == '('
    ensures |stack| > 0 && RevStep(t, i, stack) == Ok(stack[..|stack| - 1])
    ensures RevInv(t, M, i - 1, stack[..|stack| - 1])
  {
    var c := i - 1;
    var j := M[c].value;
    assert j > c && t[j] == ')' && M[j] == Some(c);
    assert j in stack;
    TopIsMin(stack, j);
    forall s | s in stack && s != j
      ensures s > j
    {
      assert M[s].value < i && M[s].value != c;
      assert Between(s, c, M[c].value) ==> Between(M[s].value, c, M[c].value);
    }
    var top := stack[|stack| - 1];
    assert top in stack;
    assert top == j;
    var s' := stack[..|stack| - 1];
    forall k ensures k in s' <==> c <= k < |t| && t[k] == ')' && M[k].value < c {
      if k in s' {
        var b :| 0 <= b < |s'| && s'[b] == k;
        assert stack[b] == k;
        assert k in stack;
        assert k > j;
        assert M[k].value != c;
      }
      if c <= k < |t| && t[k] == ')' && M[k].value < c {
        assert k in stack;
        assert k != j;
        TopIsMin(stack, k);
      }
    }
  }

  /** Reading a neutral character leaves the stack as it is. */
  lemma RevAgreeNeutral(t: seq<char>, M: seq<Option<nat>>, i: nat, stack: seq<nat>)
    requires Matching(t, M) && 0 < i <= |t| && RevInv(t, M, i, stack) && !IsBracket(t[i - 1])
    ensures RevStep(t, i, stack) == Ok(stack)
    ensures RevInv(t, M, i - 1, stack)
  {
    var c := i - 1;
    forall k ensures k in stack <==> c <= k < |t| && t[k] == ')' && M[k].value < c {
      if k in stack {
        assert M[k].value != c;
      }
    }
  }

  lemma {:induction false} RevFrom(t: seq<char>, M: seq<Option<nat>>, lo: nat, i: nat, stack: seq<nat>)
    requires Matching(t, M) && NonCrossing(M) && lo <= i <= |t| && RevInv(t, M, i, stack)
    ensures RevScanFrom(t, lo, i, stack).Ok? && RevInv(t, M, lo, RevScanFrom(t, lo, i, stack).value)
    decreases i - lo
  {
    if lo < i {
      RevAgreeStep(t, M, i, stack);
      RevFrom(t, M, lo, i - 1, RevStep(t, i, stack).value);
    }
  }

  /** Scanning a suffix right to left never fails and leaves exactly the closes
      of the suffix whose partner lies before it. */
  lemma RevScanAgrees(t: seq<char>, M: seq<Option<nat>>, lo: nat)
    requires Matching(t, M) && NonCrossing(M) && lo <= |t|
    ensures RevScanFrom(t, lo, |t|, []).Ok?
    ensures forall k :: k in RevScanFrom(t, lo, |t|, []).value <==>
      lo <= k < |t| && t[k] == ')' && M[k].value < lo
  {
    RevFrom(t, M, lo, |t|, []);
  }
}

=== FILE: canonical.dfy ===
/** The canonical form of a complex (`DSD_Complex.canonical_form` and
    `__eq__`): among the keys of all rotations, the least one, together with
    the number of rotations that lead from the canonical representation back
    to the given one. Two complexes are equal when their canonical keys are. */
module Canonical {
  import opened Results
  import opened Order
  import opened Rotation

  /** `sep.join(parts)`. */
  function JoinWith(sep: string, parts: seq<string>): string {
    if |parts| == 0 then ""
    else if |parts| == 1 then parts[0]
    else parts[0] + sep + JoinWith(sep, parts[1..])
  }

  /** `'_'.join(parts)`. */
  function Join(parts: seq<string>): string {
    JoinWith("_", parts)
  }

  /** `map(str, structure)`: each structure character as a string. */
  function CharStrings(t: seq<char>): (r: seq<string>)
    ensures |r| == |t| && forall i :: 0 <= i < |t| ==> r[i] == [t[i]]
  {
    if |t| == 0 then [] else [[t[0]]] + CharStrings(t[1..])
  }

  /** The key of one representation: joined sequence and joined structure. */
  type Key = (string, string)

  function KeyOf(c: Strands): Key {
    (Join(c.sequence), Join(CharStrings(c.structure)))
  }

  /** Python's order on pairs of strings. */
  predicate KeyLess(a: Key, b: Key) {
    StrLess(a.0, b.0) || (a.0 == b.0 && StrLess(a.1, b.1))
  }

  lemma KeyLessOrder()
    ensures StrictTotal(KeyLess)
  {
    StrLessOrder();
  }

  /** The keys of the `k` representations that `rotate` yields after `c`,
      in the order it yields them; a failing rotation ends the enumeration
      with its error. */
  function Variants(c: Strands, k: nat): (r: Result<seq<Key>>)
    requires |c.sequence| == |c.structure|
    ensures r.Ok? ==> |r.value| == k
    decreases k
  {
    if k == 0 then Ok([])
    else
      match RotateOnce(c)
      case Err(f) => Err(f)
      case Ok(d) =>
        match Variants(d, k - 1)
        case Err(f) => Err(f)
        case Ok(ks) => Ok([KeyOf(d)] + ks)
  }

  /** The canonical key, and the rotations from it back to the given
      representation. */
  datatype Canon = Canon(key: Key, rotations: nat)

  function CanonicalForm(c: Strands): (r: Result<Canon>)
    requires |c.sequence| == |c.structure|
    ensures WellFormed(c) ==> r.Ok?
    ensures r.Ok? ==> r.value.rotations < StrandCount(c)
  {
    var n := StrandCount(c);
    WellFormedVariants(c, n);
    match Variants(c, n)
    case Err(f) => Err(f)
    case Ok(ks) =>
      var key := Least(ks, KeyLess);
      Ok(Canon(key, n - (FirstIndex(ks, key) + 1)))
  }

  /** A well-formed complex has all its rotations. */
  lemma WellFormedVariants(c: Strands, k: nat)
    requires |c.sequence| == |c.structure|
    ensures WellFormed(c) ==> Variants(c, k).Ok?
  {
    if WellFormed(c) {
      VariantsAt(c, k);
    }
  }

  /** `__eq__`: the canonical keys agree. */
  predicate Equal(c1: Strands, c2: Strands)
    requires |c1.sequence| == |c1.structure| && |c2.sequence| == |c2.structure|
  {
    match (CanonicalForm(c1), CanonicalForm(c2))
    case (Ok(a), Ok(b)) => a.key == b.key
    case _ => false
  }

  // ---------------------------------------------------------------------
  // Properties

  /** The enumeration lists the keys of rotations 1 .. k of `c`. */
  lemma {:induction false} VariantsAt(c: Strands, k: nat)
    requires WellFormed(c)
    ensures Variants(c, k).Ok?
    ensures forall e :: 1 <= e <= k ==>
      RotateTimes(c, e).Ok? && Variants(c, k).value[e - 1] == KeyOf(RotateTimes(c, e).value)
    decreases k
  {
    hide RotateOnce, KeyOf;
    if k > 0 {
      RotateOnceWellFormed(c);
      var d := RotateOnce(c).value;
      VariantsAt(d, k - 1);
      var ks := Variants(d, k - 1).value;
      assert Variants(c, k) == Ok([KeyOf(d)] + ks);
      forall e | 1 <= e <= k
        ensures RotateTimes(c, e).Ok? && Variants(c, k).value[e - 1] == KeyOf(RotateTimes(c, e).value)
      {
        assert RotateTimes(c, e) == RotateTimes(d, e - 1);
        if e > 1 {
          assert ks[e - 2] == KeyOf(RotateTimes(d, e - 1).value);
        }
      }
    }
  }

  /** One rotation past the strand count is one rotation. */
  lemma RotateWrap(c: Strands)
    requires WellFormed(c)
    ensures RotateTimes(c, StrandCount(c) + 1) == RotateTimes(c, 1)
  {
    RotateStrandCountTimes(c);
    RotateTimesAdd(c, StrandCount(c), 1);
  }

  /** A complex and its rotation enumerate the same keys. */
  lemma SameVariants(c: Strands)
    requires WellFormed(c)
    ensures RotateOnce(c).Ok?
    ensures var d := RotateOnce(c).value; var n := StrandCount(c);
      && StrandCount(d) == n && WellFormed(d) && Variants(c, n).Ok? && Variants(d, n).Ok?
      && forall x :: x in Variants(c, n).value <==> x in Variants(d, n).value
  {
    hide RotateOnce, KeyOf, Variants, StrandCount;
    var n := StrandCount(c);
    RotateOnceWellFormed(c);
    var d := RotateOnce(c).value;
    VariantsAt(c, n);
    VariantsAt(d, n);
    var kc := Variants(c, n).value;
    var kd := Variants(d, n).value;
    forall i | 0 <= i < n
      ensures kd[i] in kc
    {
      assert kd[i] == KeyOf(RotateTimes(d, i + 1).value);
      assert RotateTimes(c, i + 2) == RotateTimes(d, i + 1);
      if i + 2 <= n {
        assert kc[i + 1] == KeyOf(RotateTimes(c, i + 2).value);
      } else {
        RotateWrap(c);
        assert kc[0] == KeyOf(RotateTimes(c, 1).value);
      }
    }
    forall i | 0 <= i < n
      ensures kc[i] in kd
    {
      assert kc[i] == KeyOf(RotateTimes(c, i + 1).value);
      assert RotateTimes(c, i + 1) == RotateTimes(d, i);
      if i == 0 {
        RotateStrandCountTimes(d);
        assert kd[n - 1] == KeyOf(RotateTimes(d, n).value);
      } else {
        assert kd[i - 1] == KeyOf(RotateTimes(d, i).value);
      }
    }
  }

  /** The canonical key of a well-formed complex is the key of one of its
      rotations, no rotation has a smaller key, and `rotations` further
      rotations of that canonical representation give the complex back. */
  lemma CanonicalIsLeastRotation(c: Strands)
    requires WellFormed(c)
    ensures CanonicalForm(c).Ok?
    ensures var n := StrandCount(c); var cf := CanonicalForm(c).value;
      && cf.rotations < n
      && RotateTimes(c, n - cf.rotations).Ok?
      && KeyOf(RotateTimes(c, n - cf.rotations).value) == cf.key
      && (forall e :: 1 <= e <= n ==> RotateTimes(c, e).Ok? && !KeyLess(KeyOf(RotateTimes(c, e).value), cf.key))
      && (forall e :: 1 <= e < n - cf.rotations ==> KeyOf(RotateTimes(c, e).value) != cf.key)
  {
    hide RotateOnce, RotateTimes, KeyOf, KeyLess, Variants, StrandCount, FirstIndex, Least;
    var n := StrandCount(c);
    VariantsAt(c, n);
    var ks := Variants(c, n).value;
    KeyLessOrder();
    LeastIsLeast(ks, KeyLess);
    var key := Least(ks, KeyLess);
    var p := FirstIndex(ks, key);
    assert CanonicalForm(c) == Ok(Canon(key, n - (p + 1)));
    forall e | 1 <= e <= n
      ensures RotateTimes(c, e).Ok? && !KeyLess(KeyOf(RotateTimes(c, e).value), key)
    {
      assert ks[e - 1] in ks;
    }
    forall e | 1 <= e < p + 1
      ensures KeyOf(RotateTimes(c, e).value) != key
    {
      assert ks[e - 1] != key;
    }
    assert KeyOf(RotateTimes(c, p + 1).value) == key;
  }

  /** `rotations` further rotations of the canonical representation give
      the complex back. */
  lemma CanonicalRotatesBack(c: Strands)
    requires WellFormed(c)
    ensures CanonicalForm(c).Ok?
    ensures var n := StrandCount(c); var cf := CanonicalForm(c).value;
      && cf.rotations < n
      && ReturnsAfter(c, n - cf.rotations, cf.rotations)
  {
    hide RotateOnce, RotateTimes, CanonicalForm, StrandCount;
    CanonicalIsLeastRotation(c);
    var n := StrandCount(c);
    var r := CanonicalForm(c).value.rotations;
    RotateStrandCountTimes(c);
    RotateTimesAdd(c, n - r, r);
  }

  /** The canonical key is the least enumerated key. */
  lemma CanonicalKeyIsLeast(c: Strands)
    requires WellFormed(c)
    ensures Variants(c, StrandCount(c)).Ok? && CanonicalForm(c).Ok?
    ensures CanonicalForm(c).value.key == Least(Variants(c, StrandCount(c)).value, KeyLess)
  {
    hide RotateOnce, RotateTimes, KeyOf, KeyLess, Variants, StrandCount, FirstIndex, Least;
    VariantsAt(c, StrandCount(c));
  }

  /** One rotation keeps the canonical key. */
  lemma RotateOnceKeepsKey(c: Strands)
    requires WellFormed(c)
    ensures RotateOnce(c).Ok? && WellFormed(RotateOnce(c).value)
    ensures var d := RotateOnce(c).value;
      CanonicalForm(c).Ok? && CanonicalForm(d).Ok? && CanonicalForm(d).value.key == CanonicalForm(c).value.key
  {
    hide RotateOnce, RotateTimes, KeyOf, KeyLess, Variants, StrandCount, FirstIndex, Least, CanonicalForm;
    SameVariants(c);
    var d := RotateOnce(c).value;
    var n := StrandCount(c);
    CanonicalKeyIsLeast(c);
    CanonicalKeyIsLeast(d);
    KeyLessOrder();
    LeastOfSameElements(Variants(c, n).value, Variants(d, n).value, KeyLess);
  }

  /** Every rotation of a well-formed complex has the same canonical key. */
  lemma {:induction false} CanonicalRotationInvariant(c: Strands, k: nat)
    requires WellFormed(c)
    ensures RotateTimes(c, k).Ok?
    ensures var d := RotateTimes(c, k).value;
      CanonicalForm(d).Ok? && CanonicalForm(c).Ok? && CanonicalForm(d).value.key == CanonicalForm(c).value.key
    decreases k
  {
    hide RotateOnce, CanonicalForm;
    CanonicalKeyIsLeast(c);
    if k > 0 {
      RotateOnceKeepsKey(c);
      CanonicalRotationInvariant(RotateOnce(c).value, k - 1);
    }
  }

  /** A complex equals every rotation of itself. */
  lemma EqualToRotation(c: Strands, k: nat)
    requires WellFormed(c)
    ensures RotateTimes(c, k).Ok? && Equal(c, RotateTimes(c, k).value)
  {
    CanonicalRotationInvariant(c, k);
  }
}

=== FILE: complex_views.dfy ===
/** Read-only views of a complex: its strands (`lol_sequence`) and their
    number (`size`), the domain at a locus (`get_domain`), the map of loci
    between rotations (`rotate_pairtable_loc`), the kernel notation
    (`kernel_string`) and the pairing sanity check
    (`is_domainlevel_complement`) with what it leaves in the domain
    registry. */
module ComplexViews {
  import opened Results
  import opened Layout
  import opened Rotation
  import opened Brackets
  import opened PairTables
  import Domains

  /** `lol_sequence`: the strands, without the breaks. */
  function StrandsOf(c: Strands): (P: seq<seq<string>>)
    ensures |P| > 0
  {
    Pieces(c.sequence, Break)
  }

  /** `size`: the number of strands. */
  function Size(c: Strands): nat {
    |StrandsOf(c)|
  }

  /** `get_domain(loc)`: a locus outside the strands is an index error. */
  function GetDomain(c: Strands, loc: Loc): Result<string> {
    var P := StrandsOf(c);
    if loc.0 < |P| && loc.1 < |P[loc.0]| then Ok(P[loc.0][loc.1]) else Err(Structure)
  }

  // ---------------------------------------------------------------------
  // Strands under rotation

  /** One piece more than there are markers. */
  lemma {:induction false} PiecesCount<T>(s: seq<T>, b: T)
    ensures |Pieces(s, b)| == multiset(s)[b] + 1
    decreases |s|
  {
    if b in s {
      var p := FirstIndex(s, b);
      PiecesCount(s[p + 1..], b);
      assert s == s[..p] + [b] + s[p + 1..];
      assert b !in s[..p];
    } else {
      assert multiset(s)[b] == 0;
    }
  }

  /** `size` counts the strands the same way the rotation does. */
  lemma SizeIsStrandCount(c: Strands)
    ensures Size(c) == StrandCount(c)
  {
    PiecesCount(c.sequence, Break);
  }

  /** The pieces of two lists joined at a marker are the pieces of each. */
  lemma {:induction false} PiecesConcat<T>(x: seq<T>, b: T, y: seq<T>)
    ensures Pieces(x + [b] + y, b) == Pieces(x, b) + Pieces(y, b)
    decreases |y|
  {
    hide Pieces;
    if |y| == 0 {
      PiecesConcatEmpty(x, b);
      assert x + [b] + y == x + [b];
    } else {
      PiecesConcat(x, b, y[..|y| - 1]);
      PiecesConcatStep(x, b, y[..|y| - 1], y[|y| - 1]);
      assert y == y[..|y| - 1] + [y[|y| - 1]];
    }
  }

  lemma PiecesConcatEmpty<T>(x: seq<T>, b: T)
    ensures Pieces(x + [b], b) == Pieces(x, b) + Pieces([], b)
  {
    PiecesSnoc(x, b, b);
    assert Pieces([], b) == [[]];
  }

  /** One more element at the end of `y`, given the pieces without it. */
  lemma PiecesConcatStep<T>(x: seq<T>, b: T, y: seq<T>, z: T)
    requires Pieces(x + [b] + y, b) == Pieces(x, b) + Pieces(y, b)
    ensures Pieces(x + [b] + (y + [z]), b) == Pieces(x, b) + Pieces(y + [z], b)
  {
    hide Pieces, Extend;
    assert x + [b] + (y + [z]) == (x + [b] + y) + [z];
    PiecesSnoc(x + [b] + y, b, z);
    PiecesSnoc(y, b, z);
    if z != b {
      ExtendConcat(Pieces(x, b), Pieces(y, b), z);
    }
  }

  lemma ExtendConcat<T>(A: seq<seq<T>>, B: seq<seq<T>>, z: T)
    requires |B| > 0
    ensures Extend(A + B, z) == A + Extend(B, z)
  {
    assert (A + B)[..|A + B| - 1] == A + B[..|B| - 1];
  }

  /** `R` is `P` turned `k` places to the left. */
  ghost predicate TurnedLeft<T>(R: seq<T>, P: seq<T>, k: nat) {
    |R| == |P| > 0 && forall i :: 0 <= i < |R| ==> R[i] == P[(i + k) % |P|]
  }

  /** A rotation moves the first strand to the end. */
  lemma RotateOnceStrands(c: Strands)
    requires |c.sequence| == |c.structure| && RotateOnce(c).Ok?
    ensures TurnedLeft(StrandsOf(RotateOnce(c).value), StrandsOf(c), 1)
  {
    var P := StrandsOf(c);
    var R := StrandsOf(RotateOnce(c).value);
    if Break in c.sequence {
      RotateOnceSequencePieces(c);
      forall i | 0 <= i < |R|
        ensures R[i] == P[(i + 1) % |P|]
      {
        if i + 1 < |P| {
          ModUnique(i + 1, |P|, 0, i + 1);
        } else {
          ModUnique(i + 1, |P|, 1, 0);
        }
      }
    } else {
      assert R == P && |P| == 1;
      forall i | 0 <= i < |R|
        ensures R[i] == P[(i + 1) % |P|]
      {
        ModUnique(i + 1, |P|, 1, 0);
      }
    }
  }

  lemma RotateOnceSequencePieces(c: Strands)
    requires |c.sequence| == |c.structure| && RotateOnce(c).Ok? && Break in c.sequence
    ensures var P := StrandsOf(c); StrandsOf(RotateOnce(c).value) == P[1..] + [P[0]]
  {
    hide RotateOnce, FirstIndex;
    var s := c.sequence;
    var p := FirstIndex(s, Break);
    RotateOnceSequence(c);
    PiecesConcat(s[p + 1..], Break, s[..p]);
    assert Break !in s[..p];
    PiecesCons(s, Break);
  }

  /** Division with remainder has one answer. */
  lemma ModUnique(a: int, n: int, q: int, r: int)
    requires n > 0 && 0 <= r < n && a == q * n + r
    ensures a % n == r && a / n == q
  {
    var q', r' := a / n, a % n;
    assert a == q' * n + r';
    var d := q - q';
    assert d * n == r' - r by {
      assert d * n == q * n - q' * n;
    }
    if d >= 1 {
      MulAtLeast(d, n);
    } else if d <= -1 {
      MulAtLeast(-d, n);
    }
  }

  lemma MulAtLeast(x: int, n: int)
    requires x >= 1 && n > 0
    ensures x * n >= n
  {
    assert x * n == (x - 1) * n + n;
    assert (x - 1) * n >= 0;
  }

  lemma ModSucc(a: nat, n: nat)
    requires n > 0
    ensures (a % n + 1) % n == (a + 1) % n
  {
    var q, r := a / n, a % n;
    assert a == q * n + r;
    if r + 1 < n {
      ModUnique(a + 1, n, q, r + 1);
      ModUnique(r + 1, n, 0, r + 1);
    } else {
      assert a + 1 == (q + 1) * n + 0;
      ModUnique(a + 1, n, q + 1, 0);
      ModUnique(r + 1, n, 1, 0);
    }
  }

  /** After `k` rotations, strand `i` is the original strand `(i + k) mod
      size`. */
  lemma {:induction false} RotateTimesStrands(c: Strands, k: nat)
    requires |c.sequence| == |c.structure| && RotateTimes(c, k).Ok?
    ensures TurnedLeft(StrandsOf(RotateTimes(c, k).value), StrandsOf(c), k)
    decreases k
  {
    hide RotateOnce, StrandsOf;
    var P := StrandsOf(c);
    var R := StrandsOf(RotateTimes(c, k).value);
    if k == 0 {
      assert RotateTimes(c, 0) == Ok(c);
      forall i | 0 <= i < |R|
        ensures R[i] == P[(i + k) % |P|]
      {
        ModUnique(i, |P|, 0, i);
      }
    } else {
      var c1 := RotateOnce(c).value;
      RotateOnceStrands(c);
      RotateTimesStrands(c1, k - 1);
      var P1 := StrandsOf(c1);
      assert RotateTimes(c, k) == RotateTimes(c1, k - 1);
      forall i | 0 <= i < |R|
        ensures R[i] == P[(i + k) % |P|]
      {
        assert R[i] == P1[(i + (k - 1)) % |P|];
        ModSucc(i + k - 1, |P|);
      }
    }
  }

  // ---------------------------------------------------------------------
  // rotate_pairtable_loc

  /** `rotate_pairtable_loc(loc, n)`: the strand index moved by `n` (by
      default a full turn), wrapped into the strands; the position within
      the strand stays. */
  function RotateLoc(c: Strands, loc: Loc, n: Option<int>): (r: Loc)
    ensures r.0 < Size(c) && r.1 == loc.1
  {
    var m := if n.None? then Size(c) else n.value;
    (Wrap(loc.0 + m, Size(c)), loc.1)
  }

  /** A locus of the complex rotated `k` times holds the same domain as the
      locus `rotate_pairtable_loc` maps it to in the complex itself. */
  lemma RotateLocTracksRotation(c: Strands, k: nat, loc: Loc)
    requires |c.sequence| == |c.structure| && RotateTimes(c, k).Ok?
    requires GetDomain(RotateTimes(c, k).value, loc).Ok?
    ensures GetDomain(c, RotateLoc(c, loc, Some(k))) == GetDomain(RotateTimes(c, k).value, loc)
  {
    hide RotateTimes, RotateOnce, Pieces;
    RotateTimesStrands(c, k);
    var P := StrandsOf(c);
    var R := StrandsOf(RotateTimes(c, k).value);
    assert R[loc.0] == P[(loc.0 + k) % |P|];
  }

  /** Moving by `n` and then by `-n` gives every locus of the complex back,
      and so does the default full turn. */
  lemma RotateLocInverse(c: Strands, loc: Loc, n: int)
    requires loc.0 < Size(c)
    ensures RotateLoc(c, RotateLoc(c, loc, Some(n)), Some(-n)) == loc
    ensures RotateLoc(c, loc, None) == loc
  {
    var m := Size(c);
    var a := loc.0 + n;
    var w := Wrap(a, m);
    var q := a / m;
    assert a == q * m + w;
    assert w - n == loc.0 - q * m;
    assert w + -n == loc.0 + (-q) * m;
    ShiftModMultiple(loc.0, -q, m);
    assert loc.0 + m == loc.0 + 1 * m;
    ShiftModMultiple(loc.0, 1, m);
  }

  lemma ShiftModMultiple(x: nat, q: int, m: nat)
    requires m > 0 && x < m
    ensures (x + q * m) % m == x
  {
    ModUnique(x + q * m, m, q, x);
  }

  // ---------------------------------------------------------------------
  // kernel_string

  /** The word of one position: a break or a close is written bare, an open
      as the domain followed by `(`, anything else as the domain alone. */
  function KernelWord(name: string, ch: char): string {
    if ch == '+' then "+"
    else if ch == ')' then ")"
    else if ch == '(' then name + "("
    else name
  }

  /** `kernel_string`: every position's word followed by a space. */
  function KernelString(sequence: seq<string>, structure: seq<char>): (k: string)
    requires |sequence| == |structure|
    ensures |sequence| > 0 ==> |k| > 0 && k[|k| - 1] == ' '
    ensures multiset(k)[' '] >= |sequence|
  {
    if |sequence| == 0 then ""
    else KernelWord(sequence[0], structure[0]) + " " + KernelString(sequence[1..], structure[1..])
  }

  function KernelWords(sequence: seq<string>, structure: seq<char>): (ws: seq<string>)
    requires |sequence| == |structure|
    ensures |ws| == |sequence|
  {
    seq(|sequence|, i requires 0 <= i < |sequence| => KernelWord(sequence[i], structure[i]))
  }

  /** What one word reads back as: its structure character and, where the
      word shows one, its domain. */
  function ReadWord(w: string): (char, Option<string>) {
    if w == "+" then ('+', None)
    else if w == ")" then (')', None)
    else if |w| > 0 && w[|w| - 1] == '(' then ('(', Some(w[..|w| - 1]))
    else ('.', Some(w))
  }

  /** Reads kernel notation back: space-terminated words, each giving one
      position's structure character and domain. */
  function ReadKernel(k: string): (r: Result<(seq<char>, seq<Option<string>>)>)
    ensures r.Ok? ==> |r.value.0| == |r.value.1|
  {
    var P := Pieces(k, ' ');
    if P[|P| - 1] != "" then Err(Format)
    else
      var ws := P[..|P| - 1];
      Ok((seq(|ws|, i requires 0 <= i < |ws| => ReadWord(ws[i]).0),
          seq(|ws|, i requires 0 <= i < |ws| => ReadWord(ws[i]).1)))
  }

  /** A domain name kernel notation can carry: no space, and not mistakable
      for a break, a close or an open. */
  predicate KernelSafe(name: string) {
    ' ' !in name && name != "+" && name != ")" && (|name| == 0 || name[|name| - 1] != '(')
  }

  /** The structure character kernel notation keeps: brackets and breaks as
      they are, anything else as a dot. */
  function KernelChar(ch: char): char {
    if ch == '+' || ch == '(' || ch == ')' then ch else '.'
  }

  lemma {:induction false} KernelStringJoined(sequence: seq<string>, structure: seq<char>)
    requires |sequence| == |structure|
    ensures KernelString(sequence, structure) == Joined(KernelWords(sequence, structure) + [""], ' ')
    decreases |sequence|
  {
    hide KernelWord, KernelString, KernelWords;
    var ws := KernelWords(sequence, structure);
    var L := ws + [""];
    if |sequence| == 0 {
      KernelStringNil(sequence, structure);
      assert L == [""];
    } else {
      KernelStringStep(sequence, structure);
      KernelStringJoined(sequence[1..], structure[1..]);
      assert L[1..] == ws[1..] + [""];
      assert Joined(L, ' ') == L[0] + [' '] + Joined(L[1..], ' ');
    }
  }

  lemma KernelStringNil(sequence: seq<string>, structure: seq<char>)
    requires |sequence| == |structure| == 0
    ensures KernelString(sequence, structure) == ""
  {
  }

  /** The kernel string is the first word, a space, and the kernel string of
      the rest. */
  lemma KernelStringStep(sequence: seq<string>, structure: seq<char>)
    requires |sequence| == |structure| > 0
    ensures var ws := KernelWords(sequence, structure);
      && KernelString(sequence, structure) == ws[0] + " " + KernelString(sequence[1..], structure[1..])
      && KernelWords(sequence[1..], structure[1..]) == ws[1..]
  {
    hide KernelWord, KernelString;
    KernelStringFirst(sequence, structure);
    var ws := KernelWords(sequence, structure);
    var ws' := KernelWords(sequence[1..], structure[1..]);
    assert |ws'| == |ws[1..]|;
    forall i | 0 <= i < |ws'|
      ensures ws'[i] == ws[1..][i]
    {
      assert sequence[1..][i] == sequence[i + 1] && structure[1..][i] == structure[i + 1];
    }
  }

  lemma KernelStringFirst(sequence: seq<string>, structure: seq<char>)
    requires |sequence| == |structure| > 0
    ensures KernelString(sequence, structure) ==
      KernelWord(sequence[0], structure[0]) + " " + KernelString(sequence[1..], structure[1..])
  {
    hide KernelWord;
  }

  /** Kernel notation loses nothing but the domains of closes and breaks:
      reading it back gives every position's structure character (other
      characters as dots) and the domain of every other position. */
  lemma KernelRoundTrip(sequence: seq<string>, structure: seq<char>)
    requires |sequence| == |structure|
    requires forall i :: 0 <= i < |sequence| ==> KernelSafe(sequence[i])
    ensures var r := ReadKernel(KernelString(sequence, structure));
      && r.Ok? && |r.value.0| == |structure|
      && (forall i :: 0 <= i < |structure| ==> r.value.0[i] == KernelChar(structure[i]))
      && (forall i :: 0 <= i < |structure| ==>
            r.value.1[i] == if structure[i] == '+' || structure[i] == ')' then None else Some(sequence[i]))
  {
    hide KernelString, Pieces, KernelWord, ReadWord;
    var ws := KernelWords(sequence, structure);
    KernelPieces(sequence, structure);
    assert (ws + [""])[..|ws|] == ws;
    forall i | 0 <= i < |ws|
      ensures ReadWord(ws[i]) == (KernelChar(structure[i]),
                                  if structure[i] == '+' || structure[i] == ')' then None else Some(sequence[i]))
    {
      ReadWordOf(sequence[i], structure[i]);
    }
  }

  /** The kernel string splits at its spaces into the words, then the empty
      piece after the last space. */
  lemma KernelPieces(sequence: seq<string>, structure: seq<char>)
    requires |sequence| == |structure|
    requires forall i :: 0 <= i < |sequence| ==> KernelSafe(sequence[i])
    ensures Pieces(KernelString(sequence, structure), ' ') == KernelWords(sequence, structure) + [""]
  {
    hide KernelString;
    var ws := KernelWords(sequence, structure);
    KernelStringJoined(sequence, structure);
    forall i | 0 <= i < |ws + [""]|
      ensures ' ' !in (ws + [""])[i]
    {
      if i < |ws| {
        var ch := structure[i];
        if ch == '(' {
          assert ws[i] == sequence[i] + "(";
        }
      }
    }
    PiecesJoined(ws + [""], ' ');
  }

  /** One word reads back as its structure character and, unless it is a
      break or a close, its domain. */
  lemma ReadWordOf(nm: string, ch: char)
    requires KernelSafe(nm)
    ensures ReadWord(KernelWord(nm, ch)) == (KernelChar(ch), if ch == '+' || ch == ')' then None else Some(nm))
  {
    if ch == '(' {
      assert KernelWord(nm, ch)[..|KernelWord(nm, ch)| - 1] == nm;
    }
  }

  // ---------------------------------------------------------------------
  // is_domainlevel_complement

  /** Domain `d` pairs with domain `o` as a LogicDomain sees it: the
      complement name of `o` (an empty name has none of its last character
      to strip, and toggles to `*`) is registered, and `d` is that
      registered domain (domains are the registry's objects, so identity is
      the name). A complement that `~` has to create is a new object, which
      no domain of the complex is. */
  predicate Complementary(mem: Domains.DomainMemory, d: string, o: string) {
    Domains.Toggle(o) in mem && d == Domains.Toggle(o)
  }

  /** The check at one locus of the pair table. */
  function CheckLocus(mem: Domains.DomainMemory, c: Strands, loc: Loc, e: Option<Loc>): (r: Result<bool>)
    ensures r.Ok? ==> r.value
    ensures r.Ok? <==> e.None? || (GetDomain(c, loc).Ok? && GetDomain(c, e.value).Ok?
                                   && Complementary(mem, GetDomain(c, loc).value, GetDomain(c, e.value).value))
  {
    match e
    case None => Ok(true)
    case Some(cloc) =>
      match GetDomain(c, loc)
      case Err(f) => Err(f)
      case Ok(d) =>
        match GetDomain(c, cloc)
        case Err(f) => Err(f)
        case Ok(o) =>
          if Domains.Toggle(o) !in mem || d != Domains.Toggle(o) then Err(Structure)
          else Ok(true)
  }

  function CheckRow(mem: Domains.DomainMemory, c: Strands, pt: PairTable, si: nat, di: nat): (r: Result<bool>)
    requires si < |pt| && di <= |pt[si]|
    ensures r.Ok? ==> r.value
    ensures r.Ok? <==> forall j :: di <= j < |pt[si]| ==> CheckLocus(mem, c, (si, j), pt[si][j]).Ok?
    decreases |pt[si]| - di
  {
    if di == |pt[si]| then Ok(true)
    else
      match CheckLocus(mem, c, (si, di), pt[si][di])
      case Err(f) => Err(f)
      case Ok(_) => CheckRow(mem, c, pt, si, di + 1)
  }

  function CheckRows(mem: Domains.DomainMemory, c: Strands, pt: PairTable, si: nat): (r: Result<bool>)
    requires si <= |pt|
    ensures r.Ok? ==> r.value
    ensures r.Ok? <==> forall i, j :: si <= i < |pt| && 0 <= j < |pt[i]| ==> CheckLocus(mem, c, (i, j), pt[i][j]).Ok?
    decreases |pt| - si
  {
    if si == |pt| then Ok(true)
    else
      match CheckRow(mem, c, pt, si, 0)
      case Err(f) => Err(f)
      case Ok(_) => CheckRows(mem, c, pt, si + 1)
  }

  /** `is_domainlevel_complement`: true, or an error at the first paired
      locus whose domain is not the complement of its partner's. */
  function DomainLevelComplement(mem: Domains.DomainMemory, c: Strands): (r: Result<bool>)
    ensures r.Ok? ==> r.value
  {
    match MakePairTable(c.structure, '+')
    case Err(f) => Err(f)
    case Ok(pt) => CheckRows(mem, c, pt, 0)
  }

  // ---------------------------------------------------------------------
  // What the check leaves in the domain registry

  /** The registry after the check at one locus: the domain of the locus is
      looked up first, then its partner's, and `~` on the partner, when its
      complement is missing, registers a LogicDomain under the complement
      name with the partner's class and length. */
  function LocusDomains(mem: Domains.DomainMemory, c: Strands, loc: Loc, e: Option<Loc>): Domains.DomainMemory {
    match e
    case None => mem
    case Some(cloc) =>
      if GetDomain(c, loc).Err? || GetDomain(c, cloc).Err? then mem
      else
        var o := GetDomain(c, cloc).value;
        if Domains.Toggle(o) in mem || o !in mem then mem
        else Domains.NewLogicDomain(mem, Domains.Toggle(o), Some(mem[o].dtype), Some(mem[o].length)).0
  }

  function RowDomains(mem: Domains.DomainMemory, c: Strands, pt: PairTable, si: nat, di: nat): Domains.DomainMemory
    requires si < |pt| && di <= |pt[si]|
    decreases |pt[si]| - di
  {
    if di == |pt[si]| then mem
    else if CheckLocus(mem, c, (si, di), pt[si][di]).Err? then LocusDomains(mem, c, (si, di), pt[si][di])
    else RowDomains(mem, c, pt, si, di + 1)
  }

  function RowsDomains(mem: Domains.DomainMemory, c: Strands, pt: PairTable, si: nat): Domains.DomainMemory
    requires si <= |pt|
    decreases |pt| - si
  {
    if si == |pt| then mem
    else if CheckRow(mem, c, pt, si, 0).Err? then RowDomains(mem, c, pt, si, 0)
    else RowsDomains(mem, c, pt, si + 1)
  }

  /** `DL_Domain.MEMORY` after `is_domainlevel_complement`: the check stops
      at the first locus that fails, and only there can `~` have registered
      a complement. */
  function CheckedDomains(mem: Domains.DomainMemory, c: Strands): Domains.DomainMemory {
    match MakePairTable(c.structure, '+')
    case Err(_) => mem
    case Ok(pt) => RowsDomains(mem, c, pt, 0)
  }

  /** The registry gains at most the complement of one registered partner,
      under the complement name, with the partner's class and length. */
  ghost predicate AddsComplement(mem: Domains.DomainMemory, mem': Domains.DomainMemory) {
    || mem' == mem
    || exists o :: o in mem && Domains.Toggle(o) !in mem
                   && Domains.ResolveShape(Some(mem[o].dtype), Some(mem[o].length)).Ok?
                   && var (t, n) := Domains.ResolveShape(Some(mem[o].dtype), Some(mem[o].length)).value;
                      mem' == mem[Domains.Toggle(o) := Domains.Domain(Domains.Toggle(o), t, n)]
  }

  lemma LocusDomainsAdds(mem: Domains.DomainMemory, c: Strands, loc: Loc, e: Option<Loc>)
    ensures AddsComplement(mem, LocusDomains(mem, c, loc, e))
    ensures CheckLocus(mem, c, loc, e).Ok? ==> LocusDomains(mem, c, loc, e) == mem
  {
  }

  lemma {:induction false} RowDomainsAdds(mem: Domains.DomainMemory, c: Strands, pt: PairTable, si: nat, di: nat)
    requires si < |pt| && di <= |pt[si]|
    ensures AddsComplement(mem, RowDomains(mem, c, pt, si, di))
    ensures CheckRow(mem, c, pt, si, di).Ok? ==> RowDomains(mem, c, pt, si, di) == mem
    decreases |pt[si]| - di
  {
    if di < |pt[si]| {
      if CheckLocus(mem, c, (si, di), pt[si][di]).Err? {
        LocusDomainsAdds(mem, c, (si, di), pt[si][di]);
      } else {
        RowDomainsAdds(mem, c, pt, si, di + 1);
      }
    }
  }

  lemma {:induction false} RowsDomainsAdds(mem: Domains.DomainMemory, c: Strands, pt: PairTable, si: nat)
    requires si <= |pt|
    ensures AddsComplement(mem, RowsDomains(mem, c, pt, si))
    ensures CheckRows(mem, c, pt, si).Ok? ==> RowsDomains(mem, c, pt, si) == mem
    decreases |pt| - si
  {
    if si < |pt| {
      if CheckRow(mem, c, pt, si, 0).Err? {
        RowDomainsAdds(mem, c, pt, si, 0);
      } else {
        RowsDomainsAdds(mem, c, pt, si + 1);
      }
    }
  }

  /** A check that passes leaves the registry as it was; one that fails has
      added at most the complement of one registered partner. On a coherent
      registry that is a domain of the partner's own class and length, and
      the registry stays coherent. */
  lemma CheckedDomainsSpec(mem: Domains.DomainMemory, c: Strands)
    ensures DomainLevelComplement(mem, c).Ok? ==> CheckedDomains(mem, c) == mem
    ensures AddsComplement(mem, CheckedDomains(mem, c))
    ensures Domains.Coherent(mem) ==>
      && Domains.Coherent(CheckedDomains(mem, c))
      && (CheckedDomains(mem, c) == mem
          || exists o :: o in mem && Domains.Toggle(o) !in mem
                         && CheckedDomains(mem, c) == mem[Domains.Toggle(o) := Domains.Domain(Domains.Toggle(o), mem[o].dtype, mem[o].length)])
  {
    if MakePairTable(c.structure, '+').Ok? {
      RowsDomainsAdds(mem, c, MakePairTable(c.structure, '+').value, 0);
    }
    var mem' := CheckedDomains(mem, c);
    if Domains.Coherent(mem) && mem' != mem {
      var o :| o in mem && Domains.Toggle(o) !in mem
               && Domains.ResolveShape(Some(mem[o].dtype), Some(mem[o].length)).Ok?
               && var (t, n) := Domains.ResolveShape(Some(mem[o].dtype), Some(mem[o].length)).value;
                  mem' == mem[Domains.Toggle(o) := Domains.Domain(Domains.Toggle(o), t, n)];
      Domains.ResolveShapeFixed(Some(mem[o].dtype), Some(mem[o].length));
      assert Domains.Valid(mem[o]);
    }
  }

  /** Every bracket pair of the flat structure joins complementary domains. */
  ghost predicate PairsComplementary(mem: Domains.DomainMemory, c: Strands, M: seq<Option<nat>>) {
    forall k :: 0 <= k < |M| && M[k].Some? && k < |c.sequence| && M[k].value < |c.sequence| ==>
      Complementary(mem, c.sequence[k], c.sequence[M[k].value])
  }

  /** On a well-formed complex, the check passes exactly when its structure
      holds only dots, brackets and breaks and every bracket pair of the flat
      structure joins a domain with the registered complement of its
      partner. */
  lemma DomainLevelComplementFlat(mem: Domains.DomainMemory, c: Strands)
    requires WellFormed(c)
    ensures Partners(c.structure).Ok?
    ensures DomainLevelComplement(mem, c).Ok? <==>
      DotParens(c.structure, '+') && PairsComplementary(mem, c, Partners(c.structure).value)
  {
    var t := c.structure;
    if DotParens(t, '+') {
      var pt := MakePairTable(t, '+').value;
      var M := Partners(t).value;
      if DomainLevelComplement(mem, c).Ok? {
        forall k | 0 <= k < |M| && M[k].Some? && k < |c.sequence| && M[k].value < |c.sequence|
          ensures Complementary(mem, c.sequence[k], c.sequence[M[k].value])
        {
          FlatPairChecked(mem, c, k);
        }
      } else {
        var i, j :| 0 <= i < |pt| && 0 <= j < |pt[i]| && !CheckLocus(mem, c, (i, j), pt[i][j]).Ok?;
        LocusPairFlat(mem, c, i, j);
      }
    }
  }

  /** Where loci and flat positions meet: the flat position of a locus of the
      structure's pieces holds that locus's domain. */
  lemma DomainAtOffset(c: Strands, si: nat, di: nat)
    requires WellFormed(c)
    requires si < |Pieces(c.structure, '+')| && di < |Pieces(c.structure, '+')[si]|
    ensures var k := Offset(Pieces(c.structure, '+'), si) + di;
      k < |c.sequence| && GetDomain(c, (si, di)) == Ok(c.sequence[k])
  {
    hide Pieces, Joined, Offset;
    var P := Pieces(c.structure, '+');
    var Q := StrandsOf(c);
    PiecesSameShape(c.sequence, Break, c.structure, '+');
    OffsetSameShape(Q, P, si);
    JoinedPieces(c.sequence, Break);
    JoinedAt(Q, Break, si);
  }

  /** A failing locus is a flat pair whose domains do not pair. */
  lemma LocusPairFlat(mem: Domains.DomainMemory, c: Strands, si: nat, di: nat)
    requires WellFormed(c) && DotParens(c.structure, '+')
    requires var pt := MakePairTable(c.structure, '+').value;
      si < |pt| && di < |pt[si]| && !CheckLocus(mem, c, (si, di), pt[si][di]).Ok?
    ensures !PairsComplementary(mem, c, Partners(c.structure).value)
  {
    hide MakePairTable, Partners, Pieces, Joined, Offset, LocOf, CheckLocus, GetDomain;
    var t := c.structure;
    var P := Pieces(t, '+');
    var M := Partners(t).value;
    var pt := MakePairTable(t, '+').value;
    JoinedPieces(t, '+');
    EntryAt(t, '+', si, di);
    var k := Offset(P, si) + di;
    var j := M[k].value;
    assert t[j] != '+';
    LocOfInPiece(P, '+', j);
    var l := LocOf(P, j);
    DomainAtOffset(c, si, di);
    DomainAtOffset(c, l.0, l.1);
    assert !Complementary(mem, c.sequence[k], c.sequence[j]);
  }

  /** A flat pair of a passing check joins complementary domains. */
  lemma FlatPairChecked(mem: Domains.DomainMemory, c: Strands, k: nat)
    requires WellFormed(c) && DotParens(c.structure, '+') && DomainLevelComplement(mem, c).Ok?
    requires var M := Partners(c.structure).value; k < |M| && M[k].Some?
    ensures var M := Partners(c.structure).value;
      Complementary(mem, c.sequence[k], c.sequence[M[k].value])
  {
    hide MakePairTable, Partners, Pieces, Joined, Offset, LocOf, CheckLocus, GetDomain;
    var t := c.structure;
    var P := Pieces(t, '+');
    var M := Partners(t).value;
    var pt := MakePairTable(t, '+').value;
    JoinedPieces(t, '+');
    var j := M[k].value;
    assert t[k] != '+' && t[j] != '+';
    LocOfInPiece(P, '+', k);
    var loc := LocOf(P, k);
    LocOfInPiece(P, '+', j);
    var l := LocOf(P, j);
    EntryAt(t, '+', loc.0, loc.1);
    assert pt[loc.0][loc.1] == Some(l);
    assert CheckLocus(mem, c, loc, pt[loc.0][loc.1]).Ok?;
    DomainAtOffset(c, loc.0, loc.1);
    DomainAtOffset(c, l.0, l.1);
  }
}

=== FILE: complexes.dfy ===
/** The registry of complexes (`DSD_Complex.MEMORY`, `NAMES` and the naming
    counter `ID`) and what the constructor does with it: naming, the length
    check, and the memory check inside the canonical-form enumeration, which
    turns any rotation of a registered complex into that complex. */
module Complexes {
  import opened Results
  import opened Names
  import opened Rotation
  import opened Canonical

  /** A registered complex: its name, the representation it keeps after the
      enumeration has rotated it once per strand, and its canonical form. */
  datatype Entry = Entry(name: string, strands: Strands, canon: Canon)

  /** `MEMORY` (canonical key to complex), `NAMES` (name to canonical key)
      and the counter for automatic names. */
  datatype ComplexMemory = ComplexMemory(memory: map<Key, Entry>, names: map<string, Key>, id: nat)

  /** Every name leads to a registered complex. */
  ghost predicate Coherent(reg: ComplexMemory) {
    forall n :: n in reg.names ==> reg.names[n] in reg.memory
  }

  /** The name a new complex gets, and the counter after it: a given name is
      kept; otherwise the prefix must be non-empty and must not end in a
      digit, and the counter supplies the number and advances. */
  function ComplexName(name: string, prefix: string, id: nat): (r: Result<(string, nat)>)
    ensures r.Err? <==> name == "" && (prefix == "" || IsDigit(prefix[|prefix| - 1]))
    ensures r.Ok? && name != "" ==> r.value == (name, id)
    ensures r.Ok? && name == "" ==> r.value == (AutoName(prefix, id), id + 1)
  {
    if name != "" then Ok((name, id))
    else if prefix == "" then Err(Configuration)
    else if IsDigit(prefix[|prefix| - 1]) then Err(Configuration)
    else Ok((AutoName(prefix, id), id + 1))
  }

  /** A given name is kept whatever the prefix, and automatic names under
      one prefix never repeat across counter values. */
  lemma ComplexNamesFresh(name: string, prefix: string, prefix': string, id: nat, j: nat)
    ensures name != "" ==> ComplexName(name, prefix, id) == ComplexName(name, prefix', id)
    ensures ComplexName("", prefix, id).Ok? && j != id ==>
      ComplexName("", prefix, j).Ok? && ComplexName("", prefix, j).value.0 != ComplexName("", prefix, id).value.0
  {
    if ComplexName("", prefix, id).Ok? && j != id && AutoName(prefix, j) == AutoName(prefix, id) {
      AutoNameInjective(prefix, j, id);
    }
  }

  /** The memory check of `canonical_form`: rotating `k` times, the first
      rotation whose key is registered stops the enumeration; a failing
      rotation ends it with its error. */
  function FirstKnown(c: Strands, k: nat, memory: map<Key, Entry>): (r: Result<Option<Key>>)
    requires |c.sequence| == |c.structure|
    ensures r.Ok? && r.value.Some? ==> r.value.value in memory
    decreases k
  {
    if k == 0 then Ok(None)
    else
      match RotateOnce(c)
      case Err(f) => Err(f)
      case Ok(d) =>
        if KeyOf(d) in memory then Ok(Some(KeyOf(d)))
        else FirstKnown(d, k - 1, memory)
  }

  /** Against the plain enumeration: the check finds nothing exactly when no
      enumerated key is registered, and what it finds is the first
      registered key. */
  lemma {:induction false} FirstKnownSpec(c: Strands, k: nat, memory: map<Key, Entry>)
    requires |c.sequence| == |c.structure| && Variants(c, k).Ok?
    ensures var ks := Variants(c, k).value; var r := FirstKnown(c, k, memory);
      && r.Ok?
      && (r.value.None? <==> forall i :: 0 <= i < k ==> ks[i] !in memory)
      && (r.value.Some? ==> exists i :: 0 <= i < k && ks[i] == r.value.value
                                       && forall j :: 0 <= j < i ==> ks[j] !in memory)
    decreases k
  {
    hide KeyOf, FirstKnown, Variants, RotateOnce;
    if k == 0 {
      FirstKnownZero(c, memory);
    } else {
      FirstKnownUnfold(c, k, memory);
      var d := RotateOnce(c).value;
      var ks := Variants(c, k).value;
      var rest := Variants(d, k - 1).value;
      if KeyOf(d) in memory {
        assert ks[0] == KeyOf(d);
      } else {
        FirstKnownSpec(d, k - 1, memory);
        var r := FirstKnown(d, k - 1, memory);
        FirstAfterUnknown(KeyOf(d), rest, memory, r.value);
      }
    }
  }

  lemma FirstKnownZero(c: Strands, memory: map<Key, Entry>)
    requires |c.sequence| == |c.structure|
    ensures Variants(c, 0) == Ok([]) && FirstKnown(c, 0, memory) == Ok(None)
  {
  }

  /** One rotation of the enumeration and of the check. */
  lemma FirstKnownUnfold(c: Strands, k: nat, memory: map<Key, Entry>)
    requires |c.sequence| == |c.structure| && Variants(c, k).Ok? && k > 0
    ensures RotateOnce(c).Ok? && Variants(RotateOnce(c).value, k - 1).Ok?
    ensures var d := RotateOnce(c).value;
      && Variants(c, k).value == [KeyOf(d)] + Variants(d, k - 1).value
      && FirstKnown(c, k, memory) == if KeyOf(d) in memory then Ok(Some(KeyOf(d))) else FirstKnown(d, k - 1, memory)
  {
    hide KeyOf;
  }

  /** A key that is not registered, put in front, changes neither whether a
      registered key is found nor which one is first. */
  lemma FirstAfterUnknown(x: Key, rest: seq<Key>, memory: map<Key, Entry>, found: Option<Key>)
    requires x !in memory
    requires found.None? <==> forall i :: 0 <= i < |rest| ==> rest[i] !in memory
    requires found.Some? ==> exists i :: 0 <= i < |rest| && rest[i] == found.value
                                          && forall j :: 0 <= j < i ==> rest[j] !in memory
    ensures var ks := [x] + rest;
      && (found.None? <==> forall i :: 0 <= i < |ks| ==> ks[i] !in memory)
      && (found.Some? ==> exists i :: 0 <= i < |ks| && ks[i] == found.value
                                       && forall j :: 0 <= j < i ==> ks[j] !in memory)
  {
    var ks := [x] + rest;
    if found.Some? {
      var i :| 0 <= i < |rest| && rest[i] == found.value && forall j :: 0 <= j < i ==> rest[j] !in memory;
      assert ks[i + 1] == rest[i];
      var w :| 0 <= w < |rest| && rest[w] in memory;
      assert ks[w + 1] == rest[w];
      forall j | 0 <= j < i + 1
        ensures ks[j] !in memory
      {
        if j > 0 {
          assert ks[j] == rest[j - 1];
        }
      }
    } else {
      forall i | 0 <= i < |ks|
        ensures ks[i] !in memory
      {
        if i > 0 {
          assert ks[i] == rest[i - 1];
        }
      }
    }
  }

  /** When the check gets through every rotation, the plain enumeration
      does too. */
  lemma {:induction false} FirstKnownClear(c: Strands, k: nat, memory: map<Key, Entry>)
    requires |c.sequence| == |c.structure| && FirstKnown(c, k, memory) == Ok(None)
    ensures Variants(c, k).Ok?
    decreases k
  {
    if k > 0 {
      var d := RotateOnce(c).value;
      FirstKnownClear(d, k - 1, memory);
    }
  }

  /** `DSD_Complex(sequence, structure, name, prefix, memorycheck)`. In
      order: the name (the counter advances as soon as an automatic name is
      drawn, whatever happens next); a taken name is a duplication error
      carrying the complex registered under it; sequence and structure must
      be of equal length; the enumeration of rotations, which fails on an
      unbalanced bracket and, with the memory check on, stops at the first
      rotation whose key is registered; finally the complex is registered
      under its canonical key and its name. */
  function NewComplex(reg: ComplexMemory, sequence: seq<string>, structure: seq<char>,
                      name: string, prefix: string, memorycheck: bool): (out: (ComplexMemory, Made<Entry>))
    ensures !out.1.Created? ==> out.0.memory == reg.memory && out.0.names == reg.names
    ensures ComplexName(name, prefix, reg.id).Err? ==> out == (reg, Failed(Configuration))
    ensures ComplexName(name, prefix, reg.id).Ok? ==> out.0.id == ComplexName(name, prefix, reg.id).value.1
    ensures out.1.Existing? ==> exists k :: k in reg.memory && reg.memory[k] == out.1.value
    ensures out.1.Created? ==>
      var nm := ComplexName(name, prefix, reg.id).value.0;
      var e := out.1.value;
      && |sequence| == |structure| && nm !in reg.names && e.name == nm
      && CanonicalForm(Strands(sequence, structure)) == Ok(e.canon)
      && out.0.memory == reg.memory[e.canon.key := e]
      && out.0.names == reg.names[nm := e.canon.key]
  {
    match ComplexName(name, prefix, reg.id)
    case Err(f) => (reg, Failed(f))
    case Ok((nm, id')) =>
      var reg1 := reg.(id := id');
      if nm in reg.names then
        if reg.names[nm] in reg.memory then (reg1, Existing(reg.memory[reg.names[nm]]))
        else (reg1, Failed(MissingReferent))
      else if |sequence| != |structure| then (reg1, Failed(Configuration))
      else
        var c := Strands(sequence, structure);
        var n := StrandCount(c);
        var found := if memorycheck then FirstKnown(c, n, reg.memory) else Ok(None);
        match found
        case Err(f) => (reg1, Failed(f))
        case Ok(Some(k)) => (reg1, Existing(reg.memory[k]))
        case Ok(None) =>
          match CanonicalForm(c)
          case Err(f) => (reg1, Failed(f))
          case Ok(cf) =>
            VariantsRotate(c, n);
            var e := Entry(nm, RotateTimes(c, n).value, cf);
            (reg1.(memory := reg.memory[cf.key := e], names := reg.names[nm := cf.key]), Created(e))
  }

  /** A successful enumeration of `k` rotations means `k` rotations
      succeed. */
  lemma {:induction false} VariantsRotate(c: Strands, k: nat)
    requires |c.sequence| == |c.structure| && Variants(c, k).Ok?
    ensures RotateTimes(c, k).Ok?
    decreases k
  {
    if k > 0 {
      VariantsRotate(RotateOnce(c).value, k - 1);
    }
  }

  /** Registering keeps every name leading to a registered complex. */
  lemma NewComplexCoherent(reg: ComplexMemory, sequence: seq<string>, structure: seq<char>,
                           name: string, prefix: string, memorycheck: bool)
    requires Coherent(reg)
    ensures Coherent(NewComplex(reg, sequence, structure, name, prefix, memorycheck).0)
  {
    hide NewComplex;
  }

  /** For a well-formed complex, a new entry keeps the complex exactly as
      given (the enumeration rotates it once per strand, which is the
      identity), and with the memory check on, none of its rotations' keys was
      registered before. */
  lemma NewComplexWellFormed(reg: ComplexMemory, c: Strands, name: string, prefix: string, memorycheck: bool)
    requires WellFormed(c)
    ensures var out := NewComplex(reg, c.sequence, c.structure, name, prefix, memorycheck);
      out.1.Created? ==>
        && out.1.value.strands == c
        && (memorycheck ==> forall x :: x in Variants(c, StrandCount(c)).value ==> x !in reg.memory)
  {
    hide RotateOnce, RotateTimes, CanonicalForm, FirstKnown, StrandCount, Variants;
    var n := StrandCount(c);
    RotateStrandCountTimes(c);
    VariantsAt(c, n);
    var out := NewComplex(reg, c.sequence, c.structure, name, prefix, memorycheck);
    if out.1.Created? && memorycheck {
      FirstKnownSpec(c, n, reg.memory);
    }
  }

  /** All rotations of a well-formed complex enumerate the same keys. */
  lemma {:induction false} VariantsSameSet(c: Strands, k: nat)
    requires WellFormed(c)
    ensures RotateTimes(c, k).Ok?
    ensures var d := RotateTimes(c, k).value; var n := StrandCount(c);
      && WellFormed(d) && StrandCount(d) == n && Variants(c, n).Ok? && Variants(d, n).Ok?
      && forall x :: x in Variants(c, n).value <==> x in Variants(d, n).value
    decreases k
  {
    hide RotateOnce, Variants, StrandCount;
    SameVariants(c);
    if k > 0 {
      var c1 := RotateOnce(c).value;
      VariantsSameSet(c1, k - 1);
      assert RotateTimes(c, k) == RotateTimes(c1, k - 1);
    } else {
      RotateTimesWellFormed(c, 0);
    }
  }

  /** Once a well-formed complex is registered with the memory check on, any
      rotation of it, constructed under a fresh name, is a duplicate whose
      existing object is that complex. */
  lemma RotationFindsOriginal(reg: ComplexMemory, c: Strands, name: string, prefix: string,
                              k: nat, name2: string, prefix2: string)
    requires WellFormed(c)
    requires NewComplex(reg, c.sequence, c.structure, name, prefix, true).1.Created?
    requires name2 != "" && name2 !in NewComplex(reg, c.sequence, c.structure, name, prefix, true).0.names
    ensures RotateTimes(c, k).Ok?
    ensures var (reg', made) := NewComplex(reg, c.sequence, c.structure, name, prefix, true);
      var d := RotateTimes(c, k).value;
      NewComplex(reg', d.sequence, d.structure, name2, prefix2, true) == (reg', Existing(made.value))
  {
    RotationKnown(reg, c, name, prefix, k);
  }

  /** The memory check on a rotation finds exactly the key just
      registered. */
  lemma RotationKnown(reg: ComplexMemory, c: Strands, name: string, prefix: string, k: nat)
    requires WellFormed(c)
    requires NewComplex(reg, c.sequence, c.structure, name, prefix, true).1.Created?
    ensures RotateTimes(c, k).Ok?
    ensures var (reg', made) := NewComplex(reg, c.sequence, c.structure, name, prefix, true);
      var d := RotateTimes(c, k).value;
      && |d.sequence| == |d.structure| && StrandCount(d) == StrandCount(c)
      && FirstKnown(d, StrandCount(d), reg'.memory) == Ok(Some(made.value.canon.key))
      && reg'.memory[made.value.canon.key] == made.value
  {
    hide RotateOnce, RotateTimes, CanonicalForm, FirstKnown, StrandCount, Variants, WellFormed, KeyOf, NewComplex;
    var (reg', made) := NewComplex(reg, c.sequence, c.structure, name, prefix, true);
    var e := made.value;
    var key := e.canon.key;
    var n := StrandCount(c);
    NewComplexWellFormed(reg, c, name, prefix, true);
    VariantsSameSet(c, k);
    var d := RotateTimes(c, k).value;
    CanonicalKeyIsLeast(c);
    assert key in Variants(c, n).value;
    assert key in Variants(d, n).value;
    FirstKnownSpec(d, n, reg'.memory);
    var r := FirstKnown(d, n, reg'.memory);
    assert r.value.Some? by {
      var i :| 0 <= i < n && Variants(d, n).value[i] == key;
    }
    var x := r.value.value;
    assert x in Variants(d, n).value;
    assert x in Variants(c, n).value;
    assert x == key;
  }

  /** What the memory check finds is the key of one of the first `k`
      rotations. */
  lemma {:induction false} FirstKnownFound(c: Strands, k: nat, memory: map<Key, Entry>)
    requires |c.sequence| == |c.structure| && FirstKnown(c, k, memory).Ok? && FirstKnown(c, k, memory).value.Some?
    ensures exists i :: 1 <= i <= k && RotateTimes(c, i).Ok?
                        && KeyOf(RotateTimes(c, i).value) == FirstKnown(c, k, memory).value.value
    decreases k
  {
    FoundUnfold(c, k, memory);
    hide KeyOf, FirstKnown, RotateOnce, RotateTimes;
    var d := RotateOnce(c).value;
    if KeyOf(d) in memory {
      RotateTimesStep(c, 1, d);
    } else {
      FirstKnownFound(d, k - 1, memory);
      var i :| 1 <= i <= k - 1 && RotateTimes(d, i).Ok?
               && KeyOf(RotateTimes(d, i).value) == FirstKnown(d, k - 1, memory).value.value;
      RotateTimesStep(c, i + 1, RotateTimes(d, i).value);
    }
  }

  /** A check that finds a key has a rotation left to make. */
  lemma FoundUnfold(c: Strands, k: nat, memory: map<Key, Entry>)
    requires |c.sequence| == |c.structure| && FirstKnown(c, k, memory).Ok? && FirstKnown(c, k, memory).value.Some?
    ensures k > 0 && RotateOnce(c).Ok?
    ensures var d := RotateOnce(c).value;
      && RotateTimes(d, 0) == Ok(d)
      && FirstKnown(c, k, memory) == if KeyOf(d) in memory then Ok(Some(KeyOf(d))) else FirstKnown(d, k - 1, memory)
  {
    hide KeyOf;
  }

  /** A duplication has one of two causes: the name is taken, and the
      complex is the one registered under it; or, with the memory check on,
      one of the complex's rotations is registered, and the complex is the
      one registered under that rotation's key. */
  lemma NewComplexExisting(reg: ComplexMemory, sequence: seq<string>, structure: seq<char>,
                           name: string, prefix: string, memorycheck: bool)
    requires NewComplex(reg, sequence, structure, name, prefix, memorycheck).1.Existing?
    ensures ComplexName(name, prefix, reg.id).Ok?
    ensures var nm := ComplexName(name, prefix, reg.id).value.0;
      var x := NewComplex(reg, sequence, structure, name, prefix, memorycheck).1.value;
      var c := Strands(sequence, structure);
      || (nm in reg.names && reg.names[nm] in reg.memory && x == reg.memory[reg.names[nm]])
      || (nm !in reg.names && memorycheck && |sequence| == |structure|
          && exists i :: 1 <= i <= StrandCount(c) && RotateTimes(c, i).Ok?
                         && KeyOf(RotateTimes(c, i).value) in reg.memory
                         && x == reg.memory[KeyOf(RotateTimes(c, i).value)])
  {
    var nm := ComplexName(name, prefix, reg.id).value.0;
    if nm !in reg.names {
      var c := Strands(sequence, structure);
      FirstKnownFound(c, StrandCount(c), reg.memory);
    }
  }
}

=== FILE: domains.dfy ===
/** Domain-level domains: how a domain's class (`short`/`long`) and length
    are resolved from what the caller gives (`DL_Domain.__init__`), the
    registry of domains by name (`DL_Domain.MEMORY`), complement names, and
    the prototype `LogicDomain`, which turns a repeated declaration into a
    lookup. */
module Domains {
  import opened Results

  /** Largest length that still counts as short. */
  const DtypeCutoff: int := 8
  const ShortLength: int := 5
  const LongLength: int := 15

  datatype DType = Short | Long

  /** The class a length implies. */
  function DTypeOf(length: int): DType {
    if length <= DtypeCutoff then Short else Long
  }

  /** The length a class implies. */
  function DefaultLength(t: DType): int {
    if t == Short then ShortLength else LongLength
  }

  datatype Domain = Domain(name: string, dtype: DType, length: int)

  /** `DL_Domain.MEMORY`: domains by name. */
  type DomainMemory = map<string, Domain>

  /** Python's truth value of the optional length argument: a missing length
      and a length of 0 are both "not given". */
  predicate Given(length: Option<int>) {
    length.Some? && length.value != 0
  }

  /** A domain as the constructor leaves it: its class agrees with its
      length, and the length is a given (non-zero) one or a default. */
  predicate Valid(d: Domain) {
    d.dtype == DTypeOf(d.length) && d.length != 0
  }

  /** What every registry of constructed domains satisfies. */
  ghost predicate Coherent(mem: DomainMemory) {
    forall n :: n in mem ==> mem[n].name == n && Valid(mem[n])
  }

  /** The class and length of a new domain: with both given they must agree
      on the cutoff; with one given the other follows from it; with neither
      it is an error. */
  function ResolveShape(dtype: Option<DType>, length: Option<int>): (r: Result<(DType, int)>)
    ensures r.Ok? <==> (dtype.Some? || Given(length))
                       && !(dtype.Some? && Given(length) && dtype.value != DTypeOf(length.value))
    ensures r.Ok? && Given(length) ==> r.value == (DTypeOf(length.value), length.value)
    ensures r.Ok? && !Given(length) ==> r.value == (dtype.value, DefaultLength(dtype.value))
  {
    if dtype.Some? && Given(length) then
      if dtype.value != DTypeOf(length.value) then Err(Configuration)
      else Ok((dtype.value, length.value))
    else if dtype.Some? then Ok((dtype.value, DefaultLength(dtype.value)))
    else if Given(length) then Ok((DTypeOf(length.value), length.value))
    else Err(Configuration)
  }

  /** Whatever the arguments, a resolved shape is a valid one: the class
      always agrees with the cutoff and the length is never 0. */
  lemma ResolvedIsValid(name: string, dtype: Option<DType>, length: Option<int>)
    requires ResolveShape(dtype, length).Ok?
    ensures var (t, n) := ResolveShape(dtype, length).value; Valid(Domain(name, t, n))
  {
    hide ResolveShape;
    if !Given(length) {
      assert DTypeOf(DefaultLength(dtype.value)) == dtype.value;
    }
  }

  /** Resolving again from a resolved class and length gives them back, from
      both together or from the length alone: a class's default length lies
      on that class's side of the cutoff, and is never 0. */
  lemma ResolveShapeFixed(dtype: Option<DType>, length: Option<int>)
    requires ResolveShape(dtype, length).Ok?
    ensures var (t, n) := ResolveShape(dtype, length).value;
      ResolveShape(Some(t), Some(n)) == Ok((t, n)) && ResolveShape(None, Some(n)) == Ok((t, n))
  {
    ResolvedIsValid("", dtype, length);
  }

  /** `DL_Domain(name, dtype, length)`: a name already in the registry is a
      duplication error carrying the existing domain; a configuration error
      takes back the entry just made; otherwise the domain is registered. */
  function NewDomain(mem: DomainMemory, name: string, dtype: Option<DType>, length: Option<int>)
    : (out: (DomainMemory, Made<Domain>))
    ensures out.1.Existing? <==> name in mem
    ensures out.1.Existing? ==> out.1.value == mem[name]
    ensures out.1.Failed? <==> name !in mem && ResolveShape(dtype, length).Err?
    ensures out.1.Created? ==>
      && out.1.value.name == name
      && (out.1.value.dtype, out.1.value.length) == ResolveShape(dtype, length).value
      && out.0 == mem[name := out.1.value]
    ensures !out.1.Created? ==> out.0 == mem
  {
    if name in mem then (mem, Existing(mem[name]))
    else
      match ResolveShape(dtype, length)
      case Err(f) => (mem, Failed(f))
      case Ok((t, n)) =>
        var d := Domain(name, t, n);
        (mem[name := d], Created(d))
  }

  /** Registering keeps the registry coherent. */
  lemma NewDomainCoherent(mem: DomainMemory, name: string, dtype: Option<DType>, length: Option<int>)
    requires Coherent(mem)
    ensures Coherent(NewDomain(mem, name, dtype, length).0)
  {
    hide NewDomain, ResolveShape;
    var out := NewDomain(mem, name, dtype, length);
    if out.1.Created? {
      ResolvedIsValid(name, dtype, length);
    }
  }

  // ---------------------------------------------------------------------
  // Complement names

  /** `name[-1:] == '*'`. */
  predicate IsComplement(name: string) {
    |name| > 0 && name[|name| - 1] == '*'
  }

  /** The complement name: strip one trailing `'*'`, or append one. */
  function Toggle(name: string): (c: string)
    ensures IsComplement(name) ==> |c| + 1 == |name|
    ensures !IsComplement(name) ==> |c| == |name| + 1 && IsComplement(c)
  {
    if IsComplement(name) then name[..|name| - 1] else name + "*"
  }

  /** Two trailing stars: stripping one leaves a complement name. */
  predicate DoubleStarred(name: string) {
    |name| >= 2 && name[|name| - 1] == '*' && name[|name| - 2] == '*'
  }

  /** Taking the complement name twice gives the name back exactly when the
      name does not end in two stars. */
  lemma ToggleInvolution(name: string)
    ensures Toggle(Toggle(name)) == name <==> !DoubleStarred(name)
  {
    if IsComplement(name) {
      var c := name[..|name| - 1];
      if IsComplement(c) {
        assert |Toggle(c)| + 2 == |name|;
      } else {
        assert c + "*" == name;
      }
    } else {
      assert (name + "*")[..|name|] == name;
    }
  }

  /** LogicDomain `identity`: the name without one trailing `'*'`; an empty
      name has no last character to look at. */
  function Identity(name: string): (r: Result<string>)
    ensures r.Ok? <==> |name| > 0
  {
    if |name| == 0 then Err(Configuration)
    else if name[|name| - 1] == '*' then Ok(name[..|name| - 1])
    else Ok(name)
  }

  /** A name and its complement name share their identity, unless the name
      ends in two stars or is a lone star (whose complement name is empty). */
  lemma ToggleKeepsIdentity(name: string)
    requires |name| > 0 && name != "*" && !DoubleStarred(name)
    ensures Identity(Toggle(name)) == Identity(name)
    ensures IsComplement(Toggle(name)) != IsComplement(name)
  {
    if !IsComplement(name) {
      assert (name + "*")[..|name|] == name;
      assert (name + "*")[|name|] == '*';
    }
  }

  /** `DL_Domain.complement`: the registered domain under the complement
      name; the base class never creates it. An empty name fails on its
      last character. */
  function Complement(mem: DomainMemory, d: Domain): (r: Result<Domain>)
    ensures r.Ok? <==> |d.name| > 0 && Toggle(d.name) in mem
    ensures r.Ok? ==> r.value == mem[Toggle(d.name)]
  {
    if |d.name| == 0 then Err(Configuration)
    else if Toggle(d.name) in mem then Ok(mem[Toggle(d.name)])
    else Err(MissingReferent)
  }

  /** On a coherent registry the complement is the domain registered under
      the toggled name, and the complement of the complement is the domain
      itself, unless its name ends in two stars or is a bare star, whose
      complement has the empty name. */
  lemma ComplementInvolution(mem: DomainMemory, d: Domain)
    requires Coherent(mem) && d.name in mem && mem[d.name] == d && !DoubleStarred(d.name) && d.name != "*"
    requires Complement(mem, d).Ok?
    ensures Complement(mem, d).value.name == Toggle(d.name)
    ensures Complement(mem, Complement(mem, d).value) == Ok(d)
  {
    ToggleInvolution(d.name);
  }

  // ---------------------------------------------------------------------
  // The prototype LogicDomain

  /** `LogicDomain(name, dtype, length)`: a new name is registered as by
      `DL_Domain`; a known name gives the registered domain back, unless a
      given class or a given (non-zero) length contradicts it. */
  function NewLogicDomain(mem: DomainMemory, name: string, dtype: Option<DType>, length: Option<int>)
    : (out: (DomainMemory, Made<Domain>))
    ensures name in mem ==> out.0 == mem && !out.1.Created?
    ensures name in mem ==>
      (out.1.Failed? <==> (dtype.Some? && mem[name].dtype != dtype.value)
                          || (Given(length) && mem[name].length != length.value))
    ensures out.1.Existing? ==> name in mem && out.1.value == mem[name]
    ensures name !in mem ==> out == NewDomain(mem, name, dtype, length)
  {
    var (mem', made) := NewDomain(mem, name, dtype, length);
    match made
    case Existing(other) =>
      if dtype.Some? && other.dtype != dtype.value then (mem, Failed(Configuration))
      else if Given(length) && other.length != length.value then (mem, Failed(Configuration))
      else (mem, Existing(other))
    case _ => (mem', made)
  }

  /** Declaring a domain again with the same arguments gives back the domain
      the first declaration created, and changes nothing. */
  lemma RedeclareIsLookup(mem: DomainMemory, name: string, dtype: Option<DType>, length: Option<int>)
    requires NewLogicDomain(mem, name, dtype, length).1.Created?
    ensures var (mem', made) := NewLogicDomain(mem, name, dtype, length);
      NewLogicDomain(mem', name, dtype, length) == (mem', Existing(made.value))
  {
    hide NewDomain, ResolveShape;
    var (mem', made) := NewLogicDomain(mem, name, dtype, length);
    assert made.Created? && name !in mem;
    assert (mem', made) == NewDomain(mem, name, dtype, length);
    assert mem'[name] == made.value;
  }

  /** LogicDomain `complement`: the registered domain under the complement
      name, or a new one of the same class and length registered under it. */
  function LogicComplement(mem: DomainMemory, d: Domain): (out: (DomainMemory, Domain))
    requires Valid(d)
    ensures Toggle(d.name) in mem ==> out == (mem, mem[Toggle(d.name)])
    ensures Toggle(d.name) !in mem ==>
      out.1 == Domain(Toggle(d.name), d.dtype, d.length) && out.0 == mem[Toggle(d.name) := out.1]
  {
    var cname := Toggle(d.name);
    if cname in mem then (mem, mem[cname])
    else
      var (mem', made) := NewLogicDomain(mem, cname, Some(d.dtype), Some(d.length));
      if made.Created? then (mem', made.value)
      else assert false; (mem, d)
  }

  /** The complement of the complement is the domain itself, and the second
      lookup adds nothing to the registry. */
  lemma ComplementOfComplement(mem: DomainMemory, d: Domain)
    requires Coherent(mem) && d.name in mem && mem[d.name] == d && !DoubleStarred(d.name)
    ensures var (mem1, c) := LogicComplement(mem, d);
      Valid(c) && LogicComplement(mem1, c) == (mem1, d)
  {
    var (mem1, c) := LogicComplement(mem, d);
    ToggleInvolution(d.name);
    assert Toggle(c.name) == d.name;
    assert mem1[d.name] == d by {
      assert Toggle(d.name) != d.name;
    }
  }

  /** `can_pair`: the domain is the complement of the other one (which may
      register that complement). */
  function CanPair(mem: DomainMemory, d: Domain, o: Domain): (out: (DomainMemory, bool))
    requires Valid(o)
    ensures Toggle(o.name) in mem ==> out.0 == mem
    ensures Toggle(o.name) !in mem ==> out.0 == mem[Toggle(o.name) := Domain(Toggle(o.name), o.dtype, o.length)]
  {
    var (mem', c) := LogicComplement(mem, o);
    (mem', d == c)
  }

  /** Between registered domains, `can_pair` holds exactly when the first
      name is the complement name of the second. */
  lemma CanPairByName(mem: DomainMemory, d: Domain, o: Domain)
    requires Coherent(mem) && d.name in mem && mem[d.name] == d && Valid(o)
    ensures CanPair(mem, d, o).1 <==> d.name == Toggle(o.name)
  {
  }

  /** Pairing is symmetric between registered domains whose names do not end
      in two stars. */
  lemma CanPairSymmetric(mem: DomainMemory, d: Domain, o: Domain)
    requires Coherent(mem) && d.name in mem && mem[d.name] == d && o.name in mem && mem[o.name] == o
    requires !DoubleStarred(d.name) && !DoubleStarred(o.name)
    ensures CanPair(mem, d, o).1 <==> CanPair(mem, o, d).1
  {
    CanPairByName(mem, d, o);
    CanPairByName(mem, o, d);
    ToggleInvolution(d.name);
    ToggleInvolution(o.name);
  }
}

=== FILE: kernel.dfy ===
/** The kernel-notation decoder of the object reader: a parsed kernel complex
    (nested lists of domain names, a list standing for the loop closed by the
    domain just before it) becomes a flat sequence and dot-bracket structure;
    plus the checks applied to reaction and domain lines of a PIL file. */
module Kernel {
  import opened Results
  import opened Names
  import opened Brackets
  import opened Domains
  import Reactions

  /** One item of a parsed kernel pattern: a name (a domain or the strand
      break `+`) or the inner pattern of a loop. */
  datatype Token = Name(name: string) | Loop(inner: seq<Token>)

  /** `resolve_kernel_loops`: names are copied, with `.` (or `+` for the
      strand break) in the structure; a loop turns the last structure
      character into `(`, adds its own contents, then the complement of the
      domain before it with `)`. A loop with nothing before it, or after an
      empty name, is an error. */
  function Resolve(loop: seq<Token>): (r: Result<(seq<string>, seq<char>)>)
    ensures r.Ok? ==> |r.value.0| == |r.value.1|
    decreases loop
  {
    if |loop| == 0 then Ok(([], []))
    else
      match Resolve(loop[..|loop| - 1])
      case Err(f) => Err(f)
      case Ok(prefix) =>
        var (sequence, structure) := prefix;
        match loop[|loop| - 1]
        case Name(d) => Ok((sequence + [d], structure + [if d == "+" then '+' else '.']))
        case Loop(inner) =>
          if |structure| == 0 || sequence[|sequence| - 1] == "" then Err(Format)
          else
            match Resolve(inner)
            case Err(f) => Err(f)
            case Ok(body) =>
              var opener := sequence[|sequence| - 1];
              Ok((sequence + body.0 + [Toggle(opener)], structure[..|structure| - 1] + ['('] + body.1 + [')']))
  }

  // ---------------------------------------------------------------------
  // What the kernel parser produces

  predicate IsLetter(c: char) {
    ('a' <= c <= 'z') || ('A' <= c <= 'Z')
  }

  /** A domain name as the grammar reads it: it starts with a letter. */
  predicate IsSense(d: string) {
    |d| > 0 && IsLetter(d[0])
  }

  /** The shape of the parser's output: every name is the strand break or a
      domain name, and every loop follows a domain name. */
  ghost predicate Parsed(loop: seq<Token>)
    decreases loop
  {
    |loop| == 0 ||
    (&& Parsed(loop[..|loop| - 1])
     && match loop[|loop| - 1]
        case Name(d) => d == "+" || IsSense(d)
        case Loop(inner) => |loop| > 1 && loop[|loop| - 2].Name? && IsSense(loop[|loop| - 2].name) && Parsed(inner))
  }

  /** Every `(` is paired, in the table `M`, with the complement name of its
      own domain. */
  ghost predicate ClosesWithComplement(s: seq<string>, t: seq<char>, M: seq<Option<nat>>) {
    forall k :: 0 <= k < |t| && k < |s| && k < |M| && t[k] == '(' && M[k].Some? && M[k].value < |s| ==>
      s[M[k].value] == Toggle(s[k])
  }

  /** What the complement property says about one opening position. */
  lemma ClosesAt(s: seq<string>, t: seq<char>, M: seq<Option<nat>>, k: nat)
    requires ClosesWithComplement(s, t, M)
    requires k < |t| && k < |s| && k < |M| && t[k] == '(' && M[k].Some? && M[k].value < |s|
    ensures s[M[k].value] == Toggle(s[k])
  {
  }

  /** The strand break sits at the same places in both outputs. */
  ghost predicate BreaksAligned(s: seq<string>, t: seq<char>) {
    forall k :: 0 <= k < |t| && k < |s| ==> (t[k] == '+' <==> s[k] == "+")
  }

  /** What the decoder guarantees of its output, with `M` the pair table:
      equal lengths, a matching that does not cross, every `(` closed by its
      domain's complement name, the strand breaks aligned, and every name a
      strand break or a domain name. */
  ghost predicate Decoded(s: seq<string>, t: seq<char>, M: seq<Option<nat>>) {
    && |s| == |t|
    && Matching(t, M) && NonCrossing(M)
    && ClosesWithComplement(s, t, M)
    && BreaksAligned(s, t)
    && (forall k :: 0 <= k < |s| ==> s[k] == "+" || IsSense(s[k]))
  }

  /** On the parser's output the decoder succeeds; the structure is
      balanced, its pair table pairs every loop's opening domain with the
      complement name that closes it, and the strand breaks line up. */
  lemma ResolveSpec(loop: seq<Token>)
    requires Parsed(loop)
    ensures Resolve(loop).Ok?
    ensures var (s, t) := Resolve(loop).value;
      && |s| == |t|
      && Partners(t).Ok?
      && ClosesWithComplement(s, t, Partners(t).value)
      && BreaksAligned(s, t)
  {
    var M := ResolveMatched(loop);
    var (s, t) := Resolve(loop).value;
    PartnersUnique(t, M);
  }

  /** The induction behind `ResolveSpec`, with the pair table built along. */
  lemma {:induction false} ResolveMatched(loop: seq<Token>) returns (M: seq<Option<nat>>)
    requires Parsed(loop)
    ensures Resolve(loop).Ok?
    ensures Decoded(Resolve(loop).value.0, Resolve(loop).value.1, M)
    ensures |loop| > 0 && loop[|loop| - 1].Name? ==>
      var (s, t) := Resolve(loop).value;
      && s[|s| - 1] == loop[|loop| - 1].name
      && (s[|s| - 1] != "+" ==> t[|t| - 1] == '.')
    decreases loop
  {
    hide Decoded;
    if |loop| == 0 {
      M := [];
      EmptyDecoded();
      return;
    }
    var front := loop[..|loop| - 1];
    var M0 := ResolveMatched(front);
    var (s0, t0) := Resolve(front).value;
    match loop[|loop| - 1]
    case Name(d) =>
      M := NameStep(s0, t0, M0, d);
    case Loop(inner) =>
      assert loop[|loop| - 2] == front[|front| - 1];
      var Mb := ResolveMatched(inner);
      var (sb, tb) := Resolve(inner).value;
      M := LoopStep(s0, t0, M0, sb, tb, Mb);
  }

  // ---------------------------------------------------------------------
  // The two steps of the decoder

  lemma EmptyDecoded()
    ensures Decoded([], [], [])
  {
  }

  /** A name adds one unpaired position. */
  lemma NameStep(s0: seq<string>, t0: seq<char>, M0: seq<Option<nat>>, d: string) returns (M: seq<Option<nat>>)
    requires Decoded(s0, t0, M0) && (d == "+" || IsSense(d))
    ensures Decoded(s0 + [d], t0 + [if d == "+" then '+' else '.'], M)
  {
    var c := if d == "+" then '+' else '.';
    assert Decoded([d], [c], [None]);
    ConcatDecoded(s0, t0, M0, [d], [c], [None]);
    M := M0 + Shift([None], |t0|);
  }

  /** A loop turns the unpaired domain before it into an opening bracket
      and closes it after its contents with the complement name. */
  lemma LoopStep(s0: seq<string>, t0: seq<char>, M0: seq<Option<nat>>,
                 sb: seq<string>, tb: seq<char>, Mb: seq<Option<nat>>) returns (M: seq<Option<nat>>)
    requires Decoded(s0, t0, M0) && Decoded(sb, tb, Mb)
    requires |t0| > 0 && |s0| == |t0| && IsSense(s0[|s0| - 1]) && t0[|t0| - 1] == '.'
    ensures Decoded(s0 + sb + [Toggle(s0[|s0| - 1])], t0[..|t0| - 1] + ['('] + tb + [')'], M)
  {
    hide Decoded, Shift, Toggle;
    var n := |t0|;
    var opener := s0[n - 1];
    var sp, tp := s0[..n - 1], t0[..n - 1];
    DropDecoded(s0, t0, M0);
    var Mp := M0[..n - 1];
    WrapDecoded(opener, sb, tb, Mb);
    var sw, tw := [opener] + sb + [Toggle(opener)], ['('] + tb + [')'];
    var Mw := [Some(|tb| + 1)] + Shift(Mb, 1) + [Some(0)];
    ConcatDecoded(sp, tp, Mp, sw, tw, Mw);
    M := Mp + Shift(Mw, |tp|);
    assert s0 == sp + [opener];
    assert sp + sw == s0 + sb + [Toggle(opener)];
    assert tp + tw == t0[..n - 1] + ['('] + tb + [')'];
  }

  /** The complement name of a domain name starts with the same letter. */
  lemma ToggleKeepsFirst(d: string)
    requires IsSense(d)
    ensures IsSense(Toggle(d)) && Toggle(d)[0] == d[0]
  {
  }

  // ---------------------------------------------------------------------
  // Building pair tables piece by piece

  /** A partner table moved right by `d` positions. */
  function Shift(M: seq<Option<nat>>, d: nat): (r: seq<Option<nat>>)
    ensures |r| == |M|
    ensures forall i :: 0 <= i < |M| ==> (r[i].Some? <==> M[i].Some?)
    ensures forall i :: 0 <= i < |M| && M[i].Some? ==> r[i].value == M[i].value + d
  {
    seq(|M|, i requires 0 <= i < |M| => if M[i].Some? then Some(M[i].value + d) else None)
  }

  /** Two decoded pieces side by side. */
  lemma ConcatDecoded(sa: seq<string>, a: seq<char>, Ma: seq<Option<nat>>,
                      sb: seq<string>, b: seq<char>, Mb: seq<Option<nat>>)
    requires Decoded(sa, a, Ma) && Decoded(sb, b, Mb)
    ensures Decoded(sa + sb, a + b, Ma + Shift(Mb, |a|))
  {
    var s, t, M := sa + sb, a + b, Ma + Shift(Mb, |a|);
    ConcatMatching(a, Ma, b, Mb);
    ConcatCloses(sa, a, Ma, sb, b, Mb);
    forall k | 0 <= k < |s|
      ensures (t[k] == '+' <==> s[k] == "+") && (s[k] == "+" || IsSense(s[k]))
    {
      if k < |a| {
        assert t[k] == a[k] && s[k] == sa[k];
      } else {
        assert t[k] == b[k - |a|] && s[k] == sb[k - |a|];
      }
    }
  }

  /** Two structures side by side: each keeps its own pairs. */
  lemma ConcatMatching(a: seq<char>, Ma: seq<Option<nat>>, b: seq<char>, Mb: seq<Option<nat>>)
    requires Matching(a, Ma) && NonCrossing(Ma) && Matching(b, Mb) && NonCrossing(Mb)
    ensures Matching(a + b, Ma + Shift(Mb, |a|)) && NonCrossing(Ma + Shift(Mb, |a|))
  {
    ConcatPairs(a, Ma, b, Mb);
    ConcatNested(a, Ma, b, Mb);
  }

  lemma ConcatPairs(a: seq<char>, Ma: seq<Option<nat>>, b: seq<char>, Mb: seq<Option<nat>>)
    requires Matching(a, Ma) && Matching(b, Mb)
    ensures Matching(a + b, Ma + Shift(Mb, |a|))
  {
    hide Shift;
    var t, M := a + b, Ma + Shift(Mb, |a|);
    forall k | 0 <= k < |t|
      ensures M[k].Some? <==> IsBracket(t[k])
      ensures M[k].Some? ==> M[k].value < |t| && M[k].value != k && M[M[k].value] == Some(k)
      ensures M[k].Some? ==> (t[k] == '(' <==> k < M[k].value)
    {
      ConcatPairAt(a, Ma, b, Mb, k);
    }
  }

  lemma ConcatNested(a: seq<char>, Ma: seq<Option<nat>>, b: seq<char>, Mb: seq<Option<nat>>)
    requires Matching(a, Ma) && NonCrossing(Ma) && Matching(b, Mb) && NonCrossing(Mb)
    ensures NonCrossing(Ma + Shift(Mb, |a|))
  {
    hide Shift, Matching;
    MatchingLength(a, Ma);
    MatchingLength(b, Mb);
    var t, M := a + b, Ma + Shift(Mb, |a|);
    forall i, k | 0 <= i < |M| && 0 <= k < |M| && M[i].Some? && M[k].Some? && Between(k, i, M[i].value)
      ensures Between(M[k].value, i, M[i].value)
    {
      ConcatPairAt(a, Ma, b, Mb, i);
      ConcatPairAt(a, Ma, b, Mb, k);
      if i >= |a| {
        assert Between(k - |a|, i - |a|, Mb[i - |a|].value);
      }
    }
  }

  /** One position of two structures side by side. */
  lemma ConcatPairAt(a: seq<char>, Ma: seq<Option<nat>>, b: seq<char>, Mb: seq<Option<nat>>, k: nat)
    requires Matching(a, Ma) && Matching(b, Mb) && k < |a| + |b|
    ensures var t, M := a + b, Ma + Shift(Mb, |a|);
      && (M[k].Some? <==> IsBracket(t[k]))
      && (M[k].Some? ==> M[k].value < |t| && M[k].value != k && M[M[k].value] == Some(k))
      && (M[k].Some? ==> (t[k] == '(' <==> k < M[k].value))
      && (k < |a| ==> M[k] == Ma[k])
      && (k >= |a| ==> M[k].Some? == Mb[k - |a|].Some?)
      && (k >= |a| && M[k].Some? ==> M[k].value == Mb[k - |a|].value + |a|)
  {
    if k < |a| {
      ConcatPairLeft(a, Ma, b, Mb, k);
    } else {
      ConcatPairRight(a, Ma, b, Mb, k);
    }
  }

  lemma ConcatPairLeft(a: seq<char>, Ma: seq<Option<nat>>, b: seq<char>, Mb: seq<Option<nat>>, k: nat)
    requires Matching(a, Ma) && Matching(b, Mb) && k < |a|
    ensures var t, M := a + b, Ma + Shift(Mb, |a|);
      && (M[k].Some? <==> IsBracket(t[k]))
      && (M[k].Some? ==> M[k].value < |t| && M[k].value != k && M[M[k].value] == Some(k))
      && (M[k].Some? ==> (t[k] == '(' <==> k < M[k].value))
      && M[k] == Ma[k]
  {
    hide Shift, Matching;
    MatchingAt(a, Ma, k);
    MatchingLength(b, Mb);
    var t, M := a + b, Ma + Shift(Mb, |a|);
    assert M[k] == Ma[k] && t[k] == a[k];
    if Ma[k].Some? {
      assert M[Ma[k].value] == Ma[Ma[k].value];
    }
  }

  lemma ConcatPairRight(a: seq<char>, Ma: seq<Option<nat>>, b: seq<char>, Mb: seq<Option<nat>>, k: nat)
    requires Matching(a, Ma) && Matching(b, Mb) && |a| <= k < |a| + |b|
    ensures var t, M := a + b, Ma + Shift(Mb, |a|);
      && (M[k].Some? <==> IsBracket(t[k]))
      && (M[k].Some? ==> M[k].value < |t| && M[k].value != k && M[M[k].value] == Some(k))
      && (M[k].Some? ==> (t[k] == '(' <==> k < M[k].value))
      && M[k].Some? == Mb[k - |a|].Some?
      && (M[k].Some? ==> M[k].value == Mb[k - |a|].value + |a|)
  {
    hide Shift, Matching;
    MatchingLength(a, Ma);
    MatchingAt(b, Mb, k - |a|);
    var t, M := a + b, Ma + Shift(Mb, |a|);
    var n := |a|;
    assert t[k] == b[k - n];
    assert M[k] == Shift(Mb, n)[k - n];
    if Mb[k - n].Some? {
      var j := Mb[k - n].value;
      assert M[j + n] == Shift(Mb, n)[j];
    }
  }

  /** The complement property for two pieces side by side. */
  lemma ConcatCloses(sa: seq<string>, a: seq<char>, Ma: seq<Option<nat>>,
                     sb: seq<string>, b: seq<char>, Mb: seq<Option<nat>>)
    requires |sa| == |a| && |sb| == |b|
    requires Matching(a, Ma) && Matching(b, Mb)
    requires ClosesWithComplement(sa, a, Ma) && ClosesWithComplement(sb, b, Mb)
    ensures ClosesWithComplement(sa + sb, a + b, Ma + Shift(Mb, |a|))
  {
    var s, t, M := sa + sb, a + b, Ma + Shift(Mb, |a|);
    forall k | 0 <= k < |t| && k < |s| && k < |M| && t[k] == '(' && M[k].Some? && M[k].value < |s|
      ensures s[M[k].value] == Toggle(s[k])
    {
      ConcatClosesAt(sa, a, Ma, sb, b, Mb, k);
    }
  }

  lemma ConcatClosesAt(sa: seq<string>, a: seq<char>, Ma: seq<Option<nat>>,
                       sb: seq<string>, b: seq<char>, Mb: seq<Option<nat>>, k: nat)
    requires |sa| == |a| && |sb| == |b|
    requires Matching(a, Ma) && Matching(b, Mb)
    requires ClosesWithComplement(sa, a, Ma) && ClosesWithComplement(sb, b, Mb)
    requires k < |a| + |b| && (a + b)[k] == '(' && (Ma + Shift(Mb, |a|))[k].Some?
    ensures var s, M := sa + sb, Ma + Shift(Mb, |a|);
      M[k].value < |s| && s[M[k].value] == Toggle(s[k])
  {
    hide Shift, Matching, Toggle, ClosesWithComplement;
    MatchingLength(a, Ma);
    MatchingLength(b, Mb);
    ConcatPairAt(a, Ma, b, Mb, k);
    var s, M := sa + sb, Ma + Shift(Mb, |a|);
    var n := |a|;
    if k < n {
      assert (a + b)[k] == a[k] && s[k] == sa[k];
      MatchingAt(a, Ma, k);
      ClosesAt(sa, a, Ma, k);
      assert s[Ma[k].value] == sa[Ma[k].value];
    } else {
      assert (a + b)[k] == b[k - n] && s[k] == sb[k - n];
      MatchingAt(b, Mb, k - n);
      ClosesAt(sb, b, Mb, k - n);
      var j := Mb[k - n].value;
      assert s[j + n] == sb[j];
    }
  }

  /** A loop around a decoded piece, opened by a domain name. */
  lemma WrapDecoded(opener: string, sb: seq<string>, b: seq<char>, Mb: seq<Option<nat>>)
    requires Decoded(sb, b, Mb) && IsSense(opener)
    ensures Decoded([opener] + sb + [Toggle(opener)], ['('] + b + [')'], [Some(|b| + 1)] + Shift(Mb, 1) + [Some(0)])
  {
    WrapMatching(b, Mb);
    WrapCloses(opener, sb, b, Mb);
    WrapAligned(opener, sb, b);
    hide Matching, NonCrossing, ClosesWithComplement, Shift, Toggle, BreaksAligned;
  }

  /** Breaks and names line up around a loop as they did inside it. */
  lemma WrapAligned(opener: string, sb: seq<string>, b: seq<char>)
    requires |sb| == |b| && BreaksAligned(sb, b) && (forall k :: 0 <= k < |sb| ==> sb[k] == "+" || IsSense(sb[k]))
    requires IsSense(opener)
    ensures var s, t := [opener] + sb + [Toggle(opener)], ['('] + b + [')'];
      && BreaksAligned(s, t) && forall k :: 0 <= k < |s| ==> s[k] == "+" || IsSense(s[k])
  {
    var s, t := [opener] + sb + [Toggle(opener)], ['('] + b + [')'];
    ToggleKeepsFirst(opener);
    forall k | 0 <= k < |s|
      ensures (t[k] == '+' <==> s[k] == "+") && (s[k] == "+" || IsSense(s[k]))
    {
      if 0 < k <= |b| {
        assert t[k] == b[k - 1] && s[k] == sb[k - 1];
      }
    }
  }

  /** A structure enclosed in one more pair. */
  lemma WrapMatching(b: seq<char>, Mb: seq<Option<nat>>)
    requires Matching(b, Mb) && NonCrossing(Mb)
    ensures Matching(['('] + b + [')'], [Some(|b| + 1)] + Shift(Mb, 1) + [Some(0)])
    ensures NonCrossing([Some(|b| + 1)] + Shift(Mb, 1) + [Some(0)])
  {
    WrapPairs(b, Mb);
    WrapNested(b, Mb);
  }

  lemma WrapPairs(b: seq<char>, Mb: seq<Option<nat>>)
    requires Matching(b, Mb)
    ensures Matching(['('] + b + [')'], [Some(|b| + 1)] + Shift(Mb, 1) + [Some(0)])
  {
    hide Shift;
    var t, M := ['('] + b + [')'], [Some(|b| + 1)] + Shift(Mb, 1) + [Some(0)];
    forall k | 0 <= k < |t|
      ensures M[k].Some? <==> IsBracket(t[k])
      ensures M[k].Some? ==> M[k].value < |t| && M[k].value != k && M[M[k].value] == Some(k)
      ensures M[k].Some? ==> (t[k] == '(' <==> k < M[k].value)
    {
      WrapPairAt(b, Mb, k);
    }
  }

  lemma WrapNested(b: seq<char>, Mb: seq<Option<nat>>)
    requires Matching(b, Mb) && NonCrossing(Mb)
    ensures NonCrossing([Some(|b| + 1)] + Shift(Mb, 1) + [Some(0)])
  {
    hide Shift, Matching;
    MatchingLength(b, Mb);
    var M := [Some(|b| + 1)] + Shift(Mb, 1) + [Some(0)];
    forall i, k | 0 <= i < |M| && 0 <= k < |M| && M[i].Some? && M[k].Some? && Between(k, i, M[i].value)
      ensures Between(M[k].value, i, M[i].value)
    {
      WrapPairAt(b, Mb, i);
      WrapPairAt(b, Mb, k);
      if 0 < i <= |b| {
        assert Between(k - 1, i - 1, Mb[i - 1].value);
      }
    }
  }

  /** One position of a structure enclosed in one more pair. */
  lemma WrapPairAt(b: seq<char>, Mb: seq<Option<nat>>, k: nat)
    requires Matching(b, Mb) && k < |b| + 2
    ensures var t, M := ['('] + b + [')'], [Some(|b| + 1)] + Shift(Mb, 1) + [Some(0)];
      && (M[k].Some? <==> IsBracket(t[k]))
      && (M[k].Some? ==> M[k].value < |t| && M[k].value != k && M[M[k].value] == Some(k))
      && (M[k].Some? ==> (t[k] == '(' <==> k < M[k].value))
      && (k == 0 ==> M[k] == Some(|b| + 1))
      && (k == |b| + 1 ==> M[k] == Some(0))
      && (0 < k <= |b| ==> M[k].Some? == Mb[k - 1].Some?)
      && (0 < k <= |b| && M[k].Some? ==> M[k].value == Mb[k - 1].value + 1 && 0 < M[k].value <= |b|)
  {
    hide Matching, Shift;
    MatchingLength(b, Mb);
    if 0 < k <= |b| {
      MatchingAt(b, Mb, k - 1);
    }
    var t, M := ['('] + b + [')'], [Some(|b| + 1)] + Shift(Mb, 1) + [Some(0)];
    if 0 < k <= |b| {
      assert t[k] == b[k - 1] && M[k] == Shift(Mb, 1)[k - 1];
      if Mb[k - 1].Some? {
        var j := Mb[k - 1].value;
        assert M[j + 1] == Shift(Mb, 1)[j];
      }
    }
  }

  /** The complement property for a loop: its opener and the complement
      name around the inner piece. */
  lemma WrapCloses(opener: string, sb: seq<string>, b: seq<char>, Mb: seq<Option<nat>>)
    requires |sb| == |b| && Matching(b, Mb) && ClosesWithComplement(sb, b, Mb)
    ensures ClosesWithComplement([opener] + sb + [Toggle(opener)], ['('] + b + [')'],
                                 [Some(|b| + 1)] + Shift(Mb, 1) + [Some(0)])
  {
    var s, t, M := [opener] + sb + [Toggle(opener)], ['('] + b + [')'], [Some(|b| + 1)] + Shift(Mb, 1) + [Some(0)];
    forall k | 0 <= k < |t| && k < |s| && k < |M| && t[k] == '(' && M[k].Some? && M[k].value < |s|
      ensures s[M[k].value] == Toggle(s[k])
    {
      WrapClosesAt(opener, sb, b, Mb, k);
    }
  }

  lemma WrapClosesAt(opener: string, sb: seq<string>, b: seq<char>, Mb: seq<Option<nat>>, k: nat)
    requires |sb| == |b| && Matching(b, Mb) && ClosesWithComplement(sb, b, Mb)
    requires k < |b| + 2 && (['('] + b + [')'])[k] == '('
    ensures var s, M := [opener] + sb + [Toggle(opener)], [Some(|b| + 1)] + Shift(Mb, 1) + [Some(0)];
      M[k].Some? && M[k].value < |s| && s[M[k].value] == Toggle(s[k])
  {
    hide Shift, Matching, ClosesWithComplement;
    MatchingLength(b, Mb);
    WrapPairAt(b, Mb, k);
    var s, t, M := [opener] + sb + [Toggle(opener)], ['('] + b + [')'], [Some(|b| + 1)] + Shift(Mb, 1) + [Some(0)];
    if 0 < k <= |b| {
      assert t[k] == b[k - 1] && s[k] == sb[k - 1];
      MatchingAt(b, Mb, k - 1);
      ClosesAt(sb, b, Mb, k - 1);
      var j := Mb[k - 1].value;
      assert s[j + 1] == sb[j];
    }
  }

  /** An unpaired last position can be cut off. */
  lemma DropDecoded(s: seq<string>, t: seq<char>, M: seq<Option<nat>>)
    requires Decoded(s, t, M) && |t| > 0 && !IsBracket(t[|t| - 1])
    ensures |M| == |t| == |s|
    ensures Decoded(s[..|s| - 1], t[..|t| - 1], M[..|t| - 1])
  {
    var n := |t| - 1;
    forall k | 0 <= k < n && M[k].Some?
      ensures M[k].value < n
    {
      assert M[n].None?;
    }
  }

  // ---------------------------------------------------------------------
  // Reaction and domain lines

  /** The fields of a parsed reaction line that `read_reaction` looks at. */
  datatype ReactionLine = ReactionLine(reactants: seq<string>, products: seq<string>, rtype: Option<string>,
                                       rate: Option<real>, units: Option<string>)

  /** `read_reaction`: a line without a rate, or whose type is missing or not
      supported, is dropped; otherwise its fields are handed on. */
  function ReadReaction(line: ReactionLine): (r: Option<Reactions.Reaction>)
    ensures r.Some? ==> r.value.rate.Some? && Reactions.Supported(r.value.rtype)
    ensures r.Some? ==> r.value.reactants == line.reactants && r.value.products == line.products
  {
    if line.rate.None? then None
    else if !Reactions.Supported(line.rtype) then None
    else Some(Reactions.Reaction(line.reactants, line.products, line.rtype, line.rate))
  }

  /** A reaction line is kept exactly when it has a rate and a supported
      type, and then the prototype reaction made from it never fails: the
      reader drops precisely what the prototype would refuse. */
  lemma ReadReactionSpec(line: ReactionLine, reg: Reactions.ReactionMemory, memorycheck: bool)
    ensures ReadReaction(line).Some? <==> line.rate.Some? && Reactions.Supported(line.rtype)
    ensures ReadReaction(line).Some? ==>
      var x := ReadReaction(line).value;
      && x.reactants == line.reactants && x.products == line.products && x.rate == line.rate
      && !Reactions.NewProtoReaction(true, reg, x, memorycheck).1.Failed?
  {
  }

  /** The length of a `dl-domain` line: `short` is 5, `long` is 15, and
      anything else must be a decimal number. */
  function DlLength(word: string): (r: Result<nat>)
    ensures word == "short" ==> r == Ok(DefaultLength(Short))
    ensures word == "long" ==> r == Ok(DefaultLength(Long))
  {
    if word == "short" then Ok(5)
    else if word == "long" then Ok(15)
    else if |word| > 0 && forall i :: 0 <= i < |word| ==> IsDigit(word[i]) then Ok(DigitsValue(word))
    else Err(Format)
  }

  /** Reading a length back: the class words give the default lengths of
      their classes, and the decimal form of any number gives the number. */
  lemma DlLengthSpec(n: nat)
    ensures DlLength("short") == Ok(DefaultLength(Short)) && DlLength("long") == Ok(DefaultLength(Long))
    ensures DlLength(NatString(n)) == Ok(n)
  {
    NatStringValue(n);
    var w := NatString(n);
    assert w != "short" && w != "long" by {
      assert IsDigit(w[0]);
    }
  }

  /** The length of an `sl-domain` line: the length of its sequence; an
      explicit length must be a number equal to it. */
  function SlLength(sequence: string, length: Option<string>): (r: Result<nat>)
    ensures r.Ok? ==> r.value == |sequence|
  {
    match length
    case None => Ok(|sequence|)
    case Some(w) =>
      if |w| > 0 && (forall i :: 0 <= i < |w| ==> IsDigit(w[i])) && DigitsValue(w) == |sequence| then Ok(|sequence|)
      else Err(Format)
  }

  /** The sequence always decides the length, an explicit length is
      accepted exactly when it agrees, and the decimal form of the
      sequence's length always does. */
  lemma SlLengthSpec(sequence: string, length: Option<string>)
    ensures SlLength(sequence, length).Ok? ==> SlLength(sequence, length).value == |sequence|
    ensures length.Some? && |length.value| > 0 && (forall i :: 0 <= i < |length.value| ==> IsDigit(length.value[i])) ==>
      (SlLength(sequence, length).Ok? <==> DigitsValue(length.value) == |sequence|)
    ensures SlLength(sequence, Some(NatString(|sequence|))) == Ok(|sequence|)
  {
    NatStringValue(|sequence|);
  }
}

=== FILE: layout.dfy ===
/** The strand layout of a flat multi-strand list: the pieces between break
    markers (`make_lol_sequence`), their reassembly, and the correspondence
    between flat positions and `(strand, index)` loci that the pair table,
    the loop index and the split all use. */
module Layout {
  import Rotation

  /** A locus: strand number and position within the strand. */
  type Loc = (nat, nat)

  /** Python's order on loci (tuple comparison). */
  predicate LocBefore(a: Loc, b: Loc) {
    a.0 < b.0 || (a.0 == b.0 && a.1 < b.1)
  }

  /** The pieces between break markers, in order. */
  function Pieces<T(==)>(s: seq<T>, b: T): (P: seq<seq<T>>)
    ensures |P| > 0 && forall i :: 0 <= i < |P| ==> b !in P[i]
    decreases |s|
  {
    if b !in s then [s]
    else
      var p := Rotation.FirstIndex(s, b);
      assert b !in s[..p];
      [s[..p]] + Pieces(s[p + 1..], b)
  }

  /** The pieces joined with the break marker between neighbours. */
  function Joined<T>(P: seq<seq<T>>, b: T): seq<T>
    requires |P| > 0
    decreases |P|
  {
    if |P| == 1 then P[0] else P[0] + [b] + Joined(P[1..], b)
  }

  /** Splitting and joining are inverse: joining the pieces gives the list
      back, and the pieces of a join of marker-free pieces are those pieces. */
  lemma {:induction false} JoinedPieces<T>(s: seq<T>, b: T)
    ensures Joined(Pieces(s, b), b) == s
    decreases |s|
  {
    if b in s {
      var p := Rotation.FirstIndex(s, b);
      JoinedPieces(s[p + 1..], b);
      assert Pieces(s, b)[1..] == Pieces(s[p + 1..], b);
      assert s == s[..p] + [b] + s[p + 1..];
    }
  }

  lemma {:induction false} PiecesJoined<T>(P: seq<seq<T>>, b: T)
    requires |P| > 0 && forall i :: 0 <= i < |P| ==> b !in P[i]
    ensures Pieces(Joined(P, b), b) == P
    decreases |P|
  {
    if |P| > 1 {
      var s := Joined(P, b);
      var rest := Joined(P[1..], b);
      assert s == P[0] + [b] + rest;
      assert s[|P[0]|] == b;
      var p := Rotation.FirstIndex(s, b);
      assert p == |P[0]| by {
        Rotation.FirstIndexBefore(s, b, |P[0]|);
      }
      assert s[..p] == P[0];
      assert s[p + 1..] == rest;
      PiecesJoined(P[1..], b);
    }
  }

  /** Flat position where piece `si` starts. */
  function Offset<T>(P: seq<seq<T>>, si: nat): nat
    requires si < |P|
  {
    if si == 0 then 0 else |P[0]| + 1 + Offset(P[1..], si - 1)
  }

  /** Piece `si` sits at its offset, followed by a marker unless it is the
      last piece. */
  lemma {:induction false} JoinedAt<T>(P: seq<seq<T>>, b: T, si: nat)
    requires si < |P|
    ensures Offset(P, si) + |P[si]| <= |Joined(P, b)|
    ensures forall di :: 0 <= di < |P[si]| ==> Joined(P, b)[Offset(P, si) + di] == P[si][di]
    ensures si + 1 < |P| ==> Offset(P, si) + |P[si]| < |Joined(P, b)| && Joined(P, b)[Offset(P, si) + |P[si]|] == b
    ensures si + 1 == |P| ==> Offset(P, si) + |P[si]| == |Joined(P, b)|
    decreases si
  {
    if si > 0 {
      JoinedAt(P[1..], b, si - 1);
      assert Joined(P, b) == P[0] + [b] + Joined(P[1..], b);
    }
  }

  /** The locus of a flat position; a marker position gets the index just
      past the end of the piece before it. */
  function LocOf<T>(P: seq<seq<T>>, k: nat): Loc
    requires |P| > 0
    decreases |P|
  {
    if k <= |P[0]| || |P| == 1 then (0, k)
    else
      var l := LocOf(P[1..], k - |P[0]| - 1);
      (l.0 + 1, l.1)
  }

  /** The locus of the flat position of a locus is that locus. */
  lemma {:induction false} LocOfOffset<T>(P: seq<seq<T>>, si: nat, di: nat)
    requires si < |P| && di <= |P[si]|
    ensures LocOf(P, Offset(P, si) + di) == (si, di)
    decreases si
  {
    if si > 0 {
      LocOfOffset(P[1..], si - 1, di);
    }
  }

  /** A non-marker flat position lies in a piece, at the locus `LocOf`
      gives. */
  lemma {:induction false} LocOfInPiece<T>(P: seq<seq<T>>, b: T, k: nat)
    requires |P| > 0 && forall i :: 0 <= i < |P| ==> b !in P[i]
    requires k < |Joined(P, b)| && Joined(P, b)[k] != b
    ensures var l := LocOf(P, k);
      l.0 < |P| && l.1 < |P[l.0]| && Offset(P, l.0) + l.1 == k
    decreases |P|
  {
    if |P| > 1 {
      assert Joined(P, b) == P[0] + [b] + Joined(P[1..], b);
      if k > |P[0]| {
        assert Joined(P[1..], b)[k - |P[0]| - 1] == Joined(P, b)[k];
        LocOfInPiece(P[1..], b, k - |P[0]| - 1);
      }
    }
  }

  /** On non-marker positions `LocOf` is strictly increasing: flat order and
      locus order agree. */
  lemma {:induction false} LocOfMonotone<T>(P: seq<seq<T>>, b: T, k1: nat, k2: nat)
    requires |P| > 0 && forall i :: 0 <= i < |P| ==> b !in P[i]
    requires k1 < k2 < |Joined(P, b)| && Joined(P, b)[k1] != b && Joined(P, b)[k2] != b
    ensures LocBefore(LocOf(P, k1), LocOf(P, k2))
    decreases |P|
  {
    if |P| > 1 {
      assert Joined(P, b) == P[0] + [b] + Joined(P[1..], b);
      if k1 > |P[0]| {
        assert Joined(P[1..], b)[k1 - |P[0]| - 1] == Joined(P, b)[k1];
        assert Joined(P[1..], b)[k2 - |P[0]| - 1] == Joined(P, b)[k2];
        LocOfMonotone(P[1..], b, k1 - |P[0]| - 1, k2 - |P[0]| - 1);
      }
    }
  }

  /** The next piece starts just past the marker that ends this one. */
  lemma {:induction false} OffsetStep<T>(P: seq<seq<T>>, si: nat)
    requires si + 1 < |P|
    ensures Offset(P, si + 1) == Offset(P, si) + |P[si]| + 1
    decreases si
  {
    if si > 0 {
      OffsetStep(P[1..], si - 1);
    }
  }

  /** A piece ends, marker included, before any later piece starts. */
  lemma {:induction false} OffsetBefore<T>(P: seq<seq<T>>, a: nat, b: nat)
    requires a < b < |P|
    ensures Offset(P, a) + |P[a]| < Offset(P, b)
    decreases b - a
  {
    OffsetStep(P, a);
    if a + 1 < b {
      OffsetBefore(P, a + 1, b);
    }
  }

  /** Every flat position has a locus at its piece's offset, with an index
      at most the piece's length; the index is the length only at a marker,
      and a later piece follows it. */
  lemma {:induction false} LocOfBound<T>(P: seq<seq<T>>, b: T, k: nat)
    requires |P| > 0 && k < |Joined(P, b)|
    ensures var l := LocOf(P, k);
      && l.0 < |P| && l.1 <= |P[l.0]| && Offset(P, l.0) + l.1 == k
      && (l.1 == |P[l.0]| ==> l.0 + 1 < |P| && Joined(P, b)[k] == b)
    decreases |P|
  {
    if |P| > 1 {
      assert Joined(P, b) == P[0] + [b] + Joined(P[1..], b);
      if k > |P[0]| {
        assert Joined(P[1..], b)[k - |P[0]| - 1] == Joined(P, b)[k];
        LocOfBound(P[1..], b, k - |P[0]| - 1);
      }
    }
  }

  /** `LocOf` is strictly increasing on all positions, markers included. */
  lemma {:induction false} LocOfOrder<T>(P: seq<seq<T>>, x: nat, y: nat)
    requires |P| > 0 && x < y
    ensures LocBefore(LocOf(P, x), LocOf(P, y))
    decreases |P|
  {
    if |P| > 1 && x > |P[0]| {
      LocOfOrder(P[1..], x - |P[0]| - 1, y - |P[0]| - 1);
    }
  }

  /** Loci depend only on the piece lengths. */
  lemma {:induction false} LocOfSameShape<A, B>(P: seq<seq<A>>, Q: seq<seq<B>>, k: nat)
    requires |P| == |Q| > 0 && forall j :: 0 <= j < |P| ==> |P[j]| == |Q[j]|
    ensures LocOf(P, k) == LocOf(Q, k)
    decreases |P|
  {
    if |P| > 1 && k > |P[0]| {
      LocOfSameShape(P[1..], Q[1..], k - |P[0]| - 1);
    }
  }

  /** Joins of pieces of the same lengths have the same length and their
      markers at the same positions. */
  lemma JoinedSameShape<A, B>(P: seq<seq<A>>, a: A, Q: seq<seq<B>>, b: B)
    requires |P| == |Q| > 0 && forall j :: 0 <= j < |P| ==> |P[j]| == |Q[j]|
    requires forall j :: 0 <= j < |P| ==> a !in P[j] && b !in Q[j]
    ensures |Joined(P, a)| == |Joined(Q, b)|
    ensures forall k :: 0 <= k < |Joined(P, a)| ==> (Joined(P, a)[k] == a <==> Joined(Q, b)[k] == b)
  {
    var n := |P| - 1;
    JoinedAt(P, a, n);
    JoinedAt(Q, b, n);
    OffsetSameShape(P, Q, n);
    forall k | 0 <= k < |Joined(P, a)|
      ensures Joined(P, a)[k] == a <==> Joined(Q, b)[k] == b
    {
      LocOfBound(P, a, k);
      LocOfSameShape(P, Q, k);
      var l := LocOf(P, k);
      OffsetSameShape(P, Q, l.0);
      LocOfBound(Q, b, k);
      if l.1 < |P[l.0]| {
        JoinedAt(P, a, l.0);
        JoinedAt(Q, b, l.0);
      }
    }
  }

  /** Appends `x` to the last piece. */
  function Extend<T>(P: seq<seq<T>>, x: T): (Q: seq<seq<T>>)
    requires |P| > 0
    ensures |Q| == |P| && Q[..|P| - 1] == P[..|P| - 1] && Q[|P| - 1] == P[|P| - 1] + [x]
  {
    P[..|P| - 1] + [P[|P| - 1] + [x]]
  }

  /** Pieces grow at the end: a marker opens a new empty piece, anything
      else extends the last piece. */
  lemma {:induction false} PiecesSnoc<T>(s: seq<T>, b: T, x: T)
    ensures Pieces(s + [x], b) == if x == b then Pieces(s, b) + [[]] else Extend(Pieces(s, b), x)
    decreases |s|
  {
    if b !in s {
      PiecesSnocFirst(s, b, x);
    } else {
      var p := Rotation.FirstIndex(s, b);
      PiecesSnoc(s[p + 1..], b, x);
      PiecesSnocLater(s, b, x);
    }
  }

  lemma PiecesSnocFirst<T>(s: seq<T>, b: T, x: T)
    requires b !in s
    ensures Pieces(s + [x], b) == if x == b then Pieces(s, b) + [[]] else Extend(Pieces(s, b), x)
  {
    hide Rotation.FirstIndex;
    var s' := s + [x];
    if x == b {
      assert Rotation.FirstIndex(s', b) == |s| by {
        Rotation.FirstIndexBefore(s', b, |s|);
      }
      assert s'[..|s|] == s;
      assert s'[|s| + 1..] == [];
    } else {
      assert b !in s';
    }
  }

  /** The first piece runs up to the first marker. */
  lemma PiecesCons<T>(s: seq<T>, b: T)
    requires b in s
    ensures var p := Rotation.FirstIndex(s, b);
      Pieces(s, b) == [s[..p]] + Pieces(s[p + 1..], b)
  {
  }

  lemma PiecesSnocLater<T>(s: seq<T>, b: T, x: T)
    requires b in s
    requires var r := s[Rotation.FirstIndex(s, b) + 1..];
      Pieces(r + [x], b) == if x == b then Pieces(r, b) + [[]] else Extend(Pieces(r, b), x)
    ensures Pieces(s + [x], b) == if x == b then Pieces(s, b) + [[]] else Extend(Pieces(s, b), x)
  {
    hide Rotation.FirstIndex, Pieces;
    var s' := s + [x];
    var p := Rotation.FirstIndex(s, b);
    assert Rotation.FirstIndex(s', b) == p by {
      Rotation.FirstIndexBefore(s', b, p);
    }
    assert s'[..p] == s[..p];
    assert s'[p + 1..] == s[p + 1..] + [x];
    PiecesCons(s, b);
    PiecesCons(s', b);
    var Q := Pieces(s[p + 1..], b);
    if x != b {
      assert Extend([s[..p]] + Q, x) == [s[..p]] + Extend(Q, x);
    }
  }

  /** Two lists with their markers at the same positions have pieces of the
      same lengths. */
  lemma {:induction false} PiecesSameShape<A, B>(x: seq<A>, a: A, y: seq<B>, b: B)
    requires |x| == |y| && forall k :: 0 <= k < |x| ==> (x[k] == a <==> y[k] == b)
    ensures |Pieces(x, a)| == |Pieces(y, b)|
    ensures forall si :: 0 <= si < |Pieces(x, a)| ==> |Pieces(x, a)[si]| == |Pieces(y, b)[si]|
    decreases |x|
  {
    hide Rotation.FirstIndex;
    if a in x {
      var p := Rotation.FirstIndex(x, a);
      assert y[p] == b;
      assert Rotation.FirstIndex(y, b) == p by {
        Rotation.FirstIndexBefore(y, b, p);
      }
      PiecesSameShape(x[p + 1..], a, y[p + 1..], b);
    } else {
      assert b !in y;
    }
  }

  /** Offsets depend only on the piece lengths. */
  lemma {:induction false} OffsetSameShape<A, B>(P: seq<seq<A>>, Q: seq<seq<B>>, si: nat)
    requires si < |P| == |Q| && forall j :: 0 <= j < |P| ==> |P[j]| == |Q[j]|
    ensures Offset(P, si) == Offset(Q, si)
    decreases si
  {
    if si > 0 {
      OffsetSameShape(P[1..], Q[1..], si - 1);
    }
  }
}

=== FILE: loop_examples.dfy ===
/** Worked loop indices, and structures whose strands do not hold
    together. */
module LoopExamples {
  import opened Results
  import opened Loops

  lemma HairpinLoopsPart1()
    ensures LoopScan("(((...)))", '+', 0, LoopState([], 0, [], [], {0}))
         == LoopScan("(((...)))", '+', 2, LoopState([1, 2], 2, [], [1, 2], {0}))
  {
    hide LoopScan;
    var t := "(((...)))";
    var s0 := LoopState([], 0, [], [], {0});
    var s1 := LoopState([1], 1, [], [1], {0});
    var s2 := LoopState([1, 2], 2, [], [1, 2], {0});
    assert LoopStep(t, '+', 0, s0) == Ok(s1) by {
      assert s0.stack + [1] == s1.stack && s0.row + [1] == s1.row;
    }
    ScanStep(t, '+', 0, s0);
    assert LoopStep(t, '+', 1, s1) == Ok(s2) by {
      assert s1.stack + [2] == s2.stack && s1.row + [2] == s2.row;
    }
    ScanStep(t, '+', 1, s1);
  }

  lemma HairpinLoopsPart2()
    ensures LoopScan("(((...)))", '+', 2, LoopState([1, 2], 2, [], [1, 2], {0}))
         == LoopScan("(((...)))", '+', 4, LoopState([1, 2, 3], 3, [], [1, 2, 3, 3], {0}))
  {
    hide LoopScan;
    var t := "(((...)))";
    var s2 := LoopState([1, 2], 2, [], [1, 2], {0});
    var s3 := LoopState([1, 2, 3], 3, [], [1, 2, 3], {0});
    var s4 := LoopState([1, 2, 3], 3, [], [1, 2, 3, 3], {0});
    assert LoopStep(t, '+', 2, s2) == Ok(s3) by {
      assert s2.stack + [3] == s3.stack && s2.row + [3] == s3.row;
    }
    ScanStep(t, '+', 2, s2);
    assert LoopStep(t, '+', 3, s3) == Ok(s4) by {
      assert s3.row + [Top(s3.stack)] == s4.row;
    }
    ScanStep(t, '+', 3, s3);
  }

  lemma HairpinLoopsPart3()
    ensures LoopScan("(((...)))", '+', 4, LoopState([1, 2, 3], 3, [], [1, 2, 3, 3], {0}))
         == LoopScan("(((...)))", '+', 6, LoopState([1, 2, 3], 3, [], [1, 2, 3, 3, 3, 3], {0}))
  {
    hide LoopScan;
    var t := "(((...)))";
    var s4 := LoopState([1, 2, 3], 3, [], [1, 2, 3, 3], {0});
    var s5 := LoopState([1, 2, 3], 3, [], [1, 2, 3, 3, 3], {0});
    var s6 := LoopState([1, 2, 3], 3, [], [1, 2, 3, 3, 3, 3], {0});
    assert LoopStep(t, '+', 4, s4) == Ok(s5) by {
      assert s4.row + [Top(s4.stack)] == s5.row;
    }
    ScanStep(t, '+', 4, s4);
    assert LoopStep(t, '+', 5, s5) == Ok(s6) by {
      assert s5.row + [Top(s5.stack)] == s6.row;
    }
    ScanStep(t, '+', 5, s5);
  }

  lemma HairpinLoopsPart4()
    ensures LoopScan("(((...)))", '+', 6, LoopState([1, 2, 3], 3, [], [1, 2, 3, 3, 3, 3], {0}))
         == LoopScan("(((...)))", '+', 8, LoopState([1], 3, [], [1, 2, 3, 3, 3, 3, 3, 2], {0}))
  {
    hide LoopScan;
    var t := "(((...)))";
    var s6 := LoopState([1, 2, 3], 3, [], [1, 2, 3, 3, 3, 3], {0});
    var s7 := LoopState([1, 2], 3, [], [1, 2, 3, 3, 3, 3, 3], {0});
    var s8 := LoopState([1], 3, [], [1, 2, 3, 3, 3, 3, 3, 2], {0});
    assert LoopStep(t, '+', 6, s6) == Ok(s7) by {
      assert Pop(s6.stack) == s7.stack && s6.row + [3] == s7.row;
    }
    ScanStep(t, '+', 6, s6);
    assert LoopStep(t, '+', 7, s7) == Ok(s8) by {
      assert Pop(s7.stack) == s8.stack && s7.row + [2] == s8.row;
    }
    ScanStep(t, '+', 7, s7);
  }

  lemma HairpinLoopsPart5()
    ensures LoopScan("(((...)))", '+', 8, LoopState([1], 3, [], [1, 2, 3, 3, 3, 3, 3, 2], {0}))
         == Ok(LoopState([], 3, [], [1, 2, 3, 3, 3, 3, 3, 2, 1], {0}))
  {
    hide LoopScan;
    var t := "(((...)))";
    var s8 := LoopState([1], 3, [], [1, 2, 3, 3, 3, 3, 3, 2], {0});
    var s9 := LoopState([], 3, [], [1, 2, 3, 3, 3, 3, 3, 2, 1], {0});
    assert LoopStep(t, '+', 8, s8) == Ok(s9) by {
      assert Pop(s8.stack) == s9.stack && s8.row + [1] == s9.row;
    }
    ScanStep(t, '+', 8, s8);
    ScanStep(t, '+', 9, s9);
  }

  /** A single hairpin: three nested loops, all in one strand. */
  lemma HairpinLoops()
    ensures MakeLoopIndex("(((...)))", '+') == Ok(([[1, 2, 3, 3, 3, 3, 3, 2, 1]], {0}))
  {
    hide LoopScan;
    HairpinLoopsPart1();
    HairpinLoopsPart2();
    HairpinLoopsPart3();
    HairpinLoopsPart4();
    HairpinLoopsPart5();
    var s := LoopState([], 3, [], [1, 2, 3, 3, 3, 3, 3, 2, 1], {0});
    assert s.Rows() == [[1, 2, 3, 3, 3, 3, 3, 2, 1]];
  }

  lemma TwoStrandLoopsPart1()
    ensures LoopScan(".((.((...)).+.((...).))).", '+', 0, LoopState([], 0, [], [], {0}))
         == LoopScan(".((.((...)).+.((...).))).", '+', 2, LoopState([1], 1, [], [0, 1], {0}))
  {
    hide LoopScan;
    var t := ".((.((...)).+.((...).))).";
    var s0 := LoopState([], 0, [], [], {0});
    var s1 := LoopState([], 0, [], [0], {0});
    var s2 := LoopState([1], 1, [], [0, 1], {0});
    assert LoopStep(t, '+', 0, s0) == Ok(s1) by {
      assert s0.row + [Top(s0.stack)] == s1.row;
    }
    ScanStep(t, '+', 0, s0);
    assert LoopStep(t, '+', 1, s1) == Ok(s2) by {
      assert s1.stack + [1] == s2.stack && s1.row + [1] == s2.row;
    }
    ScanStep(t, '+', 1, s1);
  }

  lemma TwoStrandLoopsPart2()
    ensures LoopScan(".((.((...)).+.((...).))).", '+', 2, LoopState([1], 1, [], [0, 1], {0}))
         == LoopScan(".((.((...)).+.((...).))).", '+', 4, LoopState([1, 2], 2, [], [0, 1, 2, 2], {0}))
  {
    hide LoopScan;
    var t := ".((.((...)).+.((...).))).";
    var s2 := LoopState([1], 1, [], [0, 1], {0});
    var s3 := LoopState([1, 2], 2, [], [0, 1, 2], {0});
    var s4 := LoopState([1, 2], 2, [], [0, 1, 2, 2], {0});
    assert LoopStep(t, '+', 2, s2) == Ok(s3) by {
      assert s2.stack + [2] == s3.stack && s2.row + [2] == s3.row;
    }
    ScanStep(t, '+', 2, s2);
    assert LoopStep(t, '+', 3, s3) == Ok(s4) by {
      assert s3.row + [Top(s3.stack)] == s4.row;
    }
    ScanStep(t, '+', 3, s3);
  }

  lemma TwoStrandLoopsPart3()
    ensures LoopScan(".((.((...)).+.((...).))).", '+', 4, LoopState([1, 2], 2, [], [0, 1, 2, 2], {0}))
         == LoopScan(".((.((...)).+.((...).))).", '+', 6, LoopState([1, 2, 3, 4], 4, [], [0, 1, 2, 2, 3, 4], {0}))
  {
    hide LoopScan;
    var t := ".((.((...)).+.((...).))).";
    var s4 := LoopState([1, 2], 2, [], [0, 1, 2, 2], {0});
    var s5 := LoopState([1, 2, 3], 3, [], [0, 1, 2, 2, 3], {0});
    var s6 := LoopState([1, 2, 3, 4], 4, [], [0, 1, 2, 2, 3, 4], {0});
    assert LoopStep(t, '+', 4, s4) == Ok(s5) by {
      assert s4.stack + [3] == s5.stack && s4.row + [3] == s5.row;
    }
    ScanStep(t, '+', 4, s4);
    assert LoopStep(t, '+', 5, s5) == Ok(s6) by {
      assert s5.stack + [4] == s6.stack && s5.row + [4] == s6.row;
    }
    ScanStep(t, '+', 5, s5);
  }

  lemma TwoStrandLoopsPart4()
    ensures LoopScan(".((.((...)).+.((...).))).", '+', 6, LoopState([1, 2, 3, 4], 4, [], [0, 1, 2, 2, 3, 4], {0}))
         == LoopScan(".((.((...)).+.((...).))).", '+', 8, LoopState([1, 2, 3, 4], 4, [], [0, 1, 2, 2, 3, 4, 4, 4], {0}))
  {
    hide LoopScan;
    var t := ".((.((...)).+.((...).))).";
    var s6 := LoopState([1, 2, 3, 4], 4, [], [0, 1, 2, 2, 3, 4], {0});
    var s7 := LoopState([1, 2, 3, 4], 4, [], [0, 1, 2, 2, 3, 4, 4], {0});
    var s8 := LoopState([1, 2, 3, 4], 4, [], [0, 1, 2, 2, 3, 4, 4, 4], {0});
    assert LoopStep(t, '+', 6, s6) == Ok(s7) by {
      assert s6.row + [Top(s6.stack)] == s7.row;
    }
    ScanStep(t, '+', 6, s6);
    assert LoopStep(t, '+', 7, s7) == Ok(s8) by {
      assert s7.row + [Top(s7.stack)] == s8.row;
    }
    ScanStep(t, '+', 7, s7);
  }

  lemma TwoStrandLoopsPart5()
    ensures LoopScan(".((.((...)).+.((...).))).", '+', 8, LoopState([1, 2, 3, 4], 4, [], [0, 1, 2, 2, 3, 4, 4, 4], {0}))
         == LoopScan(".((.((...)).+.((...).))).", '+', 10, LoopState([1, 2, 3], 4, [], [0, 1, 2, 2, 3, 4, 4, 4, 4, 4], {0}))
  {
    hide LoopScan;
    var t := ".((.((...)).+.((...).))).";
    var s8 := LoopState([1, 2, 3, 4], 4, [], [0, 1, 2, 2, 3, 4, 4, 4], {0});
    var s9 := LoopState([1, 2, 3, 4], 4, [], [0, 1, 2, 2, 3, 4, 4, 4, 4], {0});
    var s10 := LoopState([1, 2, 3], 4, [], [0, 1, 2, 2, 3, 4, 4, 4, 4, 4], {0});
    assert LoopStep(t, '+', 8, s8) == Ok(s9) by {
      assert s8.row + [Top(s8.stack)] == s9.row;
    }
    ScanStep(t, '+', 8, s8);
    assert LoopStep(t, '+', 9, s9) == Ok(s10) by {
      assert Pop(s9.stack) == s10.stack && s9.row + [4] == s10.row;
    }
    ScanStep(t, '+', 9, s9);
  }

  lemma TwoStrandLoopsPart6()
    ensures LoopScan(".((.((...)).+.((...).))).", '+', 10, LoopState([1, 2, 3], 4, [], [0, 1, 2, 2, 3, 4, 4, 4, 4, 4], {0}))
         == LoopScan(".((.((...)).+.((...).))).", '+', 12, LoopState([1, 2], 4, [], [0, 1, 2, 2, 3, 4, 4, 4, 4, 4, 3, 2], {0}))
  {
    hide LoopScan;
    var t := ".((.((...)).+.((...).))).";
    var s10 := LoopState([1, 2, 3], 4, [], [0, 1, 2, 2, 3, 4, 4, 4, 4, 4], {0});
    var s11 := LoopState([1, 2], 4, [], [0, 1, 2, 2, 3, 4, 4, 4, 4, 4, 3], {0});
    var s12 := LoopState([1, 2], 4, [], [0, 1, 2, 2, 3, 4, 4, 4, 4, 4, 3, 2], {0});
    assert LoopStep(t, '+', 10, s10) == Ok(s11) by {
      assert Pop(s10.stack) == s11.stack && s10.row + [3] == s11.row;
    }
    ScanStep(t, '+', 10, s10);
    assert LoopStep(t, '+', 11, s11) == Ok(s12) by {
      assert s11.row + [Top(s11.stack)] == s12.row;
    }
    ScanStep(t, '+', 11, s11);
  }

  lemma TwoStrandLoopsPart7()
    ensures LoopScan(".((.((...)).+.((...).))).", '+', 12, LoopState([1, 2], 4, [], [0, 1, 2, 2, 3, 4, 4, 4, 4, 4, 3, 2], {0}))
         == LoopScan(".((.((...)).+.((...).))).", '+', 14, LoopState([1, 2], 4, [[0, 1, 2, 2, 3, 4, 4, 4, 4, 4, 3, 2]], [2], {0, 2}))
  {
    hide LoopScan;
    var t := ".((.((...)).+.((...).))).";
    var s12 := LoopState([1, 2], 4, [], [0, 1, 2, 2, 3, 4, 4, 4, 4, 4, 3, 2], {0});
    var s13 := LoopState([1, 2], 4, [[0, 1, 2, 2, 3, 4, 4, 4, 4, 4, 3, 2]], [], {0, 2});
    var s14 := LoopState([1, 2], 4, [[0, 1, 2, 2, 3, 4, 4, 4, 4, 4, 3, 2]], [2], {0, 2});
    assert LoopStep(t, '+', 12, s12) == Ok(s13) by {
      assert s12.done + [s12.row] == s13.done && Top(s12.stack) == 2 && s12.exterior + {2} == s13.exterior;
    }
    ScanStep(t, '+', 12, s12);
    assert LoopStep(t, '+', 13, s13) == Ok(s14) by {
      assert s13.row + [Top(s13.stack)] == s14.row;
    }
    ScanStep(t, '+', 13, s13);
  }

  lemma TwoStrandLoopsPart8()
    ensures LoopScan(".((.((...)).+.((...).))).", '+', 14, LoopState([1, 2], 4, [[0, 1, 2, 2, 3, 4, 4, 4, 4, 4, 3, 2]], [2], {0, 2}))
         == LoopScan(".((.((...)).+.((...).))).", '+', 16, LoopState([1, 2, 5, 6], 6, [[0, 1, 2, 2, 3, 4, 4, 4, 4, 4, 3, 2]], [2, 5, 6], {0, 2}))
  {
    hide LoopScan;
    var t := ".((.((...)).+.((...).))).";
    var s14 := LoopState([1, 2], 4, [[0, 1, 2, 2, 3, 4, 4, 4, 4, 4, 3, 2]], [2], {0, 2});
    var s15 := LoopState([1, 2, 5], 5, [[0, 1, 2, 2, 3, 4, 4, 4, 4, 4, 3, 2]], [2, 5], {0, 2});
    var s16 := LoopState([1, 2, 5, 6], 6, [[0, 1, 2, 2, 3, 4, 4, 4, 4, 4, 3, 2]], [2, 5, 6], {0, 2});
    assert LoopStep(t, '+', 14, s14) == Ok(s15) by {
      assert s14.stack + [5] == s15.stack && s14.row + [5] == s15.row;
    }
    ScanStep(t, '+', 14, s14);
    assert LoopStep(t, '+', 15, s15) == Ok(s16) by {
      assert s15.stack + [6] == s16.stack && s15.row + [6] == s16.row;
    }
    ScanStep(t, '+', 15, s15);
  }

  lemma TwoStrandLoopsPart9()
    ensures LoopScan(".((.((...)).+.((...).))).", '+', 16, LoopState([1, 2, 5, 6], 6, [[0, 1, 2, 2, 3, 4, 4, 4, 4, 4, 3, 2]], [2, 5, 6], {0, 2}))
         == LoopScan(".((.((...)).+.((...).))).", '+', 18, LoopState([1, 2, 5, 6], 6, [[0, 1, 2, 2, 3, 4, 4, 4, 4, 4, 3, 2]], [2, 5, 6, 6, 6], {0, 2}))
  {
    hide LoopScan;
    var t := ".((.((...)).+.((...).))).";
    var s16 := LoopState([1, 2, 5, 6], 6, [[0, 1, 2, 2, 3, 4, 4, 4, 4, 4, 3, 2]], [2, 5, 6], {0, 2});
    var s17 := LoopState([1, 2, 5, 6], 6, [[0, 1, 2, 2, 3, 4, 4, 4, 4, 4, 3, 2]], [2, 5, 6, 6], {0, 2});
    var s18 := LoopState([1, 2, 5, 6], 6, [[0, 1, 2, 2, 3, 4, 4, 4, 4, 4, 3, 2]], [2, 5, 6, 6, 6], {0, 2});
    assert LoopStep(t, '+', 16, s16) == Ok(s17) by {
      assert s16.row + [Top(s16.stack)] == s17.row;
    }
    ScanStep(t, '+', 16, s16);
    assert LoopStep(t, '+', 17, s17) == Ok(s18) by {
      assert s17.row + [Top(s17.stack)] == s18.row;
    }
    ScanStep(t, '+', 17, s17);
  }

  lemma TwoStrandLoopsPart10()
    ensures LoopScan(".((.((...)).+.((...).))).", '+', 18, LoopState([1, 2, 5, 6], 6, [[0, 1, 2, 2, 3, 4, 4, 4, 4, 4, 3, 2]], [2, 5, 6, 6, 6], {0, 2}))
         == LoopScan(".((.((...)).+.((...).))).", '+', 20, LoopState([1, 2, 5], 6, [[0, 1, 2, 2, 3, 4, 4, 4, 4, 4, 3, 2]], [2, 5, 6, 6, 6, 6, 6], {0, 2}))
  {
    hide LoopScan;
    var t := ".((.((...)).+.((...).))).";
    var s18 := LoopState([1, 2, 5, 6], 6, [[0, 1, 2, 2, 3, 4, 4, 4, 4, 4, 3, 2]], [2, 5, 6, 6, 6], {0, 2});
    var s19 := LoopState([1, 2, 5, 6], 6, [[0, 1, 2, 2, 3, 4, 4, 4, 4, 4, 3, 2]], [2, 5, 6, 6, 6, 6], {0, 2});
    var s20 := LoopState([1, 2, 5], 6, [[0, 1, 2, 2, 3, 4, 4, 4, 4, 4, 3, 2]], [2, 5, 6, 6, 6, 6, 6], {0, 2});
    assert LoopStep(t, '+', 18, s18) == Ok(s19) by {
      assert s18.row + [Top(s18.stack)] == s19.row;
    }
    ScanStep(t, '+', 18, s18);
    assert LoopStep(t, '+', 19, s19) == Ok(s20) by {
      assert Pop(s19.stack) == s20.stack && s19.row + [6] == s20.row;
    }
    ScanStep(t, '+', 19, s19);
  }

  lemma TwoStrandLoopsPart11()
    ensures LoopScan(".((.((...)).+.((...).))).", '+', 20, LoopState([1, 2, 5], 6, [[0, 1, 2, 2, 3, 4, 4, 4, 4, 4, 3, 2]], [2, 5, 6, 6, 6, 6, 6], {0, 2}))
         == LoopScan(".((.((...)).+.((...).))).", '+', 22, LoopState([1, 2], 6, [[0, 1, 2, 2, 3, 4, 4, 4, 4, 4, 3, 2]], [2, 5, 6, 6, 6, 6, 6, 5, 5], {0, 2}))
  {
    hide LoopScan;
    var t := ".((.((...)).+.((...).))).";
    var s20 := LoopState([1, 2, 5], 6, [[0, 1, 2, 2, 3, 4, 4, 4, 4, 4, 3, 2]], [2, 5, 6, 6, 6, 6, 6], {0, 2});
    var s21 := LoopState([1, 2, 5], 6, [[0, 1, 2, 2, 3, 4, 4, 4, 4, 4, 3, 2]], [2, 5, 6, 6, 6, 6, 6, 5], {0, 2});
    var s22 := LoopState([1, 2], 6, [[0, 1, 2, 2, 3, 4, 4, 4, 4, 4, 3, 2]], [2, 5, 6, 6, 6, 6, 6, 5, 5], {0, 2});
    assert LoopStep(t, '+', 20, s20) == Ok(s21) by {
      assert s20.row + [Top(s20.stack)] == s21.row;
    }
    ScanStep(t, '+', 20, s20);
    assert LoopStep(t, '+', 21, s21) == Ok(s22) by {
      assert Pop(s21.stack) == s22.stack && s21.row + [5] == s22.row;
    }
    ScanStep(t, '+', 21, s21);
  }

  lemma TwoStrandLoopsPart12()
    ensures LoopScan(".((.((...)).+.((...).))).", '+', 22, LoopState([1, 2], 6, [[0, 1, 2, 2, 3, 4, 4, 4, 4, 4, 3, 2]], [2, 5, 6, 6, 6, 6, 6, 5, 5], {0, 2}))
         == LoopScan(".((.((...)).+.((...).))).", '+', 24, LoopState([], 6, [[0, 1, 2, 2, 3, 4, 4, 4, 4, 4, 3, 2]], [2, 5, 6, 6, 6, 6, 6, 5, 5, 2, 1], {0, 2}))
  {
    hide LoopScan;
    var t := ".((.((...)).+.((...).))).";
    var s22 := LoopState([1, 2], 6, [[0, 1, 2, 2, 3, 4, 4, 4, 4, 4, 3, 2]], [2, 5, 6, 6, 6, 6, 6, 5, 5], {0, 2});
    var s23 := LoopState([1], 6, [[0, 1, 2, 2, 3, 4, 4, 4, 4, 4, 3, 2]], [2, 5, 6, 6, 6, 6, 6, 5, 5, 2], {0, 2});
    var s24 := LoopState([], 6, [[0, 1, 2, 2, 3, 4, 4, 4, 4, 4, 3, 2]], [2, 5, 6, 6, 6, 6, 6, 5, 5, 2, 1], {0, 2});
    assert LoopStep(t, '+', 22, s22) == Ok(s23) by {
      assert Pop(s22.stack) == s23.stack && s22.row + [2] == s23.row;
    }
    ScanStep(t, '+', 22, s22);
    assert LoopStep(t, '+', 23, s23) == Ok(s24) by {
      assert Pop(s23.stack) == s24.stack && s23.row + [1] == s24.row;
    }
    ScanStep(t, '+', 23, s23);
  }

  lemma TwoStrandLoopsPart13()
    ensures LoopScan(".((.((...)).+.((...).))).", '+', 24, LoopState([], 6, [[0, 1, 2, 2, 3, 4, 4, 4, 4, 4, 3, 2]], [2, 5, 6, 6, 6, 6, 6, 5, 5, 2, 1], {0, 2}))
         == Ok(LoopState([], 6, [[0, 1, 2, 2, 3, 4, 4, 4, 4, 4, 3, 2]], [2, 5, 6, 6, 6, 6, 6, 5, 5, 2, 1, 0], {0, 2}))
  {
    hide LoopScan;
    var t := ".((.((...)).+.((...).))).";
    var s24 := LoopState([], 6, [[0, 1, 2, 2, 3, 4, 4, 4, 4, 4, 3, 2]], [2, 5, 6, 6, 6, 6, 6, 5, 5, 2, 1], {0, 2});
    var s25 := LoopState([], 6, [[0, 1, 2, 2, 3, 4, 4, 4, 4, 4, 3, 2]], [2, 5, 6, 6, 6, 6, 6, 5, 5, 2, 1, 0], {0, 2});
    assert LoopStep(t, '+', 24, s24) == Ok(s25) by {
      assert s24.row + [Top(s24.stack)] == s25.row;
    }
    ScanStep(t, '+', 24, s24);
    ScanStep(t, '+', 25, s25);
  }

  /** The second strand starts in loop 2, inside the first two pairs. */
  lemma TwoStrandLoops()
    ensures MakeLoopIndex(".((.((...)).+.((...).))).", '+') == Ok(([[0, 1, 2, 2, 3, 4, 4, 4, 4, 4, 3, 2], [2, 5, 6, 6, 6, 6, 6, 5, 5, 2, 1, 0]], {0, 2}))
  {
    hide LoopScan;
    TwoStrandLoopsPart1();
    TwoStrandLoopsPart2();
    TwoStrandLoopsPart3();
    TwoStrandLoopsPart4();
    TwoStrandLoopsPart5();
    TwoStrandLoopsPart6();
    TwoStrandLoopsPart7();
    TwoStrandLoopsPart8();
    TwoStrandLoopsPart9();
    TwoStrandLoopsPart10();
    TwoStrandLoopsPart11();
    TwoStrandLoopsPart12();
    TwoStrandLoopsPart13();
    var s := LoopState([], 6, [[0, 1, 2, 2, 3, 4, 4, 4, 4, 4, 3, 2]], [2, 5, 6, 6, 6, 6, 6, 5, 5, 2, 1, 0], {0, 2});
    assert s.Rows() == [[0, 1, 2, 2, 3, 4, 4, 4, 4, 4, 3, 2], [2, 5, 6, 6, 6, 6, 6, 5, 5, 2, 1, 0]];
  }

  lemma UnpairedStrandsDisconnectedPart1()
    ensures LoopScan("..+..", '+', 0, LoopState([], 0, [], [], {0})).Err?
  {
    hide LoopScan;
    var t := "..+..";
    var s0 := LoopState([], 0, [], [], {0});
    var s1 := LoopState([], 0, [], [0], {0});
    var s2 := LoopState([], 0, [], [0, 0], {0});
    assert LoopStep(t, '+', 0, s0) == Ok(s1) by {
      assert s0.row + [Top(s0.stack)] == s1.row;
    }
    ScanStep(t, '+', 0, s0);
    assert LoopStep(t, '+', 1, s1) == Ok(s2) by {
      assert s1.row + [Top(s1.stack)] == s2.row;
    }
    ScanStep(t, '+', 1, s1);
    assert LoopStep(t, '+', 2, s2).Err?;
    ScanStep(t, '+', 2, s2);
  }

  /** Two free strands both start in the exterior loop. */
  lemma UnpairedStrandsDisconnected()
    ensures MakeLoopIndex("..+..", '+').Err?
  {
    hide LoopScan;
    UnpairedStrandsDisconnectedPart1();
  }

  lemma SeparateHairpinsDisconnectedPart1()
    ensures LoopScan("(.)+.(..)", '+', 0, LoopState([], 0, [], [], {0}))
         == LoopScan("(.)+.(..)", '+', 2, LoopState([1], 1, [], [1, 1], {0}))
  {
    hide LoopScan;
    var t := "(.)+.(..)";
    var s0 := LoopState([], 0, [], [], {0});
    var s1 := LoopState([1], 1, [], [1], {0});
    var s2 := LoopState([1], 1, [], [1, 1], {0});
    assert LoopStep(t, '+', 0, s0) == Ok(s1) by {
      assert s0.stack + [1] == s1.stack && s0.row + [1] == s1.row;
    }
    ScanStep(t, '+', 0, s0);
    assert LoopStep(t, '+', 1, s1) == Ok(s2) by {
      assert s1.row + [Top(s1.stack)] == s2.row;
    }
    ScanStep(t, '+', 1, s1);
  }

  lemma SeparateHairpinsDisconnectedPart2()
    ensures LoopScan("(.)+.(..)", '+', 2, LoopState([1], 1, [], [1, 1], {0})).Err?
  {
    hide LoopScan;
    var t := "(.)+.(..)";
    var s2 := LoopState([1], 1, [], [1, 1], {0});
    var s3 := LoopState([], 1, [], [1, 1, 1], {0});
    assert LoopStep(t, '+', 2, s2) == Ok(s3) by {
      assert Pop(s2.stack) == s3.stack && s2.row + [1] == s3.row;
    }
    ScanStep(t, '+', 2, s2);
    assert LoopStep(t, '+', 3, s3).Err?;
    ScanStep(t, '+', 3, s3);
  }

  /** Two separate complexes side by side. */
  lemma SeparateHairpinsDisconnected()
    ensures MakeLoopIndex("(.)+.(..)", '+').Err?
  {
    hide LoopScan;
    SeparateHairpinsDisconnectedPart1();
    SeparateHairpinsDisconnectedPart2();
  }

  lemma RepeatedInnerStartDisconnectedPart1()
    ensures LoopScan("((..((.))+.(..).+((...))))", '+', 0, LoopState([], 0, [], [], {0}))
         == LoopScan("((..((.))+.(..).+((...))))", '+', 2, LoopState([1, 2], 2, [], [1, 2], {0}))
  {
    hide LoopScan;
    var t := "((..((.))+.(..).+((...))))";
    var s0 := LoopState([], 0, [], [], {0});
    var s1 := LoopState([1], 1, [], [1], {0});
    var s2 := LoopState([1, 2], 2, [], [1, 2], {0});
    assert LoopStep(t, '+', 0, s0) == Ok(s1) by {
      assert s0.stack + [1] == s1.stack && s0.row + [1] == s1.row;
    }
    ScanStep(t, '+', 0, s0);
    assert LoopStep(t, '+', 1, s1) == Ok(s2) by {
      assert s1.stack + [2] == s2.stack && s1.row + [2] == s2.row;
    }
    ScanStep(t, '+', 1, s1);
  }

  lemma RepeatedInnerStartDisconnectedPart2()
    ensures LoopScan("((..((.))+.(..).+((...))))", '+', 2, LoopState([1, 2], 2, [], [1, 2], {0}))
         == LoopScan("((..((.))+.(..).+((...))))", '+', 4, LoopState([1, 2], 2, [], [1, 2, 2, 2], {0}))
  {
    hide LoopScan;
    var t := "((..((.))+.(..).+((...))))";
    var s2 := LoopState([1, 2], 2, [], [1, 2], {0});
    var s3 := LoopState([1, 2], 2, [], [1, 2, 2], {0});
    var s4 := LoopState([1, 2], 2, [], [1, 2, 2, 2], {0});
    assert LoopStep(t, '+', 2, s2) == Ok(s3) by {
      assert s2.row + [Top(s2.stack)] == s3.row;
    }
    ScanStep(t, '+', 2, s2);
    assert LoopStep(t, '+', 3, s3) == Ok(s4) by {
      assert s3.row + [Top(s3.stack)] == s4.row;
    }
    ScanStep(t, '+', 3, s3);
  }

  lemma RepeatedInnerStartDisconnectedPart3()
    ensures LoopScan("((..((.))+.(..).+((...))))", '+', 4, LoopState([1, 2], 2, [], [1, 2, 2, 2], {0}))
         == LoopScan("((..((.))+.(..).+((...))))", '+', 6, LoopState([1, 2, 3, 4], 4, [], [1, 2, 2, 2, 3, 4], {0}))
  {
    hide LoopScan;
    var t := "((..((.))+.(..).+((...))))";
    var s4 := LoopState([1, 2], 2, [], [1, 2, 2, 2], {0});
    var s5 := LoopState([1, 2, 3], 3, [], [1, 2, 2, 2, 3], {0});
    var s6 := LoopState([1, 2, 3, 4], 4, [], [1, 2, 2, 2, 3, 4], {0});
    assert LoopStep(t, '+', 4, s4) == Ok(s5) by {
      assert s4.stack + [3] == s5.stack && s4.row + [3] == s5.row;
    }
    ScanStep(t, '+', 4, s4);
    assert LoopStep(t, '+', 5, s5) == Ok(s6) by {
      assert s5.stack + [4] == s6.stack && s5.row + [4] == s6.row;
    }
    ScanStep(t, '+', 5, s5);
  }

  lemma RepeatedInnerStartDisconnectedPart4()
    ensures LoopScan("((..((.))+.(..).+((...))))", '+', 6, LoopState([1, 2, 3, 4], 4, [], [1, 2, 2, 2, 3, 4], {0}))
         == LoopScan("((..((.))+.(..).+((...))))", '+', 8, LoopState([1, 2, 3], 4, [], [1, 2, 2, 2, 3, 4, 4, 4], {0}))
  {
    hide LoopScan;
    var t := "((..((.))+.(..).+((...))))";
    var s6 := LoopState([1, 2, 3, 4], 4, [], [1, 2, 2, 2, 3, 4], {0});
    var s7 := LoopState([1, 2, 3, 4], 4, [], [1, 2, 2, 2, 3, 4, 4], {0});
    var s8 := LoopState([1, 2, 3], 4, [], [1, 2, 2, 2, 3, 4, 4, 4], {0});
    assert LoopStep(t, '+', 6, s6) == Ok(s7) by {
      assert s6.row + [Top(s6.stack)] == s7.row;
    }
    ScanStep(t, '+', 6, s6);
    assert LoopStep(t, '+', 7, s7) == Ok(s8) by {
      assert Pop(s7.stack) == s8.stack && s7.row + [4] == s8.row;
    }
    ScanStep(t, '+', 7, s7);
  }

  lemma RepeatedInnerStartDisconnectedPart5()
    ensures LoopScan("((..((.))+.(..).+((...))))", '+', 8, LoopState([1, 2, 3], 4, [], [1, 2, 2, 2, 3, 4, 4, 4], {0}))
         == LoopScan("((..((.))+.(..).+((...))))", '+', 10, LoopState([1, 2], 4, [[1, 2, 2, 2, 3, 4, 4, 4, 3]], [], {0, 2}))
  {
    hide LoopScan;
    var t := "((..((.))+.(..).+((...))))";
    var s8 := LoopState([1, 2, 3], 4, [], [1, 2, 2, 2, 3, 4, 4, 4], {0});
    var s9 := LoopState([1, 2], 4, [], [1, 2, 2, 2, 3, 4, 4, 4, 3], {0});
    var s10 := LoopState([1, 2], 4, [[1, 2, 2, 2, 3, 4, 4, 4, 3]], [], {0, 2});
    assert LoopStep(t, '+', 8, s8) == Ok(s9) by {
      assert Pop(s8.stack) == s9.stack && s8.row + [3] == s9.row;
    }
    ScanStep(t, '+', 8, s8);
    assert LoopStep(t, '+', 9, s9) == Ok(s10) by {
      assert s9.done + [s9.row] == s10.done && Top(s9.stack) == 2 && s9.exterior + {2} == s10.exterior;
    }
    ScanStep(t, '+', 9, s9);
  }

  lemma RepeatedInnerStartDisconnectedPart6()
    ensures LoopScan("((..((.))+.(..).+((...))))", '+', 10, LoopState([1, 2], 4, [[1, 2, 2, 2, 3, 4, 4, 4, 3]], [], {0, 2}))
         == LoopScan("((..((.))+.(..).+((...))))", '+', 12, LoopState([1, 2, 5], 5, [[1, 2, 2, 2, 3, 4, 4, 4, 3]], [2, 5], {0, 2}))
  {
    hide LoopScan;
    var t := "((..((.))+.(..).+((...))))";
    var s10 := LoopState([1, 2], 4, [[1, 2, 2, 2, 3, 4, 4, 4, 3]], [], {0, 2});
    var s11 := LoopState([1, 2], 4, [[1, 2, 2, 2, 3, 4, 4, 4, 3]], [2], {0, 2});
    var s12 := LoopState([1, 2, 5], 5, [[1, 2, 2, 2, 3, 4, 4, 4, 3]], [2, 5], {0, 2});
    assert LoopStep(t, '+', 10, s10) == Ok(s11) by {
      assert s10.row + [Top(s10.stack)] == s11.row;
    }
    ScanStep(t, '+', 10, s10);
    assert LoopStep(t, '+', 11, s11) == Ok(s12) by {
      assert s11.stack + [5] == s12.stack && s11.row + [5] == s12.row;
    }
    ScanStep(t, '+', 11, s11);
  }

  lemma RepeatedInnerStartDisconnectedPart7()
    ensures LoopScan("((..((.))+.(..).+((...))))", '+', 12, LoopState([1, 2, 5], 5, [[1, 2, 2, 2, 3, 4, 4, 4, 3]], [2, 5], {0, 2}))
         == LoopScan("((..((.))+.(..).+((...))))", '+', 14, LoopState([1, 2, 5], 5, [[1, 2, 2, 2, 3, 4, 4, 4, 3]], [2, 5, 5, 5], {0, 2}))
  {
    hide LoopScan;
    var t := "((..((.))+.(..).+((...))))";
    var s12 := LoopState([1, 2, 5], 5, [[1, 2, 2, 2, 3, 4, 4, 4, 3]], [2, 5], {0, 2});
    var s13 := LoopState([1, 2, 5], 5, [[1, 2, 2, 2, 3, 4, 4, 4, 3]], [2, 5, 5], {0, 2});
    var s14 := LoopState([1, 2, 5], 5, [[1, 2, 2, 2, 3, 4, 4, 4, 3]], [2, 5, 5, 5], {0, 2});
    assert LoopStep(t, '+', 12, s12) == Ok(s13) by {
      assert s12.row + [Top(s12.stack)] == s13.row;
    }
    ScanStep(t, '+', 12, s12);
    assert LoopStep(t, '+', 13, s13) == Ok(s14) by {
      assert s13.row + [Top(s13.stack)] == s14.row;
    }
    ScanStep(t, '+', 13, s13);
  }

  lemma RepeatedInnerStartDisconnectedPart8()
    ensures LoopScan("((..((.))+.(..).+((...))))", '+', 14, LoopState([1, 2, 5], 5, [[1, 2, 2, 2, 3, 4, 4, 4, 3]], [2, 5, 5, 5], {0, 2})).Err?
  {
    hide LoopScan;
    var t := "((..((.))+.(..).+((...))))";
    var s14 := LoopState([1, 2, 5], 5, [[1, 2, 2, 2, 3, 4, 4, 4, 3]], [2, 5, 5, 5], {0, 2});
    var s15 := LoopState([1, 2], 5, [[1, 2, 2, 2, 3, 4, 4, 4, 3]], [2, 5, 5, 5, 5], {0, 2});
    var s16 := LoopState([1, 2], 5, [[1, 2, 2, 2, 3, 4, 4, 4, 3]], [2, 5, 5, 5, 5, 2], {0, 2});
    assert LoopStep(t, '+', 14, s14) == Ok(s15) by {
      assert Pop(s14.stack) == s15.stack && s14.row + [5] == s15.row;
    }
    ScanStep(t, '+', 14, s14);
    assert LoopStep(t, '+', 15, s15) == Ok(s16) by {
      assert s15.row + [Top(s15.stack)] == s16.row;
    }
    ScanStep(t, '+', 15, s15);
    assert LoopStep(t, '+', 16, s16).Err?;
    ScanStep(t, '+', 16, s16);
  }

  /** Strands two and three both start in loop 2: a repeated non-zero start. */
  lemma RepeatedInnerStartDisconnected()
    ensures MakeLoopIndex("((..((.))+.(..).+((...))))", '+').Err?
  {
    hide LoopScan;
    RepeatedInnerStartDisconnectedPart1();
    RepeatedInnerStartDisconnectedPart2();
    RepeatedInnerStartDisconnectedPart3();
    RepeatedInnerStartDisconnectedPart4();
    RepeatedInnerStartDisconnectedPart5();
    RepeatedInnerStartDisconnectedPart6();
    RepeatedInnerStartDisconnectedPart7();
    RepeatedInnerStartDisconnectedPart8();
  }
}

=== FILE: loops.dfy ===
/** The loop index of a multi-stranded structure (`make_loop_index`), the
    exterior loops, the connectivity test and the exterior domains.

    Every locus gets the id of the loop it lies in. Opens are numbered 1, 2,
    ... in order, and each open starts a new loop. Unpaired loci and closes
    take the innermost loop still open. Id 0 is the outermost, or exterior,
    loop. The loop id at the start of each strand goes into the exterior set.
    If two strands start in the same loop, the structure falls apart into
    several complexes, and that is an error. */
module Loops {
  import opened Results
  import opened Brackets
  import opened Layout
  import opened PairTables

  // ---------------------------------------------------------------------
  // Reference definitions

  /** Number of opens among the first `n` characters. */
  function Opens(t: seq<char>, n: nat): nat
    requires n <= |t|
  {
    if n == 0 then 0 else Opens(t, n - 1) + (if t[n - 1] == '(' then 1 else 0)
  }

  /** The id an open at `j` receives: its rank among the opens, from 1. */
  function OpenId(t: seq<char>, j: nat): nat
    requires j < |t|
  {
    Opens(t, j + 1)
  }

  lemma {:induction false} OpensMonotone(t: seq<char>, a: nat, b: nat)
    requires a <= b <= |t|
    ensures Opens(t, a) <= Opens(t, b)
    decreases b - a
  {
    if a < b {
      OpensMonotone(t, a, b - 1);
    }
  }

  /** The opens before position `n` whose partner lies at or after `i`, in
      order; for `n == i` these are the pairs enclosing position `i`,
      outermost first. */
  ghost function Enclosing(t: seq<char>, M: seq<Option<nat>>, i: nat, n: nat): (E: seq<nat>)
    requires Matching(t, M) && n <= |t|
    ensures forall a, b :: 0 <= a < b < |E| ==> E[a] < E[b]
    ensures forall a :: 0 <= a < |E| ==> E[a] < n
    ensures forall k :: k in E <==> 0 <= k < n && t[k] == '(' && M[k].value >= i
  {
    if n == 0 then []
    else
      var E := Enclosing(t, M, i, n - 1);
      if t[n - 1] == '(' && M[n - 1].value >= i then E + [n - 1] else E
  }

  /** The loop position `i` lies in, before the character there is read: the
      id of the innermost enclosing open, or 0 in the exterior loop. */
  ghost function LoopAt(t: seq<char>, M: seq<Option<nat>>, i: nat): nat
    requires Matching(t, M) && i <= |t|
  {
    var E := Enclosing(t, M, i, i);
    if |E| == 0 then 0 else OpenId(t, E[|E| - 1])
  }

  /** The id recorded for a locus: an open starts its own loop, anything
      else is in the loop around it. */
  ghost function IdAt(t: seq<char>, M: seq<Option<nat>>, k: nat): nat
    requires Matching(t, M) && k < |t|
  {
    if t[k] == '(' then OpenId(t, k) else LoopAt(t, M, k)
  }

  /** The id of every flat position, with -1 (no id) at strand breaks. */
  ghost function Labels(t: seq<char>, M: seq<Option<nat>>, brk: char): (L: seq<int>)
    requires Matching(t, M)
    ensures |L| == |t|
  {
    seq(|t|, k requires 0 <= k < |t| => if t[k] == brk then -1 else IdAt(t, M, k))
  }

  /** The loop at the start of each strand among the first `n` positions: the
      first strand starts at 0, every other one just after its break. */
  ghost function StartLoops(t: seq<char>, M: seq<Option<nat>>, brk: char, n: nat): (S: seq<nat>)
    requires Matching(t, M) && n <= |t|
    ensures |S| > 0
  {
    if n == 0 then [LoopAt(t, M, 0)]
    else StartLoops(t, M, brk, n - 1) + (if t[n - 1] == brk then [LoopAt(t, M, n - 1)] else [])
  }

  predicate Distinct(s: seq<nat>) {
    forall a, b :: 0 <= a < b < |s| ==> s[a] != s[b]
  }

  function Elems(s: seq<nat>): set<nat> {
    set x | x in s
  }

  // ---------------------------------------------------------------------
  // The scan

  /** Loop ids of the open loops (innermost last), the last id handed out,
      the finished rows, the row being filled and the exterior loops seen at
      strand starts. */
  datatype LoopState = LoopState(stack: seq<nat>, counter: nat, done: seq<seq<nat>>, row: seq<nat>, exterior: set<nat>)
  {
    function Rows(): seq<seq<nat>> { done + [row] }
  }

  /** The innermost open loop; 0 when none is open. */
  function Top(stack: seq<nat>): nat {
    if |stack| == 0 then 0 else stack[|stack| - 1]
  }

  function Pop(stack: seq<nat>): seq<nat> {
    if |stack| == 0 then [] else stack[..|stack| - 1]
  }

  /** A new strand begins in the current loop; a loop that already holds a
      strand start means the strands are not all connected. */
  function StartStrand(st: LoopState): Result<LoopState> {
    var top := Top(st.stack);
    if top in st.exterior then Err(Structure)
    else Ok(st.(done := st.done + [st.row], row := [], exterior := st.exterior + {top}))
  }

  function LoopStep(t: seq<char>, brk: char, i: nat, st: LoopState): (r: Result<LoopState>)
    requires i < |t|
  {
    if t[i] == brk then StartStrand(st)
    else if t[i] == '(' then
      var c := st.counter + 1;
      Ok(LoopState(st.stack + [c], c, st.done, st.row + [c], st.exterior))
    else if t[i] == ')' then
      Ok(st.(stack := Pop(st.stack), row := st.row + [Top(st.stack)]))
    else
      Ok(st.(row := st.row + [Top(st.stack)]))
  }

  function LoopScan(t: seq<char>, brk: char, i: nat, st: LoopState): (r: Result<LoopState>)
    requires i <= |t|
    ensures r.Ok? ==> st.exterior <= r.value.exterior
    decreases |t| - i
  {
    if i == |t| then Ok(st)
    else
      match LoopStep(t, brk, i, st)
      case Err(f) => Err(f)
      case Ok(st') => LoopScan(t, brk, i + 1, st')
  }

  /** One step of the scan, seen from outside: a successful step hands its
      state on, a failing one fails the scan, and the scan ends with its
      last state. */
  lemma ScanStep(t: seq<char>, brk: char, i: nat, st: LoopState)
    requires i <= |t|
    ensures i == |t| ==> LoopScan(t, brk, i, st) == Ok(st)
    ensures i < |t| && LoopStep(t, brk, i, st).Err? ==> LoopScan(t, brk, i, st).Err?
    ensures i < |t| && LoopStep(t, brk, i, st).Ok? ==>
      LoopScan(t, brk, i, st) == LoopScan(t, brk, i + 1, LoopStep(t, brk, i, st).value)
  {
  }

  /** `make_loop_index`: the loop id of every locus, row by row, and the set
      of exterior loops. The first strand starts in loop 0. */
  function MakeLoopIndex(t: seq<char>, brk: char): (r: Result<(seq<seq<nat>>, set<nat>)>)
    ensures r.Ok? ==> 0 in r.value.1
  {
    match LoopScan(t, brk, 0, LoopState([], 0, [], [], {0}))
    case Err(f) => Err(f)
    case Ok(st) => Ok((st.Rows(), st.exterior))
  }

  // ---------------------------------------------------------------------
  // How the enclosing pairs change from one position to the next

  lemma {:induction false} EnclosingSame(t: seq<char>, M: seq<Option<nat>>, i: nat, i': nat, n: nat)
    requires Matching(t, M) && n <= |t|
    requires forall k :: 0 <= k < n && t[k] == '(' ==> (M[k].value >= i <==> M[k].value >= i')
    ensures Enclosing(t, M, i, n) == Enclosing(t, M, i', n)
    decreases n
  {
    if n > 0 {
      EnclosingSame(t, M, i, i', n - 1);
    }
  }

  lemma {:induction false} EnclosingSkip(t: seq<char>, M: seq<Option<nat>>, i: nat, a: nat, b: nat)
    requires Matching(t, M) && a <= b <= |t|
    requires forall k :: a <= k < b && t[k] == '(' ==> M[k].value < i
    ensures Enclosing(t, M, i, b) == Enclosing(t, M, i, a)
    decreases b - a
  {
    if a < b {
      EnclosingSkip(t, M, i, a, b - 1);
    }
  }

  /** Across an unpaired position or a break the enclosing pairs stay. */
  lemma EnclosingNeutral(t: seq<char>, M: seq<Option<nat>>, i: nat)
    requires Matching(t, M) && i < |t| && t[i] != '(' && t[i] != ')'
    ensures Enclosing(t, M, i + 1, i + 1) == Enclosing(t, M, i, i)
  {
    forall k | 0 <= k < i && t[k] == '('
      ensures M[k].value != i
    {
      assert M[M[k].value] == Some(k);
    }
    EnclosingSame(t, M, i, i + 1, i);
  }

  /** An open joins the enclosing pairs as the innermost one. */
  lemma EnclosingOpen(t: seq<char>, M: seq<Option<nat>>, i: nat)
    requires Matching(t, M) && i < |t| && t[i] == '('
    ensures Enclosing(t, M, i + 1, i + 1) == Enclosing(t, M, i, i) + [i]
  {
    forall k | 0 <= k < i && t[k] == '('
      ensures M[k].value != i
    {
      assert M[M[k].value] == Some(k);
    }
    EnclosingSame(t, M, i, i + 1, i);
  }

  /** At a close its partner is the innermost enclosing pair, and it leaves. */
  lemma EnclosingClose(t: seq<char>, M: seq<Option<nat>>, i: nat)
    requires Matching(t, M) && NonCrossing(M) && i < |t| && t[i] == ')'
    ensures M[i].value < i
    ensures Enclosing(t, M, i, i) == Enclosing(t, M, i + 1, i + 1) + [M[i].value]
  {
    hide Enclosing, Matching, NonCrossing;
    MatchingAt(t, M, i);
    CloseFacts(t, M, i);
    var j := M[i].value;
    EnclosingSame(t, M, i, i + 1, j);
    EnclosingSkip(t, M, i, j + 1, i);
    EnclosingSkip(t, M, i + 1, j, i);
    EnclosingLast(t, M, i, j + 1);
    EnclosingLast(t, M, i + 1, i + 1);
  }

  /** The partner `j` of a close at `i` is an open before it; the opens
      strictly inside the pair close inside it, and no open before `j`
      closes at `i`. */
  lemma CloseFacts(t: seq<char>, M: seq<Option<nat>>, i: nat)
    requires Matching(t, M) && NonCrossing(M) && i < |t| && t[i] == ')'
    ensures var j := M[i].value;
      && j < i && t[j] == '(' && M[j] == Some(i)
      && (forall k :: j < k < i && t[k] == '(' ==> M[k].value < i)
      && (forall k :: j + 1 <= k < i && t[k] == '(' ==> M[k].value < i + 1)
      && (forall k :: 0 <= k < j && t[k] == '(' ==> (M[k].value >= i <==> M[k].value >= i + 1))
  {
    var j := M[i].value;
    CloseInside(t, M, i);
    CloseBefore(t, M, i);
  }

  lemma CloseInside(t: seq<char>, M: seq<Option<nat>>, i: nat)
    requires Matching(t, M) && NonCrossing(M) && i < |t| && t[i] == ')'
    ensures M[i].value < i
    ensures forall k :: M[i].value < k < i && t[k] == '(' ==> M[k].value < i
  {
    var j := M[i].value;
    forall k | j < k < i && t[k] == '('
      ensures M[k].value < i
    {
      assert Between(k, i, M[i].value);
    }
  }

  lemma CloseBefore(t: seq<char>, M: seq<Option<nat>>, i: nat)
    requires Matching(t, M) && i < |t| && t[i] == ')'
    ensures forall k :: 0 <= k < M[i].value && t[k] == '(' ==> M[k].value != i
  {
    var j := M[i].value;
    assert j < i && M[j] == Some(i);
    forall k | 0 <= k < j && t[k] == '('
      ensures M[k].value != i
    {
      assert M[M[k].value] == Some(k);
    }
  }

  /** One position more adds that position exactly when it is an open whose
      partner lies at or after `i`. */
  lemma EnclosingLast(t: seq<char>, M: seq<Option<nat>>, i: nat, n: nat)
    requires Matching(t, M) && 0 < n <= |t|
    ensures Enclosing(t, M, i, n) ==
      Enclosing(t, M, i, n - 1) + (if t[n - 1] == '(' && M[n - 1].value >= i then [n - 1] else [])
  {
  }

  // ---------------------------------------------------------------------
  // The scan follows the reference definitions

  ghost function Ids(t: seq<char>, E: seq<nat>): (r: seq<nat>)
    requires forall a :: 0 <= a < |E| ==> E[a] < |t|
    ensures |r| == |E| && forall a :: 0 <= a < |E| ==> r[a] == OpenId(t, E[a])
  {
    seq(|E|, a requires 0 <= a < |E| => OpenId(t, E[a]))
  }

  ghost predicate LoopInv(t: seq<char>, M: seq<Option<nat>>, brk: char, i: nat, st: LoopState)
    requires Matching(t, M) && i <= |t|
  {
    && st.stack == Ids(t, Enclosing(t, M, i, i))
    && st.counter == Opens(t, i)
    && st.Rows() == Pieces(Labels(t, M, brk)[..i], -1)
    && Distinct(StartLoops(t, M, brk, i))
    && st.exterior == Elems(StartLoops(t, M, brk, i))
  }

  lemma InitialLoopInv(t: seq<char>, M: seq<Option<nat>>, brk: char)
    requires Matching(t, M)
    ensures LoopInv(t, M, brk, 0, LoopState([], 0, [], [], {0}))
  {
    assert Labels(t, M, brk)[..0] == [];
    assert Elems([0]) == {0};
  }

  lemma TopIsLoop(t: seq<char>, M: seq<Option<nat>>, brk: char, i: nat, st: LoopState)
    requires Matching(t, M) && i <= |t| && LoopInv(t, M, brk, i, st)
    ensures Top(st.stack) == LoopAt(t, M, i)
  {
  }

  lemma RowsStep(t: seq<char>, M: seq<Option<nat>>, brk: char, i: nat)
    requires Matching(t, M) && i < |t|
    ensures var L := Labels(t, M, brk);
      Pieces(L[..i + 1], -1) == if t[i] == brk then Pieces(L[..i], -1) + [[]] else Extend(Pieces(L[..i], -1), IdAt(t, M, i))
  {
    var L := Labels(t, M, brk);
    assert L[..i + 1] == L[..i] + [L[i]];
    PiecesSnoc(L[..i], -1, L[i]);
  }

  lemma DistinctSnoc(s: seq<nat>, x: nat)
    ensures Distinct(s + [x]) <==> Distinct(s) && x !in s
    ensures Elems(s + [x]) == Elems(s) + {x}
  {
    if Distinct(s + [x]) {
      assert forall a, b :: 0 <= a < b < |s| ==> s[a] == (s + [x])[a] && s[b] == (s + [x])[b];
      forall a | 0 <= a < |s|
        ensures s[a] != x
      {
        assert s[a] == (s + [x])[a] && x == (s + [x])[|s|];
      }
    }
  }

  lemma LoopStepBreak(t: seq<char>, M: seq<Option<nat>>, brk: char, i: nat, st: LoopState)
    requires Matching(t, M) && i < |t| && LoopInv(t, M, brk, i, st) && t[i] == brk
    requires brk != '(' && brk != ')'
    ensures LoopStep(t, brk, i, st).Ok? <==> Distinct(StartLoops(t, M, brk, i + 1))
    ensures LoopStep(t, brk, i, st).Ok? ==> LoopInv(t, M, brk, i + 1, LoopStep(t, brk, i, st).value)
  {
    EnclosingNeutral(t, M, i);
    RowsStep(t, M, brk, i);
    DistinctSnoc(StartLoops(t, M, brk, i), LoopAt(t, M, i));
  }

  lemma LoopStepOpen(t: seq<char>, M: seq<Option<nat>>, brk: char, i: nat, st: LoopState)
    requires Matching(t, M) && i < |t| && LoopInv(t, M, brk, i, st) && t[i] == '(' && brk != '('
    ensures LoopStep(t, brk, i, st).Ok?
    ensures LoopInv(t, M, brk, i + 1, LoopStep(t, brk, i, st).value)
  {
    hide Pieces, Labels, Enclosing, LoopAt;
    EnclosingOpen(t, M, i);
    RowsStep(t, M, brk, i);
    var st' := LoopStep(t, brk, i, st).value;
    var E := Enclosing(t, M, i, i);
    assert st'.counter == OpenId(t, i) == IdAt(t, M, i);
    assert Ids(t, E + [i]) == Ids(t, E) + [OpenId(t, i)];
    assert st'.stack == Ids(t, Enclosing(t, M, i + 1, i + 1));
    assert st'.Rows() == Pieces(Labels(t, M, brk)[..i + 1], -1);
    assert StartLoops(t, M, brk, i + 1) == StartLoops(t, M, brk, i);
  }

  lemma LoopStepClose(t: seq<char>, M: seq<Option<nat>>, brk: char, i: nat, st: LoopState)
    requires Matching(t, M) && NonCrossing(M) && i < |t| && LoopInv(t, M, brk, i, st) && t[i] == ')' && brk != ')'
    ensures LoopStep(t, brk, i, st).Ok?
    ensures LoopInv(t, M, brk, i + 1, LoopStep(t, brk, i, st).value)
  {
    hide Pieces, Labels, Enclosing, LoopAt;
    EnclosingClose(t, M, i);
    RowsStep(t, M, brk, i);
    TopIsLoop(t, M, brk, i, st);
    var st' := LoopStep(t, brk, i, st).value;
    var E := Enclosing(t, M, i + 1, i + 1);
    assert Ids(t, E + [M[i].value])[..|E|] == Ids(t, E);
    assert st'.stack == Ids(t, E);
    assert Top(st.stack) == IdAt(t, M, i);
    assert st'.Rows() == Pieces(Labels(t, M, brk)[..i + 1], -1);
    assert StartLoops(t, M, brk, i + 1) == StartLoops(t, M, brk, i);
  }

  lemma LoopStepUnpaired(t: seq<char>, M: seq<Option<nat>>, brk: char, i: nat, st: LoopState)
    requires Matching(t, M) && i < |t| && LoopInv(t, M, brk, i, st)
    requires t[i] != brk && t[i] != '(' && t[i] != ')'
    ensures LoopStep(t, brk, i, st).Ok?
    ensures LoopInv(t, M, brk, i + 1, LoopStep(t, brk, i, st).value)
  {
    EnclosingNeutral(t, M, i);
    RowsStep(t, M, brk, i);
    var st' := LoopStep(t, brk, i, st).value;
    assert st'.Rows() == Pieces(Labels(t, M, brk)[..i + 1], -1);
  }

  lemma LoopStepSound(t: seq<char>, M: seq<Option<nat>>, brk: char, i: nat, st: LoopState)
    requires Matching(t, M) && NonCrossing(M) && i < |t| && LoopInv(t, M, brk, i, st)
    requires brk != '(' && brk != ')'
    ensures LoopStep(t, brk, i, st).Ok? <==> Distinct(StartLoops(t, M, brk, i + 1))
    ensures LoopStep(t, brk, i, st).Ok? ==> LoopInv(t, M, brk, i + 1, LoopStep(t, brk, i, st).value)
  {
    if t[i] == brk {
      LoopStepBreak(t, M, brk, i, st);
    } else if t[i] == '(' {
      LoopStepOpen(t, M, brk, i, st);
    } else if t[i] == ')' {
      LoopStepClose(t, M, brk, i, st);
    } else {
      LoopStepUnpaired(t, M, brk, i, st);
    }
  }

  /** Once two strand starts share a loop, they keep sharing it. */
  lemma {:induction false} DistinctPrefix(t: seq<char>, M: seq<Option<nat>>, brk: char, i: nat, n: nat)
    requires Matching(t, M) && i <= n <= |t| && Distinct(StartLoops(t, M, brk, n))
    ensures Distinct(StartLoops(t, M, brk, i))
    decreases n - i
  {
    if i < n {
      var S := StartLoops(t, M, brk, n - 1);
      if t[n - 1] == brk {
        DistinctSnoc(S, LoopAt(t, M, n - 1));
      } else {
        assert StartLoops(t, M, brk, n) == S;
      }
      DistinctPrefix(t, M, brk, i, n - 1);
    }
  }

  lemma {:induction false} LoopScanSound(t: seq<char>, M: seq<Option<nat>>, brk: char, i: nat, st: LoopState)
    requires Matching(t, M) && NonCrossing(M) && i <= |t| && LoopInv(t, M, brk, i, st)
    requires brk != '(' && brk != ')'
    ensures LoopScan(t, brk, i, st).Ok? <==> Distinct(StartLoops(t, M, brk, |t|))
    ensures LoopScan(t, brk, i, st).Ok? ==> LoopInv(t, M, brk, |t|, LoopScan(t, brk, i, st).value)
    decreases |t| - i
  {
    hide LoopInv, StartLoops, Distinct, LoopStep, Matching, NonCrossing;
    if i == |t| {
      LoopInvDistinct(t, M, brk, i, st);
    } else {
      LoopStepSound(t, M, brk, i, st);
      var r := LoopStep(t, brk, i, st);
      if r.Ok? {
        LoopScanSound(t, M, brk, i + 1, r.value);
      } else if Distinct(StartLoops(t, M, brk, |t|)) {
        DistinctPrefix(t, M, brk, i + 1, |t|);
      }
    }
  }

  lemma LoopInvDistinct(t: seq<char>, M: seq<Option<nat>>, brk: char, i: nat, st: LoopState)
    requires Matching(t, M) && i <= |t| && LoopInv(t, M, brk, i, st)
    ensures Distinct(StartLoops(t, M, brk, i))
  {
  }

  // ---------------------------------------------------------------------
  // What the loop index is

  /** The scan fails exactly when two strands start in the same loop, and
      otherwise the exterior set is the set of loops at strand starts. */
  lemma LoopIndexSpec(t: seq<char>, brk: char)
    requires brk != '(' && brk != ')' && Balanced(t)
    ensures var M := Partners(t).value; var S := StartLoops(t, M, brk, |t|);
      && (MakeLoopIndex(t, brk).Ok? <==> Distinct(S))
      && (MakeLoopIndex(t, brk).Ok? ==> MakeLoopIndex(t, brk).value.1 == Elems(S))
  {
    var M := Partners(t).value;
    InitialLoopInv(t, M, brk);
    LoopScanSound(t, M, brk, 0, LoopState([], 0, [], [], {0}));
  }

  /** The loop index has one row per strand and one entry per locus, and the
      entry of a locus is the id the reference definition gives it. */
  lemma LoopIndexEntries(t: seq<char>, brk: char)
    requires brk != '(' && brk != ')' && Balanced(t) && MakeLoopIndex(t, brk).Ok?
    ensures var M := Partners(t).value; var P := Pieces(t, brk); var li := MakeLoopIndex(t, brk).value.0;
      && |li| == |P|
      && (forall si :: 0 <= si < |P| ==> |li[si]| == |P[si]|)
      && (forall si :: 0 <= si < |P| ==> Offset(P, si) + |P[si]| <= |t|)
      && (forall si, di :: 0 <= si < |P| && 0 <= di < |P[si]| ==> li[si][di] == IdAt(t, M, Offset(P, si) + di))
  {
    hide Pieces, Labels, Offset, Joined, MakeLoopIndex, IdAt, Partners;
    var M := Partners(t).value;
    var P := Pieces(t, brk);
    var L := Labels(t, M, brk);
    var PL := Pieces(L, -1);
    LoopIndexRows(t, brk);
    PiecesSameShape(L, -1, t, brk);
    JoinedPieces(L, -1);
    JoinedPieces(t, brk);
    forall si | 0 <= si < |P|
      ensures Offset(P, si) + |P[si]| <= |t|
      ensures forall di :: 0 <= di < |P[si]| ==> PL[si][di] == IdAt(t, M, Offset(P, si) + di)
    {
      JoinedAt(PL, -1, si);
      JoinedAt(P, brk, si);
      OffsetSameShape(PL, P, si);
    }
  }

  /** The rows are the pieces of the flat labels. */
  lemma LoopIndexRows(t: seq<char>, brk: char)
    requires brk != '(' && brk != ')' && Balanced(t) && MakeLoopIndex(t, brk).Ok?
    ensures var M := Partners(t).value;
      MakeLoopIndex(t, brk).value.0 == Pieces(Labels(t, M, brk), -1)
    ensures var M := Partners(t).value;
      forall k :: 0 <= k < |t| ==> (Labels(t, M, brk)[k] == -1 <==> t[k] == brk)
    ensures var M := Partners(t).value;
      forall k :: 0 <= k < |t| && t[k] != brk ==> Labels(t, M, brk)[k] == IdAt(t, M, k)
  {
    var M := Partners(t).value;
    InitialLoopInv(t, M, brk);
    LoopScanSound(t, M, brk, 0, LoopState([], 0, [], [], {0}));
    var L := Labels(t, M, brk);
    assert L[..|t|] == L;
  }

  /** A close is in the loop its own partner opened. */
  lemma CloseSharesOpenId(t: seq<char>, M: seq<Option<nat>>, c: nat)
    requires Matching(t, M) && NonCrossing(M) && c < |t| && t[c] == ')'
    ensures IdAt(t, M, c) == IdAt(t, M, M[c].value)
  {
    EnclosingClose(t, M, c);
  }

  /** Opens receive fresh ids: never 0, and increasing from left to right. */
  lemma OpenIdsFresh(t: seq<char>, M: seq<Option<nat>>, k: nat, k': nat)
    requires Matching(t, M) && k < k' < |t| && t[k] == '(' && t[k'] == '('
    ensures 1 <= IdAt(t, M, k) < IdAt(t, M, k')
  {
    OpensMonotone(t, k + 1, k');
  }

  /** The two loci of a pair carry the same loop id. */
  lemma PairedLociShareLoop(t: seq<char>, brk: char, si: nat, di: nat)
    requires brk != '(' && brk != ')' && MakePairTable(t, brk).Ok? && MakeLoopIndex(t, brk).Ok?
    requires var pt := MakePairTable(t, brk).value; si < |pt| && di < |pt[si]| && pt[si][di].Some?
    ensures var pt := MakePairTable(t, brk).value; var li := MakeLoopIndex(t, brk).value.0;
      var l := pt[si][di].value;
      si < |li| && di < |li[si]| && l.0 < |li| && l.1 < |li[l.0]| && li[si][di] == li[l.0][l.1]
  {
    hide MakePairTable, MakeLoopIndex, Partners, Pieces, Offset, LocOf, IdAt, Joined;
    var M := Partners(t).value;
    var P := Pieces(t, brk);
    LoopIndexEntries(t, brk);
    PairTableMutual(t, brk, si, di);
    EntryAt(t, brk, si, di);
    var k := Offset(P, si) + di;
    var k' := M[k].value;
    JoinedPieces(t, brk);
    assert t[k'] != brk;
    LocOfInPiece(P, brk, k');
    if t[k] == ')' {
      CloseSharesOpenId(t, M, k);
    } else {
      CloseSharesOpenId(t, M, k');
    }
  }

  /** `is_connected`: the pair table must exist; a failing loop index means
      not connected. */
  function IsConnected(t: seq<char>, brk: char): (r: Result<bool>)
    requires brk != '(' && brk != ')'
    ensures r.Ok? <==> MakePairTable(t, brk).Ok?
  {
    match MakePairTable(t, brk)
    case Err(f) => Err(f)
    case Ok(_) => Ok(MakeLoopIndex(t, brk).Ok?)
  }

  /** Connected means every strand starts in a loop of its own. */
  lemma IsConnectedSpec(t: seq<char>, brk: char)
    requires brk != '(' && brk != ')' && MakePairTable(t, brk).Ok?
    ensures IsConnected(t, brk) == Ok(Distinct(StartLoops(t, Partners(t).value, brk, |t|)))
  {
    LoopIndexSpec(t, brk);
  }

  /** The positions at which the strands among the first `n` positions
      start: 0, then every break. Only a break at position 0 can repeat a
      start. */
  function StartPos(t: seq<char>, brk: char, n: nat): (sp: seq<nat>)
    requires n <= |t|
    ensures |sp| > 0 && sp[0] == 0
    ensures forall a :: 0 < a < |sp| ==> sp[a] < n && t[sp[a]] == brk
    ensures forall a, b :: 0 < a < b < |sp| ==> sp[a] < sp[b]
  {
    if n == 0 then [0]
    else StartPos(t, brk, n - 1) + (if t[n - 1] == brk then [n - 1] else [])
  }

  /** The start loops are the loops at the start positions. */
  lemma {:induction false} StartLoopsAt(t: seq<char>, M: seq<Option<nat>>, brk: char, n: nat)
    requires Matching(t, M) && n <= |t|
    ensures |StartLoops(t, M, brk, n)| == |StartPos(t, brk, n)|
    ensures forall a :: 0 <= a < |StartPos(t, brk, n)| ==>
      StartLoops(t, M, brk, n)[a] == LoopAt(t, M, StartPos(t, brk, n)[a])
    decreases n
  {
    if n > 0 {
      StartLoopsAt(t, M, brk, n - 1);
    }
  }

  /** Two positions in the same loop bound a stretch that no pair leaves. */
  lemma SameLoopClosed(t: seq<char>, M: seq<Option<nat>>, sa: nat, sb: nat, x: nat)
    requires Matching(t, M) && NonCrossing(M)
    requires sa <= x < sb <= |t| && IsBracket(t[x])
    requires LoopAt(t, M, sa) == LoopAt(t, M, sb)
    ensures sa <= M[x].value < sb
  {
    MatchingAt(t, M, x);
    if t[x] == '(' {
      OpenStaysInside(t, M, sa, sb, x);
    } else {
      CloseStaysInside(t, M, sa, sb, x);
    }
  }

  /** An open between two positions of one loop closes before the second. */
  lemma OpenStaysInside(t: seq<char>, M: seq<Option<nat>>, sa: nat, sb: nat, x: nat)
    requires Matching(t, M) && sa <= x < sb <= |t| && t[x] == '('
    requires LoopAt(t, M, sa) == LoopAt(t, M, sb)
    ensures M[x].value < sb
  {
    hide Matching, Enclosing;
    MatchingAt(t, M, x);
    var y := M[x].value;
    if y >= sb {
      var Ea := Enclosing(t, M, sa, sa);
      var Eb := Enclosing(t, M, sb, sb);
      assert x in Eb;
      var eb := Eb[|Eb| - 1];
      var i :| 0 <= i < |Eb| && Eb[i] == x;
      assert x <= eb;
      if |Ea| > 0 {
        var ea := Ea[|Ea| - 1];
        assert ea in Ea;
        OpenIdsFresh(t, M, ea, eb);
      }
    }
  }

  /** A close between two positions of one loop opened after the first. */
  lemma CloseStaysInside(t: seq<char>, M: seq<Option<nat>>, sa: nat, sb: nat, x: nat)
    requires Matching(t, M) && NonCrossing(M) && sa <= x < sb <= |t| && t[x] == ')'
    requires LoopAt(t, M, sa) == LoopAt(t, M, sb)
    ensures sa <= M[x].value
  {
    hide Matching, Enclosing;
    MatchingAt(t, M, x);
    var y := M[x].value;
    if y < sa {
      MatchingAt(t, M, y);
      var Ea := Enclosing(t, M, sa, sa);
      var Eb := Enclosing(t, M, sb, sb);
      assert y in Ea;
      var ea := Ea[|Ea| - 1];
      var i :| 0 <= i < |Ea| && Ea[i] == y;
      assert y <= ea < sa;
      assert ea in Ea;
      MatchingAt(t, M, ea);
      if ea != y {
        assert Between(ea, y, M[y].value);
      }
      assert ea !in Eb;
      if |Eb| > 0 {
        var eb := Eb[|Eb| - 1];
        assert eb in Eb;
        if ea < eb {
          OpenIdsFresh(t, M, ea, eb);
        } else {
          OpenIdsFresh(t, M, eb, ea);
        }
      }
    }
  }

  // ---------------------------------------------------------------------
  // Exterior domains

  /** The loci `(si, di)`, `di` from `di0` on, of one row that are unpaired
      and lie in an exterior loop. */
  function RowExterior(ptRow: seq<Option<Loc>>, liRow: seq<nat>, ext: set<nat>, si: nat, di0: nat): (r: seq<Loc>)
    requires |liRow| <= |ptRow| && di0 <= |liRow|
    ensures forall a :: 0 <= a < |r| ==> r[a].0 == si && di0 <= r[a].1 < |liRow|
    ensures forall a, b :: 0 <= a < b < |r| ==> r[a].1 < r[b].1
    ensures forall l :: l in r <==> l.0 == si && di0 <= l.1 < |liRow| && liRow[l.1] in ext && ptRow[l.1].None?
    decreases |liRow| - di0
  {
    if di0 == |liRow| then []
    else
      (if liRow[di0] in ext && ptRow[di0].None? then [(si, di0)] else [])
      + RowExterior(ptRow, liRow, ext, si, di0 + 1)
  }

  /** The same over the rows from `si0` on. */
  function ExteriorFrom(pt: PairTable, li: seq<seq<nat>>, ext: set<nat>, si0: nat): (r: seq<Loc>)
    requires |li| == |pt| && si0 <= |li| && forall s :: 0 <= s < |li| ==> |li[s]| == |pt[s]|
    ensures forall a :: 0 <= a < |r| ==> si0 <= r[a].0 < |li|
    ensures forall a, b :: 0 <= a < b < |r| ==> LocBefore(r[a], r[b])
    ensures forall l :: l in r <==>
      si0 <= l.0 < |li| && l.1 < |li[l.0]| && li[l.0][l.1] in ext && pt[l.0][l.1].None?
    decreases |li| - si0
  {
    if si0 == |li| then []
    else RowExterior(pt[si0], li[si0], ext, si0, 0) + ExteriorFrom(pt, li, ext, si0 + 1)
  }

  /** `exterior_domains`: the unpaired loci whose loop is an exterior loop,
      in order; the errors of the pair table and the loop index pass
      through. */
  function ExteriorDomains(t: seq<char>, brk: char): (r: Result<seq<Loc>>)
    requires brk != '(' && brk != ')'
    ensures r.Ok? <==> MakePairTable(t, brk).Ok? && MakeLoopIndex(t, brk).Ok?
  {
    match MakePairTable(t, brk)
    case Err(f) => Err(f)
    case Ok(pt) =>
      match MakeLoopIndex(t, brk)
      case Err(f) => Err(f)
      case Ok(index) =>
        LoopIndexEntries(t, brk);
        Ok(ExteriorFrom(pt, index.0, index.1, 0))
  }

  /** The exterior domains are exactly the unpaired loci lying in a loop
      where some strand starts, listed in locus order. */
  lemma ExteriorDomainsSpec(t: seq<char>, brk: char)
    requires brk != '(' && brk != ')' && ExteriorDomains(t, brk).Ok?
    ensures var M := Partners(t).value; var P := Pieces(t, brk);
      var S := StartLoops(t, M, brk, |t|); var r := ExteriorDomains(t, brk).value;
      && (forall a, b :: 0 <= a < b < |r| ==> LocBefore(r[a], r[b]))
      && (forall si :: 0 <= si < |P| ==> Offset(P, si) + |P[si]| <= |t|)
      && (forall l :: l in r <==>
            && l.0 < |P| && l.1 < |P[l.0]| && P[l.0][l.1] == '.'
            && IdAt(t, M, Offset(P, l.0) + l.1) in Elems(S))
  {
    hide MakePairTable, MakeLoopIndex, Partners, Pieces, Offset, IdAt, StartLoops, Labels, ExteriorFrom, RowExterior;
    var M := Partners(t).value;
    var P := Pieces(t, brk);
    LoopIndexEntries(t, brk);
    LoopIndexSpec(t, brk);
    var pt := MakePairTable(t, brk).value;
    var index := MakeLoopIndex(t, brk).value;
    assert ExteriorDomains(t, brk).value == ExteriorFrom(pt, index.0, index.1, 0);
    forall l: Loc | l.0 < |P| && l.1 < |P[l.0]|
      ensures MakePairTable(t, brk).value[l.0][l.1].None? <==> P[l.0][l.1] == '.'
    {
      EntryAt(t, brk, l.0, l.1);
      assert DotParens(t, brk);
    }
  }
}

=== FILE: names.dfy ===
/** Automatic names: a prefix followed by the decimal form of a counter, as
    Python's `prefix + str(ID)` builds them. */
module Names {

  /** An ASCII decimal digit: the characters `str(n)` writes and the
      grammar's number token holds. */
  predicate IsDigit(c: char) { '0' <= c <= '9' }

  function DigitChar(d: nat): (c: char)
    requires d < 10
    ensures IsDigit(c) && c as int - '0' as int == d
  {
    "0123456789"[d]
  }

  /** `str(n)`: the decimal digits of `n`, most significant first. */
  function NatString(n: nat): (s: string)
    ensures |s| > 0 && forall i :: 0 <= i < |s| ==> IsDigit(s[i])
    decreases n
  {
    if n < 10 then [DigitChar(n)] else NatString(n / 10) + [DigitChar(n % 10)]
  }

  /** The number a string of digits denotes (`int(s)`). */
  function DigitsValue(s: string): nat
    requires forall i :: 0 <= i < |s| ==> IsDigit(s[i])
  {
    if |s| == 0 then 0
    else
      assert IsDigit(s[|s| - 1]);
      DigitsValue(s[..|s| - 1]) * 10 + (s[|s| - 1] as int - '0' as int)
  }

  /** Reading the decimal form back gives the number, so distinct counters
      give distinct names. */
  lemma {:induction false} NatStringValue(n: nat)
    ensures DigitsValue(NatString(n)) == n
    decreases n
  {
    if n >= 10 {
      NatStringValue(n / 10);
      var s := NatString(n);
      assert s[..|s| - 1] == NatString(n / 10);
    }
  }

  /** The automatic name `prefix + str(id)`. */
  function AutoName(prefix: string, id: nat): (name: string)
    ensures |name| > |prefix| && name[..|prefix|] == prefix
    ensures forall i :: |prefix| <= i < |name| ==> IsDigit(name[i])
  {
    prefix + NatString(id)
  }

  /** Two counters give the same automatic name under one prefix only when
      they are equal. */
  lemma AutoNameInjective(prefix: string, i: nat, j: nat)
    requires AutoName(prefix, i) == AutoName(prefix, j)
    ensures i == j
  {
    var a, b := AutoName(prefix, i), AutoName(prefix, j);
    assert NatString(i) == a[|prefix|..] == b[|prefix|..] == NatString(j);
    NatStringValue(i);
    NatStringValue(j);
  }
}

=== FILE: order.dfy ===
/** Python's comparison of strings and of tuples of strings, and the least
    element of a non-empty list under a strict total order. The canonical
    forms of complexes are chosen with these. */
module Order {

  /** A strict total order: irreflexive, transitive, and any two distinct
      values are comparable. */
  ghost predicate StrictTotal<T(!new)>(lt: (T, T) -> bool) {
    && (forall a :: !lt(a, a))
    && (forall a, b, c :: lt(a, b) && lt(b, c) ==> lt(a, c))
    && (forall a, b :: a != b ==> lt(a, b) || lt(b, a))
  }

  // ---------------------------------------------------------------------
  // Strings: compared character by character on code points, a proper
  // prefix before the longer string.

  predicate StrLess(a: string, b: string)
    decreases |a|
  {
    |b| > 0 && (|a| == 0 || a[0] < b[0] || (a[0] == b[0] && StrLess(a[1..], b[1..])))
  }

  lemma {:induction false} StrLessIrreflexive(a: string)
    ensures !StrLess(a, a)
    decreases |a|
  {
    if |a| > 0 {
      StrLessIrreflexive(a[1..]);
    }
  }

  lemma {:induction false} StrLessTransitive(a: string, b: string, c: string)
    requires StrLess(a, b) && StrLess(b, c)
    ensures StrLess(a, c)
    decreases |a|
  {
    if |a| > 0 && a[0] == b[0] && b[0] == c[0] {
      StrLessTransitive(a[1..], b[1..], c[1..]);
    }
  }

  lemma {:induction false} StrLessTotal(a: string, b: string)
    requires a != b
    ensures StrLess(a, b) || StrLess(b, a)
    decreases |a|
  {
    if |a| > 0 && |b| > 0 && a[0] == b[0] {
      assert a == [a[0]] + a[1..] && b == [b[0]] + b[1..];
      StrLessTotal(a[1..], b[1..]);
    }
  }

  lemma StrLessOrder()
    ensures StrictTotal(StrLess)
  {
    forall a: string ensures !StrLess(a, a) {
      StrLessIrreflexive(a);
    }
    forall a: string, b: string, c: string | StrLess(a, b) && StrLess(b, c)
      ensures StrLess(a, c)
    {
      StrLessTransitive(a, b, c);
    }
    forall a: string, b: string | a != b
      ensures StrLess(a, b) || StrLess(b, a)
    {
      StrLessTotal(a, b);
    }
  }

  // ---------------------------------------------------------------------
  // Tuples of strings: compared element by element with the string order,
  // a proper prefix before the longer tuple.

  predicate NamesLess(a: seq<string>, b: seq<string>)
    decreases |a|
  {
    |b| > 0 && (|a| == 0 || StrLess(a[0], b[0]) || (a[0] == b[0] && NamesLess(a[1..], b[1..])))
  }

  lemma {:induction false} NamesLessIrreflexive(a: seq<string>)
    ensures !NamesLess(a, a)
    decreases |a|
  {
    if |a| > 0 {
      StrLessIrreflexive(a[0]);
      NamesLessIrreflexive(a[1..]);
    }
  }

  lemma {:induction false} NamesLessTransitive(a: seq<string>, b: seq<string>, c: seq<string>)
    requires NamesLess(a, b) && NamesLess(b, c)
    ensures NamesLess(a, c)
    decreases |a|
  {
    if |a| > 0 {
      if a[0] == b[0] && b[0] == c[0] {
        StrLessIrreflexive(a[0]);
        NamesLessTransitive(a[1..], b[1..], c[1..]);
      } else if StrLess(a[0], b[0]) && StrLess(b[0], c[0]) {
        StrLessTransitive(a[0], b[0], c[0]);
      }
    }
  }

  lemma {:induction false} NamesLessTotal(a: seq<string>, b: seq<string>)
    requires a != b
    ensures NamesLess(a, b) || NamesLess(b, a)
    decreases |a|
  {
    if |a| > 0 && |b| > 0 {
      if a[0] == b[0] {
        assert a == [a[0]] + a[1..] && b == [b[0]] + b[1..];
        NamesLessTotal(a[1..], b[1..]);
      } else {
        StrLessTotal(a[0], b[0]);
      }
    }
  }

  lemma NamesLessOrder()
    ensures StrictTotal(NamesLess)
  {
    forall a: seq<string> ensures !NamesLess(a, a) {
      NamesLessIrreflexive(a);
    }
    forall a: seq<string>, b: seq<string>, c: seq<string> | NamesLess(a, b) && NamesLess(b, c)
      ensures NamesLess(a, c)
    {
      NamesLessTransitive(a, b, c);
    }
    forall a: seq<string>, b: seq<string> | a != b
      ensures NamesLess(a, b) || NamesLess(b, a)
    {
      NamesLessTotal(a, b);
    }
  }

  // ---------------------------------------------------------------------
  // The least element, as `sorted(xs)[0]` picks it.

  function Least<K>(ks: seq<K>, lt: (K, K) -> bool): (m: K)
    requires |ks| > 0
    ensures m in ks
  {
    if |ks| == 1 then ks[0]
    else
      var rest := Least(ks[1..], lt);
      if lt(ks[0], rest) then ks[0] else rest
  }

  /** No element is below the least one. */
  lemma {:induction false} LeastIsLeast<K(!new)>(ks: seq<K>, lt: (K, K) -> bool)
    requires |ks| > 0 && StrictTotal(lt)
    ensures forall x :: x in ks ==> !lt(x, Least(ks, lt))
  {
    if |ks| > 1 {
      LeastIsLeast(ks[1..], lt);
      forall x | x in ks
        ensures !lt(x, Least(ks, lt))
      {
        if x != ks[0] {
          assert x in ks[1..];
        }
      }
    }
  }

  /** The least element depends only on the set of elements: two lists with
      the same elements have the same least element. */
  lemma LeastOfSameElements<K(!new)>(ks1: seq<K>, ks2: seq<K>, lt: (K, K) -> bool)
    requires |ks1| > 0 && StrictTotal(lt)
    requires forall x :: x in ks1 <==> x in ks2
    ensures |ks2| > 0 && Least(ks1, lt) == Least(ks2, lt)
  {
    assert ks1[0] in ks2;
    LeastIsLeast(ks1, lt);
    LeastIsLeast(ks2, lt);
  }
  // ---------------------------------------------------------------------
  // Python's `sorted` with a comparison: a stable insertion sort.

  /** Irreflexive and transitive: enough for sorting, where distinct values
      may still tie. */
  ghost predicate StrictOrder<T(!new)>(lt: (T, T) -> bool) {
    && (forall a :: !lt(a, a))
    && (forall a, b, c :: lt(a, b) && lt(b, c) ==> lt(a, c))
  }

  /** No value is below an earlier one. */
  predicate SortedBy<T>(s: seq<T>, lt: (T, T) -> bool) {
    forall i, j :: 0 <= i < j < |s| ==> !lt(s[j], s[i])
  }

  /** Inserts `e` after every value not above it. */
  function InsertBy<T>(e: T, s: seq<T>, lt: (T, T) -> bool): (r: seq<T>)
    ensures multiset(r) == multiset(s) + multiset{e}
    ensures |r| == |s| + 1
  {
    if |s| == 0 then [e]
    else if lt(e, s[0]) then [e] + s
    else
      assert s == [s[0]] + s[1..];
      [s[0]] + InsertBy(e, s[1..], lt)
  }

  /** `sorted(s)` under the comparison `lt`. */
  function SortBy<T>(s: seq<T>, lt: (T, T) -> bool): (r: seq<T>)
    ensures multiset(r) == multiset(s) && |r| == |s|
  {
    if |s| == 0 then []
    else
      assert s == s[..|s| - 1] + [s[|s| - 1]];
      InsertBy(s[|s| - 1], SortBy(s[..|s| - 1], lt), lt)
  }

  lemma {:induction false} InsertBySorted<T(!new)>(e: T, s: seq<T>, lt: (T, T) -> bool)
    requires StrictOrder(lt) && SortedBy(s, lt)
    ensures SortedBy(InsertBy(e, s, lt), lt)
    decreases |s|
  {
    var r := InsertBy(e, s, lt);
    if |s| > 0 {
      if lt(e, s[0]) {
        assert r == [e] + s;
        forall j | 0 < j < |r|
          ensures !lt(r[j], e)
        {
          assert r[j] == s[j - 1];
        }
      } else {
        var r' := InsertBy(e, s[1..], lt);
        assert r == [s[0]] + r';
        InsertBySorted(e, s[1..], lt);
        forall j | 0 <= j < |r'|
          ensures !lt(r'[j], s[0])
        {
          assert r'[j] in multiset(r');
          if r'[j] != e {
            var m :| 0 <= m < |s[1..]| && s[1..][m] == r'[j];
            assert s[m + 1] == r'[j];
          }
        }
        forall i, j | 0 <= i < j < |r|
          ensures !lt(r[j], r[i])
        {
          if i > 0 {
            assert r[i] == r'[i - 1] && r[j] == r'[j - 1];
          } else {
            assert r[j] == r'[j - 1];
          }
        }
      }
    }
  }

  /** The sort orders its input and keeps every value, counted with
      multiplicity. */
  lemma {:induction false} SortBySpec<T(!new)>(s: seq<T>, lt: (T, T) -> bool)
    requires StrictOrder(lt)
    ensures SortedBy(SortBy(s, lt), lt)
    ensures multiset(SortBy(s, lt)) == multiset(s)
    decreases |s|
  {
    if |s| > 0 {
      SortBySpec(s[..|s| - 1], lt);
      InsertBySorted(s[|s| - 1], SortBy(s[..|s| - 1], lt), lt);
    }
  }

  lemma SortedTail<T>(s: seq<T>, lt: (T, T) -> bool)
    requires SortedBy(s, lt) && |s| > 0
    ensures SortedBy(s[1..], lt)
  {
    forall i, j | 0 <= i < j < |s| - 1
      ensures !lt(s[1..][j], s[1..][i])
    {
      assert s[1..][j] == s[j + 1] && s[1..][i] == s[i + 1];
    }
  }

  /** Under a strict total order there is only one sorted arrangement of a
      collection: two sorted lists with the same elements are equal. */
  lemma {:induction false} SortedUnique<T(!new)>(x: seq<T>, y: seq<T>, lt: (T, T) -> bool)
    requires StrictTotal(lt) && SortedBy(x, lt) && SortedBy(y, lt) && multiset(x) == multiset(y)
    ensures x == y
    decreases |x|
  {
    assert |x| == |y| by {
      assert |multiset(x)| == |multiset(y)|;
    }
    if |x| > 0 {
      assert x[0] in multiset(y) && y[0] in multiset(x);
      var j :| 0 <= j < |y| && y[j] == x[0];
      var i :| 0 <= i < |x| && x[i] == y[0];
      assert x[0] == y[0];
      assert x == [x[0]] + x[1..] && y == [y[0]] + y[1..];
      assert multiset(x) == multiset{x[0]} + multiset(x[1..]);
      assert multiset(y) == multiset{y[0]} + multiset(y[1..]);
      assert multiset(x[1..]) == multiset(x) - multiset{x[0]};
      assert multiset(y[1..]) == multiset(y) - multiset{y[0]};
      SortedTail(x, lt);
      SortedTail(y, lt);
      SortedUnique(x[1..], y[1..], lt);
    }
  }
}

=== FILE: pairtable.dfy ===
/** The multi-stranded pair table (`make_pair_table`) and its inverse
    (`pair_table_to_dot_bracket`). Entry `pt[s][i]` is the locus paired with
    locus `(s, i)`, or nothing when it is unpaired; one stack spans the strand
    breaks, so pairs may join different strands. */
module PairTables {
  import opened Results
  import opened Brackets
  import opened Layout

  type PairTable = seq<seq<Option<Loc>>>

  /** Only dots, brackets and the strand-break character occur. */
  predicate DotParens(t: seq<char>, brk: char) {
    forall k :: 0 <= k < |t| ==> t[k] == '(' || t[k] == ')' || t[k] == '.' || t[k] == brk
  }

  /** Row `si` of the table: the partner locus of each position of the
      strand. */
  function Row(P: seq<seq<char>>, brk: char, M: seq<Option<nat>>, si: nat): (row: seq<Option<Loc>>)
    requires si < |P| && |M| == |Joined(P, brk)|
    ensures |row| == |P[si]|
  {
    JoinedAt(P, brk, si);
    seq(|P[si]|, di requires 0 <= di < |P[si]| =>
      match M[Offset(P, si) + di]
      case None => None
      case Some(j) => Some(LocOf(P, j)))
  }

  function TableOf(P: seq<seq<char>>, brk: char, M: seq<Option<nat>>): (pt: PairTable)
    requires |P| > 0 && |M| == |Joined(P, brk)|
    ensures |pt| == |P| && forall si :: 0 <= si < |P| ==> pt[si] == Row(P, brk, M, si)
  {
    seq(|P|, si requires 0 <= si < |P| => Row(P, brk, M, si))
  }

  /** Entry `di` of row `si` is the locus of the flat partner of the locus. */
  lemma RowAt(P: seq<seq<char>>, brk: char, M: seq<Option<nat>>, si: nat, di: nat)
    requires si < |P| && |M| == |Joined(P, brk)| && di < |P[si]|
    ensures Offset(P, si) + di < |M|
    ensures Row(P, brk, M, si)[di] ==
      (if M[Offset(P, si) + di].None? then None else Some(LocOf(P, M[Offset(P, si) + di].value)))
  {
    JoinedAt(P, brk, si);
  }

  /** `make_pair_table(structure, strand_break)`: a character other than a
      dot, a bracket or the break, or unbalanced brackets, is an error. */
  function MakePairTable(t: seq<char>, brk: char): (r: Result<PairTable>)
    requires brk != '(' && brk != ')'
    ensures r.Ok? <==> DotParens(t, brk) && Balanced(t)
    ensures r.Ok? ==> var P := Pieces(t, brk);
      |r.value| == |P| && forall si :: 0 <= si < |P| ==> |r.value[si]| == |P[si]|
  {
    if !DotParens(t, brk) then Err(Structure)
    else
      match Partners(t)
      case Err(f) => Err(f)
      case Ok(M) =>
        JoinedPieces(t, brk);
        Ok(TableOf(Pieces(t, brk), brk, M))
  }

  /** The character of one entry: unpaired is a dot; a partner after the
      locus makes an open, one before it a close. */
  function EntryChar(e: Option<Loc>, si: nat, di: nat): char {
    match e
    case None => '.'
    case Some(l) => if LocBefore((si, di), l) then '(' else ')'
  }

  /** `pair_table_to_dot_bracket(pt, strand_break)`. */
  function DotBracket(pt: PairTable, brk: char): seq<char> {
    if |pt| == 0 then []
    else
      Joined(seq(|pt|, si requires 0 <= si < |pt| =>
               seq(|pt[si]|, di requires 0 <= di < |pt[si]| => EntryChar(pt[si][di], si, di))), brk)
  }

  // ---------------------------------------------------------------------
  // Properties

  /** Where the flat partner table and the pair table meet: the entry of a
      locus is the locus of its flat partner. */
  lemma EntryAt(t: seq<char>, brk: char, si: nat, di: nat)
    requires brk != '(' && brk != ')' && MakePairTable(t, brk).Ok?
    requires si < |Pieces(t, brk)| && di < |Pieces(t, brk)[si]|
    ensures var P := Pieces(t, brk); var M := Partners(t).value; var k := Offset(P, si) + di;
      && k < |t| && t[k] == P[si][di] && t[k] != brk
      && MakePairTable(t, brk).value[si][di] == (if M[k].None? then None else Some(LocOf(P, M[k].value)))
  {
    var P := Pieces(t, brk);
    JoinedPieces(t, brk);
    JoinedAt(P, brk, si);
    TableValue(t, brk);
    hide MakePairTable, Partners, Pieces, Joined, Offset, LocOf, Row, TableOf;
    RowAt(P, brk, Partners(t).value, si, di);
  }

  /** A table that is made is the table of the strands and the flat
      partners. */
  lemma TableValue(t: seq<char>, brk: char)
    requires brk != '(' && brk != ')' && MakePairTable(t, brk).Ok?
    ensures Partners(t).Ok? && |Partners(t).value| == |Joined(Pieces(t, brk), brk)|
    ensures MakePairTable(t, brk).value == TableOf(Pieces(t, brk), brk, Partners(t).value)
  {
    hide Partners, Pieces, Joined, Offset, LocOf, Row, TableOf;
    JoinedPieces(t, brk);
  }

  /** Pairing is mutual: if locus `(si, di)` is paired with `(u, j)`, then
      `(u, j)` is a locus of the table and is paired with `(si, di)`. */
  lemma PairTableMutual(t: seq<char>, brk: char, si: nat, di: nat)
    requires brk != '(' && brk != ')' && MakePairTable(t, brk).Ok?
    requires var pt := MakePairTable(t, brk).value; si < |pt| && di < |pt[si]| && pt[si][di].Some?
    ensures var pt := MakePairTable(t, brk).value; var l := pt[si][di].value;
      l.0 < |pt| && l.1 < |pt[l.0]| && pt[l.0][l.1] == Some((si, di)) && l != (si, di)
  {
    hide MakePairTable, Partners, Pieces, Joined, Offset, LocOf;
    var P := Pieces(t, brk);
    var M := Partners(t).value;
    JoinedPieces(t, brk);
    EntryAt(t, brk, si, di);
    var k := Offset(P, si) + di;
    var k' := M[k].value;
    assert t[k'] != brk;
    LocOfInPiece(P, brk, k');
    var l := LocOf(P, k');
    EntryAt(t, brk, l.0, l.1);
    LocOfOffset(P, si, di);
  }

  /** `pair_table_to_dot_bracket` inverts `make_pair_table`, for any
      break character. */
  lemma DotBracketInverse(t: seq<char>, brk: char)
    requires brk != '(' && brk != ')' && MakePairTable(t, brk).Ok?
    ensures DotBracket(MakePairTable(t, brk).value, brk) == t
  {
    hide MakePairTable;
    var pt := MakePairTable(t, brk).value;
    var P := Pieces(t, brk);
    var rows := seq(|pt|, si requires 0 <= si < |pt| =>
                  seq(|pt[si]|, di requires 0 <= di < |pt[si]| => EntryChar(pt[si][di], si, di)));
    forall si | 0 <= si < |P|
      ensures rows[si] == P[si]
    {
      forall di | 0 <= di < |P[si]|
        ensures rows[si][di] == P[si][di]
      {
        EntryCharAt(t, brk, si, di);
      }
    }
    assert rows == P;
    JoinedPieces(t, brk);
  }

  /** One entry's character is the structure character at its locus. */
  lemma EntryCharAt(t: seq<char>, brk: char, si: nat, di: nat)
    requires brk != '(' && brk != ')' && MakePairTable(t, brk).Ok?
    requires si < |Pieces(t, brk)| && di < |Pieces(t, brk)[si]|
    ensures EntryChar(MakePairTable(t, brk).value[si][di], si, di) == Pieces(t, brk)[si][di]
  {
    hide MakePairTable;
    var P := Pieces(t, brk);
    var M := Partners(t).value;
    JoinedPieces(t, brk);
    EntryAt(t, brk, si, di);
    var k := Offset(P, si) + di;
    if M[k].Some? {
      var k' := M[k].value;
      assert t[k'] != brk;
      LocOfOffset(P, si, di);
      if k < k' {
        LocOfMonotone(P, brk, k, k');
      } else {
        LocOfMonotone(P, brk, k', k);
      }
    }
  }
}

=== FILE: pairtable_examples.dfy ===
/** Worked pair tables: structures with their expected tables, and the two
    rejected inputs (unbalanced brackets, a character outside the alphabet). */
module PairTableExamples {
  import opened Results
  import opened Brackets
  import opened Layout
  import opened PairTables

  // ---------------------------------------------------------------------
  // Two strands joined by three pairs: `(((+...)))`

  const TwoStrand: string := "(((+...)))"
  const TwoStrandPieces: seq<string> := ["(((", "...)))"]
  const TwoStrandMates: seq<Option<nat>> := [Some(9), Some(8), Some(7), None, None, None, None, Some(2), Some(1), Some(0)]

  lemma TwoStrandBrackets()
    ensures |TwoStrandMates| == |TwoStrand|
    ensures forall k :: 0 <= k < |TwoStrand| ==> (TwoStrandMates[k].Some? <==> IsBracket(TwoStrand[k]))
  {
  }

  lemma TwoStrandMutual()
    ensures forall k :: 0 <= k < |TwoStrand| && TwoStrandMates[k].Some? ==>
      TwoStrandMates[k].value < |TwoStrand| && TwoStrandMates[k].value != k
      && TwoStrandMates[TwoStrandMates[k].value] == Some(k)
  {
  }

  lemma TwoStrandOrient()
    ensures forall k :: 0 <= k < |TwoStrand| && TwoStrandMates[k].Some? ==>
      (TwoStrand[k] == '(' <==> k < TwoStrandMates[k].value)
  {
  }

  lemma TwoStrandNested()
    ensures NonCrossing(TwoStrandMates)
  {
  }

  lemma TwoStrandPairs()
    ensures Matching(TwoStrand, TwoStrandMates) && NonCrossing(TwoStrandMates)
  {
    TwoStrandBrackets();
    TwoStrandMutual();
    TwoStrandOrient();
    TwoStrandNested();
  }

  lemma TwoStrandPartners()
    ensures Partners(TwoStrand) == Ok(TwoStrandMates)
  {
    hide Matching, NonCrossing;
    TwoStrandPairs();
    PartnersUnique(TwoStrand, TwoStrandMates);
  }

  lemma TwoStrandLayout()
    ensures Joined(TwoStrandPieces, '+') == TwoStrand
    ensures Pieces(TwoStrand, '+') == TwoStrandPieces
    ensures Offset(TwoStrandPieces, 0) == 0 && Offset(TwoStrandPieces, 1) == 4
  {
    assert Joined(TwoStrandPieces, '+') == TwoStrand;
    PiecesJoined(TwoStrandPieces, '+');
  }

  lemma TwoStrandLocs()
    ensures var P := TwoStrandPieces;
      && LocOf(P, 9) == (1, 5) && LocOf(P, 8) == (1, 4) && LocOf(P, 7) == (1, 3)
      && LocOf(P, 0) == (0, 0) && LocOf(P, 1) == (0, 1) && LocOf(P, 2) == (0, 2)
  {
    hide LocOf, Offset, Joined, Pieces;
    TwoStrandLayout();
    LocOfOffset(TwoStrandPieces, 1, 5);
    LocOfOffset(TwoStrandPieces, 1, 4);
    LocOfOffset(TwoStrandPieces, 1, 3);
    LocOfOffset(TwoStrandPieces, 0, 0);
    LocOfOffset(TwoStrandPieces, 0, 1);
    LocOfOffset(TwoStrandPieces, 0, 2);
  }

  lemma TwoStrandRow0()
    ensures |TwoStrandMates| == |Joined(TwoStrandPieces, '+')|
    ensures Row(TwoStrandPieces, '+', TwoStrandMates, 0) == [Some((1, 5)), Some((1, 4)), Some((1, 3))]
  {
    hide Row, Joined, Offset, LocOf, Pieces;
    TwoStrandLayout();
    TwoStrandLocs();
    RowAt(TwoStrandPieces, '+', TwoStrandMates, 0, 0);
    RowAt(TwoStrandPieces, '+', TwoStrandMates, 0, 1);
    RowAt(TwoStrandPieces, '+', TwoStrandMates, 0, 2);
  }

  lemma TwoStrandRow1()
    ensures |TwoStrandMates| == |Joined(TwoStrandPieces, '+')|
    ensures Row(TwoStrandPieces, '+', TwoStrandMates, 1) == [None, None, None, Some((0, 2)), Some((0, 1)), Some((0, 0))]
  {
    hide Row, Joined, Offset, LocOf, Pieces;
    TwoStrandLayout();
    TwoStrandLocs();
    RowAt(TwoStrandPieces, '+', TwoStrandMates, 1, 0);
    RowAt(TwoStrandPieces, '+', TwoStrandMates, 1, 1);
    RowAt(TwoStrandPieces, '+', TwoStrandMates, 1, 2);
    RowAt(TwoStrandPieces, '+', TwoStrandMates, 1, 3);
    RowAt(TwoStrandPieces, '+', TwoStrandMates, 1, 4);
    RowAt(TwoStrandPieces, '+', TwoStrandMates, 1, 5);
  }

  lemma TwoStrandRows()
    ensures |TwoStrandMates| == |Joined(TwoStrandPieces, '+')|
    ensures TableOf(TwoStrandPieces, '+', TwoStrandMates) == [[Some((1, 5)), Some((1, 4)), Some((1, 3))],
      [None, None, None, Some((0, 2)), Some((0, 1)), Some((0, 0))]]
  {
    hide Row, Joined, Offset, LocOf, Pieces, TableOf;
    TwoStrandRow0();
    TwoStrandRow1();
  }

  /** Three pairs joining the first strand to the end of the second. */
  lemma TwoStrandTable()
    ensures MakePairTable("(((+...)))", '+') == Ok([[Some((1, 5)), Some((1, 4)), Some((1, 3))],
      [None, None, None, Some((0, 2)), Some((0, 1)), Some((0, 0))]])
  {
    hide Partners, Pieces, Joined, Offset, LocOf, Row, TableOf;
    TwoStrandPartners();
    TwoStrandLayout();
    TwoStrandRows();
    assert DotParens(TwoStrand, '+');
  }

  // ---------------------------------------------------------------------
  // The same shape with `&` as the break: `((((&))).)`

  const Ampersand: string := "((((&))).)"
  const AmpersandPieces: seq<string> := ["((((", "))).)"]
  const AmpersandMates: seq<Option<nat>> := [Some(9), Some(7), Some(6), Some(5), None, Some(3), Some(2), Some(1), None, Some(0)]

  lemma AmpersandBrackets()
    ensures |AmpersandMates| == |Ampersand|
    ensures forall k :: 0 <= k < |Ampersand| ==> (AmpersandMates[k].Some? <==> IsBracket(Ampersand[k]))
  {
  }

  lemma AmpersandMutual()
    ensures forall k :: 0 <= k < |Ampersand| && AmpersandMates[k].Some? ==>
      AmpersandMates[k].value < |Ampersand| && AmpersandMates[k].value != k
      && AmpersandMates[AmpersandMates[k].value] == Some(k)
  {
  }

  lemma AmpersandOrient()
    ensures forall k :: 0 <= k < |Ampersand| && AmpersandMates[k].Some? ==>
      (Ampersand[k] == '(' <==> k < AmpersandMates[k].value)
  {
  }

  lemma AmpersandNested()
    ensures NonCrossing(AmpersandMates)
  {
  }

  lemma AmpersandPairs()
    ensures Matching(Ampersand, AmpersandMates) && NonCrossing(AmpersandMates)
  {
    AmpersandBrackets();
    AmpersandMutual();
    AmpersandOrient();
    AmpersandNested();
  }

  lemma AmpersandPartners()
    ensures Partners(Ampersand) == Ok(AmpersandMates)
  {
    hide Matching, NonCrossing;
    AmpersandPairs();
    PartnersUnique(Ampersand, AmpersandMates);
  }

  lemma AmpersandLayout()
    ensures Joined(AmpersandPieces, '&') == Ampersand
    ensures Pieces(Ampersand, '&') == AmpersandPieces
    ensures Offset(AmpersandPieces, 0) == 0 && Offset(AmpersandPieces, 1) == 5
  {
    assert Joined(AmpersandPieces, '&') == Ampersand;
    PiecesJoined(AmpersandPieces, '&');
  }

  lemma AmpersandLocs()
    ensures var P := AmpersandPieces;
      && LocOf(P, 9) == (1, 4) && LocOf(P, 7) == (1, 2) && LocOf(P, 6) == (1, 1) && LocOf(P, 5) == (1, 0)
      && LocOf(P, 0) == (0, 0) && LocOf(P, 1) == (0, 1) && LocOf(P, 2) == (0, 2) && LocOf(P, 3) == (0, 3)
  {
    hide LocOf, Offset, Joined, Pieces;
    AmpersandLayout();
    LocOfOffset(AmpersandPieces, 1, 4);
    LocOfOffset(AmpersandPieces, 1, 2);
    LocOfOffset(AmpersandPieces, 1, 1);
    LocOfOffset(AmpersandPieces, 1, 0);
    LocOfOffset(AmpersandPieces, 0, 0);
    LocOfOffset(AmpersandPieces, 0, 1);
    LocOfOffset(AmpersandPieces, 0, 2);
    LocOfOffset(AmpersandPieces, 0, 3);
  }

  lemma AmpersandRow0()
    ensures |AmpersandMates| == |Joined(AmpersandPieces, '&')|
    ensures Row(AmpersandPieces, '&', AmpersandMates, 0) == [Some((1, 4)), Some((1, 2)), Some((1, 1)), Some((1, 0))]
  {
    hide Row, Joined, Offset, LocOf, Pieces;
    AmpersandLayout();
    AmpersandLocs();
    RowAt(AmpersandPieces, '&', AmpersandMates, 0, 0);
    RowAt(AmpersandPieces, '&', AmpersandMates, 0, 1);
    RowAt(AmpersandPieces, '&', AmpersandMates, 0, 2);
    RowAt(AmpersandPieces, '&', AmpersandMates, 0, 3);
  }

  lemma AmpersandRow1()
    ensures |AmpersandMates| == |Joined(AmpersandPieces, '&')|
    ensures Row(AmpersandPieces, '&', AmpersandMates, 1) == [Some((0, 3)), Some((0, 2)), Some((0, 1)), None, Some((0, 0))]
  {
    hide Row, Joined, Offset, LocOf, Pieces;
    AmpersandLayout();
    AmpersandLocs();
    RowAt(AmpersandPieces, '&', AmpersandMates, 1, 0);
    RowAt(AmpersandPieces, '&', AmpersandMates, 1, 1);
    RowAt(AmpersandPieces, '&', AmpersandMates, 1, 2);
    RowAt(AmpersandPieces, '&', AmpersandMates, 1, 3);
    RowAt(AmpersandPieces, '&', AmpersandMates, 1, 4);
  }

  lemma AmpersandRows()
    ensures |AmpersandMates| == |Joined(AmpersandPieces, '&')|
    ensures TableOf(AmpersandPieces, '&', AmpersandMates) == [[Some((1, 4)), Some((1, 2)), Some((1, 1)), Some((1, 0))],
      [Some((0, 3)), Some((0, 2)), Some((0, 1)), None, Some((0, 0))]]
  {
    hide Row, Joined, Offset, LocOf, Pieces, TableOf;
    AmpersandRow0();
    AmpersandRow1();
  }

  /** The same shape with `&` as the break character. */
  lemma AmpersandTable()
    ensures MakePairTable("((((&))).)", '&') == Ok([[Some((1, 4)), Some((1, 2)), Some((1, 1)), Some((1, 0))],
      [Some((0, 3)), Some((0, 2)), Some((0, 1)), None, Some((0, 0))]])
  {
    hide Partners, Pieces, Joined, Offset, LocOf, Row, TableOf;
    AmpersandPartners();
    AmpersandLayout();
    AmpersandRows();
    assert DotParens(Ampersand, '&');
  }

  // ---------------------------------------------------------------------
  // Rejected inputs

  /** With the default break `+`, an `&` is outside the alphabet. */
  lemma ForeignBreakRejected()
    ensures MakePairTable("((((&))).)", '+').Err?
  {
    assert "((((&))).)"[4] == '&';
  }

  /** Four opens against three closes. */
  lemma UnbalancedRejected()
    ensures MakePairTable("((((+)).)", '+').Err?
  {
    var t := "((((+)).)";
    assert t[..0] == [];
    DepthStep(t, 0); DepthStep(t, 1); DepthStep(t, 2); DepthStep(t, 3); DepthStep(t, 4);
    DepthStep(t, 5); DepthStep(t, 6); DepthStep(t, 7); DepthStep(t, 8);
    assert t[..9] == t;
    assert Depth(t) == 1;
  }
}

=== FILE: part_complex.dfy ===
/** The corrected `Complex.split` cannot fail on a complex the constructor
    accepted, as long as the automatic names still to come are free.

    Each part of a well-formed complex is well-formed, passes the pairing
    sanity check when the complex does, and so goes through the corrected
    constructor, which either creates it or finds it already registered. */
module PartComplexes {
  import opened Results
  import opened Names
  import opened Brackets
  import opened Layout
  import opened PairTables
  import opened Rotation
  import opened Canonical
  import opened Complexes
  import opened ComplexViews
  import opened Loops
  import opened Split
  import opened PartShape
  import opened ProtoComplexes
  import opened ProtoSplits
  import Order
  import Domains

  // ---------------------------------------------------------------------
  // A part of a well-formed complex

  /** `idx` lists, in increasing order, strands of the well-formed complex
      `c` that no pair leaves. */
  ghost predicate PartOf(c: Strands, idx: seq<nat>) {
    && WellFormed(c)
    && ClosedPart(c.structure, idx)
    && |StrandsOf(c)| == |Pieces(c.structure, '+')|
  }

  /** A well-formed complex has as many strands in its sequence as in its
      structure, each of the same length. */
  lemma StrandsMatch(c: Strands)
    requires WellFormed(c)
    ensures |StrandsOf(c)| == |Pieces(c.structure, '+')|
    ensures forall j :: 0 <= j < |StrandsOf(c)| ==> |StrandsOf(c)[j]| == |Pieces(c.structure, '+')[j]|
  {
    PiecesSameShape(c.sequence, Break, c.structure, '+');
  }

  /** The part made of closed strands of a well-formed complex is
      well-formed. */
  lemma PartWellFormed(c: Strands, idx: seq<nat>)
    requires WellFormed(c) && ClosedPart(c.structure, idx)
    ensures PartOf(c, idx)
    ensures WellFormed(Part(c, idx))
  {
    hide Pieces, Joined, Partners, MakePairTable, PartText, Matching, NonCrossing, Balanced, DotParens,
      CarriedAt, TableOf, Row, LocOf, Offset, PartPos, Pick, Embeds, Restricts;
    var t := c.structure;
    var S := StrandsOf(c);
    var T := Pieces(t, '+');
    StrandsMatch(c);
    assert S == Pieces(c.sequence, Break);
    PickAt(S, Break, idx);
    PickAt(T, '+', idx);
    JoinedSameShape(Pick(S, idx), Break, Pick(T, idx), '+');
    PartTable(t, idx);
    PartTextIs(t, idx);
    var p := Part(c, idx);
    assert p == Strands(Joined(Pick(S, idx), Break), Joined(Pick(T, idx), '+'));
  }

  /** Each domain of the part is the domain of its image in the complex. */
  lemma PartSequenceAt(c: Strands, idx: seq<nat>, x: nat)
    requires PartOf(c, idx) && x < |Part(c, idx).sequence|
    ensures var y := PartPos(Pieces(c.structure, '+'), idx, x);
      y < |c.sequence| && Part(c, idx).sequence[x] == c.sequence[y]
  {
    hide Pieces, Joined, Partners, MakePairTable, PartText, Matching, NonCrossing, Balanced, DotParens,
      CarriedAt, TableOf, Row, LocOf, Offset, PartPos, Pick, Embeds, Restricts, WellFormed;
    var S := StrandsOf(c);
    var T := Pieces(c.structure, '+');
    StrandsMatch(c);
    PartPosSameShape(T, S, idx, x);
    assert S == Pieces(c.sequence, Break);
    assert Part(c, idx).sequence == Joined(Pick(S, idx), Break);
    PartPosEmbeds(S, Break, idx, x);
    JoinedPieces(c.sequence, Break);
  }

  /** The part of a complex that passes the pairing sanity check passes it
      too: each of its pairs is a pair of the complex, joining the same two
      domains. */
  lemma PartComplementary(dmem: Domains.DomainMemory, c: Strands, idx: seq<nat>)
    requires WellFormed(c) && DomainLevelComplement(dmem, c) == Ok(true) && ClosedPart(c.structure, idx)
    ensures PartOf(c, idx)
    ensures DomainLevelComplement(dmem, Part(c, idx)) == Ok(true)
  {
    hide Pieces, Joined, Partners, MakePairTable, PartText, Matching, NonCrossing, Balanced, DotParens,
      CarriedAt, TableOf, Row, LocOf, Offset, PartPos, Pick, Restricts, WellFormed,
      DomainLevelComplement, Complementary;
    var t := c.structure;
    var T := Pieces(t, '+');
    PartWellFormed(c, idx);
    var p := Part(c, idx);
    DomainLevelComplementFlat(dmem, c);
    DomainLevelComplementFlat(dmem, p);
    PartTable(t, idx);
    PartTextIs(t, idx);
    assert p.structure == PartText(t, idx);
    var M := Partners(t).value;
    var Mp := Partners(p.structure).value;
    MatchingLength(t, M);
    MatchingLength(p.structure, Mp);
    forall x | 0 <= x < |Mp| && Mp[x].Some? && x < |p.sequence| && Mp[x].value < |p.sequence|
      ensures Complementary(dmem, p.sequence[x], p.sequence[Mp[x].value])
    {
      MatchingAt(p.structure, Mp, x);
      CarriedAtUnfold(t, idx, x);
      PartSequenceAt(c, idx, x);
      PartSequenceAt(c, idx, Mp[x].value);
      var k := PartPos(T, idx, x);
      MatchingAt(t, M, k);
    }
  }

  // ---------------------------------------------------------------------
  // The constructor on a part

  /** No automatic name under the default prefix from the counter on is
      taken yet. */
  ghost predicate FreshCounter(reg: ComplexMemory) {
    forall i: nat :: reg.id <= i ==> AutoName(ProtoPrefix, i) !in reg.names
  }

  /** Under a free automatic name the base constructor accepts a
      well-formed complex: it creates it as given or finds it registered. */
  lemma NewComplexAccepts(reg: ComplexMemory, c: Strands, prefix: string)
    requires WellFormed(c)
    requires ComplexName("", prefix, reg.id).Ok? && ComplexName("", prefix, reg.id).value.0 !in reg.names
    ensures var (_, made) := NewComplex(reg, c.sequence, c.structure, "", prefix, true);
      !made.Failed? && (made.Created? ==> made.value.strands == c)
  {
    hide RotateOnce, RotateTimes, CanonicalForm, FirstKnown, StrandCount, Variants, KeyOf;
    var n := StrandCount(c);
    WellFormedVariants(c, n);
    FirstKnownSpec(c, n, reg.memory);
    CanonicalIsLeastRotation(c);
    NewComplexWellFormed(reg, c, "", prefix, true);
  }

  /** The corrected constructor, with an automatic name and the memory
      check on, accepts a well-formed complex that passes the pairing sanity
      check while the counter's names are free, and keeps them free. */
  lemma MakePartSucceeds(reg: ComplexMemory, dmem: Domains.DomainMemory, p: Strands)
    requires FreshCounter(reg) && WellFormed(p) && DomainLevelComplement(dmem, p) == Ok(true)
    ensures var (reg', made, dmem') := MakePart(true, reg, dmem, p);
      !made.Failed? && FreshCounter(reg') && dmem' == dmem
  {
    hide NewComplex, DomainLevelComplement, WellFormed, AutoName;
    var nm := AutoName(ProtoPrefix, reg.id);
    assert ComplexName("", ProtoPrefix, reg.id) == Ok((nm, reg.id + 1));
    NewComplexAccepts(reg, p, ProtoPrefix);
    var (reg1, made) := NewComplex(reg, p.sequence, p.structure, "", ProtoPrefix, true);
    assert !AutoNameTaken(reg, ProtoPrefix);
    assert Attempt(reg, p.sequence, p.structure, "", ProtoPrefix, true) == (reg1, made);
    assert MakePart(true, reg, dmem, p) == (reg1, made, dmem);
    forall i: nat | reg1.id <= i
      ensures AutoName(ProtoPrefix, i) !in reg1.names
    {
      if AutoName(ProtoPrefix, i) == nm {
        AutoNameInjective(ProtoPrefix, i, reg.id);
      }
    }
  }

  /** The loop over the parts gets through when every part is well-formed
      and passes the pairing sanity check. */
  lemma {:induction false} MakePartsSucceed(reg: ComplexMemory, dmem: Domains.DomainMemory, parts: seq<Strands>)
    requires FreshCounter(reg)
    requires forall k :: 0 <= k < |parts| ==> WellFormed(parts[k]) && DomainLevelComplement(dmem, parts[k]) == Ok(true)
    ensures MakeParts(true, reg, dmem, parts).1.Ok?
    decreases |parts|
  {
    hide MakePart, WellFormed, DomainLevelComplement, FreshCounter;
    if |parts| > 0 {
      MakePartSucceeds(reg, dmem, parts[0]);
      var (reg1, made, dmem1) := MakePart(true, reg, dmem, parts[0]);
      MakePartsSucceed(reg1, dmem1, parts[1..]);
    }
  }

  // ---------------------------------------------------------------------
  // The split

  /** The corrected `split` of a well-formed complex that passes the pairing
      sanity check does not fail while the automatic names from the counter
      on are free: a connected complex comes back alone, and otherwise
      every component becomes a complex. */
  lemma ProtoSplitSucceeds(reg: ComplexMemory, dmem: Domains.DomainMemory, self: Entry)
    requires WellFormed(self.strands) && DomainLevelComplement(dmem, self.strands) == Ok(true)
    requires FreshCounter(reg)
    ensures ProtoSplit(true, reg, dmem, self).1.Ok?
  {
    hide Pieces, Joined, Partners, MakePairTable, PartText, Matching, NonCrossing, Balanced, DotParens,
      CarriedAt, TableOf, Row, LocOf, Offset, PartPos, Pick, Restricts, Embeds,
      DomainLevelComplement, FreshCounter, MakeParts, IsConnected, Closure, Split.Step, Closed, Range,
      ComponentMembers, Flatten, Iota, Order.SortBy, Part;
    var c := self.strands;
    var t := c.structure;
    DomainLevelComplementFlat(dmem, c);
    assert MakePairTable(t, '+').Ok?;
    if IsConnected(t, '+') == Ok(false) {
      var pt: PairTable := MakePairTable(t, '+').value;
      StrandsMatch(c);
      assert SplitComplex(c).Ok?;
      PairTableIsMutual(t);
      ComponentsPartition(pt);
      var ms := ComponentMembers(pt);
      var parts := SplitComplex(c).value;
      forall k | 0 <= k < |parts|
        ensures WellFormed(parts[k]) && DomainLevelComplement(dmem, parts[k]) == Ok(true)
      {
        assert Component(t, ms[k]);
        assert parts[k] == Part(c, ms[k]);
        PartWellFormed(c, ms[k]);
        PartComplementary(dmem, c, ms[k]);
      }
      MakePartsSucceed(reg, dmem, parts);
    }
  }
}

=== FILE: part_shape.dfy ===
/** The parts `split_complex` returns are complexes in their own right.

    A part takes some strands of a complex, in their original order. This
    module embeds each position of a part in the complex, shows that the
    part's structure is balanced with the complex's pairs carried over,
    that its pair table is the complex's table restricted to the part's
    strands, and that its strands are connected. */
module PartShape {
  import opened Results
  import opened Brackets
  import opened Layout
  import opened PairTables
  import opened Loops
  import opened Split
  import Rotation

  /** The strands `idx` of `P` are in range and in increasing order. */
  ghost predicate Ascending<T>(P: seq<seq<T>>, idx: seq<nat>) {
    && |idx| > 0
    && (forall j :: 0 <= j < |idx| ==> idx[j] < |P|)
    && (forall j, j' :: 0 <= j < j' < |idx| ==> idx[j] < idx[j'])
  }

  /** Where position `x` of the join of the pieces `idx` of `P` lies in the
      join of all of `P`: the same index of the same piece. A marker goes
      to the marker that follows its piece. */
  ghost function PartPos<T>(P: seq<seq<T>>, idx: seq<nat>, x: nat): nat
    requires Ascending(P, idx)
  {
    var l := LocOf(Pick(P, idx), x);
    if l.0 < |idx| then Offset(P, idx[l.0]) + l.1 else 0
  }

  /** Each position of the part holds what its image holds. */
  lemma PartPosEmbeds<T>(P: seq<seq<T>>, b: T, idx: seq<nat>, x: nat)
    requires Ascending(P, idx) && forall j :: 0 <= j < |P| ==> b !in P[j]
    requires x < |Joined(Pick(P, idx), b)|
    ensures PartPos(P, idx, x) < |Joined(P, b)|
    ensures Joined(Pick(P, idx), b)[x] == Joined(P, b)[PartPos(P, idx, x)]
  {
    var Q := Pick(P, idx);
    LocOfBound(Q, b, x);
    var l := LocOf(Q, x);
    JoinedAt(P, b, idx[l.0]);
    assert Q[l.0] == P[idx[l.0]];
    assert PartPos(P, idx, x) == Offset(P, idx[l.0]) + l.1;
    if l.1 < |Q[l.0]| {
      JoinedAt(Q, b, l.0);
      assert Joined(Q, b)[Offset(Q, l.0) + l.1] == Q[l.0][l.1];
      assert Joined(P, b)[Offset(P, idx[l.0]) + l.1] == P[idx[l.0]][l.1];
    } else {
      assert idx[l.0] < idx[l.0 + 1];
    }
  }

  /** The embedding keeps the order of positions. */
  lemma PartPosMonotone<T>(P: seq<seq<T>>, b: T, idx: seq<nat>, x: nat, y: nat)
    requires Ascending(P, idx)
    requires x < y < |Joined(Pick(P, idx), b)|
    ensures PartPos(P, idx, x) < PartPos(P, idx, y)
  {
    var Q := Pick(P, idx);
    LocOfBound(Q, b, x);
    LocOfBound(Q, b, y);
    LocOfOrder(Q, x, y);
    var lx, ly := LocOf(Q, x), LocOf(Q, y);
    if lx.0 < ly.0 {
      OffsetBefore(P, idx[lx.0], idx[ly.0]);
    }
  }

  /** The embedding depends only on the piece lengths. */
  lemma PartPosSameShape<A, B>(P: seq<seq<A>>, R: seq<seq<B>>, idx: seq<nat>, x: nat)
    requires Ascending(P, idx) && |P| == |R| && forall j :: 0 <= j < |P| ==> |P[j]| == |R[j]|
    ensures Ascending(R, idx) && PartPos(P, idx, x) == PartPos(R, idx, x)
  {
    LocOfSameShape(Pick(P, idx), Pick(R, idx), x);
    var l := LocOf(Pick(P, idx), x);
    if l.0 < |idx| {
      OffsetSameShape(P, R, idx[l.0]);
    }
  }

  /** The pieces picked are the pieces at the listed positions, so none
      holds a marker that no original piece holds. */
  lemma PickAt<T>(P: seq<seq<T>>, b: T, idx: seq<nat>)
    requires forall j :: 0 <= j < |idx| ==> idx[j] < |P|
    ensures forall j :: 0 <= j < |idx| ==> Pick(P, idx)[j] == P[idx[j]]
    ensures (forall j :: 0 <= j < |P| ==> b !in P[j]) ==> forall j :: 0 <= j < |idx| ==> b !in Pick(P, idx)[j]
  {
  }

  /** Index `i` of the part's piece `j` goes to index `i` of the piece
      `idx[j]`. */
  lemma PartPosAt<T>(P: seq<seq<T>>, idx: seq<nat>, j: nat, i: nat)
    requires Ascending(P, idx) && j < |idx| && i <= |P[idx[j]]|
    ensures PartPos(P, idx, Offset(Pick(P, idx), j) + i) == Offset(P, idx[j]) + i
  {
    var Q := Pick(P, idx);
    assert Q[j] == P[idx[j]];
    LocOfOffset(Q, j, i);
  }

  /** A position of the part that is not a marker lies in one of its
      pieces, and goes to the same index of the original piece. */
  lemma PartLocIn<T>(P: seq<seq<T>>, b: T, idx: seq<nat>, x: nat)
    requires Ascending(P, idx) && forall j :: 0 <= j < |P| ==> b !in P[j]
    requires x < |Joined(Pick(P, idx), b)| && Joined(Pick(P, idx), b)[x] != b
    ensures var l := LocOf(Pick(P, idx), x);
      && l.0 < |idx| && l.1 < |P[idx[l.0]]| && Offset(Pick(P, idx), l.0) + l.1 == x
      && PartPos(P, idx, x) == Offset(P, idx[l.0]) + l.1
  {
    var Q := Pick(P, idx);
    assert forall s :: 0 <= s < |Q| ==> Q[s] == P[idx[s]];
    LocOfInPiece(Q, b, x);
  }

  /** The conditions under which the positions `fs` of `t` spell `p` and
      carry a set of pairs of `t` along. */
  ghost predicate ReadOff(t: seq<char>, M: seq<Option<nat>>, p: seq<char>, fs: seq<nat>) {
    && Matching(t, M) && NonCrossing(M)
    && |fs| == |p| && (forall x :: 0 <= x < |p| ==> fs[x] < |t| && p[x] == t[fs[x]])
    && (forall x, y :: 0 <= x < y < |p| ==> fs[x] < fs[y])
    && (forall x :: 0 <= x < |p| && IsBracket(p[x]) ==> M[fs[x]].value in fs)
  }

  /** The pairs read off: each bracket goes to where its partner's image
      comes from. */
  ghost function SubPartners(t: seq<char>, M: seq<Option<nat>>, p: seq<char>, fs: seq<nat>): (Mp: seq<Option<nat>>)
    requires ReadOff(t, M, p, fs)
    ensures |Mp| == |p|
    ensures forall x :: 0 <= x < |p| ==> (Mp[x].Some? <==> IsBracket(p[x]))
    ensures forall x :: 0 <= x < |p| && IsBracket(p[x]) ==> Mp[x].value < |p| && fs[Mp[x].value] == M[fs[x]].value
  {
    seq(|p|, x requires 0 <= x < |p| =>
      if IsBracket(p[x]) then Some(Rotation.FirstIndex(fs, M[fs[x]].value)) else None)
  }

  /** Read-off positions are told apart by their images. */
  lemma ReadOffInjective(t: seq<char>, M: seq<Option<nat>>, p: seq<char>, fs: seq<nat>, x: nat, y: nat)
    requires ReadOff(t, M, p, fs) && x < |p| && y < |p|
    ensures x < y <==> fs[x] < fs[y]
    ensures x == y <==> fs[x] == fs[y]
  {
  }

  lemma SubMatching(t: seq<char>, M: seq<Option<nat>>, p: seq<char>, fs: seq<nat>)
    requires ReadOff(t, M, p, fs)
    ensures Matching(p, SubPartners(t, M, p, fs))
  {
    var Mp := SubPartners(t, M, p, fs);
    forall x | 0 <= x < |p| && Mp[x].Some?
      ensures Mp[x].value < |p| && Mp[x].value != x && Mp[Mp[x].value] == Some(x)
      ensures p[x] == '(' <==> x < Mp[x].value
    {
      MatchingAt(t, M, fs[x]);
      var y := Mp[x].value;
      MatchingAt(t, M, fs[y]);
      ReadOffInjective(t, M, p, fs, x, y);
      ReadOffInjective(t, M, p, fs, x, Mp[y].value);
    }
  }

  /** Betweenness survives the read-off. */
  lemma BetweenReadOff(t: seq<char>, M: seq<Option<nat>>, p: seq<char>, fs: seq<nat>, x: nat, y: nat, z: nat)
    requires ReadOff(t, M, p, fs) && x < |p| && y < |p| && z < |p|
    ensures Between(x, y, z) <==> Between(fs[x], fs[y], fs[z])
  {
    ReadOffInjective(t, M, p, fs, x, y);
    ReadOffInjective(t, M, p, fs, y, x);
    ReadOffInjective(t, M, p, fs, x, z);
    ReadOffInjective(t, M, p, fs, z, x);
  }

  lemma NonCrossingAt(M: seq<Option<nat>>, i: nat, k: nat)
    requires NonCrossing(M) && i < |M| && k < |M| && M[i].Some? && M[k].Some?
    requires Between(k, i, M[i].value)
    ensures Between(M[k].value, i, M[i].value)
  {
  }

  lemma SubNonCrossing(t: seq<char>, M: seq<Option<nat>>, p: seq<char>, fs: seq<nat>)
    requires ReadOff(t, M, p, fs)
    ensures NonCrossing(SubPartners(t, M, p, fs))
  {
    var Mp := SubPartners(t, M, p, fs);
    forall i, k | 0 <= i < |Mp| && 0 <= k < |Mp| && Mp[i].Some? && Mp[k].Some? && Between(k, i, Mp[i].value)
      ensures Between(Mp[k].value, i, Mp[i].value)
    {
      var a, b := Mp[k].value, Mp[i].value;
      MatchingAt(t, M, fs[i]);
      MatchingAt(t, M, fs[k]);
      hide ReadOff, SubPartners, Matching, NonCrossing;
      BetweenReadOff(t, M, p, fs, k, i, b);
      NonCrossingAt(M, fs[i], fs[k]);
      BetweenReadOff(t, M, p, fs, a, i, b);
    }
  }

  /** A string read off a balanced one at increasing positions `fs`, and
      closed under its pairs, is balanced, and its pairs are the pairs read
      off. */
  lemma SubBalanced(t: seq<char>, M: seq<Option<nat>>, p: seq<char>, fs: seq<nat>)
    requires ReadOff(t, M, p, fs)
    ensures Partners(p).Ok?
    ensures forall x :: 0 <= x < |p| && IsBracket(p[x]) ==>
      && Partners(p).value[x].Some? && Partners(p).value[x].value < |p|
      && fs[Partners(p).value[x].value] == M[fs[x]].value
  {
    SubMatching(t, M, p, fs);
    SubNonCrossing(t, M, p, fs);
    PartnersUnique(p, SubPartners(t, M, p, fs));
  }

  // ---------------------------------------------------------------------
  // The structure of a part

  /** `idx` lists, in increasing order, strands of a readable structure `t`
      that no pair leaves. */
  ghost predicate ClosedPart(t: seq<char>, idx: seq<nat>) {
    && MakePairTable(t, '+').Ok?
    && Ascending(Pieces(t, '+'), idx)
    && var pt := MakePairTable(t, '+').value;
       forall j, i :: 0 <= j < |idx| && 0 <= i < |pt[idx[j]]| && pt[idx[j]][i].Some? ==> pt[idx[j]][i].value.0 in idx
  }

  /** The structure text of the strands `idx` of `t`. */
  ghost function PartText(t: seq<char>, idx: seq<nat>): seq<char>
    requires Ascending(Pieces(t, '+'), idx)
  {
    Joined(Pick(Pieces(t, '+'), idx), '+')
  }

  /** Position `x` of the part `PartText(t, idx)`, if a bracket, has a
      partner whose image is the partner of its image in `t`. */
  ghost predicate CarriedAt(t: seq<char>, idx: seq<nat>, x: nat)
    requires Ascending(Pieces(t, '+'), idx)
  {
    var P := Pieces(t, '+');
    var p := PartText(t, idx);
    && x < |p| && Partners(t).Ok? && Partners(p).Ok?
    && PartPos(P, idx, x) < |Partners(t).value| && |Partners(p).value| == |p|
    && (IsBracket(p[x]) ==>
          && Partners(p).value[x].Some? && Partners(p).value[x].value < |p|
          && Partners(t).value[PartPos(P, idx, x)].Some?
          && PartPos(P, idx, Partners(p).value[x].value) == Partners(t).value[PartPos(P, idx, x)].value)
  }

  /** Characters read off a dot-bracket text form one too. */
  lemma DotParensReadOff(t: seq<char>, p: seq<char>, fs: seq<nat>)
    requires DotParens(t, '+') && |fs| == |p|
    requires forall x :: 0 <= x < |p| ==> fs[x] < |t| && p[x] == t[fs[x]]
    ensures DotParens(p, '+')
  {
  }

  lemma PartTextIs(t: seq<char>, idx: seq<nat>)
    requires Ascending(Pieces(t, '+'), idx)
    ensures PartText(t, idx) == Joined(Pick(Pieces(t, '+'), idx), '+')
  {
  }

  lemma CarriedAtUnfold(t: seq<char>, idx: seq<nat>, x: nat)
    requires Ascending(Pieces(t, '+'), idx) && CarriedAt(t, idx, x)
    ensures var P := Pieces(t, '+'); var p := Joined(Pick(P, idx), '+');
      && x < |p| && Partners(t).Ok? && Partners(p).Ok?
      && PartPos(P, idx, x) < |Partners(t).value| && |Partners(p).value| == |p|
      && (IsBracket(p[x]) ==>
            && Partners(p).value[x].Some? && Partners(p).value[x].value < |p|
            && Partners(t).value[PartPos(P, idx, x)].Some?
            && PartPos(P, idx, Partners(p).value[x].value) == Partners(t).value[PartPos(P, idx, x)].value)
  {
    assert PartText(t, idx) == Joined(Pick(Pieces(t, '+'), idx), '+');
    hide Pieces, Joined, Pick, PartPos, Partners, Matching, NonCrossing, Balanced;
  }

  /** The part `PartText(t, idx)` is balanced, each of its positions holds
      what its image in `t` holds, and each of its pairs is carried to a
      pair of `t`. */
  ghost predicate Embeds(t: seq<char>, idx: seq<nat>)
    requires Ascending(Pieces(t, '+'), idx)
  {
    var P := Pieces(t, '+');
    var p := PartText(t, idx);
    && Partners(p).Ok?
    && forall x :: 0 <= x < |p| ==> PartPos(P, idx, x) < |t| && p[x] == t[PartPos(P, idx, x)] && CarriedAt(t, idx, x)
  }

  /** `ptp` is `pt` restricted to the strands `idx`, with strand `idx[j]`
      renumbered `j`: the same entries unpaired, and every pair the same
      pair. */
  ghost predicate Restricts(ptp: PairTable, pt: PairTable, idx: seq<nat>) {
    && |ptp| == |idx|
    && (forall j :: 0 <= j < |idx| ==> idx[j] < |pt| && |ptp[j]| == |pt[idx[j]]|)
    && (forall j, i :: 0 <= j < |idx| && 0 <= i < |ptp[j]| ==>
          && idx[j] < |pt| && i < |pt[idx[j]]|
          && (ptp[j][i].None? <==> pt[idx[j]][i].None?)
          && (ptp[j][i].Some? ==>
                ptp[j][i].value.0 < |idx| && pt[idx[j]][i] == Some((idx[ptp[j][i].value.0], ptp[j][i].value.1))))
  }

  /** The partner of a bracket of a part is the image of a position of the
      part. */
  lemma PartClosedAt(t: seq<char>, idx: seq<nat>, x: nat)
    requires ClosedPart(t, idx) && x < |PartText(t, idx)| && IsBracket(PartText(t, idx)[x])
    ensures var P := Pieces(t, '+'); var M := Partners(t).value;
      && PartPos(P, idx, x) < |t| && M[PartPos(P, idx, x)].Some?
      && exists y :: 0 <= y < |PartText(t, idx)| && PartPos(P, idx, y) == M[PartPos(P, idx, x)].value
  {
    hide Pieces, Joined, Partners, MakePairTable, PartText, Matching, NonCrossing, Balanced, DotParens,
      CarriedAt, TableOf, Row, LocOf, Offset, PartPos, Pick;
    var P := Pieces(t, '+');
    var Q := Pick(P, idx);
    var p := Joined(Q, '+');
    PartTextIs(t, idx);
    var M := Partners(t).value;
    var pt: PairTable := MakePairTable(t, '+').value;
    PickAt(P, '+', idx);
    JoinedPieces(t, '+');
    PartPosEmbeds(P, '+', idx, x);
    PartLocIn(P, '+', idx, x);
    var l := LocOf(Q, x);
    var j, i := l.0, l.1;
    var k := Offset(P, idx[j]) + i;
    MatchingAt(t, M, k);
    EntryAt(t, '+', idx[j], i);
    var m := LocOf(P, M[k].value);
    assert pt[idx[j]][i] == Some(m);
    assert m.0 in idx;
    MatchingAt(t, M, M[k].value);
    LocOfInPiece(P, '+', M[k].value);
    var j' := Rotation.FirstIndex(idx, m.0);
    PartPosAt(P, idx, j', m.1);
    JoinedAt(Q, '+', j');
    var y := Offset(Q, j') + m.1;
    assert PartPos(P, idx, y) == M[k].value;
  }

  /** A position of the part not at a marker has, in the original
      pieces, the locus of its image. */
  lemma PartLocImage<T>(P: seq<seq<T>>, b: T, idx: seq<nat>, y: nat)
    requires Ascending(P, idx) && forall j :: 0 <= j < |P| ==> b !in P[j]
    requires y < |Joined(Pick(P, idx), b)| && Joined(Pick(P, idx), b)[y] != b
    ensures var l := LocOf(Pick(P, idx), y);
      l.0 < |idx| && LocOf(P, PartPos(P, idx, y)) == (idx[l.0], l.1)
  {
    PartLocIn(P, b, idx, y);
    var l := LocOf(Pick(P, idx), y);
    LocOfOffset(P, idx[l.0], l.1);
  }

  /** One entry of the part's table is unpaired exactly when the
      corresponding entry of the complex's table is. */
  lemma PartEntryShape(t: seq<char>, idx: seq<nat>, j: nat, i: nat)
    requires MakePairTable(t, '+').Ok? && Ascending(Pieces(t, '+'), idx)
    requires MakePairTable(PartText(t, idx), '+').Ok?
    requires j < |idx| && i < |Pieces(t, '+')[idx[j]]|
    requires CarriedAt(t, idx, Offset(Pick(Pieces(t, '+'), idx), j) + i)
    ensures var pt := MakePairTable(t, '+').value; var ptp := MakePairTable(PartText(t, idx), '+').value;
      && j < |ptp| && i < |ptp[j]| && idx[j] < |pt| && i < |pt[idx[j]]|
      && (ptp[j][i].None? <==> pt[idx[j]][i].None?)
  {
    hide Pieces, Joined, Partners, MakePairTable, PartText, Matching, NonCrossing, Balanced, DotParens,
      CarriedAt, TableOf, Row, LocOf, Offset, PartPos, Pick;
    var P := Pieces(t, '+');
    var Q := Pick(P, idx);
    var p := Joined(Q, '+');
    PartTextIs(t, idx);
    var M := Partners(t).value;
    var Mp := Partners(p).value;
    var x := Offset(Q, j) + i;
    var k := Offset(P, idx[j]) + i;
    PickAt(P, '+', idx);
    PiecesJoined(Q, '+');
    JoinedPieces(t, '+');
    JoinedAt(Q, '+', j);
    EntryAt(p, '+', j, i);
    EntryAt(t, '+', idx[j], i);
    MatchingAt(p, Mp, x);
    MatchingAt(t, M, k);
  }

  /** A paired entry of the part's table is the corresponding entry of the
      complex's table, renumbered. */
  lemma PartEntryPair(t: seq<char>, idx: seq<nat>, j: nat, i: nat)
    requires MakePairTable(t, '+').Ok? && Ascending(Pieces(t, '+'), idx)
    requires MakePairTable(PartText(t, idx), '+').Ok?
    requires j < |idx| && i < |Pieces(t, '+')[idx[j]]|
    requires CarriedAt(t, idx, Offset(Pick(Pieces(t, '+'), idx), j) + i)
    requires j < |MakePairTable(PartText(t, idx), '+').value| && i < |MakePairTable(PartText(t, idx), '+').value[j]|
    requires MakePairTable(PartText(t, idx), '+').value[j][i].Some?
    ensures var pt := MakePairTable(t, '+').value; var ptp := MakePairTable(PartText(t, idx), '+').value;
      && idx[j] < |pt| && i < |pt[idx[j]]|
      && ptp[j][i].value.0 < |idx| && pt[idx[j]][i] == Some((idx[ptp[j][i].value.0], ptp[j][i].value.1))
  {
    hide Pieces, Joined, Partners, MakePairTable, PartText, Matching, NonCrossing, Balanced, DotParens,
      CarriedAt, TableOf, Row, LocOf, Offset, PartPos, Pick;
    var P := Pieces(t, '+');
    var Q := Pick(P, idx);
    var p := Joined(Q, '+');
    PartTextIs(t, idx);
    var M := Partners(t).value;
    var Mp := Partners(p).value;
    var x := Offset(Q, j) + i;
    PickAt(P, '+', idx);
    PiecesJoined(Q, '+');
    JoinedAt(Q, '+', j);
    PartPosAt(P, idx, j, i);
    CarriedAtUnfold(t, idx, x);
    EntryAt(p, '+', j, i);
    MatchingAt(p, Mp, x);
    var y := Mp[x].value;
    MatchingAt(p, Mp, y);
    PartLocImage(P, '+', idx, y);
    JoinedPieces(t, '+');
    EntryAt(t, '+', idx[j], i);
  }

  /** One entry of the part's table is the corresponding entry of the
      complex's table, renumbered. */
  lemma PartEntry(t: seq<char>, idx: seq<nat>, j: nat, i: nat)
    requires MakePairTable(t, '+').Ok? && Ascending(Pieces(t, '+'), idx)
    requires MakePairTable(PartText(t, idx), '+').Ok?
    requires j < |idx| && i < |Pieces(t, '+')[idx[j]]|
    requires CarriedAt(t, idx, Offset(Pick(Pieces(t, '+'), idx), j) + i)
    ensures var pt := MakePairTable(t, '+').value; var ptp := MakePairTable(PartText(t, idx), '+').value;
      && j < |ptp| && i < |ptp[j]| && idx[j] < |pt| && i < |pt[idx[j]]|
      && (ptp[j][i].None? <==> pt[idx[j]][i].None?)
      && (ptp[j][i].Some? ==>
            ptp[j][i].value.0 < |idx| && pt[idx[j]][i] == Some((idx[ptp[j][i].value.0], ptp[j][i].value.1)))
  {
    PartEntryShape(t, idx, j, i);
    if MakePairTable(PartText(t, idx), '+').value[j][i].Some? {
      PartEntryPair(t, idx, j, i);
    }
  }

  /** The strands `idx`, closed under pairing, form a readable structure
      whose positions and pairs are carried into `t`. */
  lemma PartEmbeds(t: seq<char>, idx: seq<nat>)
    requires ClosedPart(t, idx)
    ensures MakePairTable(PartText(t, idx), '+').Ok? && Embeds(t, idx)
  {
    hide Pieces, Joined, Partners, MakePairTable, PartText, Matching, NonCrossing, Balanced, DotParens,
      TableOf, Row, LocOf, Offset, PartPos, Pick;
    var P := Pieces(t, '+');
    var Q := Pick(P, idx);
    var p := Joined(Q, '+');
    PartTextIs(t, idx);
    var M := Partners(t).value;
    MatchingLength(t, M);
    JoinedPieces(t, '+');
    var fs := seq(|p|, x requires 0 <= x < |p| => PartPos(P, idx, x));
    forall x | 0 <= x < |p|
      ensures fs[x] < |t| && p[x] == t[fs[x]]
    {
      PartPosEmbeds(P, '+', idx, x);
    }
    forall x, y | 0 <= x < y < |p|
      ensures fs[x] < fs[y]
    {
      PartPosMonotone(P, '+', idx, x, y);
    }
    forall x | 0 <= x < |p| && IsBracket(p[x])
      ensures M[fs[x]].Some? && M[fs[x]].value in fs
    {
      PartClosedAt(t, idx, x);
      var y :| 0 <= y < |p| && PartPos(P, idx, y) == M[PartPos(P, idx, x)].value;
      assert fs[y] == M[fs[x]].value;
    }
    assert ReadOff(t, M, p, fs);
    SubBalanced(t, M, p, fs);
    DotParensReadOff(t, p, fs);
    MatchingLength(p, Partners(p).value);
    forall x | 0 <= x < |p|
      ensures CarriedAt(t, idx, x)
    {
      MatchingAt(t, M, fs[x]);
      if IsBracket(p[x]) {
        assert fs[Partners(p).value[x].value] == PartPos(P, idx, Partners(p).value[x].value);
      }
    }
  }

  /** The strands `idx`, closed under pairing, form a readable structure:
      each position holds what its image holds, each pair is the image of a
      pair, and the pair table is the complex's restricted to `idx`. */
  lemma PartTable(t: seq<char>, idx: seq<nat>)
    requires ClosedPart(t, idx)
    ensures MakePairTable(PartText(t, idx), '+').Ok? && Embeds(t, idx)
    ensures Restricts(MakePairTable(PartText(t, idx), '+').value, MakePairTable(t, '+').value, idx)
  {
    hide Pieces, Joined, Partners, MakePairTable, PartText, Matching, NonCrossing, Balanced, DotParens,
      CarriedAt, TableOf, Row, LocOf, Offset, PartPos, Pick;
    PartEmbeds(t, idx);
    var P := Pieces(t, '+');
    var Q := Pick(P, idx);
    var p := Joined(Q, '+');
    PartTextIs(t, idx);
    PickAt(P, '+', idx);
    PiecesJoined(Q, '+');
    var pt: PairTable := MakePairTable(t, '+').value;
    var ptp: PairTable := MakePairTable(p, '+').value;
    forall j, i | 0 <= j < |idx| && 0 <= i < |ptp[j]|
      ensures && idx[j] < |pt| && i < |pt[idx[j]]|
              && (ptp[j][i].None? <==> pt[idx[j]][i].None?)
              && (ptp[j][i].Some? ==>
                    ptp[j][i].value.0 < |idx| && pt[idx[j]][i] == Some((idx[ptp[j][i].value.0], ptp[j][i].value.1)))
    {
      JoinedAt(Q, '+', j);
      assert CarriedAt(t, idx, Offset(Q, j) + i);
      PartEntry(t, idx, j, i);
    }
  }

  // ---------------------------------------------------------------------
  // The strands of a part are connected

  /** A marker of a join sits right after the piece its locus names, and a
      later piece follows. */
  lemma MarkerLocus<T>(Q: seq<seq<T>>, b: T, s: nat)
    requires |Q| > 0 && (forall j :: 0 <= j < |Q| ==> b !in Q[j])
    requires s < |Joined(Q, b)| && Joined(Q, b)[s] == b
    ensures var l := LocOf(Q, s); l.0 + 1 < |Q| && l.1 == |Q[l.0]| && Offset(Q, l.0) + |Q[l.0]| == s
  {
    LocOfBound(Q, b, s);
    var l := LocOf(Q, s);
    JoinedAt(Q, b, l.0);
  }

  /** The strands `idx[lo..jb]`, inclusive. */
  ghost function StrandsBetween(idx: seq<nat>, lo: nat, jb: nat): set<nat> {
    set j | lo <= j <= jb && j < |idx| :: idx[j]
  }

  /** The stretch of the part from `sa` to `sb` starts and ends in the
      same loop and covers exactly the strands `idx[lo..jb]`: `sb` is the
      marker after strand `jb`, and `sa` the start of the part or the
      marker before strand `lo`. */
  ghost predicate Stretch(t: seq<char>, idx: seq<nat>, sa: nat, sb: nat, lo: nat, jb: nat) {
    && ClosedPart(t, idx) && lo <= jb < |idx| && sa <= sb
    && MakePairTable(PartText(t, idx), '+').Ok?
    && var Q := Pick(Pieces(t, '+'), idx);
       var p := PartText(t, idx);
       && Offset(Q, jb) + |Q[jb]| == sb <= |p|
       && ((lo == 0 && sa == 0) || (lo > 0 && Offset(Q, lo - 1) + |Q[lo - 1]| == sa))
       && LoopAt(p, Partners(p).value, sa) == LoopAt(p, Partners(p).value, sb)
  }

  /** If the stretch of the part from `sa` to `sb` starts and ends in the
      same loop and covers exactly the strands `idx[lo..jb]`, no pair leaves
      those strands. */
  lemma StretchClosed(t: seq<char>, idx: seq<nat>, sa: nat, sb: nat, lo: nat, jb: nat)
    requires Stretch(t, idx, sa, sb, lo, jb)
    ensures Closed(MakePairTable(t, '+').value, StrandsBetween(idx, lo, jb))
  {
    hide Pieces, Joined, Partners, MakePairTable, PartText, Matching, NonCrossing, Balanced, DotParens,
      CarriedAt, TableOf, Row, LocOf, Offset, PartPos, Pick, LoopAt, Enclosing, StartPos, StartLoops;
    var P := Pieces(t, '+');
    var Q := Pick(P, idx);
    var p := Joined(Q, '+');
    PartTextIs(t, idx);
    PartTable(t, idx);
    PickAt(P, '+', idx);
    PiecesJoined(Q, '+');
    var Mp := Partners(p).value;
    var pt: PairTable := MakePairTable(t, '+').value;
    var ptp: PairTable := MakePairTable(p, '+').value;
    var A := StrandsBetween(idx, lo, jb);
    forall s: nat, i: nat | s in A && s < |pt| && 0 <= i < |pt[s]| && pt[s][i].Some? && pt[s][i].value.0 < |pt|
      ensures pt[s][i].value.0 in A
    {
      var j :| lo <= j <= jb && j < |idx| && idx[j] == s;
      StretchStep(t, idx, sa, sb, lo, jb, j, i);
    }
  }

  /** One pair of one strand of the stretch stays in the stretch. */
  lemma StretchStep(t: seq<char>, idx: seq<nat>, sa: nat, sb: nat, lo: nat, jb: nat, j: nat, i: nat)
    requires Stretch(t, idx, sa, sb, lo, jb) && lo <= j <= jb
    requires var pt := MakePairTable(t, '+').value; i < |pt[idx[j]]| && pt[idx[j]][i].Some?
    ensures var pt := MakePairTable(t, '+').value; pt[idx[j]][i].value.0 in StrandsBetween(idx, lo, jb)
  {
    hide Pieces, Joined, Partners, MakePairTable, PartText, Matching, NonCrossing, Balanced, DotParens,
      CarriedAt, TableOf, Row, LocOf, Offset, PartPos, Pick, LoopAt, Enclosing, StartPos, StartLoops;
    var P := Pieces(t, '+');
    var Q := Pick(P, idx);
    var p := Joined(Q, '+');
    PartTextIs(t, idx);
    PartTable(t, idx);
    PickAt(P, '+', idx);
    PiecesJoined(Q, '+');
    JoinedPieces(t, '+');
    var Mp := Partners(p).value;
    var pt: PairTable := MakePairTable(t, '+').value;
    var ptp: PairTable := MakePairTable(p, '+').value;
    assert Restricts(ptp, pt, idx);
    assert ptp[j][i].Some?;
    var j', i' := ptp[j][i].value.0, ptp[j][i].value.1;
    EntryAt(p, '+', j, i);
    var x := Offset(Q, j) + i;
    MatchingAt(p, Mp, x);
    JoinedAt(Q, '+', j);
    if j < jb {
      OffsetBefore(Q, j, jb);
    }
    if lo > 0 {
      OffsetStep(Q, lo - 1);
    }
    if lo < j {
      OffsetBefore(Q, lo, j);
    }
    SameLoopClosed(p, Mp, sa, sb, x);
    var y := Mp[x].value;
    MatchingAt(p, Mp, y);
    LocOfInPiece(Q, '+', y);
    if j' > jb {
      OffsetBefore(Q, jb, j');
    }
    if j' + 1 < lo {
      OffsetBefore(Q, j', lo - 1);
    }
    assert lo <= j' <= jb;
  }

  /** `idx` lists, in increasing order, the strands of one component of a
      readable structure `t`: those its first strand reaches by pairs. */
  ghost predicate Component(t: seq<char>, idx: seq<nat>) {
    && ClosedPart(t, idx)
    && var pt := MakePairTable(t, '+').value;
       && idx[0] < |pt|
       && forall x :: x in idx <==> x in Closure(pt, {idx[0]})
  }

  /** No two strands of a component's part start in the same loop: the
      stretch between them would be a set of strands that no pair leaves,
      cut off from the rest. */
  lemma StartsApart(t: seq<char>, idx: seq<nat>, a: nat, b: nat)
    requires Component(t, idx)
    requires var p := PartText(t, idx); Partners(p).Ok? && a < b < |StartPos(p, '+', |p|)|
    ensures var p := PartText(t, idx); var SP := StartPos(p, '+', |p|);
      LoopAt(p, Partners(p).value, SP[a]) != LoopAt(p, Partners(p).value, SP[b])
  {
    hide Pieces, Joined, Partners, MakePairTable, PartText, Matching, NonCrossing, Balanced, DotParens,
      CarriedAt, TableOf, Row, LocOf, Offset, PartPos, Pick, LoopAt, Enclosing, StartPos, StartLoops,
      Closure, Split.Step, Closed, Range;
    var P := Pieces(t, '+');
    var Q := Pick(P, idx);
    var p := Joined(Q, '+');
    PartTextIs(t, idx);
    var Mp := Partners(p).value;
    var SP := StartPos(p, '+', |p|);
    if LoopAt(p, Mp, SP[a]) == LoopAt(p, Mp, SP[b]) {
      PartTable(t, idx);
      PickAt(P, '+', idx);
      var pt: PairTable := MakePairTable(t, '+').value;
      var sb := SP[b];
      MarkerLocus(Q, '+', sb);
      var jb := LocOf(Q, sb).0;
      if a == 0 {
        assert Stretch(t, idx, 0, sb, 0, jb);
        StretchClosed(t, idx, 0, sb, 0, jb);
        var A := StrandsBetween(idx, 0, jb);
        assert idx[jb + 1] in Closure(pt, {idx[0]}) && idx[jb + 1] !in A;
        ClosureLeast(pt, {idx[0]}, A);
        assert false;
      } else {
        var sa := SP[a];
        MarkerLocus(Q, '+', sa);
        var la := LocOf(Q, sa).0;
        if la >= jb {
          if la > jb {
            OffsetBefore(Q, jb, la);
          }
          assert false;
        }
        var lo := la + 1;
        assert Stretch(t, idx, sa, sb, lo, jb);
        StretchClosed(t, idx, sa, sb, lo, jb);
        var A := StrandsBetween(idx, lo, jb);
        assert idx[lo] in A && idx[lo] in Closure(pt, {idx[0]}) && idx[0] !in A;
        PairTableIsMutual(t);
        ComplementClosed(pt, A);
        ClosureLeast(pt, {idx[0]}, Range(|pt|) - A);
        assert false;
      }
    }
  }

  /** The part made of a component's strands is connected. */
  lemma PartConnected(t: seq<char>, idx: seq<nat>)
    requires Component(t, idx)
    ensures MakePairTable(PartText(t, idx), '+').Ok? && IsConnected(PartText(t, idx), '+') == Ok(true)
  {
    hide Pieces, Joined, Partners, MakePairTable, PartText, Matching, NonCrossing, Balanced, DotParens,
      CarriedAt, TableOf, Row, LocOf, Offset, PartPos, Pick, LoopAt, Enclosing, StartPos, StartLoops,
      Closure, Split.Step, Closed, Range, Stretch, IsConnected;
    PartTable(t, idx);
    var p := PartText(t, idx);
    IsConnectedSpec(p, '+');
    var Mp := Partners(p).value;
    StartLoopsAt(p, Mp, '+', |p|);
    var S := StartLoops(p, Mp, '+', |p|);
    forall a, b | 0 <= a < b < |S|
      ensures S[a] != S[b]
    {
      StartsApart(t, idx, a, b);
    }
  }

  /** Every part `split_complex` returns is a complex in its own right: its
      structure is readable and connected, and its pair table is the
      complex's restricted to the strands of its component. */
  lemma PartsAreComplexes(c: Rotation.Strands)
    requires SplitComplex(c).Ok?
    ensures var parts := SplitComplex(c).value;
      var pt := MakePairTable(c.structure, '+').value;
      var ms := ComponentMembers(pt);
      forall k :: 0 <= k < |parts| ==>
        && MakePairTable(parts[k].structure, '+').Ok?
        && IsConnected(parts[k].structure, '+') == Ok(true)
        && Restricts(MakePairTable(parts[k].structure, '+').value, pt, ms[k])
  {
    hide Pieces, Joined, Partners, MakePairTable, PartText, Matching, NonCrossing, Balanced, DotParens,
      CarriedAt, TableOf, Row, LocOf, Offset, PartPos, Pick, LoopAt, Enclosing, StartPos, StartLoops,
      Closure, Split.Step, Closed, Range, Stretch, IsConnected, Restricts, ComponentMembers, Flatten, Iota;
    var t := c.structure;
    var pt: PairTable := MakePairTable(t, '+').value;
    PairTableIsMutual(t);
    ComponentsPartition(pt);
    var ms := ComponentMembers(pt);
    var parts := SplitComplex(c).value;
    forall k | 0 <= k < |parts|
      ensures && MakePairTable(parts[k].structure, '+').Ok?
              && IsConnected(parts[k].structure, '+') == Ok(true)
              && Restricts(MakePairTable(parts[k].structure, '+').value, pt, ms[k])
    {
      assert Component(t, ms[k]);
      PartTextIs(t, ms[k]);
      assert parts[k].structure == PartText(t, ms[k]);
      PartConnected(t, ms[k]);
      PartTable(t, ms[k]);
    }
  }
}

=== FILE: protocomplex.dfy ===
/** The prototype `Complex` constructor: the base constructor with the
    default prefix `e`, one retry under a fallback prefix when the base
    constructor fails, and the pairing sanity check on the result. Two
    versions: the constructor as written, and the corrected one the rest of
    the model uses. */
module ProtoComplexes {
  import opened Results
  import opened Names
  import opened Rotation
  import opened Canonical
  import opened Complexes
  import opened ComplexViews
  import opened Brackets
  import opened Layout
  import opened PairTables
  import Domains

  /** `Complex.PREFIX`. */
  const ProtoPrefix: string := "e"

  /** The prefix of the retry: `enum`, or `proto` when `enum` already
      failed. */
  function Backup(prefix: string): (b: string)
    ensures b != prefix
  {
    if prefix != "enum" then "enum" else "proto"
  }

  /** The prefix of the first attempt: an empty prefix means the default. */
  function FirstPrefix(prefix: string): string {
    if prefix == "" then ProtoPrefix else prefix
  }

  /** The errors the retry catches: every failure of the base constructor
      except the key error of a name whose complex is gone. A duplication is
      not such an error, so it is never retried. */
  predicate Retried(made: Made<Entry>) {
    made.Failed? && made.failure != MissingReferent
  }

  /** `Complex.__init__` as written: the sanity check runs after the base
      constructor has registered the complex, and a duplication, including a
      taken automatic name, comes back as the complex registered under it.
      A retry that succeeds goes on to log a warning through `logging`,
      which the module never imports, so it ends in a `NameError` with the
      complex already registered. The domain registry comes back as the
      sanity check leaves it. */
  function ProtoComplexAsWritten(reg: ComplexMemory, dmem: Domains.DomainMemory, sequence: seq<string>,
                                 structure: seq<char>, name: string, prefix: string, memorycheck: bool)
    : (out: (ComplexMemory, Made<Entry>, Domains.DomainMemory))
    ensures out.1.Created? ==> DomainLevelComplement(dmem, out.1.value.strands) == Ok(true)
    ensures out.1.Created? ==> !Retried(NewComplex(reg, sequence, structure, name, FirstPrefix(prefix), memorycheck).1)
    ensures !out.1.Failed? ==> out.2 == dmem
  {
    var p := FirstPrefix(prefix);
    var (reg1, made) := NewComplex(reg, sequence, structure, name, p, memorycheck);
    var (reg2, made2) :=
      if Retried(made) then NewComplex(reg1, sequence, structure, name, Backup(p), memorycheck)
      else (reg1, made);
    if Retried(made) && made2.Created? then (reg2, Failed(Undefined), dmem)
    else match made2
    case Created(e) =>
      (match DomainLevelComplement(dmem, e.strands)
       case Err(f) => (reg2, Failed(f), CheckedDomains(dmem, e.strands))
       case Ok(_) => (reg2, made2, dmem))
    case _ => (reg2, made2, dmem)
  }

  /** As written, a complex that fails the sanity check stays registered:
      the caller gets the error, while its name and canonical key now lead
      to the rejected complex. */
  lemma AsWrittenKeepsRejected(reg: ComplexMemory, dmem: Domains.DomainMemory, sequence: seq<string>,
                               structure: seq<char>, name: string, prefix: string, memorycheck: bool)
    requires var made := NewComplex(reg, sequence, structure, name, FirstPrefix(prefix), memorycheck).1;
      made.Created? && DomainLevelComplement(dmem, made.value.strands).Err?
    ensures var e := NewComplex(reg, sequence, structure, name, FirstPrefix(prefix), memorycheck).1.value;
      var out := ProtoComplexAsWritten(reg, dmem, sequence, structure, name, prefix, memorycheck);
      && out.1.Failed?
      && e.name !in reg.names
      && out.0.names[e.name] == e.canon.key && out.0.memory[e.canon.key] == e
  {
  }

  /** An input that shows it: with `a` and `b` registered, the hairpin
      `a( b )` is rejected, since `b`'s complement is not `a`, yet `e0` is
      now a registered name. */
  lemma AsWrittenRejectedHairpin()
    ensures var out := ProtoComplexAsWritten(ComplexMemory(map[], map[], 0), AbDomains(), ["a", "b"], "()", "", "", true);
      out.1.Failed? && "e0" in out.0.names
  {
    var c := Strands(["a", "b"], "()");
    var reg := ComplexMemory(map[], map[], 0);
    assert AutoName(ProtoPrefix, 0) == "e0" by {
      assert NatString(0) == "0";
    }
    HairpinCanonical();
    var made := NewComplex(reg, c.sequence, c.structure, "", ProtoPrefix, true).1;
    assert made.Created?;
    HairpinRejected(AbDomains(), made.value.strands);
    AsWrittenKeepsRejected(reg, AbDomains(), c.sequence, c.structure, "", "", true);
  }

  /** The same input shows what the sanity check leaves in the domain
      registry: `b` has no registered complement, so `~b` registers `b*`, a
      short domain of length 5, before the comparison with `a` fails; the
      written and the corrected constructor alike hand that registry back. */
  lemma RejectedHairpinRegistersComplement()
    ensures var out := ProtoComplexAsWritten(ComplexMemory(map[], map[], 0), AbDomains(), ["a", "b"], "()", "", "", true);
      out.1.Failed? && out.2 == AbDomains()["b*" := Domains.Domain("b*", Domains.Short, 5)]
    ensures var out := ProtoComplex(ComplexMemory(map[], map[], 0), AbDomains(), ["a", "b"], "()", "", "", true);
      out.1.Failed? && out.2 == AbDomains()["b*" := Domains.Domain("b*", Domains.Short, 5)]
  {
    var c := Strands(["a", "b"], "()");
    var reg := ComplexMemory(map[], map[], 0);
    HairpinCanonical();
    var made := NewComplex(reg, c.sequence, c.structure, "", ProtoPrefix, true).1;
    assert made.Created?;
    HairpinRejected(AbDomains(), made.value.strands);
    HairpinCheckedDomains();
  }

  /** The first locus of the hairpin pairs with the second. */
  lemma HairpinFirstLocus()
    ensures var pt := MakePairTable("()", '+');
      pt.Ok? && |pt.value| == 1 && |pt.value[0]| == 2 && pt.value[0][0] == Some((0, 1))
  {
    var t: seq<char> := "()";
    var M: seq<Option<nat>> := [Some(1), Some(0)];
    HairpinWellFormed();
    assert Matching(t, M);
    assert NonCrossing(M);
    PartnersUnique(t, M);
    assert Pieces(t, '+') == [t];
    assert DotParens(t, '+');
    EntryAt(t, '+', 0, 0);
  }

  /** The check on the hairpin stops at its first locus and registers `b*`. */
  lemma HairpinCheckedDomains()
    ensures CheckedDomains(AbDomains(), Strands(["a", "b"], "()"))
         == AbDomains()["b*" := Domains.Domain("b*", Domains.Short, 5)]
  {
    hide MakePairTable, Partners, Joined, TableOf, Row, Matching, NonCrossing, CheckRows;
    var c := Strands(["a", "b"], "()");
    HairpinFirstLocus();
    var pt := MakePairTable("()", '+').value;
    assert Break !in c.sequence;
    assert StrandsOf(c) == [["a", "b"]];
    assert GetDomain(c, (0, 0)) == Ok("a") && GetDomain(c, (0, 1)) == Ok("b");
    assert Domains.Toggle("b") == "b*";
    assert CheckLocus(AbDomains(), c, (0, 0), pt[0][0]).Err?;
    assert RowsDomains(AbDomains(), c, pt, 0) == RowDomains(AbDomains(), c, pt, 0, 0);
  }

  /** The registry of the example: the short domains `a` and `b`. */
  function AbDomains(): (mem: Domains.DomainMemory)
    ensures Domains.Coherent(mem)
  {
    map["a" := Domains.Domain("a", Domains.Short, 5), "b" := Domains.Domain("b", Domains.Short, 5)]
  }

  /** The hairpin has one strand, so its only rotation is itself. */
  lemma HairpinCanonical()
    ensures var c := Strands(["a", "b"], "()");
      && StrandCount(c) == 1 && RotateOnce(c) == Ok(c)
      && CanonicalForm(c).Ok? && Variants(c, 1) == Ok([KeyOf(c)])
  {
    var c := Strands(["a", "b"], "()");
    assert Break !in c.sequence;
    assert multiset(c.sequence)[Break] == 0;
    assert RotateOnce(c) == Ok(c);
    assert Variants(c, 0) == Ok([]);
    assert Variants(c, 1) == Ok([KeyOf(c)] + []);
    assert [KeyOf(c)] + [] == [KeyOf(c)];
  }

  lemma HairpinWellFormed()
    ensures WellFormed(Strands(["a", "b"], "()"))
  {
    var t: seq<char> := "()";
    assert t[..0] == [] && t[..1] == ['('] && t[..2] == t;
    assert Depth(t[..1]) == 1;
    assert Depth(t) == 0 by {
      assert t[..|t| - 1] == t[..1];
    }
    assert forall k :: 0 <= k <= |t| ==> Depth(t[..k]) >= 0 by {
      forall k | 0 <= k <= |t|
        ensures Depth(t[..k]) >= 0
      {
        if k == 0 {
        } else if k == 1 {
        } else {
          assert t[..k] == t;
        }
      }
    }
  }

  /** Whatever the registry, `a` and `b` do not pair, so the hairpin fails
      the sanity check. */
  lemma HairpinRejected(dmem: Domains.DomainMemory, c: Strands)
    requires c == Strands(["a", "b"], "()")
    ensures DomainLevelComplement(dmem, c).Err?
  {
    hide DomainLevelComplement, Partners, WellFormed;
    var M: seq<Option<nat>> := [Some(1), Some(0)];
    HairpinWellFormed();
    DomainLevelComplementFlat(dmem, c);
    assert Matching(c.structure, M);
    assert NonCrossing(M);
    PartnersUnique(c.structure, M);
    assert !Complementary(dmem, c.sequence[0], c.sequence[1]);
  }

  /** As written, an automatic name that a complex already holds makes the
      constructor return that complex, whatever sequence and structure were
      asked for: the taken name is a duplication, which the retry does not
      catch. */
  lemma AsWrittenNameClash(reg: ComplexMemory, dmem: Domains.DomainMemory, sequence: seq<string>,
                           structure: seq<char>, memorycheck: bool)
    requires AutoName(ProtoPrefix, reg.id) in reg.names && reg.names[AutoName(ProtoPrefix, reg.id)] in reg.memory
    ensures ProtoComplexAsWritten(reg, dmem, sequence, structure, "", "", memorycheck)
         == (reg.(id := reg.id + 1), Existing(reg.memory[reg.names[AutoName(ProtoPrefix, reg.id)]]), dmem)
  {
  }

  // ---------------------------------------------------------------------
  // The corrected constructor

  /** The automatic name of the next complex is already taken. */
  predicate AutoNameTaken(reg: ComplexMemory, prefix: string) {
    ComplexName("", prefix, reg.id).Ok? && ComplexName("", prefix, reg.id).value.0 in reg.names
  }

  /** One attempt of the corrected constructor: an automatic name that some
      other complex holds is a failure to retry, not that other complex. */
  function Attempt(reg: ComplexMemory, sequence: seq<string>, structure: seq<char>,
                   name: string, prefix: string, memorycheck: bool): (out: (ComplexMemory, Made<Entry>))
    ensures !out.1.Created? ==> out.0.memory == reg.memory && out.0.names == reg.names
  {
    var (reg1, made) := NewComplex(reg, sequence, structure, name, prefix, memorycheck);
    if made.Existing? && name == "" && AutoNameTaken(reg, prefix) then (reg1, Failed(Duplication))
    else (reg1, made)
  }

  /** `Complex.__init__` corrected: a taken automatic name falls back to the
      other prefix, as the constructor's own warning describes, and a
      complex failing the sanity check is taken out of the registry again
      before the error is reported. */
  function ProtoComplex(reg: ComplexMemory, dmem: Domains.DomainMemory, sequence: seq<string>,
                        structure: seq<char>, name: string, prefix: string, memorycheck: bool)
    : (out: (ComplexMemory, Made<Entry>, Domains.DomainMemory))
    ensures out.1.Created? ==> DomainLevelComplement(dmem, out.1.value.strands) == Ok(true)
    ensures !out.1.Failed? ==> out.2 == dmem
  {
    var p := FirstPrefix(prefix);
    var (reg1, made) := Attempt(reg, sequence, structure, name, p, memorycheck);
    var (reg2, made2) :=
      if Retried(made) then Attempt(reg1, sequence, structure, name, Backup(p), memorycheck)
      else (reg1, made);
    match made2
    case Created(e) =>
      (match DomainLevelComplement(dmem, e.strands)
       case Err(f) => (reg2.(memory := reg.memory, names := reg.names), Failed(f), CheckedDomains(dmem, e.strands))
       case Ok(_) => (reg2, made2, dmem))
    case _ => (reg2, made2, dmem)
  }

  /** A constructor that does not create leaves both maps as they were; one
      that creates adds exactly the new complex, under its canonical key and
      its name, and the complex passes the sanity check. */
  lemma ProtoComplexAtomic(reg: ComplexMemory, dmem: Domains.DomainMemory, sequence: seq<string>,
                           structure: seq<char>, name: string, prefix: string, memorycheck: bool)
    ensures var out := ProtoComplex(reg, dmem, sequence, structure, name, prefix, memorycheck);
      && (!out.1.Created? ==> out.0.memory == reg.memory && out.0.names == reg.names)
      && (out.1.Created? ==>
            var e := out.1.value;
            && DomainLevelComplement(dmem, e.strands) == Ok(true)
            && CanonicalForm(Strands(sequence, structure)) == Ok(e.canon)
            && e.name !in reg.names
            && out.0.memory == reg.memory[e.canon.key := e]
            && out.0.names == reg.names[e.name := e.canon.key])
  {
    hide NewComplex, DomainLevelComplement, CanonicalForm, CheckedDomains;
    var p := FirstPrefix(prefix);
    var (reg1, made) := Attempt(reg, sequence, structure, name, p, memorycheck);
    if Retried(made) {
      var (reg2, made2) := Attempt(reg1, sequence, structure, name, Backup(p), memorycheck);
      assert NewComplex(reg1, sequence, structure, name, Backup(p), memorycheck).1 == made2 || !made2.Created?;
    } else {
      assert NewComplex(reg, sequence, structure, name, p, memorycheck).1 == made || !made.Created?;
    }
  }

  /** With an automatic name and the memory check on, a complex the
      corrected constructor hands back as already existing is the asked-for
      complex up to rotation: it is registered under the key of one of that
      complex's rotations. */
  lemma ProtoExistingIsRotation(reg: ComplexMemory, dmem: Domains.DomainMemory, sequence: seq<string>,
                                structure: seq<char>, prefix: string)
    requires ProtoComplex(reg, dmem, sequence, structure, "", prefix, true).1.Existing?
    ensures var x := ProtoComplex(reg, dmem, sequence, structure, "", prefix, true).1.value;
      var c := Strands(sequence, structure);
      && |sequence| == |structure|
      && exists i :: 1 <= i <= StrandCount(c) && RotateTimes(c, i).Ok?
                     && KeyOf(RotateTimes(c, i).value) in reg.memory
                     && x == reg.memory[KeyOf(RotateTimes(c, i).value)]
  {
    hide NewComplex, DomainLevelComplement, CheckedDomains;
    var p := FirstPrefix(prefix);
    var (reg1, made) := Attempt(reg, sequence, structure, "", p, true);
    if Retried(made) {
      NewComplexExisting(reg1, sequence, structure, "", Backup(p), true);
    } else {
      NewComplexExisting(reg, sequence, structure, "", p, true);
    }
  }

  /** As written, a prefix ending in a digit fails the first attempt and
      retries with `enum`; a duplication found there comes back, but a
      complex created there stays registered while the constructor ends in
      the `NameError` of the unimported `logging`. */
  lemma DigitPrefixFallsBack(reg: ComplexMemory, dmem: Domains.DomainMemory, sequence: seq<string>,
                             structure: seq<char>, prefix: string, memorycheck: bool)
    requires prefix != "" && IsDigit(prefix[|prefix| - 1])
    ensures var (reg', made) := NewComplex(reg, sequence, structure, "", "enum", memorycheck);
      var out := ProtoComplexAsWritten(reg, dmem, sequence, structure, "", prefix, memorycheck);
      && out.0.id == reg'.id
      && (made.Existing? ==> out.1 == made)
      && (made.Created? ==> out == (reg', Failed(Undefined), dmem) && out.0.names[made.value.name] == made.value.canon.key)
  {
  }

  /** An input that shows it: the prefix `x1` and the single unpaired
      domain `a` on an empty registry leave `enum0` registered, and the
      caller gets an error instead of the complex. */
  lemma AsWrittenRetryCrashes()
    ensures var out := ProtoComplexAsWritten(ComplexMemory(map[], map[], 0), AbDomains(), ["a"], ".", "", "x1", true);
      out.1 == Failed(Undefined) && "enum0" in out.0.names
  {
    var c := Strands(["a"], ".");
    var reg := ComplexMemory(map[], map[], 0);
    assert AutoName("enum", 0) == "enum0" by {
      assert NatString(0) == "0";
    }
    assert Break !in c.sequence;
    assert multiset(c.sequence)[Break] == 0;
    assert RotateOnce(c) == Ok(c);
    assert Variants(c, 0) == Ok([]);
    assert Variants(c, 1) == Ok([KeyOf(c)] + []);
    assert NewComplex(reg, c.sequence, c.structure, "", "enum", true).1.Created?;
    DigitPrefixFallsBack(reg, AbDomains(), c.sequence, c.structure, "x1", true);
  }

  /** Corrected: a prefix ending in a digit falls back to `enum`, and the
      complex made there under the counter's next number is what the caller
      gets once it passes the sanity check. */
  lemma ProtoDigitPrefixFallsBack(reg: ComplexMemory, dmem: Domains.DomainMemory, sequence: seq<string>,
                                  structure: seq<char>, prefix: string, memorycheck: bool)
    requires prefix != "" && IsDigit(prefix[|prefix| - 1])
    ensures var (reg', made) := NewComplex(reg, sequence, structure, "", "enum", memorycheck);
      && (made.Created? ==> made.value.name == AutoName("enum", reg.id))
      && (made.Created? && DomainLevelComplement(dmem, made.value.strands).Ok? ==>
            ProtoComplex(reg, dmem, sequence, structure, "", prefix, memorycheck) == (reg', made, dmem))
  {
    hide NewComplex, DomainLevelComplement, CanonicalForm, CheckedDomains;
    var first := NewComplex(reg, sequence, structure, "", prefix, memorycheck);
    assert first == (reg, Failed(Configuration));
    assert Backup(prefix) == "enum";
  }
}

=== FILE: protosplit.dfy ===
/** The prototype `Complex.split`: a connected complex is its own split;
    otherwise every component becomes a complex of its own, made with the
    prototype constructor (a complex that already exists is reused), and the
    list comes back sorted by canonical form. As with the constructor, two
    versions: the method as written and the corrected one. */
module ProtoSplits {
  import opened Results
  import opened Order
  import opened Names
  import opened Rotation
  import opened Canonical
  import opened Complexes
  import opened Loops
  import opened Split
  import opened ProtoComplexes
  import Domains

  // ---------------------------------------------------------------------
  // Sorting by canonical form

  /** `Complex.__cmp__`: complexes compare by canonical form. */
  predicate CanonLess(a: Entry, b: Entry) {
    KeyLess(a.canon.key, b.canon.key)
  }

  lemma CanonLessOrder()
    ensures StrictOrder(CanonLess)
  {
    KeyLessOrder();
  }

  // ---------------------------------------------------------------------
  // The split

  /** One part made into a complex by the constructor, as written or
      corrected, with an automatic name and the memory check on. */
  function MakePart(fixed: bool, reg: ComplexMemory, dmem: Domains.DomainMemory, p: Strands)
    : (out: (ComplexMemory, Made<Entry>, Domains.DomainMemory))
  {
    if fixed then ProtoComplex(reg, dmem, p.sequence, p.structure, "", "", true)
    else ProtoComplexAsWritten(reg, dmem, p.sequence, p.structure, "", "", true)
  }

  /** The loop of `split` over the parts: a created or already existing
      complex joins the list; any other failure ends the split with that
      failure, the registries keeping what the earlier parts added. */
  function MakeParts(fixed: bool, reg: ComplexMemory, dmem: Domains.DomainMemory, parts: seq<Strands>)
    : (out: (ComplexMemory, Result<seq<Entry>>, Domains.DomainMemory))
    ensures out.1.Ok? ==> |out.1.value| == |parts| && out.2 == dmem
    decreases |parts|
  {
    if |parts| == 0 then (reg, Ok([]), dmem)
    else
      var (reg1, made, dmem1) := MakePart(fixed, reg, dmem, parts[0]);
      match made
      case Failed(f) => (reg1, Err(f), dmem1)
      case _ =>
        var (reg2, rest, dmem2) := MakeParts(fixed, reg1, dmem1, parts[1..]);
        (reg2, if rest.Err? then rest else Ok([made.value] + rest.value), dmem2)
  }

  /** `Complex.split` on the registered complex `self`; `fixed` selects the
      corrected constructor. An unreadable structure is an error. */
  function ProtoSplit(fixed: bool, reg: ComplexMemory, dmem: Domains.DomainMemory, self: Entry)
    : (out: (ComplexMemory, Result<seq<Entry>>, Domains.DomainMemory))
    ensures IsConnected(self.strands.structure, '+').Err? ==> out.0 == reg && out.1.Err? && out.2 == dmem
    ensures IsConnected(self.strands.structure, '+') == Ok(true) ==> out == (reg, Ok([self]), dmem)
    ensures out.1.Ok? ==> out.2 == dmem
    ensures IsConnected(self.strands.structure, '+') == Ok(false) && out.1.Ok? ==>
      SplitComplex(self.strands).Ok? && |out.1.value| == |SplitComplex(self.strands).value|
  {
    match IsConnected(self.strands.structure, '+')
    case Err(f) => (reg, Err(f), dmem)
    case Ok(true) => (reg, Ok([self]), dmem)
    case Ok(false) =>
      match SplitComplex(self.strands)
      case Err(f) => (reg, Err(f), dmem)
      case Ok(parts) =>
        var (reg', r, dmem') := MakeParts(fixed, reg, dmem, parts);
        (reg', if r.Err? then r else Ok(SortBy(r.value, CanonLess)), dmem')
  }

  // ---------------------------------------------------------------------
  // What a split returns

  /** The complex `e` is the part `p` up to rotation: its canonical key is
      the key of one of the rotations of `p`. */
  ghost predicate Represents(e: Entry, p: Strands) {
    && |p.sequence| == |p.structure|
    && exists i :: 1 <= i <= StrandCount(p) && RotateTimes(p, i).Ok? && KeyOf(RotateTimes(p, i).value) == e.canon.key
  }

  /** Every complex is registered under its own canonical key. */
  ghost predicate KeysMatch(reg: ComplexMemory) {
    forall k :: k in reg.memory ==> reg.memory[k].canon.key == k
  }

  /** The enumeration of rotations lists the keys of rotations 1 .. k,
      whatever the representation. */
  lemma {:induction false} VariantsKeys(c: Strands, k: nat)
    requires |c.sequence| == |c.structure| && Variants(c, k).Ok?
    ensures forall e :: 1 <= e <= k ==>
      RotateTimes(c, e).Ok? && Variants(c, k).value[e - 1] == KeyOf(RotateTimes(c, e).value)
    decreases k
  {
    hide RotateOnce, KeyOf;
    if k > 0 {
      var d := RotateOnce(c).value;
      VariantsKeys(d, k - 1);
      var ks := Variants(d, k - 1).value;
      assert Variants(c, k) == Ok([KeyOf(d)] + ks);
      forall e | 1 <= e <= k
        ensures RotateTimes(c, e).Ok? && Variants(c, k).value[e - 1] == KeyOf(RotateTimes(c, e).value)
      {
        assert RotateTimes(c, e) == RotateTimes(d, e - 1);
        if e > 1 {
          assert ks[e - 2] == KeyOf(RotateTimes(d, e - 1).value);
        }
      }
    }
  }

  /** A complex represents itself through its canonical key. */
  lemma CanonicalRepresents(c: Strands, e: Entry)
    requires |c.sequence| == |c.structure| && CanonicalForm(c) == Ok(e.canon)
    ensures Represents(e, c)
  {
    var n := StrandCount(c);
    var ks := Variants(c, n).value;
    VariantsKeys(c, n);
    var j :| 0 <= j < |ks| && ks[j] == e.canon.key;
    assert RotateTimes(c, j + 1).Ok? && KeyOf(RotateTimes(c, j + 1).value) == e.canon.key;
  }

  /** The corrected constructor, on a registry whose complexes sit under
      their own keys, keeps it so, and a complex it returns is the asked-for
      part up to rotation. */
  lemma MakePartRepresents(reg: ComplexMemory, dmem: Domains.DomainMemory, p: Strands)
    requires KeysMatch(reg)
    ensures var (reg', made, _) := MakePart(true, reg, dmem, p);
      && KeysMatch(reg')
      && (!made.Failed? ==> Represents(made.value, p))
  {
    var (reg', made, _) := MakePart(true, reg, dmem, p);
    ProtoComplexAtomic(reg, dmem, p.sequence, p.structure, "", "", true);
    if made.Created? {
      CanonicalRepresents(p, made.value);
    } else if made.Existing? {
      ProtoExistingIsRotation(reg, dmem, p.sequence, p.structure, "");
    }
  }

  /** With the corrected constructor, the loop returns one complex per part,
      each the part up to rotation. */
  lemma {:induction false} MakePartsRepresent(reg: ComplexMemory, dmem: Domains.DomainMemory, parts: seq<Strands>)
    requires KeysMatch(reg)
    ensures var (reg', r, _) := MakeParts(true, reg, dmem, parts);
      && KeysMatch(reg')
      && (r.Ok? ==> forall k :: 0 <= k < |parts| ==> Represents(r.value[k], parts[k]))
    decreases |parts|
  {
    hide MakePart, Represents;
    if |parts| > 0 {
      MakePartRepresents(reg, dmem, parts[0]);
      var (reg1, made, dmem1) := MakePart(true, reg, dmem, parts[0]);
      if !made.Failed? {
        MakePartsRepresent(reg1, dmem1, parts[1..]);
        var (reg2, rest, _) := MakeParts(true, reg1, dmem1, parts[1..]);
        if rest.Ok? {
          var r := [made.value] + rest.value;
          forall k | 0 <= k < |parts|
            ensures Represents(r[k], parts[k])
          {
            if k > 0 {
              assert r[k] == rest.value[k - 1] && parts[k] == parts[1..][k - 1];
            }
          }
        }
      }
    }
  }

  /** The corrected split: a connected complex comes back alone and the
      registry untouched; otherwise one complex per component, sorted by
      canonical form, and every complex returned is one of the components up
      to rotation, each component accounted for once. */
  lemma ProtoSplitSpec(reg: ComplexMemory, dmem: Domains.DomainMemory, self: Entry)
    requires KeysMatch(reg)
    ensures var (reg', r, _) := ProtoSplit(true, reg, dmem, self);
      && KeysMatch(reg')
      && (IsConnected(self.strands.structure, '+') == Ok(true) ==> reg' == reg && r == Ok([self]))
      && (IsConnected(self.strands.structure, '+') == Ok(false) && r.Ok? ==>
            && SplitComplex(self.strands).Ok?
            && var parts := SplitComplex(self.strands).value;
               && SortedBy(r.value, CanonLess)
               && exists es: seq<Entry> :: |es| == |parts| && multiset(es) == multiset(r.value)
                               && forall k :: 0 <= k < |parts| ==> Represents(es[k], parts[k]))
  {
    hide MakeParts, Represents, SortBy, SplitComplex;
    if IsConnected(self.strands.structure, '+') == Ok(false) && SplitComplex(self.strands).Ok? {
      var parts := SplitComplex(self.strands).value;
      MakePartsRepresent(reg, dmem, parts);
      var (reg', r, _) := MakeParts(true, reg, dmem, parts);
      if r.Ok? {
        CanonLessOrder();
        SortBySpec(r.value, CanonLess);
      }
    }
  }

  /** As written, a taken automatic name hands the first part the complex
      that holds the name, and that complex, whatever it is, is in the
      split's result if the remaining parts go through. */
  lemma AsWrittenSplitTakesNamed(reg: ComplexMemory, dmem: Domains.DomainMemory, self: Entry)
    requires IsConnected(self.strands.structure, '+') == Ok(false) && SplitComplex(self.strands).Ok?
    requires |SplitComplex(self.strands).value| > 0
    requires AutoName(ProtoPrefix, reg.id) in reg.names && reg.names[AutoName(ProtoPrefix, reg.id)] in reg.memory
    ensures var (_, r, _) := ProtoSplit(false, reg, dmem, self);
      r.Ok? ==> reg.memory[reg.names[AutoName(ProtoPrefix, reg.id)]] in r.value
  {
    hide SortBy, SplitComplex, ProtoComplexAsWritten;
    var parts := SplitComplex(self.strands).value;
    var x := reg.memory[reg.names[AutoName(ProtoPrefix, reg.id)]];
    AsWrittenNameClash(reg, dmem, parts[0].sequence, parts[0].structure, true);
    var (reg', r, _) := MakeParts(false, reg, dmem, parts);
    if r.Ok? {
      assert r.value[0] == x;
      assert x in multiset(r.value);
      assert x in multiset(SortBy(r.value, CanonLess));
    }
  }
}

=== FILE: reactions.dfy ===
/** `DSD_Reaction` and the prototype `Reaction`: a reaction is identified by
    its sorted reactant and product names together with its type, so neither
    the order of the species nor the rate matters; the registry keeps one
    reaction per identity. The prototype also refuses types outside a fixed
    set, taking back the registration it has just made. */
module Reactions {
  import opened Results
  import opened Order
  import opened Canonical

  /** A reaction over species names; the rate is exact here. */
  datatype Reaction = Reaction(reactants: seq<string>, products: seq<string>, rtype: Option<string>, rate: Option<real>)

  /** `canonical_form`: the sorted string and the type. */
  type Form = (string, Option<string>)

  /** One side of `sorted`: the names in order, joined by `" + "`. */
  function Side(names: seq<string>): string {
    JoinWith(" + ", SortBy(names, StrLess))
  }

  /** `sorted`: both sides, joined by `" -> "`. */
  function SortedString(x: Reaction): string {
    Side(x.reactants) + " -> " + Side(x.products)
  }

  function FormOf(x: Reaction): Form {
    (SortedString(x), x.rtype)
  }

  /** `__eq__`: two reactions are equal when their canonical forms are. */
  predicate Same(x: Reaction, y: Reaction) {
    FormOf(x) == FormOf(y)
  }

  /** `arity`: the numbers of reactants and of products. */
  function Arity(x: Reaction): (nat, nat) {
    (|x.reactants|, |x.products|)
  }

  /** Python's `s * n`: `n` copies of `s`, none when `n` is not positive. */
  function Repeat(s: string, n: int): string
    decreases n
  {
    if n <= 0 then "" else s + Repeat(s, n - 1)
  }

  /** `rateunits`: one `/M` per reactant beyond the first, then `/s`. */
  function RateUnits(x: Reaction): string {
    Repeat("/M", Arity(x).0 - 1) + "/s"
  }

  /** `DSD_Reaction.MEMORY`: reactions by canonical form. */
  type ReactionMemory = map<Form, Reaction>

  /** The constructor: with the memory check, a reaction whose canonical
      form is registered gives back the registered one, and a new one is
      registered. The registry only grows, and never replaces an entry. */
  function NewReaction(reg: ReactionMemory, x: Reaction, memorycheck: bool)
    : (out: (ReactionMemory, Made<Reaction>))
    ensures !out.1.Failed?
    ensures out.1.Existing? <==> memorycheck && FormOf(x) in reg
    ensures out.1.Existing? ==> out.0 == reg && out.1.value == reg[FormOf(x)]
    ensures out.1.Created? ==> out.1.value == x && (memorycheck ==> FormOf(x) in out.0 && out.0[FormOf(x)] == x)
    ensures reg.Keys <= out.0.Keys <= reg.Keys + {FormOf(x)}
    ensures forall f :: f in reg ==> out.0[f] == reg[f]
  {
    if memorycheck && FormOf(x) in reg then (reg, Existing(reg[FormOf(x)]))
    else if memorycheck then (reg[FormOf(x) := x], Created(x))
    else (reg, Created(x))
  }

  /** Every registered reaction sits under its own canonical form. */
  ghost predicate Coherent(reg: ReactionMemory) {
    forall f :: f in reg ==> FormOf(reg[f]) == f
  }

  // ---------------------------------------------------------------------
  // Identity

  /** The canonical form does not depend on the order of the reactants or
      of the products, nor on the rate. */
  lemma FormIgnoresOrder(x: Reaction, y: Reaction)
    requires multiset(x.reactants) == multiset(y.reactants)
    requires multiset(x.products) == multiset(y.products)
    requires x.rtype == y.rtype
    ensures Same(x, y)
  {
    SameSide(x.reactants, y.reactants);
    SameSide(x.products, y.products);
  }

  /** Names with the same multiplicities make the same side. */
  lemma SameSide(a: seq<string>, b: seq<string>)
    requires multiset(a) == multiset(b)
    ensures Side(a) == Side(b)
  {
    StrLessOrder();
    SortBySpec(a, StrLess);
    SortBySpec(b, StrLess);
    SortedUnique(SortBy(a, StrLess), SortBy(b, StrLess), StrLess);
  }

  /** `rateunits` spelled out: `/M` repeated once per reactant beyond the
      first, and `/s` at the end; a reaction without reactants has `/s`
      alone. */
  lemma RateUnitsSpec(x: Reaction)
    ensures var u := RateUnits(x); var k := if |x.reactants| > 0 then |x.reactants| - 1 else 0;
      && |u| == 2 * k + 2
      && u[2 * k..] == "/s"
      && forall i :: 0 <= i < k ==> u[2 * i] == '/' && u[2 * i + 1] == 'M'
  {
    var k := if |x.reactants| > 0 then |x.reactants| - 1 else 0;
    RepeatSpec("/M", |x.reactants| - 1);
    assert RateUnits(x)[..2 * k] == Repeat("/M", |x.reactants| - 1);
  }

  lemma {:induction false} RepeatSpec(s: string, n: int)
    requires |s| == 2
    ensures var k := if n > 0 then n else 0;
      && |Repeat(s, n)| == 2 * k
      && forall i :: 0 <= i < k ==> Repeat(s, n)[2 * i] == s[0] && Repeat(s, n)[2 * i + 1] == s[1]
    decreases n
  {
    if n > 0 {
      RepeatSpec(s, n - 1);
      var r := Repeat(s, n - 1);
      assert Repeat(s, n) == s + r;
      forall i | 0 <= i < n
        ensures Repeat(s, n)[2 * i] == s[0] && Repeat(s, n)[2 * i + 1] == s[1]
      {
        if i > 0 {
          assert Repeat(s, n)[2 * i] == r[2 * (i - 1)];
          assert Repeat(s, n)[2 * i + 1] == r[2 * (i - 1) + 1];
        }
      }
    }
  }

  /** The rate units tell the number of reactants apart, once there is at
      least one. */
  lemma RateUnitsInjective(x: Reaction, y: Reaction)
    requires |x.reactants| > 0 && |y.reactants| > 0 && RateUnits(x) == RateUnits(y)
    ensures Arity(x).0 == Arity(y).0
  {
    RateUnitsSpec(x);
    RateUnitsSpec(y);
  }

  // ---------------------------------------------------------------------
  // The registry

  /** The constructor keeps every reaction under its own canonical form,
      and what it gives back is the same reaction as the one asked for. */
  lemma NewReactionCoherent(reg: ReactionMemory, x: Reaction, memorycheck: bool)
    requires Coherent(reg)
    ensures var (reg', made) := NewReaction(reg, x, memorycheck);
      Coherent(reg') && Same(made.value, x)
  {
  }

  /** Once a reaction is registered, the same species in another order,
      with any rate, give back the registered reaction. */
  lemma ReactionAgain(reg: ReactionMemory, x: Reaction, y: Reaction)
    requires NewReaction(reg, x, true).1.Created?
    requires multiset(x.reactants) == multiset(y.reactants)
    requires multiset(x.products) == multiset(y.products)
    requires x.rtype == y.rtype
    ensures var (reg', _) := NewReaction(reg, x, true);
      NewReaction(reg', y, true) == (reg', Existing(x))
  {
    FormIgnoresOrder(x, y);
  }

  // ---------------------------------------------------------------------
  // The prototype `Reaction`

  /** `Reaction.RTYPES`. */
  const RTypes: set<string> := {"condensed", "open", "bind11", "bind21", "branch-3way", "branch-4way"}

  predicate Supported(rtype: Option<string>) {
    rtype.Some? && rtype.value in RTypes
  }

  /** The prototype constructor: the base constructor first (a duplicate
      ends it there), then an unsupported type deletes the entry under the
      reaction's canonical form and fails. As written the deletion happens
      even without the memory check, when the entry is not the reaction's
      own; corrected, only the reaction's own registration is taken back. */
  function NewProtoReaction(fixed: bool, reg: ReactionMemory, x: Reaction, memorycheck: bool)
    : (out: (ReactionMemory, Made<Reaction>))
    ensures Supported(x.rtype) ==> out == NewReaction(reg, x, memorycheck)
    ensures !Supported(x.rtype) ==> !out.1.Created?
    ensures !Supported(x.rtype) && !out.1.Existing? ==>
      out.1 == Failed(Configuration) && (FormOf(x) !in out.0 || (fixed && !memorycheck))
  {
    var (reg1, made) := NewReaction(reg, x, memorycheck);
    if made.Existing? || Supported(x.rtype) then (reg1, made)
    else if fixed && !memorycheck then (reg1, Failed(Configuration))
    else (reg1 - {FormOf(x)}, Failed(Configuration))
  }

  /** Corrected: a supported type behaves as the base constructor; an
      unsupported one leaves the registry as it was and creates nothing. */
  lemma ProtoReactionAtomic(reg: ReactionMemory, x: Reaction, memorycheck: bool)
    ensures var (reg', made) := NewProtoReaction(true, reg, x, memorycheck);
      && (Supported(x.rtype) ==> (reg', made) == NewReaction(reg, x, memorycheck))
      && (!Supported(x.rtype) ==> reg' == reg && !made.Created?)
      && (!Supported(x.rtype) && (!memorycheck || FormOf(x) !in reg) ==> made == Failed(Configuration))
  {
  }

  /** Corrected: the prototype keeps the registry coherent. */
  lemma ProtoReactionCoherent(fixed: bool, reg: ReactionMemory, x: Reaction, memorycheck: bool)
    requires Coherent(reg)
    ensures Coherent(NewProtoReaction(fixed, reg, x, memorycheck).0)
  {
    NewReactionCoherent(reg, x, memorycheck);
  }

  /** As written, an unsupported reaction made without the memory check
      deletes another reaction registered under the same canonical form. */
  lemma AsWrittenDeletesOther(reg: ReactionMemory, x: Reaction)
    requires !Supported(x.rtype) && FormOf(x) in reg
    ensures var (reg', made) := NewProtoReaction(false, reg, x, false);
      made == Failed(Configuration) && reg' == reg - {FormOf(x)} && FormOf(x) !in reg'
  {
  }

  /** A registry for which that happens: a base reaction without a type,
      then a prototype reaction with the same species and no memory check. */
  lemma AsWrittenDeletesOtherExample()
    ensures var base := Reaction(["A"], ["B"], None, None);
      var (reg, _) := NewReaction(map[], base, true);
      && FormOf(base) in reg
      && NewProtoReaction(false, reg, Reaction(["A"], ["B"], None, Some(1.0)), false).0 == map[]
  {
    var base := Reaction(["A"], ["B"], None, None);
    FormIgnoresOrder(base, Reaction(["A"], ["B"], None, Some(1.0)));
  }
}

=== FILE: registry.dfy ===
/** All registries of the object layer together, and the two ways of
    resetting them: the module-level `clear_memory`, which empties every
    registry and restarts the naming counter, and the prototype complex's
    `clear_memory`, which resets the complex registry piece by piece. */
module Registry {
  import opened Results
  import opened Names
  import Domains
  import Canonical
  import Complexes
  import RestingStates
  import Reactions

  /** Every registry at once. `SL_Domain.MEMORY` is not part of this model. */
  datatype World = World(domains: Domains.DomainMemory, complexes: Complexes.ComplexMemory,
                         resting: RestingStates.RestingMemory, reactions: Reactions.ReactionMemory)

  /** Every registry is coherent in its own sense. */
  ghost predicate Coherent(w: World) {
    && Domains.Coherent(w.domains)
    && Complexes.Coherent(w.complexes)
    && RestingStates.Coherent(w.resting)
    && Reactions.Coherent(w.reactions)
  }

  /** `clear_memory`: every registry empty, the complex counter at 0. */
  function ClearMemory(): (w: World)
    ensures Coherent(w) && w.complexes.id == 0
  {
    World(map[], Complexes.ComplexMemory(map[], map[], 0), RestingStates.RestingMemory(map[], map[]), map[])
  }

  /** After a reset the world is coherent and nothing is found any more:
      each constructor either creates its object or fails, and the first
      automatically named complex is numbered 0. */
  lemma ClearMemoryForgets(name: string, dtype: Option<Domains.DType>, length: Option<int>,
                           sequence: seq<string>, structure: seq<char>, cname: string, prefix: string,
                           complexes: seq<Complexes.Entry>, rname: string, rprefix: string,
                           representative: Option<Complexes.Entry>, x: Reactions.Reaction, fixed: bool, check: bool)
    ensures Coherent(ClearMemory())
    ensures !Domains.NewDomain(ClearMemory().domains, name, dtype, length).1.Existing?
    ensures !Complexes.NewComplex(ClearMemory().complexes, sequence, structure, cname, prefix, check).1.Existing?
    ensures !RestingStates.NewRestingState(fixed, ClearMemory().resting, complexes, rname, rprefix, representative, check).1.Existing?
    ensures !Reactions.NewReaction(ClearMemory().reactions, x, check).1.Existing?
    ensures cname == "" && prefix != "" && !IsDigit(prefix[|prefix| - 1]) ==>
      var made := Complexes.NewComplex(ClearMemory().complexes, sequence, structure, cname, prefix, check).1;
      made.Created? ==> made.value.name == prefix + "0"
  {
    hide Domains.NewDomain, Complexes.NewComplex, RestingStates.NewRestingState, Reactions.NewReaction;
    ClearedDomains(name, dtype, length);
    ClearedComplexes(sequence, structure, cname, prefix, check);
    ClearedResting(complexes, rname, rprefix, representative, fixed, check);
    ClearedReactions(x, check);
  }

  lemma ClearedDomains(name: string, dtype: Option<Domains.DType>, length: Option<int>)
    ensures !Domains.NewDomain(ClearMemory().domains, name, dtype, length).1.Existing?
  {
  }

  lemma ClearedComplexes(sequence: seq<string>, structure: seq<char>, cname: string, prefix: string, check: bool)
    ensures !Complexes.NewComplex(ClearMemory().complexes, sequence, structure, cname, prefix, check).1.Existing?
    ensures cname == "" && prefix != "" && !IsDigit(prefix[|prefix| - 1]) ==>
      var made := Complexes.NewComplex(ClearMemory().complexes, sequence, structure, cname, prefix, check).1;
      made.Created? ==> made.value.name == prefix + "0"
  {
    assert NatString(0) == "0";
  }

  lemma ClearedResting(complexes: seq<Complexes.Entry>, rname: string, rprefix: string,
                       representative: Option<Complexes.Entry>, fixed: bool, check: bool)
    ensures !RestingStates.NewRestingState(fixed, ClearMemory().resting, complexes, rname, rprefix, representative, check).1.Existing?
  {
  }

  lemma ClearedReactions(x: Reactions.Reaction, check: bool)
    ensures !Reactions.NewReaction(ClearMemory().reactions, x, check).1.Existing?
  {
  }

  // ---------------------------------------------------------------------
  // The prototype complex's reset

  /** The complex counter as the prototype's reset can leave it: a number,
      or the empty dictionary it is set to as written. */
  datatype Counter = Number(n: nat) | EmptyDict

  datatype ComplexState = ComplexState(memory: map<Canonical.Key, Complexes.Entry>, names: map<string, Canonical.Key>,
                                       counter: Counter)

  /** `Complex.clear_memory(memory, names, ids)`: each flag resets one part.
      As written the counter becomes an empty dictionary; corrected, 0. */
  function ProtoClear(fixed: bool, st: ComplexState, memory: bool, names: bool, ids: bool): (r: ComplexState)
    ensures !memory ==> r.memory == st.memory
    ensures !names ==> r.names == st.names
    ensures !ids ==> r.counter == st.counter
    ensures ids ==> (r.counter.Number? <==> fixed)
  {
    ComplexState(if memory then map[] else st.memory,
                 if names then map[] else st.names,
                 if ids then (if fixed then Number(0) else EmptyDict) else st.counter)
  }

  /** The naming step of the complex constructor on such a counter: a given
      name is kept; otherwise the prefix checks come first, then the number
      is read into the name and the counter advanced, which fails on a
      dictionary. */
  function NextName(counter: Counter, name: string, prefix: string): (r: Result<(string, Counter)>)
    ensures name != "" ==> r == Ok((name, counter))
    ensures r.Ok? && name == "" ==> counter.Number? && r.value.1 == Number(counter.n + 1)
    ensures counter.EmptyDict? && name == "" ==> r.Err?
  {
    if name != "" then Ok((name, counter))
    else if prefix == "" || IsDigit(prefix[|prefix| - 1]) then Err(Configuration)
    else match counter
      case Number(n) => Ok((AutoName(prefix, n), Number(n + 1)))
      case EmptyDict => Err(TypeMismatch)
  }

  /** On a numeric counter the naming step is the complex constructor's. */
  lemma NextNameAgrees(n: nat, name: string, prefix: string)
    ensures NextName(Number(n), name, prefix).Ok? <==> Complexes.ComplexName(name, prefix, n).Ok?
    ensures NextName(Number(n), name, prefix).Ok? ==>
      var (nm, c) := NextName(Number(n), name, prefix).value;
      (nm, c) == (Complexes.ComplexName(name, prefix, n).value.0, Number(Complexes.ComplexName(name, prefix, n).value.1))
  {
  }

  /** Corrected: the flags reset exactly their parts, the counter to 0, so
      the next automatic name is numbered 0. */
  lemma ProtoClearSpec(st: ComplexState, memory: bool, names: bool, prefix: string)
    requires prefix != "" && !IsDigit(prefix[|prefix| - 1])
    ensures var r := ProtoClear(true, st, memory, names, true);
      && (memory ==> r.memory == map[]) && (!memory ==> r.memory == st.memory)
      && (names ==> r.names == map[]) && (!names ==> r.names == st.names)
      && NextName(r.counter, "", prefix) == Ok((prefix + "0", Number(1)))
  {
    assert NatString(0) == "0";
  }

  /** As written: after resetting the counter, every automatically named
      complex fails, since the counter is no longer a number. */
  lemma AsWrittenClearBreaksNaming(st: ComplexState, memory: bool, names: bool, prefix: string)
    requires prefix != "" && !IsDigit(prefix[|prefix| - 1])
    ensures NextName(ProtoClear(false, st, memory, names, true).counter, "", prefix) == Err(TypeMismatch)
  {
  }
}

=== FILE: restingstates.dfy ===
/** `DSD_RestingState`: a set of distinct complexes kept sorted by name, with
    one representative whose canonical form stands for the whole set, and the
    registry that maps the canonical form of every member, and the name, to
    it. Two versions of the constructor, selected by `fixed`: the one as
    written, in which a given representative always fails and a repeated
    specification is always a conflict, and the corrected one. */
module RestingStates {
  import opened Results
  import opened Order
  import opened Names
  import opened Canonical
  import opened Complexes

  /** A resting state: its name, its complexes sorted by name, and the
      representative. */
  datatype RestingState = RestingState(name: string, complexes: seq<Entry>, canonical: Entry)

  /** `canonical_form`: the canonical form of the representative. */
  function Form(rs: RestingState): Key {
    rs.canonical.canon.key
  }

  /** `MEMORY` (canonical form of a member to resting state) and `NAMES`
      (name to the canonical form of the representative). */
  datatype RestingMemory = RestingMemory(memory: map<Key, RestingState>, names: map<string, Key>)

  /** The order of `sorted(complexes, key=name)`. */
  predicate NameLess(a: Entry, b: Entry) {
    StrLess(a.name, b.name)
  }

  lemma NameLessOrder()
    ensures StrictOrder(NameLess)
  {
    StrLessOrder();
  }

  /** No complex is listed twice. */
  predicate Distinct(s: seq<Entry>) {
    forall i, j :: 0 <= i < j < |s| ==> s[i] != s[j]
  }

  /** `__eq__` of resting states: their sorted lists agree complex by complex,
      complexes comparing by canonical form. */
  predicate SameComplexes(a: RestingState, b: RestingState) {
    && |a.complexes| == |b.complexes|
    && forall i :: 0 <= i < |a.complexes| ==> a.complexes[i].canon.key == b.complexes[i].canon.key
  }

  /** The canonical forms of the members. */
  function MemberKeys(s: seq<Entry>): set<Key> {
    set e | e in s :: e.canon.key
  }

  /** Registration: every member's canonical form now leads to `rs`, and
      its name to its canonical form. */
  function Register(reg: RestingMemory, rs: RestingState): RestingMemory {
    RestingMemory(reg.memory + map k | k in MemberKeys(rs.complexes) :: rs, reg.names[rs.name := Form(rs)])
  }

  /** The representative. As written, asking whether a representative was
      given takes the length of a complex, which the complex does not
      define; corrected, a given representative must be one of the
      complexes. Without one, the first complex by name is taken, and an
      empty list has none. */
  function Representative(fixed: bool, complexes: seq<Entry>, sorted: seq<Entry>, representative: Option<Entry>)
    : Result<Entry>
  {
    if representative.Some? then
      if !fixed then Err(Unimplemented)
      else if representative.value in complexes then Ok(representative.value)
      else Err(Configuration)
    else if |sorted| == 0 then Err(Configuration)
    else Ok(sorted[0])
  }

  /** The name: a given name is kept; otherwise a prefix that starts or ends
      with a digit is refused, and the prefix is put before the name of the
      representative. */
  function RestingName(name: string, prefix: string, canonical: Entry): Result<string> {
    if name != "" then Ok(name)
    else if prefix != "" && (IsDigit(prefix[0]) || IsDigit(prefix[|prefix| - 1])) then Err(Configuration)
    else Ok(prefix + canonical.name)
  }

  /** The constructor, on the registry `reg`. A failure, an existing
      resting state and a creation without the memory check leave the
      registry as it was; a creation with the check registers the new
      state. */
  function NewRestingState(fixed: bool, reg: RestingMemory, complexes: seq<Entry>, name: string, prefix: string,
                           representative: Option<Entry>, memorycheck: bool)
    : (out: (RestingMemory, Made<RestingState>))
    ensures !out.1.Created? || !memorycheck ==> out.0 == reg
    ensures out.1.Created? && memorycheck ==> out.0 == Register(reg, out.1.value)
  {
    if !Distinct(complexes) then (reg, Failed(Configuration))
    else
      var sorted := SortBy(complexes, NameLess);
      match Representative(fixed, complexes, sorted, representative)
      case Err(f) => (reg, Failed(f))
      case Ok(canonical) =>
        match RestingName(name, prefix, canonical)
        case Err(f) => (reg, Failed(f))
        case Ok(n) =>
          var rs := RestingState(n, sorted, canonical);
          if n in reg.names then
            (reg, if reg.names[n] in reg.memory then Existing(reg.memory[reg.names[n]]) else Failed(MissingReferent))
          else if !memorycheck then (reg, Created(rs))
          else if Form(rs) in reg.memory then
            var other := reg.memory[Form(rs)];
            (reg, if fixed && SameComplexes(other, rs) then Existing(other) else Failed(Duplication))
          else (Register(reg, rs), Created(rs))
  }

  // ---------------------------------------------------------------------
  // What the constructor makes

  /** A new resting state holds exactly the given complexes, which were
      distinct and not none, sorted by name; its representative is one of
      them: the given one, or else one of least name; and its name is the
      given name or the prefix before the representative's name. With the
      memory check, neither its canonical form nor its name was registered. */
  lemma RestingStateShape(fixed: bool, reg: RestingMemory, complexes: seq<Entry>, name: string, prefix: string,
                          representative: Option<Entry>, memorycheck: bool)
    ensures var (_, made) := NewRestingState(fixed, reg, complexes, name, prefix, representative, memorycheck);
      made.Created? ==>
        var rs := made.value;
        && Distinct(complexes) && |complexes| > 0
        && SortedBy(rs.complexes, NameLess)
        && multiset(rs.complexes) == multiset(complexes)
        && rs.canonical in complexes
        && (representative.Some? ==> fixed && rs.canonical == representative.value)
        && (representative.None? ==> forall e :: e in complexes ==> !NameLess(e, rs.canonical))
        && (name != "" ==> rs.name == name)
        && (name == "" ==> rs.name == prefix + rs.canonical.name
                           && (prefix == "" || (!IsDigit(prefix[0]) && !IsDigit(prefix[|prefix| - 1]))))
        && rs.name !in reg.names
        && (memorycheck ==> Form(rs) !in reg.memory)
  {
    hide SortBy;
    var (_, made) := NewRestingState(fixed, reg, complexes, name, prefix, representative, memorycheck);
    if made.Created? {
      SortByName(complexes);
    }
  }

  /** Sorting by name keeps the complexes, orders them, and puts one of
      least name first. */
  lemma SortByName(complexes: seq<Entry>)
    ensures var sorted := SortBy(complexes, NameLess);
      && SortedBy(sorted, NameLess)
      && multiset(sorted) == multiset(complexes)
      && |sorted| == |complexes|
      && (|complexes| > 0 ==> sorted[0] in complexes && forall e :: e in complexes ==> !NameLess(e, sorted[0]))
  {
    hide SortBy;
    var sorted := SortBy(complexes, NameLess);
    NameLessOrder();
    SortBySpec(complexes, NameLess);
    assert |multiset(sorted)| == |multiset(complexes)|;
    if |complexes| > 0 {
      assert sorted[0] in multiset(complexes);
      forall e | e in complexes
        ensures !NameLess(e, sorted[0])
      {
        assert e in multiset(sorted);
        var j :| 0 <= j < |sorted| && sorted[j] == e;
        if j > 0 {
          assert !NameLess(sorted[j], sorted[0]);
        } else {
          StrLessIrreflexive(e.name);
        }
      }
    }
  }

  /** A repeated name returns the resting state the name leads to, or fails
      when the name leads nowhere. */
  lemma RestingStateNameTaken(fixed: bool, reg: RestingMemory, complexes: seq<Entry>, name: string, prefix: string,
                              memorycheck: bool)
    requires Distinct(complexes) && |complexes| > 0 && name != "" && name in reg.names
    ensures NewRestingState(fixed, reg, complexes, name, prefix, None, memorycheck)
         == (reg, if reg.names[name] in reg.memory then Existing(reg.memory[reg.names[name]]) else Failed(MissingReferent))
  {
    SortByName(complexes);
  }

  // ---------------------------------------------------------------------
  // The registry

  /** Every name leads to a registered state; every registered state is
      reached through one of its own members' canonical forms, and its
      representative is one of its members. */
  ghost predicate Coherent(reg: RestingMemory) {
    && (forall n :: n in reg.names ==> reg.names[n] in reg.memory)
    && (forall k :: k in reg.memory ==> k in MemberKeys(reg.memory[k].complexes))
    && (forall k :: k in reg.memory ==> reg.memory[k].canonical in reg.memory[k].complexes)
  }

  /** Either constructor keeps the registry coherent, and on a coherent
      registry a repeated name always finds its resting state. */
  lemma RestingStateCoherent(fixed: bool, reg: RestingMemory, complexes: seq<Entry>, name: string, prefix: string,
                             representative: Option<Entry>, memorycheck: bool)
    requires Coherent(reg)
    ensures var (reg', made) := NewRestingState(fixed, reg, complexes, name, prefix, representative, memorycheck);
      && Coherent(reg')
      && made != Failed(MissingReferent)
  {
    var (reg', made) := NewRestingState(fixed, reg, complexes, name, prefix, representative, memorycheck);
    NoMissingReferent(fixed, reg, complexes, name, prefix, representative, memorycheck);
    if made.Created? && memorycheck {
      var rs := made.value;
      RestingStateShape(fixed, reg, complexes, name, prefix, representative, memorycheck);
      hide NewRestingState, Register, Coherent;
      assert rs.canonical in multiset(rs.complexes);
      RegisterCoherent(reg, rs);
    }
  }

  /** On a coherent registry every registered name leads to a state. */
  lemma NoMissingReferent(fixed: bool, reg: RestingMemory, complexes: seq<Entry>, name: string, prefix: string,
                          representative: Option<Entry>, memorycheck: bool)
    requires Coherent(reg)
    ensures NewRestingState(fixed, reg, complexes, name, prefix, representative, memorycheck).1 != Failed(MissingReferent)
  {
    hide SortBy, Register;
    assert forall n :: n in reg.names ==> reg.names[n] in reg.memory;
  }

  /** Registering a state that holds its representative keeps the registry
      coherent. */
  lemma RegisterCoherent(reg: RestingMemory, rs: RestingState)
    requires Coherent(reg) && rs.canonical in rs.complexes
    ensures Coherent(Register(reg, rs))
  {
    var reg' := Register(reg, rs);
    assert Form(rs) in MemberKeys(rs.complexes);
    forall k | k in reg'.memory
      ensures k in MemberKeys(reg'.memory[k].complexes) && reg'.memory[k].canonical in reg'.memory[k].complexes
    {
      if k in MemberKeys(rs.complexes) {
        assert reg'.memory[k] == rs;
      }
    }
  }

  /** Corrected: once a resting state is registered, specifying the same
      complexes and representative again under a new name gives back the
      registered state and changes nothing. */
  lemma RestingStateAgain(reg: RestingMemory, complexes: seq<Entry>, name: string, prefix: string,
                          representative: Option<Entry>, name2: string, prefix2: string)
    requires NewRestingState(true, reg, complexes, name, prefix, representative, true).1.Created?
    requires name2 != "" && name2 !in NewRestingState(true, reg, complexes, name, prefix, representative, true).0.names
    ensures var (reg', made) := NewRestingState(true, reg, complexes, name, prefix, representative, true);
      NewRestingState(true, reg', complexes, name2, prefix2, representative, true) == (reg', Existing(made.value))
  {
    var (reg', made) := NewRestingState(true, reg, complexes, name, prefix, representative, true);
    var rs := made.value;
    RestingStateShape(true, reg, complexes, name, prefix, representative, true);
    CreatedParts(true, reg, complexes, name, prefix, representative);
    hide NewRestingState, SortBy, Representative;
    assert rs.canonical in multiset(rs.complexes);
    assert Form(rs) in MemberKeys(rs.complexes);
    assert reg'.memory[Form(rs)] == rs;
    AgainFindsRegistered(reg', complexes, name2, prefix2, representative, rs);
  }

  /** What a creation with the memory check was made from, and what it
      registered. */
  lemma CreatedParts(fixed: bool, reg: RestingMemory, complexes: seq<Entry>, name: string, prefix: string,
                     representative: Option<Entry>)
    ensures var (reg', made) := NewRestingState(fixed, reg, complexes, name, prefix, representative, true);
      made.Created? ==>
        && Distinct(complexes)
        && made.value.complexes == SortBy(complexes, NameLess)
        && Representative(fixed, complexes, made.value.complexes, representative) == Ok(made.value.canonical)
        && reg' == Register(reg, made.value)
  {
    hide SortBy, Representative, RestingName, Register, Distinct, SameComplexes, Form, MemberKeys;
  }

  /** A specification under a new name whose canonical form leads to the
      state with the same sorted complexes and representative finds it. */
  lemma AgainFindsRegistered(reg: RestingMemory, complexes: seq<Entry>, name2: string, prefix2: string,
                             representative: Option<Entry>, rs: RestingState)
    requires Distinct(complexes)
    requires rs.complexes == SortBy(complexes, NameLess)
    requires Representative(true, complexes, rs.complexes, representative) == Ok(rs.canonical)
    requires name2 != "" && name2 !in reg.names
    requires Form(rs) in reg.memory && reg.memory[Form(rs)] == rs
    ensures NewRestingState(true, reg, complexes, name2, prefix2, representative, true) == (reg, Existing(rs))
  {
    hide SortBy;
  }

  /** The state built from distinct `complexes`, under a free name, has a
      representative whose canonical form is registered to a state with
      other complexes. */
  ghost predicate Conflicts(reg: RestingMemory, complexes: seq<Entry>, name: string, prefix: string,
                            representative: Option<Entry>)
  {
    var sorted := SortBy(complexes, NameLess);
    var canonical := Representative(true, complexes, sorted, representative);
    && Distinct(complexes)
    && canonical.Ok?
    && RestingName(name, prefix, canonical.value).Ok?
    && var rs := RestingState(RestingName(name, prefix, canonical.value).value, sorted, canonical.value);
       && rs.name !in reg.names
       && Form(rs) in reg.memory
       && !SameComplexes(reg.memory[Form(rs)], rs)
  }

  /** Corrected: with the memory check, the constructor reports a conflict
      exactly when the state it builds conflicts with a registered one; its
      representative is then one of the complexes, and the registry stays as
      it was. */
  lemma RestingStateConflict(reg: RestingMemory, complexes: seq<Entry>, name: string, prefix: string,
                             representative: Option<Entry>)
    ensures var (reg', made) := NewRestingState(true, reg, complexes, name, prefix, representative, true);
      && (made == Failed(Duplication) <==> Conflicts(reg, complexes, name, prefix, representative))
      && (made == Failed(Duplication) ==>
            reg' == reg && Representative(true, complexes, SortBy(complexes, NameLess), representative).value in complexes)
  {
    hide SortBy, Register;
    var (reg', made) := NewRestingState(true, reg, complexes, name, prefix, representative, true);
    if made == Failed(Duplication) {
      var sorted := SortBy(complexes, NameLess);
      if representative.None? {
        assert sorted[0] in multiset(complexes);
      }
    }
  }

  // ---------------------------------------------------------------------
  // The constructor as written

  /** As written, any given representative makes the constructor fail once
      the complexes are distinct, and the registry stays as it was. */
  lemma AsWrittenRepresentativeFails(reg: RestingMemory, complexes: seq<Entry>, name: string, prefix: string,
                                     r: Entry, memorycheck: bool)
    requires Distinct(complexes)
    ensures NewRestingState(false, reg, complexes, name, prefix, Some(r), memorycheck) == (reg, Failed(Unimplemented))
  {
  }

  /** As written, specifying a registered resting state again under a new
      name is a conflict instead of giving back the registered state: the
      check compares the two states as objects, and a new object is never
      the registered one. */
  lemma AsWrittenAgainConflicts(reg: RestingMemory, complexes: seq<Entry>, name: string, prefix: string,
                                name2: string, prefix2: string)
    requires NewRestingState(false, reg, complexes, name, prefix, None, true).1.Created?
    requires name2 != "" && name2 !in NewRestingState(false, reg, complexes, name, prefix, None, true).0.names
    ensures var (reg', _) := NewRestingState(false, reg, complexes, name, prefix, None, true);
      NewRestingState(false, reg', complexes, name2, prefix2, None, true) == (reg', Failed(Duplication))
  {
    var (reg', made) := NewRestingState(false, reg, complexes, name, prefix, None, true);
    var rs := made.value;
    RestingStateShape(false, reg, complexes, name, prefix, None, true);
    CreatedParts(false, reg, complexes, name, prefix, None);
    hide NewRestingState, SortBy, Representative;
    assert rs.canonical in multiset(rs.complexes);
    assert Form(rs) in MemberKeys(rs.complexes);
    AgainConflictsAsWritten(reg', complexes, name2, prefix2, rs);
  }

  /** As written, a specification under a new name whose canonical form is
      registered is a conflict, whatever the registered state holds. */
  lemma AgainConflictsAsWritten(reg: RestingMemory, complexes: seq<Entry>, name2: string, prefix2: string,
                                rs: RestingState)
    requires Distinct(complexes)
    requires rs.complexes == SortBy(complexes, NameLess)
    requires Representative(false, complexes, rs.complexes, None) == Ok(rs.canonical)
    requires name2 != "" && name2 !in reg.names
    requires Form(rs) in reg.memory
    ensures NewRestingState(false, reg, complexes, name2, prefix2, None, true) == (reg, Failed(Duplication))
  {
    hide SortBy;
  }
}

=== FILE: results.dfy ===
/** Failure kinds and the result wrappers every other module returns instead of
    raising an exception. */
module Results {

  /** The kinds of failure the object layer can report. `Duplicate` carries no
      object reference here; the registries return the existing entry in their
      own result types. */
  datatype Failure =
    | Configuration   // contradictory or insufficient constructor arguments
    | Duplication     // a key or a name is already taken by another entity
    | Structure       // unbalanced brackets or a disconnected complex
    | MissingReferent // a name that does not resolve
    | Format          // inconsistent fields in an input record
    | Unimplemented   // an operation the object layer declares but does not define
    | TypeMismatch    // an operation applied to a value of the wrong type
    | Undefined       // a name the code uses but never binds

  datatype Option<+T> = None | Some(value: T)

  /** What a registering constructor gives back: a new entry, the entry
      that was already there (Python's duplication error with its `existing`
      object), or a failure that left the registry as it was. */
  datatype Made<+T> = Created(value: T) | Existing(value: T) | Failed(failure: Failure)

  datatype Result<+T> = Ok(value: T) | Err(failure: Failure) {
    predicate IsFailure() { Err? }

    function PropagateFailure<U>(): Result<U>
      requires Err?
    {
      Err(failure)
    }

    function Extract(): T
      requires Ok?
    {
      value
    }
  }
}

=== FILE: rotation.dfy ===
/** Strand rotation of a multi-stranded complex (`DSD_Complex.rotate_once` and
    `rotate`): the first strand moves to the end, and every bracket whose
    partner changes side is turned around so that the structure stays
    balanced.

    The main theorem, `RotateStrandCountTimes`, is the round trip that the
    canonical form relies on: rotating a well-formed complex once per strand
    gives back exactly the complex that went in. */
module Rotation {
  import opened Results
  import opened Brackets

  /** The strand-break token of a sequence; the structure uses the character
      `'+'` at the same positions. */
  const Break: string := "+"

  /** A complex as the rotation sees it: a flat token sequence and a parallel
      structure, strands separated by `Break` / `'+'`. */
  datatype Strands = Strands(sequence: seq<string>, structure: seq<char>)

  /** Number of strands: one more than the number of breaks. */
  function StrandCount(c: Strands): (n: nat)
    ensures n >= 1
  {
    multiset(c.sequence)[Break] + 1
  }

  /** `wrap(x, m)`: `x` reduced into `[0, m)`, for negative `x` too. The
      remainder already lies in that range, so adding `m` changes nothing:
      the result is the floor remainder. */
  function Wrap(x: int, m: int): (r: nat)
    requires m > 0
    ensures r < m && r == x % m
  {
    var q := x % m;
    assert (q + m) % m == q by { ShiftMod(q, m); }
    (q + m) % m
  }

  lemma ShiftMod(q: int, m: int)
    requires 0 <= q < m
    ensures (q + m) % m == q
  {
    var a := q + m;
    assert a == m * 1 + q;
  }

  /** What a constructed complex satisfies: sequence and structure have the
      same length, breaks sit at the same positions, brackets balance. */
  ghost predicate WellFormed(c: Strands) {
    && |c.sequence| == |c.structure|
    && (forall i :: 0 <= i < |c.sequence| ==> (c.sequence[i] == Break <==> c.structure[i] == '+'))
    && Balanced(c.structure)
  }

  /** Position of the first occurrence (Python's `list.index`). */
  function FirstIndex<T(==)>(s: seq<T>, x: T): (p: nat)
    requires x in s
    ensures p < |s| && s[p] == x && forall k :: 0 <= k < p ==> s[k] != x
  {
    if s[0] == x then 0 else 1 + FirstIndex(s[1..], x)
  }

  lemma {:induction false} FirstIndexBefore<T>(s: seq<T>, x: T, k: nat)
    requires k < |s| && s[k] == x
    ensures FirstIndex(s, x) <= k
  {
    if s[0] != x {
      FirstIndexBefore(s[1..], x, k - 1);
    }
  }

  /** `t` with every listed position overwritten by `c`, one position after
      the other. */
  function SetAll(t: seq<char>, positions: seq<nat>, c: char): (r: seq<char>)
    ensures |r| == |t|
    decreases |positions|
  {
    if positions == [] then t
    else if positions[0] < |t| then SetAll(t[positions[0] := c], positions[1..], c)
    else SetAll(t, positions[1..], c)
  }

  lemma {:induction false} SetAllAt(t: seq<char>, positions: seq<nat>, c: char)
    ensures forall k :: 0 <= k < |t| ==> SetAll(t, positions, c)[k] == (if k in positions then c else t[k])
    decreases |positions|
  {
    if positions != [] {
      var t' := if positions[0] < |t| then t[positions[0] := c] else t;
      SetAllAt(t', positions[1..], c);
      forall k | 0 <= k < |t|
        ensures SetAll(t, positions, c)[k] == (if k in positions then c else t[k])
      {
        assert k in positions <==> k == positions[0] || k in positions[1..];
      }
    }
  }

  /** One rotation. Without a break nothing changes. Otherwise, with `p` the
      first break: the opens of the first strand left unmatched by a forward
      scan of it become closes, the closes after the break left unmatched by a
      backward scan become opens, and both sequence and structure are
      reassembled as tail, break, head. A scan that pops an empty stack is a
      structure error. */
  function RotateOnce(c: Strands): (r: Result<Strands>)
    requires |c.sequence| == |c.structure|
    ensures r.Ok? ==> |r.value.sequence| == |r.value.structure| == |c.sequence|
    ensures Break !in c.sequence ==> r == Ok(c)
  {
    if Break !in c.sequence then Ok(c)
    else
      var p := FirstIndex(c.sequence, Break);
      match Turn(c.structure, p)
      case Err(f) => Err(f)
      case Ok(s2) => Ok(Strands(c.sequence[p + 1..] + [Break] + c.sequence[..p], s2[p + 1..] + ['+'] + s2[..p]))
  }

  /** The bracket turning of a rotation at the break `p`, before the structure
      is reassembled. */
  function Turn(s: seq<char>, p: nat): (r: Result<seq<char>>)
    requires p < |s|
    ensures r.Ok? ==> |r.value| == |s|
  {
    match ScanPrefix(s, p)
    case Err(f) => Err(f)
    case Ok(head) =>
      var s1 := SetAll(s, head.stack, ')');
      match RevScanFrom(s1, p + 1, |s1|, [])
      case Err(f) => Err(f)
      case Ok(tail) => Ok(SetAll(s1, tail, '('))
  }

  /** The sequence of a rotation: tail, break, head. */
  lemma RotateOnceSequence(c: Strands)
    requires |c.sequence| == |c.structure| && Break in c.sequence && RotateOnce(c).Ok?
    ensures var p := FirstIndex(c.sequence, Break);
      && RotateOnce(c).value.sequence == c.sequence[p + 1..] + [Break] + c.sequence[..p]
      && RotateOnce(c).value.structure[|c.sequence| - p - 1] == '+'
  {
  }

  /** `k` successive rotations, stopping at the first error. */
  function RotateTimes(c: Strands, k: nat): (r: Result<Strands>)
    requires |c.sequence| == |c.structure|
    ensures r.Ok? ==> |r.value.sequence| == |r.value.structure| == |c.sequence|
    decreases k
  {
    if k == 0 then Ok(c)
    else
      match RotateOnce(c)
      case Err(f) => Err(f)
      case Ok(c') => RotateTimes(c', k - 1)
  }

  /** Rotating `a` times and then `b` more times comes back to `c`. */
  predicate ReturnsAfter(c: Strands, a: nat, b: nat) {
    && |c.sequence| == |c.structure|
    && var d := RotateTimes(c, a);
       d.Ok? && RotateTimes(d.value, b) == Ok(c)
  }

  /** A rotation only reorders the tokens: the break it removes at the front
      it puts back between tail and head. */
  lemma RotateOnceTokens(c: Strands)
    requires |c.sequence| == |c.structure| && RotateOnce(c).Ok?
    ensures multiset(RotateOnce(c).value.sequence) == multiset(c.sequence)
    ensures StrandCount(RotateOnce(c).value) == StrandCount(c)
  {
    hide RotateOnce;
    if Break in c.sequence {
      var p := FirstIndex(c.sequence, Break);
      var s := c.sequence;
      RotateOnceSequence(c);
      assert multiset(RotateOnce(c).value.sequence) == multiset(s) by {
        assert s == s[..p] + [Break] + s[p + 1..];
      }
    }
  }

  lemma {:induction false} RotateTimesTokens(c: Strands, k: nat)
    requires |c.sequence| == |c.structure| && RotateTimes(c, k).Ok?
    ensures multiset(RotateTimes(c, k).value.sequence) == multiset(c.sequence)
    ensures StrandCount(RotateTimes(c, k).value) == StrandCount(c)
    decreases k
  {
    hide RotateOnce;
    if k > 0 {
      RotateOnceTokens(c);
      RotateTimesTokens(RotateOnce(c).value, k - 1);
    }
  }

  lemma RotateTimesAdd(c: Strands, a: nat, b: nat)
    requires |c.sequence| == |c.structure|
    ensures RotateTimes(c, a + b) ==
      (match RotateTimes(c, a) case Err(f) => Err(f) case Ok(c') => RotateTimes(c', b))
    decreases a
  {
    hide RotateOnce;
    if a > 0 {
      match RotateOnce(c)
      case Err(f) =>
      case Ok(c') => RotateTimesAdd(c', a - 1, b);
    }
  }

  // ---------------------------------------------------------------------
  // Ring coordinates. The complex is read as a ring `sequence + [Break]` of
  // length `n`; a rotation moves the cut of the ring to just after the next
  // break. `Cyc` maps a position after a cut at offset `o` to the ring, `Rel`
  // maps back.

  function Cyc(j: nat, o: nat, n: nat): (x: nat)
    requires j < n && o <= n
    ensures x < n
  {
    if j + o < n then j + o else j + o - n
  }

  function Rel(x: nat, o: nat, n: nat): (j: nat)
    requires x < n && o <= n
    ensures j < n && Cyc(j, o, n) == x
  {
    if x >= o then x - o else x + n - o
  }

  lemma CycRel(j: nat, x: nat, o: nat, n: nat)
    requires j < n && x < n && o <= n
    ensures Rel(Cyc(j, o, n), o, n) == j
    ensures Cyc(Rel(x, o, n), o, n) == x
  {
  }

  /** Moving the cut from `o` past the break at cut position `h`. */
  lemma RelShift(src: nat, o: nat, h: nat, n: nat)
    requires src < n && o + h + 1 <= n && src != h
    ensures Rel(Cyc(src, o, n), o + h + 1, n) == (if src > h then src - h - 1 else src + n - 1 - h)
  {
  }

  /** Reading the ring from a cut flips the "between" relation exactly when
      the two end points lie on different sides of the cut. */
  lemma BetweenRel(z: nat, a: nat, b: nat, o: nat, n: nat)
    requires z < n && a < n && b < n && o <= n && z != a && z != b
    ensures Between(Rel(z, o, n), Rel(a, o, n), Rel(b, o, n)) ==
      (Between(z, a, b) != ((a >= o) != (b >= o)))
  {
  }

  function Ring(c0: Strands): seq<string> {
    c0.sequence + [Break]
  }

  function RingStructure(c0: Strands): seq<char> {
    c0.structure + ['+']
  }

  /** `m` is a partner table of a complex whose breaks are aligned. (Whether
      it is non-crossing is stated separately where it is needed.) */
  ghost predicate Paired(c0: Strands, m: seq<Option<nat>>) {
    && |c0.sequence| == |c0.structure|
    && (forall i :: 0 <= i < |c0.sequence| ==> (c0.sequence[i] == Break <==> c0.structure[i] == '+'))
    && Matching(c0.structure, m)
  }

  /** The character that a cut of the ring at offset `o` shows at ring
      position `x`: neutral characters as they are, and for a bracket `(`
      exactly when it comes before its partner after the cut. */
  function CutChar(c0: Strands, m: seq<Option<nat>>, o: nat, x: nat): char
    requires o <= |c0.structure| + 1 && x <= |c0.structure|
  {
    var n := |c0.structure| + 1;
    var d := RingStructure(c0);
    if !IsBracket(d[x]) || x >= |m| || m[x].None? || m[x].value >= n then d[x]
    else if Rel(x, o, n) < Rel(m[x].value, o, n) then '(' else ')'
  }

  /** The sequence of `c` is the ring of `c0` read from offset `o`, which is
      the start of a strand. */
  ghost predicate CutSeq(c0: Strands, c: Strands, o: nat) {
    var n := |c0.structure| + 1;
    && |c0.sequence| == n - 1 && |c.sequence| == n - 1
    && o <= n && (o == 0 || Ring(c0)[o - 1] == Break)
    && (forall j :: 0 <= j < n - 1 ==> c.sequence[j] == Ring(c0)[Cyc(j, o, n)])
  }

  /** The structure of `c` is the ring structure of `c0` read from offset `o`,
      with brackets turned to match the new order. */
  ghost predicate CutStruct(c0: Strands, m: seq<Option<nat>>, c: Strands, o: nat) {
    var n := |c0.structure| + 1;
    && |c.structure| == n - 1 && o <= n
    && (forall j :: 0 <= j < n - 1 ==> c.structure[j] == CutChar(c0, m, o, Cyc(j, o, n)))
  }

  ghost predicate CutOf(c0: Strands, m: seq<Option<nat>>, c: Strands, o: nat) {
    CutSeq(c0, c, o) && CutStruct(c0, m, c, o)
  }

  lemma CutAtZero(c0: Strands, m: seq<Option<nat>>)
    requires Paired(c0, m)
    ensures CutOf(c0, m, c0, 0)
  {
  }

  lemma CutLengths(c0: Strands, m: seq<Option<nat>>, c: Strands, o: nat)
    requires CutOf(c0, m, c, o)
    ensures |c.sequence| == |c.structure| == |c0.structure|
  {
  }

  /** A cut at offset 0 or at the full ring length is the original. */
  lemma CutAtEnds(c0: Strands, m: seq<Option<nat>>, c: Strands, o: nat)
    requires Paired(c0, m) && CutOf(c0, m, c, o) && (o == 0 || o == |c0.structure| + 1)
    ensures c == c0
  {
    var n := |c0.structure| + 1;
    assert c.sequence == c0.sequence;
    forall j | 0 <= j < n - 1
      ensures c.structure[j] == c0.structure[j]
    {
      assert Cyc(j, o, n) == j;
    }
    assert c.structure == c0.structure;
  }

  /** The partner of cut position `j`, read off the ring. */
  function CutPartner(c0: Strands, m: seq<Option<nat>>, o: nat, j: nat): Option<nat>
    requires o <= |c0.structure| + 1 && j < |c0.structure|
  {
    var n := |c0.structure| + 1;
    var x := Cyc(j, o, n);
    if IsBracket(RingStructure(c0)[x]) && x < |m| && m[x].Some? && m[x].value < n
    then Some(Rel(m[x].value, o, n))
    else None
  }

  function CutPairs(c0: Strands, m: seq<Option<nat>>, o: nat): (r: seq<Option<nat>>)
    requires o <= |c0.structure| + 1
    ensures |r| == |c0.structure|
    ensures forall j :: 0 <= j < |c0.structure| ==> r[j] == CutPartner(c0, m, o, j)
  {
    seq(|c0.structure|, j requires 0 <= j < |c0.structure| => CutPartner(c0, m, o, j))
  }

  lemma PartnerAwayFromCut(c0: Strands, m: seq<Option<nat>>, o: nat, x: nat)
    requires Paired(c0, m) && CutSeq(c0, c0, 0) && o <= |c0.structure| + 1
    requires o == 0 || Ring(c0)[o - 1] == Break
    requires x < |c0.structure| && IsBracket(c0.structure[x])
    ensures Rel(x, o, |c0.structure| + 1) < |c0.structure|
  {
    if o > 0 {
      assert o - 1 < |c0.sequence| ==> c0.structure[o - 1] == '+';
    }
  }

  /** The matching facts for one position of a cut. */
  lemma CutPartnerAt(c0: Strands, m: seq<Option<nat>>, c: Strands, o: nat, j: nat)
    requires Paired(c0, m) && CutOf(c0, m, c, o) && j < |c.structure|
    ensures var p := CutPartner(c0, m, o, j);
      && (p.Some? <==> IsBracket(c.structure[j]))
      && (p.Some? ==> p.value < |c.structure| && p.value != j && CutPartner(c0, m, o, p.value) == Some(j))
      && (p.Some? ==> (c.structure[j] == '(' <==> j < p.value))
  {
    var n := |c0.structure| + 1;
    var x := Cyc(j, o, n);
    CycRel(j, x, o, n);
    if x < n - 1 && IsBracket(c0.structure[x]) {
      var y := m[x].value;
      assert m[y] == Some(x) && IsBracket(c0.structure[y]);
      PartnerAwayFromCut(c0, m, o, y);
      var q := Rel(y, o, n);
      CycRel(q, y, o, n);
    }
  }

  lemma CutPairsMatching(c0: Strands, m: seq<Option<nat>>, c: Strands, o: nat)
    requires Paired(c0, m) && CutOf(c0, m, c, o)
    ensures Matching(c.structure, CutPairs(c0, m, o))
  {
    forall j | 0 <= j < |c.structure| {
      CutPartnerAt(c0, m, c, o, j);
    }
  }

  lemma CutPairsNonCrossing(c0: Strands, m: seq<Option<nat>>, c: Strands, o: nat)
    requires Paired(c0, m) && NonCrossing(m) && CutOf(c0, m, c, o)
    ensures NonCrossing(CutPairs(c0, m, o))
  {
    var n := |c0.structure| + 1;
    var mk := CutPairs(c0, m, o);
    forall i, j | 0 <= j < |mk| && 0 <= i < |mk| && mk[j].Some? && mk[i].Some? && Between(i, j, mk[j].value)
      ensures Between(mk[i].value, j, mk[j].value)
    {
      CrossAt(c0, m, o, i, j);
    }
  }

  lemma CrossAt(c0: Strands, m: seq<Option<nat>>, o: nat, i: nat, j: nat)
    requires Paired(c0, m) && NonCrossing(m) && o <= |c0.structure| + 1 && i < |c0.structure| && j < |c0.structure|
    requires CutPartner(c0, m, o, i).Some? && CutPartner(c0, m, o, j).Some?
    requires Between(i, j, CutPartner(c0, m, o, j).value)
    ensures Between(CutPartner(c0, m, o, i).value, j, CutPartner(c0, m, o, j).value)
  {
    hide Paired, CutPartner, NonCrossing;
    var n := |c0.structure| + 1;
    CutPartnerRing(c0, m, o, i);
    CutPartnerRing(c0, m, o, j);
    var X := Cyc(j, o, n);
    var I := Cyc(i, o, n);
    CycRel(j, X, o, n);
    CycRel(i, I, o, n);
    var Y := m[X].value;
    var II := m[I].value;
    assert I != X && I != Y && II != X && II != Y;
    PairsNest(m, I, X);
    BetweenRel(I, X, Y, o, n);
    BetweenRel(II, X, Y, o, n);
  }

  /** The partner of a cut position is the ring partner of its ring
      position, read relative to the cut. */
  lemma CutPartnerRing(c0: Strands, m: seq<Option<nat>>, o: nat, j: nat)
    requires Paired(c0, m) && o <= |c0.structure| + 1 && j < |c0.structure|
    requires CutPartner(c0, m, o, j).Some?
    ensures var n := |c0.structure| + 1; var x := Cyc(j, o, n);
      && x < n - 1 && |m| == n - 1 && m[x].Some? && m[x].value < n - 1 && m[x].value != x
      && m[m[x].value] == Some(x) && CutPartner(c0, m, o, j).value == Rel(m[x].value, o, n)
  {
  }

  /** In a non-crossing table one end of a pair lies inside another pair
      exactly when its other end does. */
  lemma PairsNest(M: seq<Option<nat>>, i: nat, k: nat)
    requires NonCrossing(M) && i < |M| && k < |M| && M[i].Some? && M[k].Some?
    requires M[i].value < |M| && M[M[i].value] == Some(i) && M[k].value < |M| && M[M[k].value] == Some(k)
    ensures Between(i, k, M[k].value) <==> Between(M[i].value, k, M[k].value)
  {
  }

  /** Where the next break lies after a cut. */
  lemma NextBreakAt(c0: Strands, c: Strands, o: nat)
    requires CutSeq(c0, c, o) && o < |c0.structure| + 1 && Break in c.sequence
    ensures var h := FirstIndex(c.sequence, Break);
      && o + h + 1 <= |c0.structure| + 1
      && Ring(c0)[o + h] == Break
  {
    var n := |c0.structure| + 1;
    var h := FirstIndex(c.sequence, Break);
    if o > 0 {
      assert Cyc(n - 1 - o, o, n) == n - 1;
      FirstIndexBefore(c.sequence, Break, n - 1 - o);
    }
    assert Cyc(h, o, n) == o + h;
  }

  /** Between a cut and its next break the ring has no break. */
  lemma NextBreakClear(c0: Strands, c: Strands, o: nat)
    requires CutSeq(c0, c, o) && o < |c0.structure| + 1 && Break in c.sequence
    requires o + FirstIndex(c.sequence, Break) + 1 <= |c0.structure| + 1
    ensures forall x :: o <= x < o + FirstIndex(c.sequence, Break) ==> Ring(c0)[x] != Break
  {
    var n := |c0.structure| + 1;
    var h := FirstIndex(c.sequence, Break);
    forall x | o <= x < o + h
      ensures Ring(c0)[x] != Break
    {
      assert Cyc(x - o, o, n) == x;
    }
  }

  /** Turning around the brackets whose partner crosses the break at `h`:
      what a rotation does to the structure before reassembling it. */
  ghost function Flipped(t: seq<char>, mk: seq<Option<nat>>, h: nat, k: nat): char
    requires |mk| == |t| && k < |t|
  {
    if k > h && t[k] == ')' && mk[k].Some? && mk[k].value < h + 1 then '('
    else if k < h && t[k] == '(' && mk[k].Some? && mk[k].value >= h then ')'
    else t[k]
  }

  /** `r` is `c` reassembled as tail, break, head around the break at `h`,
      with the brackets of `c.structure` turned as `Flipped` says. */
  ghost predicate TurnedAt(c: Strands, mk: seq<Option<nat>>, h: nat, r: Strands)
    requires |c.sequence| == |c.structure| == |mk| && h < |c.structure|
  {
    var t := c.structure;
    && |r.sequence| == |t| && |r.structure| == |t|
    && (forall j :: 0 <= j < |t| - h - 1 ==>
          r.sequence[j] == c.sequence[j + h + 1] && r.structure[j] == Flipped(t, mk, h, j + h + 1))
    && r.sequence[|t| - h - 1] == Break && r.structure[|t| - h - 1] == '+'
    && (forall j :: |t| - h - 1 < j < |t| ==>
          r.sequence[j] == c.sequence[j - (|t| - h)] && r.structure[j] == Flipped(t, mk, h, j - (|t| - h)))
  }

  /** Right-to-left scans read only the scanned range. */
  lemma {:induction false} RevScanLocal(s: seq<char>, t: seq<char>, lo: nat, i: nat, stack: seq<nat>)
    requires |s| == |t| && lo <= i <= |t|
    requires forall k :: lo <= k < |t| ==> s[k] == t[k]
    ensures RevScanFrom(s, lo, i, stack) == RevScanFrom(t, lo, i, stack)
    decreases i - lo
  {
    if lo < i {
      assert RevStep(s, i, stack) == RevStep(t, i, stack);
      if RevStep(t, i, stack).Ok? {
        RevScanLocal(s, t, lo, i - 1, RevStep(t, i, stack).value);
      }
    }
  }

  /** With a non-crossing partner table, a rotation succeeds and turns around
      exactly the brackets that pair across the first break. */
  lemma RotateOnceFlips(c: Strands, mk: seq<Option<nat>>)
    requires |c.sequence| == |c.structure| && Break in c.sequence
    requires Matching(c.structure, mk) && NonCrossing(mk)
    ensures RotateOnce(c).Ok? && TurnedAt(c, mk, FirstIndex(c.sequence, Break), RotateOnce(c).value)
  {
    hide Turn, FirstIndex;
    TurnFlips(c.structure, mk, FirstIndex(c.sequence, Break));
  }

  /** With a non-crossing partner table, turning succeeds and flips exactly
      the brackets that pair across `h`. */
  lemma TurnFlips(t: seq<char>, mk: seq<Option<nat>>, h: nat)
    requires h < |t| && Matching(t, mk) && NonCrossing(mk)
    ensures Turn(t, h).Ok?
    ensures forall k :: 0 <= k < |t| ==> Turn(t, h).value[k] == Flipped(t, mk, h, k)
  {
    ScanAgrees(t, mk, h);
    var head := ScanPrefix(t, h).value;
    var s1 := SetAll(t, head.stack, ')');
    SetAllAt(t, head.stack, ')');
    RevScanLocal(s1, t, h + 1, |t|, []);
    RevScanAgrees(t, mk, h + 1);
    var tail := RevScanFrom(s1, h + 1, |s1|, []).value;
    var s2 := SetAll(s1, tail, '(');
    SetAllAt(s1, tail, '(');
    forall k | 0 <= k < |t|
      ensures s2[k] == Flipped(t, mk, h, k)
    {
    }
  }

  /** A flipped position of the cut at `o` shows what the cut at the next
      offset shows for the same ring position. */
  lemma FlippedIsNextCut(c0: Strands, m: seq<Option<nat>>, c: Strands, o: nat, h: nat, src: nat)
    requires Paired(c0, m) && CutOf(c0, m, c, o)
    requires o + h + 1 <= |c0.structure| + 1 && h < |c.structure| && c.structure[h] == '+'
    requires src < |c.structure| && src != h
    ensures Flipped(c.structure, CutPairs(c0, m, o), h, src) ==
      CutChar(c0, m, o + h + 1, Cyc(src, o, |c0.structure| + 1))
  {
    var n := |c0.structure| + 1;
    var x := Cyc(src, o, n);
    CycRel(src, x, o, n);
    RelShift(src, o, h, n);
    CutPartnerAt(c0, m, c, o, src);
    if x < n - 1 && IsBracket(c0.structure[x]) {
      var y := m[x].value;
      var q := CutPartner(c0, m, o, src).value;
      CycRel(q, y, o, n);
      CutPartnerAt(c0, m, c, o, q);
      assert q != h;
      RelShift(q, o, h, n);
    }
  }

  /** A position that the rotation takes from cut position `src`. */
  lemma NextCutFrom(c0: Strands, m: seq<Option<nat>>, c: Strands, o: nat, h: nat, src: nat, j: nat, ch: char, tok: string)
    requires Paired(c0, m) && CutOf(c0, m, c, o)
    requires o + h + 1 <= |c0.structure| + 1 && h < |c.structure| && c.structure[h] == '+'
    requires src < |c.structure| && src != h
    requires j == (if src > h then src - h - 1 else src + |c0.structure| - h)
    requires ch == Flipped(c.structure, CutPairs(c0, m, o), h, src) && tok == c.sequence[src]
    ensures j < |c0.structure|
    ensures tok == Ring(c0)[Cyc(j, o + h + 1, |c0.structure| + 1)]
    ensures ch == CutChar(c0, m, o + h + 1, Cyc(j, o + h + 1, |c0.structure| + 1))
  {
    var n := |c0.structure| + 1;
    FlippedIsNextCut(c0, m, c, o, h, src);
    RelShift(src, o, h, n);
    CycRel(j, Cyc(src, o, n), o + h + 1, n);
  }

  /** The break that the rotation puts between tail and head. */
  lemma NextCutBreak(c0: Strands, m: seq<Option<nat>>, o: nat, h: nat)
    requires Paired(c0, m) && h < |c0.structure| && o + h + 1 <= |c0.structure| + 1 && (o == 0 || Ring(c0)[o - 1] == Break)
    ensures var n := |c0.structure| + 1;
      && Ring(c0)[Cyc(n - 2 - h, o + h + 1, n)] == Break
      && CutChar(c0, m, o + h + 1, Cyc(n - 2 - h, o + h + 1, n)) == '+'
  {
    var n := |c0.structure| + 1;
    assert Cyc(n - 2 - h, o + h + 1, n) == (if o == 0 then n - 1 else o - 1);
    assert o > 0 && o - 1 < n - 1 ==> c0.structure[o - 1] == '+';
  }

  /** The reassembled tail, break and head of a flipped cut is the cut at the
      next offset. */
  lemma NextCut(c0: Strands, m: seq<Option<nat>>, c: Strands, o: nat, h: nat, r: Strands)
    requires Paired(c0, m) && CutOf(c0, m, c, o)
    requires o + h + 1 <= |c0.structure| + 1 && h < |c.structure| && c.structure[h] == '+'
    requires Ring(c0)[o + h] == Break && TurnedAt(c, CutPairs(c0, m, o), h, r)
    ensures CutOf(c0, m, r, o + h + 1)
  {
    hide Flipped, CutChar, CutPairs, Cyc, FirstIndex;
    var n := |c0.structure| + 1;
    forall j | 0 <= j < n - 1
      ensures r.sequence[j] == Ring(c0)[Cyc(j, o + h + 1, n)]
      ensures r.structure[j] == CutChar(c0, m, o + h + 1, Cyc(j, o + h + 1, n))
    {
      if j < n - 2 - h {
        var src := j + h + 1;
        NextCutFrom(c0, m, c, o, h, src, j, r.structure[j], r.sequence[j]);
      } else if j == n - 2 - h {
        NextCutBreak(c0, m, o, h);
      } else {
        var src := j - (n - 1 - h);
        NextCutFrom(c0, m, c, o, h, src, j, r.structure[j], r.sequence[j]);
      }
    }
  }

  /** The cut at `o` rotates, and the rotation turns around exactly the
      brackets that pair across its first break. */
  lemma CutFlips(c0: Strands, m: seq<Option<nat>>, c: Strands, o: nat)
    requires Paired(c0, m) && NonCrossing(m) && CutOf(c0, m, c, o) && Break in c.sequence
    ensures RotateOnce(c).Ok?
    ensures TurnedAt(c, CutPairs(c0, m, o), FirstIndex(c.sequence, Break), RotateOnce(c).value)
  {
    CutPairsMatching(c0, m, c, o);
    CutPairsNonCrossing(c0, m, c, o);
    RotateOnceFlips(c, CutPairs(c0, m, o));
  }

  /** The structure of a cut shows `'+'` where its sequence shows a break. */
  lemma BreakAtCut(c0: Strands, m: seq<Option<nat>>, c: Strands, o: nat, h: nat)
    requires Paired(c0, m) && CutOf(c0, m, c, o)
    requires h < |c.sequence| && c.sequence[h] == Break
    ensures c.structure[h] == '+'
  {
    var n := |c0.structure| + 1;
    var x := Cyc(h, o, n);
    assert x < n - 1 ==> c0.structure[x] == '+';
  }

  /** One rotation moves the cut from `o` to just after the next break. */
  lemma RotateOnceCut(c0: Strands, m: seq<Option<nat>>, c: Strands, o: nat)
    requires Paired(c0, m) && NonCrossing(m) && CutOf(c0, m, c, o) && o < |c0.structure| + 1 && Break in c.sequence
    ensures RotateOnce(c).Ok?
    ensures CutOf(c0, m, RotateOnce(c).value, o + FirstIndex(c.sequence, Break) + 1)
  {
    hide RotateOnce, CutSeq, CutStruct, Paired, NonCrossing, TurnedAt, FirstIndex;
    CutLengths(c0, m, c, o);
    var h := FirstIndex(c.sequence, Break);
    CutFlips(c0, m, c, o);
    assert CutOf(c0, m, RotateOnce(c).value, o + h + 1) by {
      NextBreakAt(c0, c, o);
      BreakAtCut(c0, m, c, o, h);
      NextCut(c0, m, c, o, h, RotateOnce(c).value);
    }
  }

  // ---------------------------------------------------------------------
  // Counting breaks. The cut passes one more break with every rotation; the
  // count of breaks before the cut says how many rotations remain.

  /** Number of breaks among the first `o` tokens of `s`. */
  function BreaksBefore(s: seq<string>, o: nat): nat
    requires o <= |s|
  {
    if o == 0 then 0 else BreaksBefore(s, o - 1) + (if s[o - 1] == Break then 1 else 0)
  }

  lemma {:induction false} BreaksIsCount(s: seq<string>, o: nat)
    requires o <= |s|
    ensures BreaksBefore(s, o) == multiset(s[..o])[Break]
  {
    if o > 0 {
      BreaksIsCount(s, o - 1);
      assert s[..o] == s[..o - 1] + [s[o - 1]];
    }
  }

  lemma {:induction false} BreaksMonotone(s: seq<string>, a: nat, b: nat)
    requires a <= b <= |s|
    ensures BreaksBefore(s, a) <= BreaksBefore(s, b)
    decreases b - a
  {
    if a < b {
      BreaksMonotone(s, a, b - 1);
    }
  }

  /** A prefix that stops before the final break has fewer breaks than the
      whole ring; so the prefix with all of them is the whole ring. */
  lemma BreaksFull(r: seq<string>, o: nat)
    requires 0 < |r| && r[|r| - 1] == Break && o <= |r|
    ensures BreaksBefore(r, o) == BreaksBefore(r, |r|) <==> o == |r|
  {
    if o < |r| {
      BreaksMonotone(r, o, |r| - 1);
    }
  }

  /** A stretch without breaks adds nothing. */
  lemma {:induction false} BreaksFlat(r: seq<string>, o: nat, h: nat)
    requires o + h <= |r| && forall x :: o <= x < o + h ==> r[x] != Break
    ensures BreaksBefore(r, o + h) == BreaksBefore(r, o)
    decreases h
  {
    if h > 0 {
      BreaksFlat(r, o, h - 1);
    }
  }

  /** Passing a stretch without breaks and then one break adds one. */
  lemma BreaksStep(r: seq<string>, o: nat, h: nat)
    requires o + h < |r| && r[o + h] == Break
    requires forall x :: o <= x < o + h ==> r[x] != Break
    ensures BreaksBefore(r, o + h + 1) == BreaksBefore(r, o) + 1
  {
    BreaksFlat(r, o, h);
  }

  /** A cut of a single strand can only sit at the start or the end. */
  lemma SingleStrandCut(c0: Strands, c: Strands, o: nat)
    requires CutSeq(c0, c, o)
    ensures Break !in c.sequence ==> o == 0 || o == |c0.structure| + 1
  {
    var n := |c0.structure| + 1;
    if 0 < o < n {
      assert Cyc(n - 1 - o, o, n) == n - 1;
      assert c.sequence[n - 1 - o] == Break;
    }
  }

  /** With `k` rotations still to go before the cut returns to the end of the
      ring, rotating `k` times gives back the original. */
  lemma {:induction false} RotateRemaining(c0: Strands, m: seq<Option<nat>>, c: Strands, o: nat, k: nat)
    requires Paired(c0, m) && NonCrossing(m) && CutOf(c0, m, c, o)
    requires o <= |Ring(c0)| && BreaksBefore(Ring(c0), o) + k == BreaksBefore(Ring(c0), |Ring(c0)|)
    ensures RotateTimes(c, k) == Ok(c0)
    decreases k
  {
    // Only the contracts of the lemmas called are needed here.
    hide RotateOnce, RotateTimes, CutOf, Paired, NonCrossing, BreaksBefore;
    CutLengths(c0, m, c, o);
    if k == 0 || Break !in c.sequence {
      Settled(c0, m, c, o, k);
    } else {
      Advance(c0, m, c, o, k);
      RotateRemaining(c0, m, RotateOnce(c).value, o + FirstIndex(c.sequence, Break) + 1, k - 1);
      RotateTimesStep(c, k, c0);
    }
  }

  lemma RotateTimesStep(c: Strands, k: nat, d: Strands)
    requires |c.sequence| == |c.structure| && k > 0 && RotateOnce(c).Ok?
    requires RotateTimes(RotateOnce(c).value, k - 1) == Ok(d)
    ensures RotateTimes(c, k) == Ok(d)
  {
  }

  /** A complex of one strand is left as it is by any number of rotations. */
  lemma {:induction false} RotateSingleStrand(c: Strands, k: nat)
    requires |c.sequence| == |c.structure| && (k == 0 || Break !in c.sequence)
    ensures RotateTimes(c, k) == Ok(c)
    decreases k
  {
    if k > 0 {
      RotateSingleStrand(c, k - 1);
    }
  }

  /** One rotation of a cut with rotations to go: the cut moves on and one
      rotation fewer remains. */
  lemma Advance(c0: Strands, m: seq<Option<nat>>, c: Strands, o: nat, k: nat)
    requires Paired(c0, m) && NonCrossing(m) && CutOf(c0, m, c, o) && Break in c.sequence
    requires o <= |Ring(c0)| && BreaksBefore(Ring(c0), o) + k == BreaksBefore(Ring(c0), |Ring(c0)|) && k > 0
    ensures var o' := o + FirstIndex(c.sequence, Break) + 1;
      && RotateOnce(c).Ok? && CutOf(c0, m, RotateOnce(c).value, o')
      && o' <= |Ring(c0)| && BreaksBefore(Ring(c0), o') + (k - 1) == BreaksBefore(Ring(c0), |Ring(c0)|)
  {
    hide RotateOnce;
    BreaksFull(Ring(c0), o);
    RotateOnceCut(c0, m, c, o);
    BreaksPassed(c0, c, o);
  }

  /** A rotation moves the cut past exactly one more break. */
  lemma BreaksPassed(c0: Strands, c: Strands, o: nat)
    requires CutSeq(c0, c, o) && o < |c0.structure| + 1 && Break in c.sequence
    ensures var o' := o + FirstIndex(c.sequence, Break) + 1;
      o' <= |Ring(c0)| && BreaksBefore(Ring(c0), o') == BreaksBefore(Ring(c0), o) + 1
  {
    NextBreakAt(c0, c, o);
    NextBreakClear(c0, c, o);
    BreaksStep(Ring(c0), o, FirstIndex(c.sequence, Break));
  }

  /** A cut with no rotations to go, or without a break, is the original
      complex, and at most one rotation remains. */
  lemma Settled(c0: Strands, m: seq<Option<nat>>, c: Strands, o: nat, k: nat)
    requires Paired(c0, m) && CutOf(c0, m, c, o) && (k == 0 || Break !in c.sequence)
    requires o <= |Ring(c0)| && BreaksBefore(Ring(c0), o) + k == BreaksBefore(Ring(c0), |Ring(c0)|)
    ensures RotateTimes(c, k) == Ok(c0)
  {
    RotateSingleStrand(c, k);
    var R := Ring(c0);
    BreaksFull(R, o);
    if k == 0 {
      CutAtEnds(c0, m, c, o);
    } else {
      SingleStrandCut(c0, c, o);
      CutAtEnds(c0, m, c, o);
      BreaksFlat(R, 0, |c0.sequence|);
    }
  }

  /** Rotating a well-formed complex once per strand returns it unchanged. */
  lemma RotateStrandCountTimes(c: Strands)
    requires WellFormed(c)
    ensures RotateTimes(c, StrandCount(c)) == Ok(c)
  {
    var m := Partners(c.structure).value;
    CutAtZero(c, m);
    BreaksIsCount(Ring(c), |c.sequence|);
    assert Ring(c)[..|c.sequence|] == c.sequence;
    RotateRemaining(c, m, c, 0, StrandCount(c));
  }

  /** Every cut of a well-formed complex is well-formed. */
  lemma CutWellFormed(c0: Strands, m: seq<Option<nat>>, c: Strands, o: nat)
    requires Paired(c0, m) && NonCrossing(m) && CutOf(c0, m, c, o)
    ensures WellFormed(c)
  {
    var n := |c0.structure| + 1;
    CutPairsMatching(c0, m, c, o);
    CutPairsNonCrossing(c0, m, c, o);
    PartnersUnique(c.structure, CutPairs(c0, m, o));
    forall i | 0 <= i < |c.sequence|
      ensures c.sequence[i] == Break <==> c.structure[i] == '+'
    {
      var x := Cyc(i, o, n);
      if x < n - 1 {
        assert c0.sequence[x] == Break <==> c0.structure[x] == '+';
      }
    }
  }

  /** A rotation of a well-formed complex succeeds, is well-formed again and
      has as many strands. */
  lemma RotateOnceWellFormed(c: Strands)
    requires WellFormed(c)
    ensures RotateOnce(c).Ok? && WellFormed(RotateOnce(c).value)
    ensures StrandCount(RotateOnce(c).value) == StrandCount(c)
  {
    hide RotateOnce;
    if Break in c.sequence {
      RotateOnceBreakWellFormed(c);
    }
    RotateOnceTokens(c);
  }

  /** Any number of rotations of a well-formed complex succeed and keep it
      well-formed with as many strands. */
  lemma {:induction false} RotateTimesWellFormed(c: Strands, k: nat)
    requires WellFormed(c)
    ensures RotateTimes(c, k).Ok? && WellFormed(RotateTimes(c, k).value)
    ensures StrandCount(RotateTimes(c, k).value) == StrandCount(c)
    decreases k
  {
    hide RotateOnce;
    if k > 0 {
      RotateOnceWellFormed(c);
      RotateTimesWellFormed(RotateOnce(c).value, k - 1);
    }
  }

  lemma RotateOnceBreakWellFormed(c: Strands)
    requires WellFormed(c) && Break in c.sequence
    ensures RotateOnce(c).Ok? && WellFormed(RotateOnce(c).value)
  {
    hide RotateOnce, CutOf, Paired, NonCrossing, WellFormed, Partners, Matching, Balanced, FirstIndex;
    WellFormedPaired(c);
    var m := Partners(c.structure).value;
    CutAtZero(c, m);
    RotateOnceCut(c, m, c, 0);
    CutWellFormed(c, m, RotateOnce(c).value, 0 + FirstIndex(c.sequence, Break) + 1);
  }

  /** A well-formed complex is paired with the partners its structure
      determines. */
  lemma WellFormedPaired(c: Strands)
    requires WellFormed(c)
    ensures |c.sequence| == |c.structure| && Partners(c.structure).Ok?
    ensures Paired(c, Partners(c.structure).value) && NonCrossing(Partners(c.structure).value)
  {
  }
}

=== FILE: split.dfy ===
/** The split of a complex into the groups of strands that its pairs hold
    together (`split_complex`). A component is the least set of strands that
    contains its first strand and is closed under pairing; components come
    in the order of their first strands, each keeping its strands in their
    original order with their own sequence and structure text. */
module Split {
  import opened Results
  import opened Layout
  import opened Rotation
  import opened PairTables
  import opened ComplexViews

  /** Strand indices below `n`. */
  function Range(n: nat): (r: set<nat>)
    ensures forall x: nat :: x in r <==> x < n
    ensures |r| == n
  {
    if n == 0 then {} else Range(n - 1) + {n - 1}
  }

  /** The strands that the pairs of the strands in `S` reach in one step,
      added to `S`. */
  function Step(pt: PairTable, S: set<nat>): (S': set<nat>)
    ensures S <= S'
  {
    S + (set a: nat, i: nat | a in S && a < |pt| && 0 <= i < |pt[a]| && pt[a][i].Some? && pt[a][i].value.0 < |pt|
                  :: pt[a][i].value.0)
  }

  /** No pair leaves `C`. */
  ghost predicate Closed(pt: PairTable, C: set<nat>) {
    forall a: nat, i: nat :: a in C && a < |pt| && 0 <= i < |pt[a]| && pt[a][i].Some? && pt[a][i].value.0 < |pt|
      ==> pt[a][i].value.0 in C
  }

  lemma SubsetCard<T>(A: set<T>, B: set<T>)
    requires A <= B
    ensures |A| <= |B|
    ensures A != B ==> |A| < |B|
  {
    assert B == A + (B - A);
    assert A * (B - A) == {};
    if A != B {
      var y :| y in B - A;
    }
  }

  /** The strands reachable from `S` by pairs: `Step` until nothing new
      comes in. */
  function Closure(pt: PairTable, S: set<nat>): (C: set<nat>)
    requires S <= Range(|pt|)
    ensures S <= C <= Range(|pt|)
    ensures Closed(pt, C)
    decreases |pt| - |S|
  {
    var S' := Step(pt, S);
    if S' == S then S
    else
      SubsetCard(S, S');
      SubsetCard(S', Range(|pt|));
      Closure(pt, S')
  }

  /** The closure is the least closed set containing `S`. */
  lemma {:induction false} ClosureLeast(pt: PairTable, S: set<nat>, T: set<nat>)
    requires S <= Range(|pt|) && S <= T && Closed(pt, T)
    ensures Closure(pt, S) <= T
    decreases |pt| - |S|
  {
    hide Range;
    var S' := Step(pt, S);
    if S' != S {
      assert S' <= T;
      SubsetCard(S, S');
      SubsetCard(S', Range(|pt|));
      ClosureLeast(pt, S', T);
    }
  }

  /** Pairing is mutual: the table `make_pair_table` builds. */
  ghost predicate Mutual(pt: PairTable) {
    forall a: nat, i: nat :: a < |pt| && i < |pt[a]| && pt[a][i].Some? ==>
      var l := pt[a][i].value; l.0 < |pt| && l.1 < |pt[l.0]| && pt[l.0][l.1] == Some((a, i))
  }

  lemma PairTableIsMutual(t: seq<char>)
    requires MakePairTable(t, '+').Ok?
    ensures Mutual(MakePairTable(t, '+').value)
  {
    var pt: PairTable := MakePairTable(t, '+').value;
    forall a: nat, i: nat | a < |pt| && i < |pt[a]| && pt[a][i].Some?
      ensures var l := pt[a][i].value; l.0 < |pt| && l.1 < |pt[l.0]| && pt[l.0][l.1] == Some((a, i))
    {
      PairTableMutual(t, '+', a, i);
    }
  }

  /** With mutual pairs, the strands outside a closed set are closed too. */
  lemma ComplementClosed(pt: PairTable, C: set<nat>)
    requires Mutual(pt) && Closed(pt, C)
    ensures Closed(pt, Range(|pt|) - C)
  {
    hide Range;
  }

  lemma ClosedEmpty(pt: PairTable)
    ensures Closed(pt, {})
  {
  }

  lemma UnionClosed(pt: PairTable, A: set<nat>, B: set<nat>)
    requires Closed(pt, A) && Closed(pt, B)
    ensures Closed(pt, A + B)
  {
    hide Range;
  }

  // ---------------------------------------------------------------------
  // Components

  /** The components whose first strand is `s` or later, given the strands
      `seen` already placed: each with its first strand, which no earlier
      component holds, and its strands, the closure of the first. */
  function ComponentsFrom(pt: PairTable, s: nat, seen: set<nat>): (cs: seq<(nat, set<nat>)>)
    requires s <= |pt|
    ensures forall k :: 0 <= k < |cs| ==>
      s <= cs[k].0 < |pt| && cs[k].0 !in seen && cs[k].1 == Closure(pt, {cs[k].0})
    ensures forall k, l :: 0 <= k < l < |cs| ==> cs[k].0 < cs[l].0
    decreases |pt| - s
  {
    if s == |pt| then []
    else if s in seen then ComponentsFrom(pt, s + 1, seen)
    else
      var C := Closure(pt, {s});
      [(s, C)] + ComponentsFrom(pt, s + 1, seen + C)
  }

  /** The members of a set of strands, in strand order. */
  function MembersFrom(C: set<nat>, i: nat, n: nat): (idx: seq<nat>)
    requires i <= n
    ensures forall x: nat :: x in idx <==> x in C && i <= x < n
    ensures forall a, b :: 0 <= a < b < |idx| ==> idx[a] < idx[b]
    ensures forall k :: 0 <= k < |idx| ==> i <= idx[k] < n
    decreases n - i
  {
    if i == n then []
    else if i in C then [i] + MembersFrom(C, i + 1, n)
    else MembersFrom(C, i + 1, n)
  }

  /** The member lists of the components: none is empty, and all name
      strands of the table. */
  function ComponentMembers(pt: PairTable): (ms: seq<seq<nat>>)
    ensures |ms| == |ComponentsFrom(pt, 0, {})|
    ensures forall k :: 0 <= k < |ms| ==> |ms[k]| > 0 && forall j :: 0 <= j < |ms[k]| ==> ms[k][j] < |pt|
  {
    var cs := ComponentsFrom(pt, 0, {});
    seq(|cs|, k requires 0 <= k < |cs| => assert cs[k].0 in cs[k].1; MembersFrom(cs[k].1, 0, |pt|))
  }

  /** The items of `P` at the positions `idx`, in that order. */
  function Pick<T>(P: seq<T>, idx: seq<nat>): (r: seq<T>)
    requires forall k :: 0 <= k < |idx| ==> idx[k] < |P|
    ensures |r| == |idx|
  {
    seq(|idx|, k requires 0 <= k < |idx| => P[idx[k]])
  }

  /** The complex made of the strands `idx` of `c`, sequence and structure
      text taken strand by strand. */
  function Part(c: Strands, idx: seq<nat>): (p: Strands)
    requires |idx| > 0 && forall k :: 0 <= k < |idx| ==> idx[k] < |StrandsOf(c)| && idx[k] < |Pieces(c.structure, '+')|
  {
    Strands(Joined(Pick(StrandsOf(c), idx), Break), Joined(Pick(Pieces(c.structure, '+'), idx), '+'))
  }

  /** `split_complex(lol_sequence, pair_table)`: an unreadable structure,
      or a sequence and structure with different strand counts, is an
      error; otherwise one part per component. */
  function SplitComplex(c: Strands): (r: Result<seq<Strands>>)
    ensures r.Ok? ==>
      MakePairTable(c.structure, '+').Ok? && |r.value| == |ComponentMembers(MakePairTable(c.structure, '+').value)|
  {
    match MakePairTable(c.structure, '+')
    case Err(f) => Err(f)
    case Ok(pt) =>
      if |StrandsOf(c)| != |pt| then Err(Structure)
      else
        var ms := ComponentMembers(pt);
        Ok(seq(|ms|, k requires 0 <= k < |ms| => Part(c, ms[k])))
  }

  // ---------------------------------------------------------------------
  // Properties of the components

  /** Component sets that avoid `seen` and each other, none holding a
      strand before its first. */
  ghost predicate DisjointFrom(cs: seq<(nat, set<nat>)>, seen: set<nat>) {
    && (forall k :: 0 <= k < |cs| ==> cs[k].1 * seen == {})
    && (forall k, x :: 0 <= k < |cs| && x in cs[k].1 ==> cs[k].0 <= x)
    && (forall k, l :: 0 <= k < l < |cs| ==> cs[k].1 * cs[l].1 == {})
  }

  lemma DisjointCons(s: nat, C: set<nat>, seen: set<nat>, rest: seq<(nat, set<nat>)>)
    requires DisjointFrom(rest, seen + C) && C * seen == {} && forall x :: x in C ==> s <= x
    ensures DisjointFrom([(s, C)] + rest, seen)
  {
    var cs := [(s, C)] + rest;
    assert forall k :: 1 <= k < |cs| ==> cs[k] == rest[k - 1];
    forall k, l | 0 <= k < l < |cs|
      ensures cs[k].1 * cs[l].1 == {}
    {
      assert rest[l - 1].1 * (seen + C) == {};
    }
    forall k | 0 <= k < |cs|
      ensures cs[k].1 * seen == {}
    {
      if k > 0 {
        assert rest[k - 1].1 * (seen + C) == {};
      }
    }
  }

  lemma DisjointNil(seen: set<nat>)
    ensures DisjointFrom([], seen)
  {
  }

  /** With mutual pairs, the components avoid the strands already placed
      and each other, and no member of a component comes before its first
      strand. */
  lemma {:induction false} ComponentsDisjoint(pt: PairTable, s: nat, seen: set<nat>)
    requires Mutual(pt) && s <= |pt| && seen <= Range(|pt|) && Closed(pt, seen)
    requires forall x :: x in Range(s) ==> x in seen
    ensures DisjointFrom(ComponentsFrom(pt, s, seen), seen)
    decreases |pt| - s
  {
    hide Closed, Mutual, Closure, Step, Range, DisjointFrom;
    if s < |pt| {
      assert forall x :: x in Range(s + 1) ==> x in Range(s) || x == s;
      if s in seen {
        assert ComponentsFrom(pt, s, seen) == ComponentsFrom(pt, s + 1, seen);
        ComponentsDisjoint(pt, s + 1, seen);
      } else {
        var C := Closure(pt, {s});
        ComplementClosed(pt, seen);
        ClosureLeast(pt, {s}, Range(|pt|) - seen);
        assert C * seen == {};
        UnionClosed(pt, seen, C);
        ComponentsDisjoint(pt, s + 1, seen + C);
        assert forall x :: x in C ==> s <= x by {
          assert forall x :: x in C && x < s ==> x in Range(s);
        }
        DisjointCons(s, C, seen, ComponentsFrom(pt, s + 1, seen + C));
      }
    } else {
      DisjointNil(seen);
    }
  }

  /** Every strand from `s` on that is not in `seen` lies in one of `cs`. */
  ghost predicate Covers(cs: seq<(nat, set<nat>)>, n: nat, s: nat, seen: set<nat>) {
    forall x :: x in Range(n) && s <= x && x !in seen ==> exists k :: 0 <= k < |cs| && x in cs[k].1
  }

  lemma CoversNil(n: nat, seen: set<nat>)
    ensures Covers([], n, n, seen)
  {
  }

  lemma CoversSkip(cs: seq<(nat, set<nat>)>, n: nat, s: nat, seen: set<nat>)
    requires Covers(cs, n, s + 1, seen) && s in seen
    ensures Covers(cs, n, s, seen)
  {
  }

  lemma CoversCons(s: nat, C: set<nat>, n: nat, seen: set<nat>, rest: seq<(nat, set<nat>)>)
    requires Covers(rest, n, s + 1, seen + C) && s in C
    ensures Covers([(s, C)] + rest, n, s, seen)
  {
    var cs := [(s, C)] + rest;
    forall x | x in Range(n) && s <= x && x !in seen
      ensures exists k :: 0 <= k < |cs| && x in cs[k].1
    {
      if x in C {
        assert cs[0].1 == C;
      } else {
        var k :| 0 <= k < |rest| && x in rest[k].1;
        assert cs[k + 1] == rest[k];
      }
    }
  }

  /** Every strand from `s` on that is not yet placed lies in some
      component. */
  lemma {:induction false} ComponentsCover(pt: PairTable, s: nat, seen: set<nat>)
    requires s <= |pt|
    ensures Covers(ComponentsFrom(pt, s, seen), |pt|, s, seen)
    decreases |pt| - s
  {
    hide Closed, Closure, Step, Range, Covers;
    if s < |pt| {
      if s in seen {
        ComponentsCover(pt, s + 1, seen);
        CoversSkip(ComponentsFrom(pt, s + 1, seen), |pt|, s, seen);
      } else {
        var C := Closure(pt, {s});
        ComponentsCover(pt, s + 1, seen + C);
        CoversCons(s, C, |pt|, seen, ComponentsFrom(pt, s + 1, seen + C));
      }
    } else {
      CoversNil(|pt|, seen);
    }
  }

  /** The member lists against the component sets: the same strands, and
      the first strand leads its list. */
  lemma MembersOfComponents(pt: PairTable)
    requires Mutual(pt)
    ensures var cs := ComponentsFrom(pt, 0, {}); var ms := ComponentMembers(pt);
      && |ms| == |cs|
      && forall k :: 0 <= k < |ms| ==>
           && (forall x: nat :: x in ms[k] <==> x in cs[k].1)
           && ms[k][0] == cs[k].0
           && (forall a, b :: 0 <= a < b < |ms[k]| ==> ms[k][a] < ms[k][b])
  {
    hide Closed, Mutual, Closure, Step, Range, MembersFrom;
    var cs := ComponentsFrom(pt, 0, {});
    var ms := ComponentMembers(pt);
    ClosedEmpty(pt);
    ComponentsDisjoint(pt, 0, {});
    forall k | 0 <= k < |ms|
      ensures forall x: nat :: x in ms[k] <==> x in cs[k].1
      ensures ms[k][0] == cs[k].0
      ensures forall a, b :: 0 <= a < b < |ms[k]| ==> ms[k][a] < ms[k][b]
    {
      assert ms[k] == MembersFrom(cs[k].1, 0, |pt|);
      assert forall x :: x in cs[k].1 ==> cs[k].0 <= x;
      LeaderFirst(cs[k].1, cs[k].0, |pt|);
    }
  }

  /** The least member of a set of strands leads its member list. */
  lemma LeaderFirst(C: set<nat>, r: nat, n: nat)
    requires r in C && forall x :: x in C ==> r <= x && x < n
    ensures var m := MembersFrom(C, 0, n);
      |m| > 0 && m[0] == r && forall x: nat :: x in m <==> x in C
  {
    hide MembersFrom;
    var m := MembersFrom(C, 0, n);
    assert r in m;
    assert m[0] in C;
  }

  /** Together the member lists hold every strand exactly once. */
  lemma MembersExactlyOnce(pt: PairTable)
    requires Mutual(pt)
    ensures multiset(Flatten(ComponentMembers(pt))) == multiset(Iota(|pt|))
  {
    hide Closed, Mutual, Closure, Step, Range, Flatten, Iota, DisjointFrom, Covers, ComponentMembers;
    var cs := ComponentsFrom(pt, 0, {});
    MembersOfComponents(pt);
    ClosedEmpty(pt);
    ComponentsDisjoint(pt, 0, {});
    ComponentsCover(pt, 0, {});
    ListsExactlyOnce(cs, ComponentMembers(pt), |pt|);
  }

  lemma ListsExactlyOnce(cs: seq<(nat, set<nat>)>, ms: seq<seq<nat>>, n: nat)
    requires |ms| == |cs| && DisjointFrom(cs, {}) && Covers(cs, n, 0, {})
    requires forall k :: 0 <= k < |ms| ==>
      && (forall x: nat :: x in ms[k] <==> x in cs[k].1)
      && (forall a, b :: 0 <= a < b < |ms[k]| ==> ms[k][a] < ms[k][b])
      && (forall j :: 0 <= j < |ms[k]| ==> ms[k][j] < n)
    ensures multiset(Flatten(ms)) == multiset(Iota(n))
  {
    hide Range, Flatten, Iota;
    forall x | x in Range(n)
      ensures exists k :: 0 <= k < |ms| && x in ms[k]
    {
      var k :| 0 <= k < |cs| && x in cs[k].1;
      assert x in ms[k];
    }
    forall k, l, x | 0 <= k < l < |ms| && x in ms[k]
      ensures x !in ms[l]
    {
      assert x in cs[k].1;
      assert x !in cs[k].1 * cs[l].1;
      assert x !in cs[l].1;
    }
    FlattenIsIota(ms, n);
  }

  /** The components partition the strands: together their member lists
      hold every strand exactly once; no pair leaves a component; every
      component is the least pair-closed set of strands containing its first
      member and lists its members in strand order; and components come in
      the order of their first strands. */
  lemma ComponentsPartition(pt: PairTable)
    requires Mutual(pt)
    ensures var ms := ComponentMembers(pt);
      && multiset(Flatten(ms)) == multiset(Iota(|pt|))
      && (forall k, l :: 0 <= k < l < |ms| ==> ms[k][0] < ms[l][0])
      && (forall k :: 0 <= k < |ms| ==>
            && (forall a, b :: 0 <= a < b < |ms[k]| ==> ms[k][a] < ms[k][b])
            && (forall j, i :: 0 <= j < |ms[k]| && 0 <= i < |pt[ms[k][j]]| && pt[ms[k][j]][i].Some? ==>
                  pt[ms[k][j]][i].value.0 in ms[k])
            && (forall x :: x in ms[k] <==> x in Closure(pt, {ms[k][0]})))
  {
    hide Step, Range, Flatten, Iota, ComponentMembers;
    var cs := ComponentsFrom(pt, 0, {});
    var ms := ComponentMembers(pt);
    MembersExactlyOnce(pt);
    MembersOfComponents(pt);
    forall k, j, i | 0 <= k < |ms| && 0 <= j < |ms[k]| && 0 <= i < |pt[ms[k][j]]| && pt[ms[k][j]][i].Some?
      ensures pt[ms[k][j]][i].value.0 in ms[k]
    {
      assert ms[k][j] in cs[k].1;
      assert Closed(pt, cs[k].1);
    }
  }

  // ---------------------------------------------------------------------
  // Properties of the parts

  /** A complex whose strands are all one component comes back alone and
      unchanged. */
  lemma SplitConnected(c: Strands)
    requires MakePairTable(c.structure, '+').Ok?
    requires var pt := MakePairTable(c.structure, '+').value;
      |StrandsOf(c)| == |pt| && Closure(pt, {0}) == Range(|pt|)
    ensures SplitComplex(c) == Ok([c])
  {
    hide Range, Closure, Step, Closed, Pieces, Joined, ComponentMembers, Part, MakePairTable;
    var pt := MakePairTable(c.structure, '+').value;
    ConnectedMembers(pt);
    var idx := ComponentMembers(pt)[0];
    PartAll(c, idx);
    var r := SplitComplex(c);
    assert r.Ok? && |r.value| == 1 && r.value[0] == c;
    assert r.value == [c];
  }

  /** A table whose strands are all one component has one member list,
      naming every strand in order. */
  lemma ConnectedMembers(pt: PairTable)
    requires |pt| > 0 && Closure(pt, {0}) == Range(|pt|)
    ensures var ms := ComponentMembers(pt);
      |ms| == 1 && |ms[0]| == |pt| && forall k :: 0 <= k < |pt| ==> ms[0][k] == k
  {
    hide Range, Closure, Step, Closed;
    var n := |pt|;
    var C := Closure(pt, {0});
    assert {} + C == Range(n);
    ComponentsSkipSeen(pt, 1, Range(n));
    assert ComponentsFrom(pt, 0, {}) == [(0, C)];
    AllMembers(Range(n), n, 0);
  }

  /** The part that picks every strand in order is the complex itself. */
  lemma PartAll(c: Strands, idx: seq<nat>)
    requires |idx| == |StrandsOf(c)| == |Pieces(c.structure, '+')| > 0
    requires forall k :: 0 <= k < |idx| ==> idx[k] == k
    ensures Part(c, idx) == c
  {
    PickAll(StrandsOf(c), idx);
    PickAll(Pieces(c.structure, '+'), idx);
    JoinedPieces(c.sequence, Break);
    JoinedPieces(c.structure, '+');
  }

  lemma {:induction false} ComponentsSkipSeen(pt: PairTable, s: nat, seen: set<nat>)
    requires s <= |pt| && Range(|pt|) <= seen
    ensures ComponentsFrom(pt, s, seen) == []
    decreases |pt| - s
  {
    hide Range;
    if s < |pt| {
      ComponentsSkipSeen(pt, s + 1, seen);
    }
  }

  lemma {:induction false} AllMembers(C: set<nat>, n: nat, i: nat)
    requires i <= n && forall x: nat :: x < n ==> x in C
    ensures |MembersFrom(C, i, n)| == n - i
    ensures forall k :: 0 <= k < n - i ==> MembersFrom(C, i, n)[k] == i + k
    decreases n - i
  {
    if i < n {
      AllMembers(C, n, i + 1);
      var m, m' := MembersFrom(C, i, n), MembersFrom(C, i + 1, n);
      assert i in C;
      assert m == [i] + m';
      forall k | 0 <= k < n - i
        ensures m[k] == i + k
      {
        if k > 0 {
          assert m[k] == m'[k - 1];
        }
      }
    }
  }

  /** The strands of a part are the picked strands. */
  lemma PartStrands(c: Strands, idx: seq<nat>)
    requires |idx| > 0 && forall k :: 0 <= k < |idx| ==> idx[k] < |StrandsOf(c)| && idx[k] < |Pieces(c.structure, '+')|
    ensures StrandsOf(Part(c, idx)) == Pick(StrandsOf(c), idx)
    ensures Pieces(Part(c, idx).structure, '+') == Pick(Pieces(c.structure, '+'), idx)
  {
    PiecesJoined(Pick(StrandsOf(c), idx), Break);
    PiecesJoined(Pick(Pieces(c.structure, '+'), idx), '+');
  }

  /** The parts of a split, member lists and all: part `k` consists of the
      strands of component `k`, with their own sequence and structure text,
      in their original order. */
  lemma SplitParts(c: Strands)
    requires SplitComplex(c).Ok?
    ensures var pt := MakePairTable(c.structure, '+').value; var ms := ComponentMembers(pt);
      var parts := SplitComplex(c).value;
      && |StrandsOf(c)| == |pt| == |Pieces(c.structure, '+')|
      && forall k :: 0 <= k < |parts| ==>
           && (forall j :: 0 <= j < |ms[k]| ==> ms[k][j] < |pt|)
           && StrandsOf(parts[k]) == Pick(StrandsOf(c), ms[k])
           && Pieces(parts[k].structure, '+') == Pick(Pieces(c.structure, '+'), ms[k])
  {
    hide Range;
    var pt := MakePairTable(c.structure, '+').value;
    var ms := ComponentMembers(pt);
    var parts := SplitComplex(c).value;
    PairTableIsMutual(c.structure);
    ComponentsPartition(pt);
    forall k | 0 <= k < |parts|
      ensures StrandsOf(parts[k]) == Pick(StrandsOf(c), ms[k])
      ensures Pieces(parts[k].structure, '+') == Pick(Pieces(c.structure, '+'), ms[k])
    {
      PartStrands(c, ms[k]);
    }
  }

  // ---------------------------------------------------------------------
  // The strands are kept

  /** All strands of a list of complexes, part after part. */
  function AllStrands(parts: seq<Strands>): seq<seq<string>> {
    if |parts| == 0 then [] else StrandsOf(parts[0]) + AllStrands(parts[1..])
  }

  function Flatten(ms: seq<seq<nat>>): seq<nat> {
    if |ms| == 0 then [] else ms[0] + Flatten(ms[1..])
  }

  lemma {:induction false} PickConcat<T>(P: seq<T>, a: seq<nat>, b: seq<nat>)
    requires forall k :: 0 <= k < |a| ==> a[k] < |P|
    requires forall k :: 0 <= k < |b| ==> b[k] < |P|
    ensures Pick(P, a + b) == Pick(P, a) + Pick(P, b)
  {
  }

  /** Picking by two lists holding the same positions gives the same items,
      counted with multiplicity. */
  lemma {:induction false} PickPermutation<T>(P: seq<T>, xs: seq<nat>, ys: seq<nat>)
    requires multiset(xs) == multiset(ys)
    requires forall k :: 0 <= k < |xs| ==> xs[k] < |P|
    ensures forall k :: 0 <= k < |ys| ==> ys[k] < |P|
    ensures multiset(Pick(P, xs)) == multiset(Pick(P, ys))
    decreases |xs|
  {
    hide Pick;
    SameBound(xs, ys, |P|);
    if |xs| > 0 {
      var x := xs[0];
      assert x in multiset(ys);
      var p :| 0 <= p < |ys| && ys[p] == x;
      RemoveOne(xs, ys, p);
      SameBound(xs[1..], ys[..p] + ys[p + 1..], |P|);
      PickPermutation(P, xs[1..], ys[..p] + ys[p + 1..]);
      PickMoveFront(P, xs, ys, p);
    }
  }

  /** Lists holding the same positions have the same bound. */
  lemma SameBound(xs: seq<nat>, ys: seq<nat>, n: nat)
    requires multiset(xs) == multiset(ys)
    requires forall k :: 0 <= k < |xs| ==> xs[k] < n
    ensures forall k :: 0 <= k < |ys| ==> ys[k] < n
  {
    forall k | 0 <= k < |ys|
      ensures ys[k] < n
    {
      assert ys[k] in multiset(xs);
    }
  }

  /** The step of `PickPermutation`: the first position of `xs`, found at
      `p` in `ys`, picks the same item. */
  lemma PickMoveFront<T>(P: seq<T>, xs: seq<nat>, ys: seq<nat>, p: nat)
    requires |xs| > 0 && p < |ys| && ys[p] == xs[0]
    requires forall k :: 0 <= k < |xs| ==> xs[k] < |P|
    requires forall k :: 0 <= k < |ys| ==> ys[k] < |P|
    requires multiset(Pick(P, xs[1..])) == multiset(Pick(P, ys[..p] + ys[p + 1..]))
    ensures multiset(Pick(P, xs)) == multiset(Pick(P, ys))
  {
    hide Pick;
    var x, A, B := xs[0], ys[..p], ys[p + 1..];
    assert ys == A + [x] + B;
    assert xs == [x] + xs[1..];
    PickConcat(P, A, [x]);
    PickConcat(P, A + [x], B);
    PickConcat(P, A, B);
    PickConcat(P, [x], xs[1..]);
    PickOne(P, x);
  }

  lemma RemoveOne(xs: seq<nat>, ys: seq<nat>, p: nat)
    requires multiset(xs) == multiset(ys) && |xs| > 0 && p < |ys| && ys[p] == xs[0]
    ensures multiset(xs[1..]) == multiset(ys[..p] + ys[p + 1..])
  {
    var A, B := ys[..p], ys[p + 1..];
    assert ys == A + [ys[p]] + B;
    assert xs == [xs[0]] + xs[1..];
    assert multiset(ys) == multiset(A) + multiset{ys[p]} + multiset(B);
    assert multiset(xs) == multiset{xs[0]} + multiset(xs[1..]);
    assert multiset(A + B) == multiset(A) + multiset(B);
    assert multiset(xs[1..]) == multiset(xs) - multiset{xs[0]};
  }

  lemma PickOne<T>(P: seq<T>, x: nat)
    requires x < |P|
    ensures Pick(P, [x]) == [P[x]]
  {
  }

  function Iota(n: nat): (r: seq<nat>)
    ensures |r| == n && forall k :: 0 <= k < n ==> r[k] == k
  {
    seq(n, k requires 0 <= k < n => k)
  }

  /** The split keeps every strand: the strands of all parts together are
      the strands of the complex, counted with multiplicity. */
  lemma SplitKeepsStrands(c: Strands)
    requires SplitComplex(c).Ok?
    ensures multiset(AllStrands(SplitComplex(c).value)) == multiset(StrandsOf(c))
  {
    hide Range, Closure, Step, Closed, Mutual, Pieces, Joined, MakePairTable, SplitComplex, ComponentMembers,
      Flatten, Iota, Pick, AllStrands, StrandsOf;
    var pt := MakePairTable(c.structure, '+').value;
    var ms := ComponentMembers(pt);
    var parts := SplitComplex(c).value;
    var P := StrandsOf(c);
    var n := |pt|;
    SplitParts(c);
    PairTableIsMutual(c.structure);
    ComponentsPartition(pt);
    FlattenBounded(ms, n);
    AllStrandsPick(c, parts, ms);
    PickPermutation(P, Flatten(ms), Iota(n));
    PickIota(P);
  }

  lemma PickAll<T>(P: seq<T>, idx: seq<nat>)
    requires |idx| == |P| && forall k :: 0 <= k < |idx| ==> idx[k] == k
    ensures Pick(P, idx) == P
  {
  }

  lemma PickIota<T>(P: seq<T>)
    ensures Pick(P, Iota(|P|)) == P
  {
  }

  lemma {:induction false} FlattenBounded(ms: seq<seq<nat>>, n: nat)
    requires forall k, j :: 0 <= k < |ms| && 0 <= j < |ms[k]| ==> ms[k][j] < n
    ensures forall j :: 0 <= j < |Flatten(ms)| ==> Flatten(ms)[j] < n
  {
    if |ms| > 0 {
      FlattenBounded(ms[1..], n);
    }
  }

  lemma {:induction false} AllStrandsPick(c: Strands, parts: seq<Strands>, ms: seq<seq<nat>>)
    requires |parts| == |ms|
    requires forall k, j :: 0 <= k < |ms| && 0 <= j < |ms[k]| ==> ms[k][j] < |StrandsOf(c)|
    requires forall k :: 0 <= k < |parts| ==> StrandsOf(parts[k]) == Pick(StrandsOf(c), ms[k])
    ensures forall j :: 0 <= j < |Flatten(ms)| ==> Flatten(ms)[j] < |StrandsOf(c)|
    ensures AllStrands(parts) == Pick(StrandsOf(c), Flatten(ms))
  {
    FlattenBounded(ms, |StrandsOf(c)|);
    if |parts| > 0 {
      AllStrandsPick(c, parts[1..], ms[1..]);
      FlattenBounded(ms[1..], |StrandsOf(c)|);
      PickConcat(StrandsOf(c), ms[0], Flatten(ms[1..]));
    }
  }

  /** Lists that hold every index below `n` exactly once flatten to a
      permutation of `0 .. n-1`. */
  lemma FlattenIsIota(ms: seq<seq<nat>>, n: nat)
    requires forall x :: x in Range(n) ==> exists k :: 0 <= k < |ms| && x in ms[k]
    requires forall k, l, x :: 0 <= k < l < |ms| && x in ms[k] ==> x !in ms[l]
    requires forall k :: 0 <= k < |ms| ==> forall a, b :: 0 <= a < b < |ms[k]| ==> ms[k][a] < ms[k][b]
    requires forall k, j :: 0 <= k < |ms| && 0 <= j < |ms[k]| ==> ms[k][j] < n
    ensures multiset(Flatten(ms)) == multiset(Iota(n))
  {
    hide Range;
    forall x: nat
      ensures multiset(Flatten(ms))[x] == multiset(Iota(n))[x]
    {
      FlattenCount(ms, x);
      IotaCount(n, x);
      if x < n {
        assert x in Range(n);
        var k :| 0 <= k < |ms| && x in ms[k];
      } else {
        assert forall k :: 0 <= k < |ms| ==> x !in ms[k];
      }
    }
  }

  /** In an increasing list an item occurs at most once. */
  lemma {:induction false} IncreasingCount(s: seq<nat>, x: nat)
    requires forall a, b :: 0 <= a < b < |s| ==> s[a] < s[b]
    ensures multiset(s)[x] == if x in s then 1 else 0
  {
    if |s| > 0 {
      IncreasingCount(s[1..], x);
      assert s == [s[0]] + s[1..];
      if x == s[0] {
        assert x !in s[1..];
      }
    }
  }

  /** How often `x` occurs in the flattened lists: once for each list that
      holds it, when the lists are increasing and disjoint. */
  lemma {:induction false} FlattenCount(ms: seq<seq<nat>>, x: nat)
    requires forall k, l, y :: 0 <= k < l < |ms| && y in ms[k] ==> y !in ms[l]
    requires forall k :: 0 <= k < |ms| ==> forall a, b :: 0 <= a < b < |ms[k]| ==> ms[k][a] < ms[k][b]
    ensures multiset(Flatten(ms))[x] == if exists k :: 0 <= k < |ms| && x in ms[k] then 1 else 0
  {
    if |ms| > 0 {
      FlattenCount(ms[1..], x);
      IncreasingCount(ms[0], x);
      if x in ms[0] {
        forall k | 0 <= k < |ms[1..]|
          ensures x !in ms[1..][k]
        {
          assert ms[1..][k] == ms[k + 1];
        }
      } else {
        if exists k :: 0 <= k < |ms| && x in ms[k] {
          var k :| 0 <= k < |ms| && x in ms[k];
          assert ms[1..][k - 1] == ms[k];
        }
        if exists k :: 0 <= k < |ms[1..]| && x in ms[1..][k] {
          var k :| 0 <= k < |ms[1..]| && x in ms[1..][k];
          assert ms[k + 1] == ms[1..][k];
        }
      }
    }
  }

  lemma IotaCount(n: nat, x: nat)
    ensures multiset(Iota(n))[x] == if x < n then 1 else 0
  {
    IncreasingCount(Iota(n), x);
    if x < n {
      assert Iota(n)[x] == x;
    }
  }
}
